=== FILE: README.md ===
# paratreet traversal engine — a Dafny model

paratreet runs tree traversals over a distributed octree. The particles are
split into partitions. Each partition owns *buckets*, which are its leaves.
A traverser walks the tree for all buckets at once. When it reaches a node
whose data is not on this process, it parks the buckets under that node's
key, fetches the node once, and resumes when the node arrives.

This project models, in Dafny 4.11:

- **The traversers of `src/Traverser.h`.**
  - `DownTraverser` (`DownTraversal.DownTraverser`): recursive descent from the root with an active bucket list; leaf interactions are made on the spot or deferred; resumption from a queue of arrived nodes.
  - `UpnDTraverser` (`UpAndDownTraversal.UpnDTraverser`): per-bucket stack walks from each bucket's own tree leaf, `num_waiting` counters and the climb to the parent once a bucket waits for nothing.
  - `Traverser::interactBase` (`TraverserCommon`).
- **The older traversers of `simple/Traverser.h`.**
  - `processLocalBase` and `interactBase` over a tree piece's interaction bit sets (`SimpleWalk.TreePiece`).
  - The `DownTraverser`, `UpnDTraverser` and `DualTraverser` constructors and `traverse(Key)` (`SimpleTraversal`).
- **Partition bookkeeping of `src/Partition.h`** (`PartitionModel.Partition`, `Particles`):
  - adding leaves, with the per-partition particle filter;
  - receiving leaves and the one-shot subtree copy request;
  - starting the traversers;
  - the deferred perturbation;
  - `reset`;
  - `output`'s sort and per-writer chunking.
- **The density visitor's neighbour search** (`Density`): the bounded neighbour list update of `leaf`, the `open` test, and `node`, which does nothing.
- **The writers of `src/Writer.C`** (`WriterModel`): expected counts, accumulation, and the token ring that writes the three acceleration components in turn.

Shared state is modelled as classes whose fields the operations update:

- the cache manager's node table (`NodeTable.Cache`);
- the resumer (`ResumerModel.Resumer`);
- the partition's interaction lists (`TraverserCommon.Interactions`).

The tree is a map from keys to node records. Each record holds a kind, children, a parent, particles and a `requested` flag. A child's key is larger than its parent's.

The visitor's `open`/`node` tests are function-valued fields. Outbound fetches (`requestData`/`requestNodes`) are a ghost log of requests. Visitor calls (`leaf`, `node`, `finish`) are a ghost log of visits.

Each traversal operation is proved against a specification function of the table it starts from:

- `Log`/`Parked` for the recursive descent;
- `Walk`/`StackWalk` for the stack walks;
- `Round` for the down traversers' loop over parked buckets;
- `Turns` for the up-and-down traversers' loop over parked buckets: each bucket's walk, its counter update and its climb (`MaybeClimb`, `ClimbStep`).

The lemmas beside these functions state the properties the code relies on:

- a node is fetched at most once;
- calls are only made on resolved nodes;
- every active bucket either opens a node or gets `node()`;
- a key is erased before the deferred insertions are applied;
- every `num_waiting` counter equals the number of places its bucket is parked at.

## Model

| member | source | states |
|---|---|---|
| Nodes.RequestFor | src/Traverser.h:157-171 | The fetch for an unresolved node is for that node's key and this cache. It goes to the tree canopy exactly for Boundary and RemoteAboveTPKey nodes. Otherwise it goes to the cache manager that owns the node. |
| Nodes.SameKindsRequested | src/Traverser.h:157 | Setting a node's `requested` flag changes neither the tree's shape nor any node's kind. |
| Nodes.PopPushChildren | src/Traverser.h:252-274 | Popping a node and pushing all its children lowers the stack's remaining walk size by exactly one, so the stack walk ends. |
| NodeTable.AtMostOneFetch | src/Traverser.h:156-171 | Under the fetch-log invariant, no key is fetched twice. A fetched key has its `requested` flag set. |
| NodeTable.AbsentKeyNoFetch | src/Traverser.h:156-171 | A key that no request names has no fetches counted. |
| NodeTable.Cache.RequestIfFirst | src/Traverser.h:157-171 | `requested.exchange(true)`: the caller is first exactly when the flag was clear, and the flag is now set. A fetch is appended only for the first caller. At most one fetch per node stays invariant. |
| NodeTable.Cache.Retype | src/Traverser.h:312-314 | Only the given node's kind changes. The fetch-log invariant is kept. |
| ResumerModel.AppendIfNotLast | src/Traverser.h:293-294 | The list is unchanged or gains `p` at its end. It always ends with `p`. It is unchanged exactly when `p` was already last. |
| ResumerModel.AppendIfNotLastSound | src/Traverser.h:293-294 | The conditional append is idempotent. It never creates two equal neighbouring entries. |
| ResumerModel.Resumer.AddWaiting | src/Traverser.h:174 | The down traverser appends the partition to the key's waiting list unconditionally. Other lists stay. |
| ResumerModel.Resumer.AddWaitingOnce | src/Traverser.h:293-294 | The key's waiting list gains the partition only when it is not already last. Other lists stay. |
| ResumerModel.Resumer.PopResume | src/Traverser.h:192-193 | Returns the front of the partition's resume queue and removes it. Other queues stay. |
| ResumerModel.Resumer.PushResume | src/Traverser.h:327-328 | The keys join the back of the partition's resume queue, in order. |
| TraverserCommon.AllBuckets | src/Traverser.h:94-95 | Produces the bucket indices 0 .. n-1, in order. |
| TraverserCommon.OpeningClosedSplit | src/Traverser.h:137-145 | Each active bucket either opens the node or gets `node()`, exactly once. Together the two lists are a permutation of the active list. |
| TraverserCommon.FiltersExact | src/Traverser.h:118-145 | The opening list holds exactly the active buckets whose `open` holds, and the closed list exactly those whose `open` fails. A leaf serves exactly the active buckets that `CallSelfLeaf` or a different leaf key admits. With `CallSelfLeaf`, it serves all of them. |
| TraverserCommon.ReplayExact | src/Traverser.h:74-81 | Replaying the interaction lists calls `leaf(source, leaves[i])` once for each time `source` was recorded in list i, and nothing else. |
| TraverserCommon.ReplayCounts | src/Traverser.h:74-81 | Replaying the lists calls `leaf(s, leaves[b])` exactly as often as `s` occurs in list b, and never for a bucket without a list. |
| TraverserCommon.InteractBase | src/Traverser.h:74-81 | The loop over the lists makes exactly the replay's calls, one per recorded entry. |
| TraverserCommon.RecordCounts | src/Traverser.h:124 | Deferring a log adds to list b one copy of a source per leaf call for (source, b). |
| TraverserCommon.DeferThenReplay | src/Traverser.h:122-126 | Deferring leaf interactions and replaying them later makes the same leaf calls, as often, as making them on the spot. |
| TraverserCommon.UndeferredSub | src/Traverser.h:124-128 | With deferral, the calls still made on the spot are calls of the log. None of them comes from a leaf. |
| DownTraversal.DownTraverser.constructor | src/Traverser.h:100-102 | Keeps the leaves, the partition and the `delay_leaf` setting. Starts with nothing parked and no calls. |
| DownTraversal.DownTraverser.IsFinished | src/Traverser.h:104 | Holds iff no key has buckets parked. |
| DownTraversal.DownTraverser.Start | src/Traverser.h:93-108 | Recurses from the cache root with buckets 0 .. n-1. Visitor calls, deferred lists and parked buckets are those of the root's specification log. |
| DownTraversal.DownTraverser.Recurse | src/Traverser.h:110-187 | `recurse(node, active)`. Its calls (made or deferred), the buckets it parks and its effect on shared state are those of `Log`/`Parked` on the table it started from. Kinds stay. |
| DownTraversal.DownTraverser.RecurseChild | src/Traverser.h:182-185 | One round of the children loop. After recursing into child idx, the calls, deferred lists, parked buckets and shared effects are those of `Log`/`Parked` for the first idx + 1 children. |
| DownTraversal.DownTraverser.Dispatch | src/Traverser.h:117-181 | The switch at one node returns the buckets that go on below it. Its calls and parked buckets are that node's share of the log. |
| DownTraversal.DownTraverser.VisitResolved | src/Traverser.h:117-148 | For a node whose data is here, the calls and the buckets that go down are the leaf or internal case of the log. |
| DownTraversal.DownTraverser.VisitLeaf | src/Traverser.h:118-130 | Every active bucket admitted by `CallSelfLeaf` gets the leaf. With `delay_leaf` it is appended to the bucket's list, otherwise called now, followed by `finish`. |
| DownTraversal.DownTraverser.ServeAll | src/Traverser.h:122-127 | The leaf loop makes the leaf calls of exactly the served buckets, in order. |
| DownTraversal.DownTraverser.ServeBucket | src/Traverser.h:124-125 | One leaf interaction is either recorded in the bucket's list or called, and the call log grows by it. |
| DownTraversal.DownTraverser.VisitInternal | src/Traverser.h:131-148 | The opening buckets go down. Each closed bucket gets `node()`, then comes `finish` with the number of closed buckets. Nothing is deferred. |
| DownTraversal.DownTraverser.SplitAll | src/Traverser.h:137-145 | The loop returns the opening buckets and calls `node()` for the closed ones, in order. |
| DownTraversal.DownTraverser.InternalLocal | src/Traverser.h:131-148 | At a resolved internal node the calls are `node()` for the closed buckets plus one `finish`. None of them is deferred. |
| DownTraversal.DownTraverser.Park | src/Traverser.h:149-176 | At an unresolved node the active buckets are stored under its key. The fetch is one-shot and the partition joins the waiting list. |
| DownTraversal.DownTraverser.Fetch | src/Traverser.h:156-174 | Sets the flag. Appends one fetch iff the flag was clear. Appends the partition to the key's waiting list. |
| DownTraversal.DownTraverser.ParkedLocal | src/Traverser.h:149-176 | At an unresolved node, `recurse` calls nothing and sends no bucket down. |
| DownTraversal.ParkEffects | src/Traverser.h:154-174 | Parking at an unresolved key sets its flag, sends at most one fetch and only grows its waiting list. The traversal's shared-state effects allow exactly this. |
| DownTraversal.DownTraverser.RecurseChildren | src/Traverser.h:182-186 | Recursing into every child with the opening buckets gives the children's logs, in child order. |
| DownTraversal.DownTraverser.Descending | src/Traverser.h:182-186 | Only active buckets go on below a node. |
| DownTraversal.DownTraverser.LogFacts | src/Traverser.h:110-187 | The whole recursion calls the visitor only on resolved nodes, and only for active buckets. |
| DownTraversal.DownTraverser.ParkedFacts | src/Traverser.h:149-154 | The recursion parks only at unresolved nodes, and only active buckets. |
| DownTraversal.DownTraverser.ResumeOne | src/Traverser.h:191-201 | Pops the front key k of the resume queue and recurses from it with the buckets parked at k. The new calls are exactly the visible part of `Log` from k for those buckets. The deferred leaf calls join the interaction lists (`Deferred`). The new parking is the old one overridden by what the recursion parks, with k erased. Its calls are on resolved nodes, and new entries are at unresolved nodes. |
| DownTraversal.DownTraverser.ResumeTrav | src/Traverser.h:188-202 | Requires a non-empty queue and drains it. Afterwards:<br>• keys not in the queue stay parked;<br>• newly parked keys are unresolved;<br>• a resolved key that was queued is no longer parked;<br>• all new calls are on resolved nodes;<br>• the whole drain is `DrainedTo`: the queue's keys are resumed in order, each with the buckets parked at it at that moment. The parking is `Drained`, the calls are the visible part of `DrainLog`, and the deferred calls are appended in the same order. |
| DownTraversal.DownTraverser.ResumeNext | src/Traverser.h:191-201 | One turn of the drain: pops the next key, and the drain so far extends from the first n keys to the first n+1 (`DrainedTo`). |
| DownTraversal.DownTraverser.DrainedStep | src/Traverser.h:191-201 | Resuming one more key after a drain of the first n keys gives the drain of the first n+1 (parking, call log and deferred lists). |
| DownTraversal.DownTraverser.Interact | src/Traverser.h:109 | Replays the deferred interaction lists. |
| UpAndDownTraversal.UpnDTraverser.constructor | src/Traverser.h:213-221 | Bucket i is parked at its own tree leaf's key and nowhere else. Its `num_waiting` is 1 and its top is that leaf. The whole state is `Initial`. |
| UpAndDownTraversal.Initial | src/Traverser.h:213-221 | The state the constructor leaves: each top is its bucket's tree leaf, and every `num_waiting` is 1. |
| UpAndDownTraversal.ParkAtFacts | src/Traverser.h:215-219 | The constructor's map parks each bucket exactly once, at its tree leaf, so each bucket's count is 1. |
| UpAndDownTraversal.ParkTreeLeaves | src/Traverser.h:215-219 | The constructor's loop parks bucket i at tree leaf i's key, in bucket order, and makes that leaf its top. |
| UpAndDownTraversal.UpnDTraverser.IsFinished | src/Traverser.h:223 | Holds iff no key has buckets parked. |
| UpAndDownTraversal.UpnDTraverser.FinishedIdle | src/Traverser.h:223 | Once finished, every bucket's `num_waiting` is 0. |
| UpAndDownTraversal.UpnDTraverser.FetchOnce | src/Traverser.h:287-294 | Sets the flag and fetches only for the first caller. The partition joins the waiting list unless it is already last. |
| UpAndDownTraversal.UpnDTraverser.Pop | src/Traverser.h:255-301 | One pop pushes exactly the opened node's children. Calls, insertions and counters change by that node's event: a leaf call, a `node()` call, or a hit that adds one insertion and one to the counter. |
| UpAndDownTraversal.UpnDTraverser.Visit | src/Traverser.h:261-279 | Leaf kinds get `leaf()`. Resolved internal kinds get `open`, then `node()` if closed or their children pushed if open. |
| UpAndDownTraversal.UpnDTraverser.StackShrinks | src/Traverser.h:254-274 | Each pop lowers the stack's remaining walk size. |
| UpAndDownTraversal.UpnDTraverser.WalkBucket | src/Traverser.h:252-302 | The bucket's stack walk produces exactly the calls and insertions of the specification walk. Its counter rises by one per hit. Kinds stay. |
| UpAndDownTraversal.UpnDTraverser.WalkCalls | src/Traverser.h:260-279 | A walk's calls are for the walking bucket, on nodes resolved in the table it started from. |
| UpAndDownTraversal.UpnDTraverser.WalkHits | src/Traverser.h:280-286 | A walk's insertions are the walking bucket's, at unresolved nodes. |
| UpAndDownTraversal.UpnDTraverser.WalkKinds | src/Traverser.h:252-301 | A bucket's walk is the same on two tables that differ only in request flags. |
| UpAndDownTraversal.UpnDTraverser.ChildWalksKinds | src/Traverser.h:271-274 | The walks under a node's first n children are the same on two tables that differ only in request flags. |
| UpAndDownTraversal.UpnDTraverser.HitsWithin | src/Traverser.h:280-286 | Every hit of a bucket's walk is for that bucket, at a key of the table. |
| UpAndDownTraversal.UpnDTraverser.Descend | src/Traverser.h:251-301 | The bucket's counter drops by one, then rises by one per hit of its walk on the starting table. Exactly those hits are appended to the insertions, the calls are the walk's, and kinds stay. |
| UpAndDownTraversal.UpnDTraverser.Descended | src/Traverser.h:251-301 | A walk tied to the counter after the drop gives the counter, insertions and calls that `Descend` states. |
| UpAndDownTraversal.OthersFacts | src/Traverser.h:311 | The siblings are exactly the parent's children other than the top. |
| UpAndDownTraversal.SiblingsStep | src/Traverser.h:307-318 | Each turn of the climb loop does one of two things. For a child other than the top, it retypes the child when the parent is Boundary, adds one insertion and one to the counter, and records the child as new. For the top itself, it does nothing. |
| UpAndDownTraversal.ClimbedFacts | src/Traverser.h:306-320 | A climb moves the top to its parent, a smaller key. It adds one insertion and one to the counter per sibling, at nodes of the table. New nodes are table nodes, and kinds only become RemoteAboveTPKey. |
| UpAndDownTraversal.RetypeAllFacts | src/Traverser.h:312-314 | Retyping the siblings changes only their kinds, and request flags stay. |
| UpAndDownTraversal.RetypeAllKinds | src/Traverser.h:312-314 | Retyping the same siblings in two tables that differ only in request flags leaves them differing only in request flags. |
| UpAndDownTraversal.ClimbedIs | src/Traverser.h:304-320 | The state the climb loop leaves is exactly `ClimbFrom`: the siblings parked, counted and recorded as new, retyped under a Boundary parent, and the top moved to the parent. |
| UpAndDownTraversal.MaybeClimbFits | src/Traverser.h:303-320 | The climb step keeps the table well formed with the same keys and every top in it. Only the climbing bucket's top changes, and it moves to a key no larger. |
| UpAndDownTraversal.MaybeClimbKinds | src/Traverser.h:303-320 | The climb step gives the same result, up to request flags, on tables that differ only in request flags. |
| UpAndDownTraversal.WalkedLike | src/Traverser.h:252-301 | A walk from a state that differs only in request flags is also a walk from the original state. |
| UpAndDownTraversal.TurnWithKinds | src/Traverser.h:251-322 | A bucket's turn computed on the starting table equals, up to request flags, the climb step on the state its walk actually left. |
| UpAndDownTraversal.UpnDTraverser.TurnStep | src/Traverser.h:251-322 | If bucket b's walk, run from a state alike to `t`, left `u`, then the climb step on `u` is `Turn(t, key, b)` up to request flags. |
| UpAndDownTraversal.UpnDTraverser.TurnsSnoc | src/Traverser.h:250-322 | The turns of the first i + 1 buckets are the turn of bucket i after those of the first i. |
| UpAndDownTraversal.SumKeysLess | src/Traverser.h:320 | Moving a top to its parent lowers the sum of the top keys. This is why `start`/`resumeTrav` end. |
| UpAndDownTraversal.UpnDTraverser.Climb | src/Traverser.h:304-321 | The bucket is parked at every sibling of its top, counted once each, and its top moves up. |
| UpAndDownTraversal.UpnDTraverser.ClimbChild | src/Traverser.h:306-318 | One turn of the climb loop extends the handled siblings by child j. |
| UpAndDownTraversal.UpnDTraverser.Sibling | src/Traverser.h:311-316 | A child other than the top is retyped under a Boundary parent, gets one insertion for the bucket, raises its counter by one and is recorded as new. The top itself changes nothing. |
| UpAndDownTraversal.UpnDTraverser.ClimbIfDone | src/Traverser.h:303-322 | The new table, tops, counters, insertions and new nodes are exactly `MaybeClimb` of the old ones. A bucket whose counter is 0 and whose top has a parent is parked at every sibling, counted once per sibling, and its top moves to the parent. Otherwise nothing changes. A moved top means the counter was 0 and the sum of top keys fell. |
| UpAndDownTraversal.UpnDTraverser.ProcessBucket | src/Traverser.h:250-322 | The walk leaves a state `Walked` from the old one: the same kinds, the counter down by one and up by one per hit of the bucket's walk on the starting table, and exactly those hits inserted. The final state is `MaybeClimb` of that state, so the bucket climbs exactly when its counter reached 0 and its top has a parent. The calls are those of its walk. |
| UpAndDownTraversal.MidStarts | src/Traverser.h:247-250 | Before the loop, the counters are what the parked map says. |
| UpAndDownTraversal.MidStep | src/Traverser.h:251-322 | After each bucket's turn, every counter is still the number of places its bucket is parked at. Buckets already served are taken off, and insertions still to be applied are added on. |
| UpAndDownTraversal.MidEnds | src/Traverser.h:323-325 | After the loop, erasing the key leaves the counters balanced against the remaining map plus the insertions. |
| UpAndDownTraversal.UpnDTraverser.Serve | src/Traverser.h:250-323 | One turn of the loop over the parked buckets keeps the counter balance. It extends the state of `Turns` (up to request flags) by the turn of bucket `ready[i]`. |
| UpAndDownTraversal.UpnDTraverser.ServeBucket | src/Traverser.h:250-322 | The turn of `ready[i]` keeps the loop's bookkeeping. Up to request flags, it leaves `Turn` of the state before. |
| UpAndDownTraversal.UpnDTraverser.ProcessReady | src/Traverser.h:250-323 | The loop over the buckets parked at the key ends with the counters balanced against the remaining map plus the insertions. All calls are for those buckets, on resolved nodes. Up to request flags, the table, tops, counters, insertions and new nodes are those of `Turns` over the buckets from the starting state. |
| UpAndDownTraversal.Reinsert | src/Traverser.h:326 | Applying the insertions raises each bucket's parked count by its number of insertions. |
| UpAndDownTraversal.ReparkAt | src/Traverser.h:325-326 | After reparking, every key holds its old buckets followed by its insertions, in order. The keys are the old ones plus the inserted ones. |
| UpAndDownTraversal.ReparkPile | src/Traverser.h:326 | Reparking raises each bucket's parked count by its number of insertions. |
| UpAndDownTraversal.ReparkWithin | src/Traverser.h:326 | Reparking insertions at table keys, for buckets below n, keeps every parked key in the table and every parked bucket below n. |
| UpAndDownTraversal.PileUpdate | src/Traverser.h:325-326 | Overwriting one map entry changes a bucket's count by exactly that entry's contribution. |
| UpAndDownTraversal.Rebalanced | src/Traverser.h:325-326 | Counters that match the old map plus the insertions match the new map. |
| UpAndDownTraversal.UpnDTraverser.Settle | src/Traverser.h:325-326 | `curr_nodes` becomes exactly the old map with the key erased and the insertions appended in order (`Repark`). Afterwards every counter again equals its bucket's parked count. |
| UpAndDownTraversal.Enumerate | src/Traverser.h:328 | Lists every new node exactly once. |
| UpAndDownTraversal.UpnDTraverser.Resume | src/Traverser.h:327-328 | The resume queue grows at the back by exactly the new nodes, each once, and by nothing when there are none. |
| UpAndDownTraversal.UpnDTraverser.Finish | src/Traverser.h:325-328 | Erases the key and reparks the insertions (`Repark`), then queues exactly the new nodes, once each. With the loop's result, this is `TraversedFrom`. |
| UpAndDownTraversal.UpnDTraverser.Traverse | src/Traverser.h:244-329 | `traverse` (`TraversedFrom`): up to request flags, the table, tops and counters become those of `Turns` over the buckets parked at the key. `curr_nodes` becomes the old map with the key erased and the turns' insertions appended (`Repark`). The resume queue grows by exactly the turns' new nodes, once each. The counter balance is kept, all calls are for the parked buckets on nodes resolved at the start, and either some top moved up or nothing was queued. |
| UpAndDownTraversal.UpnDTraverser.ProcessAt | src/Traverser.h:246-323 | From a valid state, the loop over the buckets parked at the key ends in the state of `Turns` (up to request flags). The counters are balanced against the remaining map plus the insertions. |
| UpAndDownTraversal.UpnDTraverser.Traversed | src/Traverser.h:244-329 | `Turns`, then `Repark` of the map with the key erased, then the new nodes queued once each, together make `TraversedFrom`. |
| UpAndDownTraversal.UpnDTraverser.ResumeOne | src/Traverser.h:233-241 | Pops the queue's front and traverses from it. Its new nodes join the back of the queue, and the other partitions' queues stay. The state change is one `ResumeStep`: `TraversedFrom` the popped key, with the rest of the queue in front of the pushed nodes. |
| UpAndDownTraversal.UpnDTraverser.ResumeTrav | src/Traverser.h:231-242 | Drains the resume queue and keeps the invariant. All calls are on resolved nodes. The loop ends because each turn moves a top up or shortens the queue. It returns the states it went through, from the old state to the new one. Each consecutive pair is one `ResumeStep`: the front key is popped and traversed from. The last state has an empty queue (`Drains`). |
| UpAndDownTraversal.UpnDTraverser.ResumeNext | src/Traverser.h:233-241 | One turn of the drain: the trace grows by one `ResumeStep`, and the loop's measure drops. |
| UpAndDownTraversal.UpnDTraverser.TraverseTop | src/Traverser.h:225-227 | Traverses from bucket i's current top, keeping the invariant. The state change is one `TopStep`: `TraversedFrom` `travTops[i]`, with the new nodes appended to the queue. |
| UpAndDownTraversal.UpnDTraverser.Start | src/Traverser.h:224-229 | Traverses from every top, then drains the resume queue. The invariant is kept, and the queue ends empty. It returns the states it went through. The first \|leaves\| steps are `TopStep`s for buckets 0, 1, … in order. The rest are `ResumeStep`s ending in an empty queue (`Drains`). |
| UpAndDownTraversal.UpnDTraverser.TopNext | src/Traverser.h:225-227 | One turn of `start`'s loop: the trace grows by the `TopStep` for bucket i. |
| UpAndDownTraversal.UpnDTraverser.TraverseQueued | src/Traverser.h:244-329 | `traverse(key)` seen from the resume queue: one `TraversedStep` from the key, with the old queue kept at the front and the new nodes behind it. |
| Particles.Insert | src/Partition.h:328-331 | Inserting into a sorted sequence keeps it sorted by order and adds exactly the particle. |
| Particles.SortByOrder | src/Partition.h:328-331 | `std::sort` by order: the result is sorted and a permutation of the input. |
| Particles.SortedUnique | src/Partition.h:328-331 | Two sorted permutations of the same particles agree in length and in the order at every position. |
| Particles.CeilDiv | src/Partition.h:333-336 | The truncated quotient, incremented when inexact, is the ceiling of n / p. |
| Particles.TruncDiv | src/Partition.h:340 | C++ `/`: truncation toward zero. For a ≥ 0, r·b ≤ a < (r+1)·b, which is Euclidean division. For a < 0, (r−1)·b < a ≤ r·b. |
| Particles.Chunks | src/Partition.h:338-353 | `output`'s loops cut the sorted particles into non-empty consecutive runs. Each run goes to the writer of its first particle, all of its particles are below that writer's end, and the runs' writers strictly increase. |
| Particles.ChunkWriters | src/Partition.h:340-347 | Every particle of a chunk goes to writer `order / per`. |
| Particles.OwnParticles | src/Partition.h:149-154 | The inner loop of `addLeaves` keeps the particles owned by this partition, in order. |
| Particles.OwnedCounts | src/Partition.h:150-154 | The filter keeps every owned particle as often as it occurs, and nothing else. |
| Particles.OwnedAll | src/Partition.h:155 | The filter keeps all particles exactly when every particle is owned, and then returns them unchanged. |
| Particles.AllParticlesAppend | src/Partition.h:316-320 | Copying the particles of two runs of leaves is the concatenation of the two copies. |
| Particles.CopyParticles | src/Partition.h:316-320 | `copyParticles` concatenates the leaves' particles in leaf order. |
| PartitionModel.Localize | src/Partition.h:148-169 | Reuses the tree leaf iff all its particles are owned. Otherwise it makes a new Leaf with the same key, depth and home PE, holding exactly the owned particles in order. |
| PartitionModel.LocalizedAppend | src/Partition.h:147-170 | Localizing two runs of leaves is the concatenation of the localized runs. |
| PartitionModel.FreedAreMixed | src/Partition.h:228-233 | The leaves `reset` frees are exactly the copies made for tree leaves holding another partition's particle. |
| PartitionModel.Resized | src/Partition.h:113 | `resize(n)` keeps the first n lists and pads with empty ones. |
| PartitionModel.Partition.constructor | src/Partition.h:82-93 | A new partition has no leaves, no traverser and no pending perturbation. |
| PartitionModel.Partition.Busy | src/Partition.h:268 | Holds iff a traverser exists and is not finished. |
| PartitionModel.Partition.LeavesOwned | src/Partition.h:150-153 | Every particle in every bucket leaf belongs to this partition. |
| PartitionModel.Partition.AddLeaves | src/Partition.h:145-173 | Tree leaves grow by the given leaves, bucket leaves by their localized forms, and `num_buckets` by their count. |
| PartitionModel.Partition.MakeLeavesFrom | src/Partition.h:197-207 | Every key must be in the leaf lookup. The found leaves are added in key order. |
| PartitionModel.Partition.MakeLeaves | src/Partition.h:210-213 | Adds the leaves saved for the subtree. Reading an absent index saves an empty list for it. |
| PartitionModel.Partition.ReceiveLeaves | src/Partition.h:176-194 | A local subtree's leaves are added now. Otherwise the keys are saved and the partition is listed under the subtree's copy list. The copy request is appended only by the first partition that asks. |
| PartitionModel.Partition.Reset | src/Partition.h:224-238 | Requires no pending perturbation. Frees exactly the leaves that differ from their tree leaves, and clears the traverser and all lists. |
| PartitionModel.Partition.ResetFreesMixed | src/Partition.h:228-233 | What `reset` frees is the localized copy of each mixed tree leaf. |
| PartitionModel.Partition.StartDown | src/Partition.h:109-116 | Sizes the interaction lists to the leaves. Installs a fresh down traverser over the bucket leaves and runs `start`. |
| PartitionModel.Partition.StartUpAndDown | src/Partition.h:119-126 | Sizes the interaction lists. Installs a fresh up-and-down traverser over the leaves and tree leaves, starts it, and drains the resume queue. The returned trace starts at `Initial`: every bucket at its tree leaf, counters 1, and the table and queue as they were. It takes one `TopStep` per bucket in order, then drains the queue by `ResumeStep`s. |
| PartitionModel.Partition.GoDown | src/Partition.h:129-135 | Resumes the traversal. With the down traverser, the drain is `DrainedTo` from the old parking, calls and lists. With the up-and-down traverser, the returned trace drains the queue by `ResumeStep`s from the old state to the new one. The pending perturbation runs exactly when one was waiting and the traversal is finished. |
| PartitionModel.Partition.LocalLeaves | src/Partition.h:148-169 | The loop of `addLeaves`: the leaves it keeps are the localized form of each given leaf, in order (`Localized`). A leaf stays itself exactly when this partition owns all its particles. |
| PartitionModel.Partition.FreeCopies | src/Partition.h:228-233 | The loop of `reset`: it frees exactly the leaves that differ from their tree leaves, in order (`Copies`). |
| PartitionModel.Partition.Interact | src/Partition.h:138-142 | The down traverser replays the deferred interactions. The up-and-down traverser makes no calls. |
| PartitionModel.Partition.Perturb | src/Partition.h:263-272 | The request is saved. While a traverser is running it is deferred; otherwise it is carried out at once with the leaves' particles. |
| PartitionModel.Partition.DoPerturb | src/Partition.h:275-279 | Clears the pending flag and sends out one copy of the leaves' particles. |
| PartitionModel.Partition.Output | src/Partition.h:323-357 | The chunks sent, taken together, are the leaves' particles sorted by order, cut as `Chunks` says with the ceiling of `n_total / numPes` orders per writer. The call is passed on iff this is not the last partition. |
| WriterModel.ExpectedAsWritten | src/Writer.C:6-11 | As written: n / P when P divides n. Otherwise every writer but the last expects the ceiling, and the last expects n − idx · ceiling. |
| WriterModel.AsWrittenAgrees | src/Writer.C:6-11 | The constructor as written agrees with the routed counts exactly when the first P - 1 ceilings fit in n. |
| WriterModel.AsWrittenMismatch | src/Writer.C:6-11 | For 5 particles on 4 writers, as written, writer 2 expects 2 particles but is sent 1, and writer 3 expects -1. |
| WriterModel.ExpectedIsRouted | src/Writer.C:6-11 | The corrected count of each writer is exactly the number of particles `output` sends it. |
| WriterModel.RoutedClamp | src/Partition.h:340-347 | Among orders 0 .. m-1, writer idx receives `min(per, max(0, m - idx·per))`. |
| WriterModel.DivIdx | src/Partition.h:340-345 | An order goes to writer idx exactly when it lies in idx's chunk. |
| WriterModel.SumExpectedAll | src/Writer.C:6-11 | The corrected expected counts of the P writers add up to n. |
| WriterModel.Hop | src/Writer.C:39-41 | After writing, a non-last writer passes the token on. The last writer fires the callback exactly when `cur_dim` wrapped to 0, and otherwise sends the token to writer 0. |
| WriterModel.RingHops | src/Writer.C:29-41 | With every writer ready, write k is made by writer k mod P on component k / P. The token moves on around the ring, and the callback fires after exactly 3·P writes. |
| WriterModel.Writer.constructor | src/Writer.C:3-12 | Uses the corrected count of the finding below, not the count as written: a writer expects exactly the particles `output` routes to it (`Routed`), and starts with nothing received, not ready, and on component 0. The count as written is `WriterModel.ExpectedAsWritten`. |
| WriterModel.Writer.Receive | src/Writer.C:14-31 | Every incoming particle is kept. Below the expected count nothing else changes. At the count, the particles are sorted by order and the writer becomes ready. It writes iff the token has been here or it is writer 0. |
| WriterModel.Writer.Write | src/Writer.C:33-43 | Always marks the token as seen. A ready writer writes its component, advances `cur_dim` modulo 3 and passes the token on. |
| Density.MaxIndex | examples/simple/DensityVisitor.h:45 | Finds an entry of greatest distance: the heap's front. |
| Density.RemoveMax | examples/simple/DensityVisitor.h:46-47 | `pop_heap` and `pop_back` remove exactly one entry of greatest distance. |
| Density.Offer | examples/simple/DensityVisitor.h:44-58 | A list below k always gains the candidate. A full list changes only when the candidate is strictly closer than its farthest entry, which is then replaced. The list never exceeds k. |
| Density.OfferKeepsMax | examples/simple/DensityVisitor.h:44-49 | On a full list, an offer keeps it full and never raises the greatest distance. |
| Density.OfferAllBound | examples/simple/DensityVisitor.h:44-58 | A list of at most k entries still has at most k after any candidates. |
| Density.OfferAllFills | examples/simple/DensityVisitor.h:51-58 | While there is room, every candidate is appended, in order. |
| Density.OfferAllFull | examples/simple/DensityVisitor.h:44-49 | A full list stays full, and its greatest distance never increases. |
| Density.Candidates | examples/simple/DensityVisitor.h:39-42 | The source particles, in order, paired with their squared distances. |
| Density.OfferEach | examples/simple/DensityVisitor.h:38-60 | The inner loop updates only particle i's list, to the list after offering every candidate. |
| Density.Leaf | examples/simple/DensityVisitor.h:35-62 | Every target particle's list becomes its old list after all source candidates are offered. |
| Density.OpenFrom | examples/simple/DensityVisitor.h:25-30 | The loop from particle i returns true iff some later particle has a non-full list or a ball reaching the source. |
| Density.Open | examples/simple/DensityVisitor.h:23-31 | Descends iff some target particle wants neighbours, and never for a target without particles. |
| SimpleWalk.FirstIndex | simple/Traverser.h:255-260 | Finds the first position of the key, if it occurs. |
| SimpleWalk.FindLeaf | simple/Traverser.h:255-260 | The search with `break` finds the first matching leaf, or none. |
| SimpleWalk.Pairs | simple/Traverser.h:264-268 | Every pushed pair takes its first key from the node's children and its second from the payload's children. |
| SimpleWalk.PairsIn | simple/Traverser.h:264-268 | The dual push loops pair every child of the node with every child of the payload, and nothing else. |
| SimpleWalk.BitsAdd | simple/Traverser.h:87 | A node's bits afterwards are its old bits plus those the steps set there. |
| SimpleWalk.RecordAgain | simple/Traverser.h:86-88 | Recording the same interactions a second time changes no bit. |
| SimpleWalk.DeferredMatchesImmediate | simple/Traverser.h:18-39 | With DELAYLOCAL, deferring an Internal node and walking it later in `processLocalBase` sets exactly the bits that the walk without deferral sets on the piece's own subtree. |
| SimpleWalk.DeferredQuiet | simple/Traverser.h:18-39 | `processLocalBase` defers nothing, parks nothing and fetches nothing. |
| SimpleWalk.StartWalkLog | simple/Traverser.h:146-152 | A walk defers only Internal nodes for its own bucket. It parks only at unresolved nodes, or at the key itself when no start node was found (the dummy node). |
| SimpleWalk.Park | simple/Traverser.h:101-110 | The unresolved case: the fetch is one-shot and the piece joins the waiting list unless it is already last. |
| SimpleWalk.SetBitsBelow | simple/Traverser.h:45-46 | Lists exactly the set bits below the number of leaves, in increasing order. |
| SimpleWalk.TreePiece.ParkHit | simple/Traverser.h:101-110 | The shared state after a hit is `Park` of the state before. |
| SimpleWalk.TreePiece.Pop | simple/Traverser.h:82-111 | One pop pushes what the node opens. Bits, deferrals and shared state change by that node's step. |
| SimpleWalk.TreePiece.PopImmediate | simple/Traverser.h:85-111 | Leaf kinds set the bucket's bit. Internal is deferred under DELAYLOCAL. Otherwise it is opened when `node` says so. Unresolved kinds are parked. |
| SimpleWalk.TreePiece.PopDeferred | simple/Traverser.h:25-36 | `processLocalBase`'s switch: Internal nodes open when `node` says so, and any other node gets the bit. |
| SimpleWalk.TreePiece.PopPaired | simple/Traverser.h:250-281 | The dual switch: a leaf sets the bit of the first leaf equal to the pair's payload. An opened internal node pushes child pairs, tested on the outer payload. |
| SimpleWalk.TreePiece.PairedLeaf | simple/Traverser.h:255-260 | Sets the bit of the first leaf equal to the payload, and changes nothing when there is none. |
| SimpleWalk.TreePiece.Advance | simple/Traverser.h:81-112 | One loop turn takes the walk one step further. |
| SimpleWalk.TreePiece.RunWalk | simple/Traverser.h:79-112 | The stack loop takes exactly the specification walk's steps and returns its insertions. |
| SimpleWalk.WalkKinds | simple/Traverser.h:79-112 | A walk is the same on two tables that differ only in request flags. |
| SimpleWalk.PushedKinds | simple/Traverser.h:95-98 | So are the walks of the children pushed when a node opens. |
| SimpleWalk.StartWalkKinds | simple/Traverser.h:146-157 | So is a walk from the start node, or from the dummy node. |
| SimpleWalk.TreePiece.WalkFrom | simple/Traverser.h:146-157 | Walks from the start node, or parks at once at the dummy node when none was found. |
| SimpleWalk.TreePiece.ProcessLocal | simple/Traverser.h:18-39 | Walks every deferred entry in order. Only bits change. |
| SimpleWalk.TreePiece.LocalWalk | simple/Traverser.h:22-37 | One deferred entry's walk changes only bits. |
| SimpleWalk.TreePiece.InteractBase | simple/Traverser.h:41-49 | Calls `leaf(node, leaves[j])` for exactly the pairs with bit j set and j below the leaf count, each once. |
| SimpleTraversal.FindNode | simple/Traverser.h:74 | `findNode` finds the table's node with the key, if any. |
| SimpleTraversal.Hashed | simple/Traverser.h:72-75 | The lookup finds nothing exactly when `nodehash` holds no node for the key and the table has none either. |
| SimpleTraversal.HashedFinds | simple/Traverser.h:72-75 | The lookup finds a table key whose `nodehash` entry is unset. Storing the result and looking up again gives the same node. |
| SimpleTraversal.FindStart | simple/Traverser.h:67-76 | Key 1 resets the root to the cache root. Keys above 1 look up `nodehash`, fall back to `findNode`, and write the result back. |
| SimpleTraversal.RoundHits | simple/Traverser.h:101-102 | Every insertion of a round is for one of the parked entries. It is at an unresolved table node, or at the key itself when no start node was found. |
| SimpleTraversal.ParksAwait | simple/Traverser.h:109-110 | Every key a round parks at has the piece on its waiting list. |
| SimpleTraversal.WalkReady | simple/Traverser.h:78-113 | The loop over the parked entries takes exactly the round's steps and collects its insertions. |
| SimpleTraversal.WalkEntry | simple/Traverser.h:78-113 | One entry's walk extends the round by that entry's walk. |
| SimpleTraversal.TraverseAt | simple/Traverser.h:65-116 | Finds the start node, walks every entry parked at the key, erases the key, and parks the round's insertions. |
| SimpleTraversal.WalkAt | simple/Traverser.h:78-115 | Once the start node is known: the round's steps, then the erase and the re-parking. |
| SimpleTraversal.DownTraverser.constructor | simple/Traverser.h:59-62 | Bucket indices 0 .. n-1 are parked at key 1, in order. |
| SimpleTraversal.DownTraverser.Traverse | simple/Traverser.h:65-116 | `traverse(key)`: bits, deferrals and shared state are the round's. The key is erased and then the insertions are parked. |
| SimpleTraversal.DownTraverser.ParkedAwaited | simple/Traverser.h:101-115 | Each key whose parked entries changed has the piece on its waiting list. |
| SimpleTraversal.DualTraverser.constructor | simple/Traverser.h:219-224 | The leaves are parked at key 1. `root_from_tp_key` is looked up and parked at each given key, in order. |
| SimpleTraversal.DualTraverser.Traverse | simple/Traverser.h:227-287 | The payloads parked at the key walk, paired, from its start node or the dummy node. Then the key is erased and the insertions are parked. |
| SimpleTraversal.PileZero | simple/Traverser.h:191 | A bucket's count is 0 exactly when it is parked nowhere. |
| SimpleTraversal.SingleHits | simple/Traverser.h:178-180 | A bucket's walk reports insertions for that bucket only, at table keys or at the key looked for. |
| SimpleTraversal.BucketTurn | simple/Traverser.h:154-190 | The bucket's counter goes down by one and up by one per place its walk parks it at, and exactly those insertions are appended (`Walked`). Bits and deferrals are the walk's. |
| SimpleTraversal.TurnTaken | simple/Traverser.h:153-206 | One bucket's turn keeps every counter equal to its bucket's parked count, less the turns taken, plus the pending insertions. |
| SimpleTraversal.ChildStep | simple/Traverser.h:194-202 | One turn of the climb loop parks, counts, retypes (under a Boundary parent) and sends `goDown` for a sibling, and skips the top. |
| SimpleTraversal.SiblingsDone | simple/Traverser.h:194-203 | The full climb loop is a climb: every sibling is handled once, and the parent is a table node. |
| SimpleTraversal.ClimbedFacts | simple/Traverser.h:193-204 | A climb adds one insertion and one count per sibling, at table nodes. Kinds only become RemoteAboveTPKey, and every `goDown` key is a table node. |
| SimpleTraversal.ParkLeaves | simple/Traverser.h:128 | Bucket i is parked at leaf i's key. |
| SimpleTraversal.ParkedOnce | simple/Traverser.h:128-129 | Each bucket is parked once, so every counter starting at 1 is balanced. |
| SimpleTraversal.UpnDTraverser.Idle | simple/Traverser.h:191 | A counter is 0 exactly when its bucket is parked nowhere. |
| SimpleTraversal.UpnDTraverser.constructor | simple/Traverser.h:127-131 | Bucket i is parked at leaf i, waits for one place and has no top. |
| SimpleTraversal.UpnDTraverser.Traverse | simple/Traverser.h:134-210 | `traverse(key)`: the start node is found as `FindStart` does. Up to request flags, the table, tops, counters, insertions and `goDown` keys are those of `Turns` over the buckets parked at the key, walking from that start. `curr_nodes` becomes the old map with the key erased and exactly those insertions parked. The counter balance is kept. |
| SimpleTraversal.UpnDTraverser.ServeAndSettle | simple/Traverser.h:153-209 | Once the start is found, the state is that of `Turns` up to request flags. Then `curr_nodes` is the old map with the key erased and the insertions parked. |
| SimpleTraversal.UpnDTraverser.ServeReady | simple/Traverser.h:153-206 | The loop over the buckets parked at the key ends in the state of `Turns`, up to request flags. The counters are balanced against the remaining map plus the insertions. |
| SimpleTraversal.UpnDTraverser.ServeAll | simple/Traverser.h:153-206 | The loop over the parked buckets ends with the counters balanced against the remaining map plus the insertions. Up to request flags, the state is that of `Turns` over the buckets. |
| SimpleTraversal.UpnDTraverser.TakeTurn | simple/Traverser.h:153-206 | One turn keeps the counters as the balance expects and extends the state of `Turns` by the turn of `ready[i]`. |
| SimpleTraversal.UpnDTraverser.SteppedOn | simple/Traverser.h:153-206 | One more turn taken extends the state of `Turns` by one bucket, up to request flags. |
| SimpleTraversal.UpnDTraverser.TurnStepAt | simple/Traverser.h:154-204 | If the walk left `u` and the climb step then left `now`, then `now` is the bucket's `Turn`, up to request flags. |
| SimpleTraversal.UpnDTraverser.TurnAlike | simple/Traverser.h:154-204 | A turn depends on the table only up to request flags. |
| SimpleTraversal.UpnDTraverser.TurnsSnoc | simple/Traverser.h:153-206 | The turns of the first i + 1 buckets are the turn of bucket i after those of the first i. |
| SimpleTraversal.ClimbStepKinds | simple/Traverser.h:191-204 | The climb step gives the same result, up to request flags, on tables that differ only in request flags. |
| SimpleTraversal.ClimbAfterKinds | simple/Traverser.h:154-204 | A bucket's turn computed on the starting table equals, up to request flags, the climb step on the state its walk left. |
| SimpleTraversal.UpnDTraverser.Serve | simple/Traverser.h:154-205 | The bucket's walk leaves a state `Walked` from the old one: the same kinds, the counter down by one and up by one per hit, and exactly the hits inserted. The bits and deferrals are the walk's. The final state is exactly `ClimbStep` of what the walk left. |
| SimpleTraversal.UpnDTraverser.ClimbIfDone | simple/Traverser.h:191-205 | The new state is exactly `ClimbStep` of the old. Nothing changes unless the counter is 0. A missing top becomes the cache root (line 192). If the top has a parent, the bucket is parked at every sibling, counted once each and sent to `goDown`, and the parent becomes its top. |
| SimpleTraversal.NeverClimbs | simple/Traverser.h:191-192 | With every top unset or at a root that has no parent, the climb step never climbs: no sibling is parked, counted, retyped or sent to `goDown`, and every top stays unset or at the root. |
| SimpleTraversal.UpnDTraverser.TurnsNeverClimb | simple/Traverser.h:130-192 | As written, the simple up-and-down traverser never climbs. From the constructor's unset tops, any sequence of turns leaves the table's kinds and the `goDown` keys unchanged, and every top unset or at the root. |
| SimpleTraversal.UpnDTraverser.Climb | simple/Traverser.h:193-204 | Parks the bucket at every sibling of its top and sends each to `goDown`. The top moves to the parent. |
| SimpleTraversal.UpnDTraverser.ClimbChild | simple/Traverser.h:194-202 | One climb-loop turn for child j. |
| SimpleTraversal.UpnDTraverser.Sibling | simple/Traverser.h:195-201 | A child other than the top is retyped under a Boundary parent, parked, counted and sent to `goDown`. The top itself changes nothing. |
| SimpleTraversal.UpnDTraverser.Settle | simple/Traverser.h:208-209 | Erases the key, then parks the insertions. The counters again equal the parked counts. |

## Left out

- **Not modelled:**
  - messaging (Charm++ proxies, `requestData`/`requestNodes`/`requestCopy`/`goDown` sends, `contribute`, callbacks); these become appended entries in ghost logs or fields;
  - locks and atomics, whose effects are modelled as sequential test-and-set and map updates; concurrency itself is left out;
  - node pointer identity: nodes are identified by key.
- **Floating point:** the visitor physics, the `doPerturb` particle update and `Space::intersect` are left out. The box test is a function parameter, and distances are `real`s compared only.
- **Unseen code:**
  - `findNode` is not part of this model; it is a table lookup by key;
  - the cache manager, resumer and tree-piece classes are not part of this model beyond the fields the traversers use;
  - `node->finish` is logged as a call.
- **Not modelled at all:** `Writer::do_write` (file output), `countPartitionParticles`, `pup`, `destroy`, `erasePartition`, `callPerLeafFn`, `initLocalBranches`, the commented-out `DualTraverser` of `src/Traverser.h` and the unreachable `runSimpleTraversal`.
- **The `node` visitor:** `DensityVisitor::node` is a no-op and has no member of its own. The neighbour-list collector request in `leaf` is left out.
- Density.Leaf: the neighbour list is a sequence with its maximum found by search, not a binary heap. When several entries share the greatest distance, the first one is evicted, where `pop_heap` may evict another of them.
- SimpleTraversal.DownTraverser.Traverse: a key above 1 with entries parked must have a start node. This is a precondition here, where the code would dereference a null start node.
- SimpleTraversal.DualTraverser.Traverse: follows the code as written. An internal node is tested and paired with the outer `payload`, not the stack entry's `currpl` (simple/Traverser.h:263-266). The walk's termination measure is weighted by that payload's child count.
- UpAndDownTraversal.UpnDTraverser.Traverse: the table is stated up to request flags only (`SameKinds`). `Turns` does not track the flags the turns' fetches set; `UpEffects` states the fetches themselves. The exact call sequence is stated per bucket by `UpAndDownTraversal.UpnDTraverser.ProcessBucket`, and the whole traversal states only that every call is for a parked bucket, on a node resolved at the start.
- SimpleTraversal.UpnDTraverser.Traverse: the table is stated up to request flags only, as for the up-and-down traverser of `src/Traverser.h`. The bits and deferrals of the whole traversal are not stated; `SimpleTraversal.UpnDTraverser.Serve` states them per bucket.
- WriterModel.Writer.constructor: follows the corrected expected count of the finding below, so that the token ring can finish. The count as written (src/Writer.C:6-11) is modelled by `WriterModel.ExpectedAsWritten`, and `WriterModel.AsWrittenMismatch` shows where the two differ.
- DownTraversal.DownTraverser.Recurse: the model does not prove that, over a whole traversal, each bucket meets each node at most once.
- Particles.Chunks: `output`'s inner loop reads `particles[particle_idx]` before checking `particle_idx < particles.size()` (src/Partition.h:344-346). That read is out of bounds after the last particle, so the model checks the bound first.
- PartitionModel.Partition.Reset: requires that no perturbation is waiting. With one waiting, the code calls `CkAbort` (src/Partition.h:226); that abort is not modelled.
- PartitionModel.Partition.Output: requires `n_total_particles > 0` whenever there are particles to send, and at least one PE. With no particles in the universe but some in the leaves, `particles_per_writer` is 0 and the code divides by zero (src/Partition.h:334-341); that crash is not modelled.
- SimpleTraversal.DualTraverser.constructor: requires `tp_key` to be a node of the table whenever keys are given. When `findNode` finds nothing, the code parks a null `root_from_tp_key` at every key (simple/Traverser.h:222-223), and a later traversal would dereference it; that case is not modelled.
- UpAndDownTraversal.UpnDTraverser.Climb: the well-formed table gives every parent all its children. A missing child is printed and then dereferenced (`child->type`, `child->key`, src/Traverser.h:308-313), so the code would crash there; that case is not modelled. The same holds for `UpAndDownTraversal.UpnDTraverser.Sibling`.
- **DELAYLOCAL** is a compile-time flag in `simple/Traverser.h`. The model takes it as a constructor argument, so both settings are covered.

## Findings

| source | as written | input that shows it | evidently intended | confidence | as-written member | corrected member |
|---|---|---|---|---|---|---|
| src/Writer.C:6-11 | When P does not divide n, writers 0 .. P-2 expect ceil(n/P) particles and the last expects n - (P-1)·ceil(n/P). `output` instead sends each writer the orders in its ceil(n/P)-wide chunk, cut off at n. | n = 5, P = 4: the chunk is 2 orders, so orders 0..4 go to writers 0, 0, 1, 1, 2. Writer 2 expects 2 and receives 1, so it never becomes ready; writer 3 expects -1. | Each writer expects `min(per, max(0, n - idx·per))` with per = ceil(n/P), the count `output` routes to it. | not executed | WriterModel.AsWrittenMismatch | WriterModel.ExpectedIsRouted |

=== FILE: density.dfy ===
/** The density visitor's neighbour search: every target particle keeps a
    bounded list of at most K nearest source particles found so far (a
    max-heap on squared distance in the visitor); `leaf` offers it every
    source particle, and `open` descends while some target particle still
    wants neighbours from the source's volume. */
module Density {
  import opened Nodes

  /** The list bound `k`. */
  const K: nat := 32

  /** A neighbour-list entry (`pqSmoothNode`): squared distance and particle key. */
  datatype Neighbor = Neighbor(dist: real, key: Key)

  /** The position of the first entry of greatest distance (the heap's front). */
  function MaxIndex(q: seq<Neighbor>): (m: nat)
    requires q != []
    ensures m < |q| && forall i :: 0 <= i < |q| ==> q[i].dist <= q[m].dist
    ensures forall i :: 0 <= i < m ==> q[i].dist < q[m].dist
  {
    if |q| == 1 then 0
    else
      var m := MaxIndex(q[..|q| - 1]);
      if q[|q| - 1].dist > q[m].dist then |q| - 1 else m
  }

  /** The greatest distance in a non-empty list (`Q.front().fKey`). */
  function MaxDist(q: seq<Neighbor>): real
    requires q != []
  {
    q[MaxIndex(q)].dist
  }

  /** `pop_heap` then `pop_back`: the list without its farthest entry. */
  function RemoveMax(q: seq<Neighbor>): (r: seq<Neighbor>)
    requires q != []
    ensures |r| == |q| - 1
    ensures multiset(r) + multiset{q[MaxIndex(q)]} == multiset(q)
    ensures forall x :: x in r ==> x in q
  {
    var m := MaxIndex(q);
    assert q == q[..m] + [q[m]] + q[m + 1..];
    q[..m] + q[m + 1..]
  }

  /** One turn of `leaf`'s inner loop: a full list whose farthest entry is
      farther than the candidate drops that entry; then a list below K
      takes the candidate. */
  function Offer(q: seq<Neighbor>, c: Neighbor): (r: seq<Neighbor>)
    ensures |q| <= K ==> |r| <= K
    ensures |q| < K ==> r == q + [c]
    ensures |q| == K && c.dist < MaxDist(q) ==>
      |r| == K && multiset(r) == multiset(q) - multiset{q[MaxIndex(q)]} + multiset{c}
    ensures |q| == K && !(c.dist < MaxDist(q)) ==> r == q
  {
    var q' := if |q| == K && c.dist < MaxDist(q) then RemoveMax(q) else q;
    if |q'| < K then q' + [c] else q'
  }

  /** On a full list an offer never raises the greatest distance. */
  lemma OfferKeepsMax(q: seq<Neighbor>, c: Neighbor)
    requires |q| == K
    ensures |Offer(q, c)| == K && MaxDist(Offer(q, c)) <= MaxDist(q)
  {
    var r := Offer(q, c);
    if c.dist < MaxDist(q) {
      var rest := RemoveMax(q);
      assert r == rest + [c];
      var m := MaxIndex(r);
      if m < |rest| {
        assert r[m] in rest;
      }
    }
  }

  /** The candidates `leaf` offers to target particle i: the source
      particles in order, with their squared distances to it. */
  function Candidates(dists: seq<real>, keys: seq<Key>): (r: seq<Neighbor>)
    requires |dists| == |keys|
    ensures |r| == |keys| && forall j :: 0 <= j < |r| ==> r[j] == Neighbor(dists[j], keys[j])
  {
    seq(|keys|, j requires 0 <= j < |keys| => Neighbor(dists[j], keys[j]))
  }

  /** The candidates offered one after the other. */
  function OfferAll(q: seq<Neighbor>, cs: seq<Neighbor>): seq<Neighbor> {
    if cs == [] then q else Offer(OfferAll(q, cs[..|cs| - 1]), cs[|cs| - 1])
  }

  lemma OfferAllSnoc(q: seq<Neighbor>, cs: seq<Neighbor>, j: nat)
    requires j < |cs|
    ensures OfferAll(q, cs[..j + 1]) == Offer(OfferAll(q, cs[..j]), cs[j])
  {
    assert cs[..j + 1][..j] == cs[..j];
  }

  /** A list of at most K entries stays within K. */
  lemma {:induction false} OfferAllBound(q: seq<Neighbor>, cs: seq<Neighbor>)
    requires |q| <= K
    ensures |OfferAll(q, cs)| <= K
  {
    if cs != [] {
      OfferAllBound(q, cs[..|cs| - 1]);
    }
  }

  /** While there is room, every candidate is kept, in order. */
  lemma {:induction false} OfferAllFills(q: seq<Neighbor>, cs: seq<Neighbor>)
    requires |q| + |cs| <= K
    ensures OfferAll(q, cs) == q + cs
  {
    if cs != [] {
      var pre := cs[..|cs| - 1];
      OfferAllFills(q, pre);
      assert q + cs == (q + pre) + [cs[|cs| - 1]];
    }
  }

  /** A full list stays full and its greatest distance never increases. */
  lemma {:induction false} OfferAllFull(q: seq<Neighbor>, cs: seq<Neighbor>)
    requires |q| == K
    ensures |OfferAll(q, cs)| == K && MaxDist(OfferAll(q, cs)) <= MaxDist(q)
  {
    if cs != [] {
      OfferAllFull(q, cs[..|cs| - 1]);
      OfferKeepsMax(OfferAll(q, cs[..|cs| - 1]), cs[|cs| - 1]);
    }
  }

  /** `leaf`: offer every source particle to every target particle's list,
      in place. `dists[i][j]` is the squared distance from target particle
      i to source particle j and `keys[j]` is source particle j's key. */
  method Leaf(nbrs: array<seq<Neighbor>>, dists: seq<seq<real>>, keys: seq<Key>)
    requires |dists| == nbrs.Length && forall i :: 0 <= i < |dists| ==> |dists[i]| == |keys|
    modifies nbrs
    ensures forall i :: 0 <= i < nbrs.Length ==> nbrs[i] == OfferAll(old(nbrs[i]), Candidates(dists[i], keys))
  {
    var i := 0;
    while i < nbrs.Length
      invariant 0 <= i <= nbrs.Length
      invariant forall t :: 0 <= t < i ==> nbrs[t] == OfferAll(old(nbrs[t]), Candidates(dists[t], keys))
      invariant forall t :: i <= t < nbrs.Length ==> nbrs[t] == old(nbrs[t])
    {
      OfferEach(nbrs, i, Candidates(dists[i], keys));
      i := i + 1;
    }
  }

  /** The inner loop of `leaf`: offer each source particle to target
      particle i's list, updating it in place. */
  method OfferEach(nbrs: array<seq<Neighbor>>, i: nat, cs: seq<Neighbor>)
    requires i < nbrs.Length
    modifies nbrs
    ensures nbrs[i] == OfferAll(old(nbrs[i]), cs)
    ensures forall t :: 0 <= t < nbrs.Length && t != i ==> nbrs[t] == old(nbrs[t])
  {
    var j := 0;
    while j < |cs|
      invariant 0 <= j <= |cs|
      invariant nbrs[i] == OfferAll(old(nbrs[i]), cs[..j])
      invariant forall t :: 0 <= t < nbrs.Length && t != i ==> nbrs[t] == old(nbrs[t])
    {
      OfferAllSnoc(old(nbrs[i]), cs, j);
      nbrs[i] := Offer(nbrs[i], cs[j]);
      j := j + 1;
    }
    assert cs[..j] == cs;
  }

  /** Whether target particle i wants neighbours from the source: its list
      is not full, or the source's volume reaches within its current
      farthest neighbour (`intersects(i, d)` stands for the box test
      against the ball of squared radius d around particle i). */
  predicate Wants(nbrs: seq<seq<Neighbor>>, intersects: (nat, real) -> bool, i: nat)
    requires i < |nbrs|
  {
    |nbrs[i]| < K || (nbrs[i] != [] && intersects(i, MaxDist(nbrs[i])))
  }

  /** The loop of `open` from particle i on, returning at the first
      particle that wants neighbours. */
  function OpenFrom(nbrs: seq<seq<Neighbor>>, intersects: (nat, real) -> bool, i: nat): (r: bool)
    requires i <= |nbrs|
    ensures r <==> exists j :: i <= j < |nbrs| && Wants(nbrs, intersects, j)
    decreases |nbrs| - i
  {
    if i == |nbrs| then false
    else if |nbrs[i]| < K then assert Wants(nbrs, intersects, i); true
    else if intersects(i, MaxDist(nbrs[i])) then assert Wants(nbrs, intersects, i); true
    else OpenFrom(nbrs, intersects, i + 1)
  }

  /** `open`: descend into the source exactly when some target particle
      wants neighbours from it; never for a target without particles. */
  function Open(nbrs: seq<seq<Neighbor>>, intersects: (nat, real) -> bool): (r: bool)
    ensures r <==> exists i :: 0 <= i < |nbrs| && Wants(nbrs, intersects, i)
    ensures nbrs == [] ==> !r
  {
    OpenFrom(nbrs, intersects, 0)
  }
}

=== FILE: down_traversal.dfy ===
/** `DownTraverser` of src/Traverser.h: a top-down walk from the root that
    carries the list of buckets still interested in each subtree, parks that
    list at nodes whose data is missing and resumes there once the data
    arrives. */
module DownTraversal {
  import opened Nodes
  import opened NodeTable
  import opened ResumerModel
  import opened TraverserCommon

  /** The part of the shared state a traversal may change without owning it. */
  datatype Shared = Shared(nodes: map<Key, Node>, requests: seq<Request>, waiting: map<Key, seq<nat>>)

  ghost predicate Unresolved(shape: map<Key, Node>, k: Key) {
    k in shape && IsUnresolved(shape[k].ntype)
  }

  /** What a traversal does to state it shares with other partitions: node
      kinds and shapes stay, request flags are only set, fetches are only
      appended and only for unresolved nodes, and waiting lists of unresolved
      nodes only gain this partition's index. */
  ghost predicate Effects(shape: map<Key, Node>, s: Shared, t: Shared, part: nat) {
    && SameKinds(s.nodes, t.nodes) && RequestedMonotone(s.nodes, t.nodes)
    && FetchesGrow(shape, s.requests, t.requests)
    && WaitingGrows(shape, s.waiting, t.waiting, part)
  }

  ghost predicate FetchesGrow(shape: map<Key, Node>, s: seq<Request>, t: seq<Request>) {
    s <= t && forall i :: |s| <= i < |t| ==> Unresolved(shape, t[i].key)
  }

  ghost predicate WaitingGrows(shape: map<Key, Node>, s: map<Key, seq<nat>>, t: map<Key, seq<nat>>, part: nat) {
    && s.Keys <= t.Keys
    && (forall k :: k in t ==> Lookup(s, k) <= t[k])
    && (forall k, i :: k in t && |Lookup(s, k)| <= i < |t[k]| ==> t[k][i] == part)
    && (forall k :: k in t && Lookup(s, k) != t[k] ==> Unresolved(shape, k))
  }

  lemma EffectsTrans(shape: map<Key, Node>, s: Shared, t: Shared, u: Shared, part: nat)
    requires Effects(shape, s, t, part) && Effects(shape, t, u, part)
    ensures Effects(shape, s, u, part)
  {
    FetchesGrowTrans(shape, s.requests, t.requests, u.requests);
    WaitingGrowsTrans(shape, s.waiting, t.waiting, u.waiting, part);
  }

  lemma FetchesGrowTrans(shape: map<Key, Node>, s: seq<Request>, t: seq<Request>, u: seq<Request>)
    requires FetchesGrow(shape, s, t) && FetchesGrow(shape, t, u)
    ensures FetchesGrow(shape, s, u)
  {
    forall i | |s| <= i < |u| ensures Unresolved(shape, u[i].key) {
      if i < |t| {
        assert u[i] == t[i];
      }
    }
  }

  lemma WaitingGrowsTrans(shape: map<Key, Node>, s: map<Key, seq<nat>>, t: map<Key, seq<nat>>, u: map<Key, seq<nat>>, part: nat)
    requires WaitingGrows(shape, s, t, part) && WaitingGrows(shape, t, u, part)
    ensures WaitingGrows(shape, s, u, part)
  {
    forall k, i | k in u && |Lookup(s, k)| <= i < |u[k]|
      ensures u[k][i] == part
    {
      if i < |Lookup(t, k)| {
        assert u[k][i] == Lookup(t, k)[i];
      }
    }
  }

  lemma EffectsRefl(shape: map<Key, Node>, s: Shared, part: nat)
    ensures Effects(shape, s, s, part)
  {
  }

  class DownTraverser {
    /** Keys of the partition's leaves (`leaves[bucket]`), one bucket each. */
    const leaves: seq<Key>
    const partIndex: nat
    const delayLeaf: bool
    /** The visitor's `CallSelfLeaf` flag and `open` test. */
    const callSelfLeaf: bool
    const open: (Key, Key) -> bool
    const table: Cache
    const resumer: Resumer
    const inter: Interactions
    /** `curr_nodes`: the buckets parked at each unresolved key. */
    var currNodes: map<Key, seq<nat>>
    /** Visitor calls made so far. */
    ghost var visits: seq<Visit>

    ghost predicate Valid()
      reads this`currNodes, table`nodes, table`root, table`requests, inter`lists
    {
      && table.Valid() && |inter.lists| == |leaves|
      && forall p :: p in currNodes ==> BucketsBelow(currNodes[p], |leaves|)
    }

    ghost function SharedState(): Shared
      reads table`nodes, table`requests, resumer`waiting
    {
      Shared(table.nodes, table.requests, resumer.waiting)
    }

    constructor (leaves: seq<Key>, partIndex: nat, delayLeaf: bool, callSelfLeaf: bool,
                 open: (Key, Key) -> bool, table: Cache, resumer: Resumer, inter: Interactions)
      requires table.Valid() && |inter.lists| == |leaves|
      ensures Valid()
      ensures this.leaves == leaves && this.partIndex == partIndex && this.delayLeaf == delayLeaf
      ensures this.callSelfLeaf == callSelfLeaf && this.open == open
      ensures this.table == table && this.resumer == resumer && this.inter == inter
      ensures currNodes == map[] && visits == []
    {
      this.leaves := leaves;
      this.partIndex := partIndex;
      this.delayLeaf := delayLeaf;
      this.callSelfLeaf := callSelfLeaf;
      this.open := open;
      this.table := table;
      this.resumer := resumer;
      this.inter := inter;
      currNodes := map[];
      visits := [];
    }

    /** The traversal is finished when no bucket is parked anywhere. */
    function IsFinished(): (r: bool)
      reads this
      ensures r <==> forall k :: k !in currNodes
    {
      currNodes == map[]
    }

    /** The calls the switch of `recurse` makes at node `k` itself (with
        leaf interactions made on the spot). */
    ghost function Local(shape: map<Key, Node>, k: Key, active: seq<nat>): (r: seq<Visit>)
      requires k in shape
    {
      var t := shape[k].ntype;
      if IsLeafKind(t) then
        LeafCalls(k, Served(active, k, leaves, callSelfLeaf)) + [Finish(k, |active|)]
      else if IsOpenable(t) then
        var closed := Closed(active, k, leaves, open);
        NodeCalls(k, closed) + [Finish(k, |closed|)]
      else []
    }

    /** The buckets that go on below `k`. */
    ghost function Descending(shape: map<Key, Node>, k: Key, active: seq<nat>): (r: seq<nat>)
      requires k in shape
      ensures forall b :: b in r ==> b in active
    {
      if IsOpenable(shape[k].ntype) then Opening(active, k, leaves, open) else []
    }

    /** All calls of `recurse(k, active)` on a table of the given shape and kinds, in order. */
    ghost function Log(shape: map<Key, Node>, k: Key, active: seq<nat>): (r: seq<Visit>)
      requires WellFormed(shape) && k in shape
      decreases KeyBound(shape.Keys) - k, 1, 0
    {
      var down := Descending(shape, k, active);
      Local(shape, k, active) + (if down != [] then ChildLogs(shape, k, |shape[k].children|, down) else [])
    }


    /** The calls of the recursions into the first `n` children of `k`. */
    ghost function ChildLogs(shape: map<Key, Node>, k: Key, n: nat, active: seq<nat>): (r: seq<Visit>)
      requires WellFormed(shape) && k in shape && n <= |shape[k].children|
      decreases KeyBound(shape.Keys) - k, 0, n
    {
      if n == 0 then []
      else ChildLogs(shape, k, n - 1, active) + Log(shape, shape[k].children[n - 1], active)
    }

    /** Where `recurse(k, active)` parks buckets: each unresolved node it
        reaches, with the buckets that reached it. */
    ghost function Parked(shape: map<Key, Node>, k: Key, active: seq<nat>): (r: map<Key, seq<nat>>)
      requires WellFormed(shape) && k in shape
      decreases KeyBound(shape.Keys) - k, 1, 0
    {
      var down := Descending(shape, k, active);
      LocalPark(shape, k, active) + (if down != [] then ChildParks(shape, k, |shape[k].children|, down) else map[])
    }

    /** Parking at `k` itself. */
    ghost function LocalPark(shape: map<Key, Node>, k: Key, active: seq<nat>): (r: map<Key, seq<nat>>)
      requires k in shape
    {
      if IsUnresolved(shape[k].ntype) then map[k := active] else map[]
    }

    ghost function ChildParks(shape: map<Key, Node>, k: Key, n: nat, active: seq<nat>): (r: map<Key, seq<nat>>)
      requires WellFormed(shape) && k in shape && n <= |shape[k].children|
      decreases KeyBound(shape.Keys) - k, 0, n
    {
      if n == 0 then map[]
      else ChildParks(shape, k, n - 1, active) + Parked(shape, shape[k].children[n - 1], active)
    }

    /** Every call `recurse` makes at `k` is on `k`, on a resolved node, and
        for an active bucket. */
    lemma LocalFacts(shape: map<Key, Node>, k: Key, active: seq<nat>)
      requires k in shape
      ensures forall v :: v in Local(shape, k, active) ==>
                OnResolved(shape, v) && v.source == k && (!v.Finish? ==> v.bucket in active)
    {
      FiltersExact(active, k, leaves, open, callSelfLeaf);
    }

    /** The whole recursion only calls the visitor on resolved nodes, and
        only for active buckets. */
    lemma {:induction false} LogFacts(shape: map<Key, Node>, k: Key, active: seq<nat>)
      requires WellFormed(shape) && k in shape
      ensures forall v :: v in Log(shape, k, active) ==> OnResolved(shape, v) && (!v.Finish? ==> v.bucket in active)
      decreases KeyBound(shape.Keys) - k, 1, 0
    {
      LocalFacts(shape, k, active);
      var down := Descending(shape, k, active);
      if down != [] {
        ChildLogsFacts(shape, k, |shape[k].children|, down);
      }
    }

    lemma {:induction false} ChildLogsFacts(shape: map<Key, Node>, k: Key, n: nat, active: seq<nat>)
      requires WellFormed(shape) && k in shape && n <= |shape[k].children|
      ensures forall v :: v in ChildLogs(shape, k, n, active) ==> OnResolved(shape, v) && (!v.Finish? ==> v.bucket in active)
      decreases KeyBound(shape.Keys) - k, 0, n
    {
      if n > 0 {
        ChildLogsFacts(shape, k, n - 1, active);
        LogFacts(shape, shape[k].children[n - 1], active);
      }
    }

    /** The recursion parks only at unresolved nodes, and only active buckets. */
    lemma {:induction false} ParkedFacts(shape: map<Key, Node>, k: Key, active: seq<nat>)
      requires WellFormed(shape) && k in shape
      ensures forall p :: p in Parked(shape, k, active) ==>
                Unresolved(shape, p) && forall b :: b in Parked(shape, k, active)[p] ==> b in active
      decreases KeyBound(shape.Keys) - k, 1, 0
    {
      var down := Descending(shape, k, active);
      if down != [] {
        ChildParksFacts(shape, k, |shape[k].children|, down);
      }
    }

    lemma {:induction false} ChildParksFacts(shape: map<Key, Node>, k: Key, n: nat, active: seq<nat>)
      requires WellFormed(shape) && k in shape && n <= |shape[k].children|
      ensures forall p :: p in ChildParks(shape, k, n, active) ==>
                Unresolved(shape, p) && forall b :: b in ChildParks(shape, k, n, active)[p] ==> b in active
      decreases KeyBound(shape.Keys) - k, 0, n
    {
      if n > 0 {
        ChildParksFacts(shape, k, n - 1, active);
        ParkedFacts(shape, shape[k].children[n - 1], active);
      }
    }

    /** The visitor calls actually made for a log: all of it, or, with
        `delay_leaf`, all but the calls on leaves. */
    ghost function Visible(shape: map<Key, Node>, log: seq<Visit>): seq<Visit> {
      if delayLeaf then Undeferred(shape, log) else log
    }

    /** The interaction lists after a log: unchanged, or, with `delay_leaf`,
        extended by the log's leaf calls. */
    ghost function Deferred(lists: seq<seq<Key>>, log: seq<Visit>): seq<seq<Key>> {
      if delayLeaf then Record(lists, log) else lists
    }

    lemma VisibleConcat(shape: map<Key, Node>, a: seq<Visit>, b: seq<Visit>)
      ensures Visible(shape, a + b) == Visible(shape, a) + Visible(shape, b)
    {
      UndeferredConcat(shape, a, b);
    }

    lemma DeferredConcat(lists: seq<seq<Key>>, a: seq<Visit>, b: seq<Visit>)
      ensures Deferred(lists, a + b) == Deferred(Deferred(lists, a), b)
    {
      RecordConcat(lists, a, b);
    }

    /** The switch of `recurse` at one node: leaf interactions, the `open`
        test for resolved internal nodes, or parking plus a one-shot fetch for
        unresolved ones. Returns the buckets that go on below the node. */
    method Dispatch(k: Key, active: seq<nat>, ghost shape: map<Key, Node>) returns (down: seq<nat>)
      requires Valid() && WellFormed(shape) && SameKinds(shape, table.nodes) && k in shape
      requires BucketsBelow(active, |leaves|)
      modifies this`currNodes, this`visits, table`nodes, table`requests, resumer`waiting, inter`lists
      ensures Valid() && SameKinds(shape, table.nodes)
      ensures Effects(shape, old(SharedState()), SharedState(), partIndex)
      ensures down == Descending(shape, k, active)
      ensures visits == old(visits) + Visible(shape, Local(shape, k, active))
      ensures inter.lists == Deferred(old(inter.lists), Local(shape, k, active))
      ensures currNodes == old(currNodes) + LocalPark(shape, k, active)
    {
      down := [];
      var t := table.nodes[k].ntype;
      assert t == shape[k].ntype;
      if IsUnresolved(t) {
        ghost var v0, l0 := visits, inter.lists;
        Park(k, active, shape);
        ParkedLocal(shape, k, active, v0, l0);
      } else {
        down := VisitResolved(k, t, active, shape);
        EffectsRefl(shape, SharedState(), partIndex);
        MergeEmpty(currNodes);
      }
    }

    /** The switch for a node whose data is present: leaf kinds, resolved
        internal kinds, or an empty leaf (nothing to do). */
    method VisitResolved(k: Key, t: NodeType, active: seq<nat>, ghost shape: map<Key, Node>) returns (down: seq<nat>)
      requires |inter.lists| == |leaves| && k in shape && t == shape[k].ntype && !IsUnresolved(t)
      requires BucketsBelow(active, |leaves|)
      modifies this`visits, inter`lists
      ensures |inter.lists| == |leaves|
      ensures down == Descending(shape, k, active)
      ensures visits == old(visits) + Visible(shape, Local(shape, k, active))
      ensures inter.lists == Deferred(old(inter.lists), Local(shape, k, active))
    {
      down := [];
      if IsLeafKind(t) {
        VisitLeaf(k, active, shape);
      } else if IsOpenable(t) {
        down := VisitInternal(k, active, shape);
      } else {
        assert Local(shape, k, active) == [];
        assert Record(inter.lists, []) == inter.lists;
        assert Undeferred(shape, []) == [];
        assert visits + [] == visits;
      }
    }

    /** The Leaf / CachedRemoteLeaf case: every active bucket but the node's
        own (unless `CallSelfLeaf`) interacts with the leaf, on the spot or
        deferred to the bucket's interaction list. */
    method VisitLeaf(k: Key, active: seq<nat>, ghost shape: map<Key, Node>)
      requires |inter.lists| == |leaves| && k in shape && IsLeafKind(shape[k].ntype)
      requires BucketsBelow(active, |leaves|)
      modifies this`visits, inter`lists
      ensures |inter.lists| == |leaves|
      ensures visits == old(visits) + Visible(shape, Local(shape, k, active))
      ensures inter.lists == Deferred(old(inter.lists), Local(shape, k, active))
    {
      ghost var l0 := inter.lists;
      ghost var v0 := visits;
      assert Record(l0, []) == l0 && v0 + [] == v0;
      ghost var calls := ServeAll(k, active, l0, v0);
      ghost var log := calls + [Finish(k, |active|)];
      assert log == Local(shape, k, active);
      RecordSnoc(l0, calls, Finish(k, |active|));
      if !delayLeaf {
        Assoc(v0, calls, [Finish(k, |active|)]);
        visits := visits + [Finish(k, |active|)];
      } else {
        UndeferredNone(shape, log, k);
      }
    }

    /** At an unresolved node `recurse` calls nothing and descends nowhere. */
    lemma ParkedLocal(shape: map<Key, Node>, k: Key, active: seq<nat>, v: seq<Visit>, lists: seq<seq<Key>>)
      requires k in shape && IsUnresolved(shape[k].ntype)
      ensures Descending(shape, k, active) == [] && Local(shape, k, active) == []
      ensures v + Visible(shape, Local(shape, k, active)) == v
      ensures Deferred(lists, Local(shape, k, active)) == lists
    {
      assert Record(lists, []) == lists;
      assert Undeferred(shape, []) == [];
      assert v + [] == v;
    }

    /** The loop of the leaf case over the active buckets. */
    method ServeAll(k: Key, active: seq<nat>, ghost l0: seq<seq<Key>>, ghost v0: seq<Visit>)
        returns (ghost calls: seq<Visit>)
      requires |inter.lists| == |leaves| && BucketsBelow(active, |leaves|)
      requires LeafStepState(l0, v0, [])
      modifies this`visits, inter`lists
      ensures calls == LeafCalls(k, Served(active, k, leaves, callSelfLeaf))
      ensures |inter.lists| == |leaves| && LeafStepState(l0, v0, calls)
    {
      calls := [];
      LeafPrefixEnds(calls, active, k, leaves, callSelfLeaf);
      var i := 0;
      while i < |active|
        invariant |inter.lists| == |leaves|
        invariant LeafPrefix(calls, active, i, k, leaves, callSelfLeaf)
        invariant LeafStepState(l0, v0, calls)
      {
        var b := active[i];
        assert b < |leaves| by { assert b in active; }
        LeafPrefixStep(calls, active, i, k, leaves, callSelfLeaf);
        if callSelfLeaf || leaves[b] != k {
          calls := ServeBucket(k, b, l0, v0, calls);
        }
        i := i + 1;
      }
      LeafPrefixEnds(calls, active, k, leaves, callSelfLeaf);
    }

    /** The state after leaf calls `calls` starting from lists `l0` and visits `v0`. */
    ghost predicate LeafStepState(l0: seq<seq<Key>>, v0: seq<Visit>, calls: seq<Visit>)
      reads this`visits, inter`lists
    {
      && inter.lists == (if delayLeaf then Record(l0, calls) else l0)
      && visits == (if delayLeaf then v0 else v0 + calls)
    }

    /** One leaf interaction for bucket `b`: applied now, or appended to the
        bucket's interaction list. */
    method ServeBucket(k: Key, b: nat, ghost l0: seq<seq<Key>>, ghost v0: seq<Visit>, ghost calls: seq<Visit>)
        returns (ghost calls': seq<Visit>)
      requires |inter.lists| == |leaves| && b < |leaves| && LeafStepState(l0, v0, calls)
      modifies this`visits, inter`lists
      ensures calls' == calls + [LeafCall(k, b)]
      ensures |inter.lists| == |leaves| && LeafStepState(l0, v0, calls')
    {
      calls' := calls + [LeafCall(k, b)];
      RecordSnoc(l0, calls, LeafCall(k, b));
      if delayLeaf {
        inter.lists := inter.lists[b := inter.lists[b] + [k]];
      } else {
        visits := visits + [LeafCall(k, b)];
        Assoc(v0, calls, [LeafCall(k, b)]);
      }
    }

    /** The Internal / CachedBoundary / CachedRemote case: buckets for which
        `open` holds go on below the node, the others get `node()`; then
        `finish` with the number of the latter. */
    method VisitInternal(k: Key, active: seq<nat>, ghost shape: map<Key, Node>) returns (down: seq<nat>)
      requires k in shape && IsOpenable(shape[k].ntype) && BucketsBelow(active, |leaves|)
      modifies this`visits
      ensures down == Opening(active, k, leaves, open)
      ensures visits == old(visits) + Visible(shape, Local(shape, k, active))
      ensures Deferred(inter.lists, Local(shape, k, active)) == inter.lists
    {
      ghost var v0 := visits;
      InternalLocal(shape, k, active);
      down := SplitAll(k, active);
      Assoc(v0, NodeCalls(k, Closed(active, k, leaves, open)), [Finish(k, |active| - |down|)]);
      visits := visits + [Finish(k, |active| - |down|)];
    }

    /** The calls at a resolved internal node: `node()` for the closed
        buckets, then `finish`; none of them is deferred. */
    lemma InternalLocal(shape: map<Key, Node>, k: Key, active: seq<nat>)
      requires k in shape && IsOpenable(shape[k].ntype) && BucketsBelow(active, |leaves|)
      ensures Local(shape, k, active) == NodeCalls(k, Closed(active, k, leaves, open)) +
                [Finish(k, |active| - |Opening(active, k, leaves, open)|)]
      ensures Visible(shape, Local(shape, k, active)) == Local(shape, k, active)
      ensures Deferred(inter.lists, Local(shape, k, active)) == inter.lists
    {
      OpeningClosedSplit(active, k, leaves, open);
      var log := Local(shape, k, active);
      UndeferredKeepsAll(shape, log, k);
      RecordNoLeaf(inter.lists, log);
    }

    /** The loop of the internal case: split the active buckets by `open`,
        calling `node()` for the closed ones. */
    method SplitAll(k: Key, active: seq<nat>) returns (down: seq<nat>)
      requires BucketsBelow(active, |leaves|)
      modifies this`visits
      ensures down == Opening(active, k, leaves, open)
      ensures visits == old(visits) + NodeCalls(k, Closed(active, k, leaves, open))
    {
      ghost var v0 := visits;
      ghost var made: seq<Visit> := [];
      down := [];
      SplitPrefixEnds(down, made, active, k, leaves, open);
      var i := 0;
      assert v0 + [] == v0;
      while i < |active|
        invariant SplitPrefix(down, made, active, i, k, leaves, open)
        invariant visits == v0 + made
      {
        var b := active[i];
        assert b < |leaves| by { assert b in active; }
        SplitPrefixStep(down, made, active, i, k, leaves, open);
        if open(k, leaves[b]) {
          down := down + [b];
        } else {
          Assoc(v0, made, [NodeCall(k, b)]);
          made := made + [NodeCall(k, b)];
          visits := visits + [NodeCall(k, b)];
        }
        i := i + 1;
      }
      SplitPrefixEnds(down, made, active, k, leaves, open);
    }

    /** The Boundary / RemoteAboveTPKey / Remote / RemoteLeaf case: park the
        buckets at the key, fetch the node if nobody has yet, and put this
        partition on the key's waiting list. */
    method Park(k: Key, active: seq<nat>, ghost shape: map<Key, Node>)
      requires Valid() && SameKinds(shape, table.nodes) && k in shape && IsUnresolved(shape[k].ntype)
      requires BucketsBelow(active, |leaves|)
      modifies this`currNodes, table`nodes, table`requests, resumer`waiting
      ensures Valid() && SameKinds(shape, table.nodes)
      ensures Effects(shape, old(SharedState()), SharedState(), partIndex)
      ensures currNodes == old(currNodes) + LocalPark(shape, k, active)
    {
      Fetch(k, shape);
      MergeSingleton(currNodes, k, active);
      currNodes := currNodes[k := active];
    }

    /** The one-shot fetch of an unresolved node plus this partition's entry
        on the node's waiting list. */
    method Fetch(k: Key, ghost shape: map<Key, Node>)
      requires table.Valid() && SameKinds(shape, table.nodes) && k in shape && IsUnresolved(shape[k].ntype)
      modifies table`nodes, table`requests, resumer`waiting
      ensures table.Valid() && SameKinds(shape, table.nodes)
      ensures Effects(shape, old(SharedState()), SharedState(), partIndex)
      ensures table.nodes == old(table.nodes)[k := old(table.nodes[k]).(requested := true)]
      ensures table.requests == old(table.requests) +
                (if old(table.nodes[k].requested) then [] else [RequestFor(old(table.nodes[k]), table.thisIndex)])
      ensures resumer.waiting == old(resumer.waiting)[k := Lookup(old(resumer.waiting), k) + [partIndex]]
    {
      ghost var s0 := SharedState();
      SameKindsRequested(shape, table.nodes, k);
      var _ := table.RequestIfFirst(k);
      resumer.AddWaiting(k, partIndex);
      ParkEffects(shape, s0, SharedState(), k, partIndex, [partIndex]);
    }

    /** `recurse(node, active_buckets)`. */
    method Recurse(k: Key, active: seq<nat>, ghost shape: map<Key, Node>)
      requires Valid() && WellFormed(shape) && SameKinds(shape, table.nodes) && k in shape
      requires BucketsBelow(active, |leaves|)
      modifies this`currNodes, this`visits, table`nodes, table`requests, resumer`waiting, inter`lists
      ensures Valid() && SameKinds(shape, table.nodes)
      ensures Effects(shape, old(SharedState()), SharedState(), partIndex)
      ensures visits == old(visits) + Visible(shape, Log(shape, k, active))
      ensures inter.lists == Deferred(old(inter.lists), Log(shape, k, active))
      ensures currNodes == old(currNodes) + Parked(shape, k, active)
      decreases KeyBound(shape.Keys) - k, 2
    {
      ghost var s0 := SharedState();
      var down := Dispatch(k, active, shape);
      ghost var local := Local(shape, k, active);
      ghost var s1 := SharedState();
      ghost var v1 := visits;
      ghost var l1 := inter.lists;
      ghost var c1 := currNodes;
      if down != [] {
        ghost var rest := ChildLogs(shape, k, |shape[k].children|, down);
        RecurseChildren(k, down, shape);
        EffectsTrans(shape, s0, s1, SharedState(), partIndex);
        VisibleConcat(shape, local, rest);
        Assoc(old(visits), Visible(shape, local), Visible(shape, rest));
        DeferredConcat(old(inter.lists), local, rest);
        MergeAssoc(old(currNodes), LocalPark(shape, k, active), ChildParks(shape, k, |shape[k].children|, down));
      } else {
        assert local + [] == local;
        MergeEmpty(LocalPark(shape, k, active));
      }
    }

    /** The loop of `recurse` over a node's children, each with the buckets
        that opened the node. */
    method RecurseChildren(k: Key, down: seq<nat>, ghost shape: map<Key, Node>)
      requires Valid() && WellFormed(shape) && SameKinds(shape, table.nodes) && k in shape
      requires BucketsBelow(down, |leaves|)
      modifies this`currNodes, this`visits, table`nodes, table`requests, resumer`waiting, inter`lists
      ensures Valid() && SameKinds(shape, table.nodes)
      ensures Effects(shape, old(SharedState()), SharedState(), partIndex)
      ensures visits == old(visits) + Visible(shape, ChildLogs(shape, k, |shape[k].children|, down))
      ensures inter.lists == Deferred(old(inter.lists), ChildLogs(shape, k, |shape[k].children|, down))
      ensures currNodes == old(currNodes) + ChildParks(shape, k, |shape[k].children|, down)
      decreases KeyBound(shape.Keys) - k, 1
    {
      var children := table.nodes[k].children;
      assert children == shape[k].children;
      ghost var s0 := SharedState();
      ghost var v0 := visits;
      ghost var l0 := inter.lists;
      ghost var c0 := currNodes;
      NoChildrenDone(shape, k, down);
      var idx := 0;
      while idx < |children|
        invariant 0 <= idx <= |children|
        invariant ChildrenDone(shape, k, idx, down, s0, v0, l0, c0)
      {
        RecurseChild(k, idx, down, shape, s0, v0, l0, c0);
        idx := idx + 1;
      }
    }

    /** The state after recursing into the first `n` children of `k` from
        shared state `s0`, visits `v0`, lists `l0` and parked buckets `c0`. */
    ghost predicate ChildrenDone(shape: map<Key, Node>, k: Key, n: nat, down: seq<nat>,
                                 s0: Shared, v0: seq<Visit>, l0: seq<seq<Key>>, c0: map<Key, seq<nat>>)
      requires WellFormed(shape) && k in shape && n <= |shape[k].children|
      reads this`currNodes, this`visits, table`nodes, table`root, table`requests, resumer`waiting, inter`lists
    {
      && Valid() && SameKinds(shape, table.nodes)
      && Effects(shape, s0, SharedState(), partIndex)
      && visits == v0 + Visible(shape, ChildLogs(shape, k, n, down))
      && inter.lists == Deferred(l0, ChildLogs(shape, k, n, down))
      && currNodes == c0 + ChildParks(shape, k, n, down)
    }

    lemma NoChildrenDone(shape: map<Key, Node>, k: Key, down: seq<nat>)
      requires Valid() && WellFormed(shape) && SameKinds(shape, table.nodes) && k in shape
      requires BucketsBelow(down, |leaves|)
      ensures ChildrenDone(shape, k, 0, down, SharedState(), visits, inter.lists, currNodes)
    {
      EffectsRefl(shape, SharedState(), partIndex);
      assert ChildLogs(shape, k, 0, down) == [];
      assert visits + [] == visits;
      assert Record(inter.lists, []) == inter.lists;
      assert currNodes + map[] == currNodes;
    }

    /** One round of the children loop: `recurse` into child `idx`. */
    method RecurseChild(k: Key, idx: nat, down: seq<nat>, ghost shape: map<Key, Node>,
                        ghost s0: Shared, ghost v0: seq<Visit>, ghost l0: seq<seq<Key>>, ghost c0: map<Key, seq<nat>>)
      requires WellFormed(shape) && k in shape && idx < |shape[k].children| && BucketsBelow(down, |leaves|)
      requires ChildrenDone(shape, k, idx, down, s0, v0, l0, c0)
      modifies this`currNodes, this`visits, table`nodes, table`requests, resumer`waiting, inter`lists
      ensures ChildrenDone(shape, k, idx + 1, down, s0, v0, l0, c0)
      decreases KeyBound(shape.Keys) - k, 0
    {
      var c := table.nodes[k].children[idx];
      ghost var s1 := SharedState();
      ghost var prefix := ChildLogs(shape, k, idx, down);
      ghost var parks := ChildParks(shape, k, idx, down);
      Recurse(c, down, shape);
      EffectsTrans(shape, s0, s1, SharedState(), partIndex);
      ghost var child := Log(shape, c, down);
      assert ChildLogs(shape, k, idx + 1, down) == prefix + child;
      VisibleConcat(shape, prefix, child);
      Assoc(v0, Visible(shape, prefix), Visible(shape, child));
      DeferredConcat(l0, prefix, child);
      MergeAssoc(c0, parks, Parked(shape, c, down));
    }

    /** `start()`: recurse from the root with every bucket. */
    method Start()
      requires Valid()
      modifies this`currNodes, this`visits, table`nodes, table`requests, resumer`waiting, inter`lists
      ensures Valid() && SameKinds(old(table.nodes), table.nodes)
      ensures Effects(old(table.nodes), old(SharedState()), SharedState(), partIndex)
      ensures visits == old(visits) + Visible(old(table.nodes), Log(old(table.nodes), table.root, AllOf(|leaves|)))
      ensures inter.lists == Deferred(old(inter.lists), Log(old(table.nodes), table.root, AllOf(|leaves|)))
      ensures currNodes == old(currNodes) + Parked(old(table.nodes), table.root, AllOf(|leaves|))
    {
      var all := AllBuckets(|leaves|);
      assert all == AllOf(|leaves|);
      Recurse(table.root, all, table.nodes);
    }

    /** `resumeTrav()`: drain this partition's resume queue, recursing from
        each resumed node with the buckets parked on its key and then
        dropping that key. */
    method ResumeTrav()
      requires Valid() && resumer.Queue(partIndex) != [] && AllIn(table.nodes, resumer.Queue(partIndex))
      modifies this`currNodes, this`visits, table`nodes, table`requests, resumer`waiting, resumer`resumeNodes, inter`lists
      ensures Valid() && SameKinds(old(table.nodes), table.nodes)
      ensures Effects(old(table.nodes), old(SharedState()), SharedState(), partIndex)
      ensures resumer.resumeNodes == old(resumer.resumeNodes)[partIndex := []]
      ensures old(visits) <= visits
      ensures forall i :: |old(visits)| <= i < |visits| ==> OnResolved(old(table.nodes), visits[i])
      ensures forall k :: k in old(currNodes) && k !in old(resumer.Queue(partIndex)) ==> k in currNodes
      ensures forall k :: k in currNodes && k !in old(currNodes) ==> Unresolved(old(table.nodes), k)
      ensures forall k :: k in old(resumer.Queue(partIndex)) && !Unresolved(old(table.nodes), k) ==> k !in currNodes
      ensures DrainedTo(old(table.nodes), old(currNodes), old(visits), old(inter.lists), old(resumer.Queue(partIndex)),
                        currNodes, visits, inter.lists)
    {
      ghost var shape := table.nodes;
      ghost var s0 := SharedState();
      ghost var q0 := resumer.Queue(partIndex);
      ghost var c0 := currNodes;
      ghost var v0 := visits;
      ghost var l0 := inter.lists;
      ghost var r0 := resumer.resumeNodes;
      ghost var n := 0;
      EffectsRefl(shape, s0, partIndex);
      assert q0[..0] == [] && q0[0..] == q0;
      assert Visible(shape, []) == [] && v0 + [] == v0;
      while resumer.Queue(partIndex) != []
        invariant 0 <= n <= |q0| && Valid() && SameKinds(shape, table.nodes)
        invariant Resumed(shape, s0, c0, v0, r0, q0, n, SharedState(), currNodes, visits, resumer.resumeNodes)
        invariant AllIn(shape, q0[..n]) && DrainedTo(shape, c0, v0, l0, q0[..n], currNodes, visits, inter.lists)
        decreases |q0| - n
      {
        ResumeNext(shape, s0, c0, v0, l0, r0, q0, n);
        n := n + 1;
      }
      assert resumer.Queue(partIndex) == [] && q0[n..] == [] && q0[..n] == q0;
      ResumedAll(shape, s0, c0, v0, r0, q0, n, SharedState(), currNodes, visits, resumer.resumeNodes);
    }

    /** The turn of `resumeTrav`'s loop for the key `q0[n]`. */
    method ResumeNext(ghost shape: map<Key, Node>, ghost s0: Shared, ghost c0: map<Key, seq<nat>>, ghost v0: seq<Visit>,
                      ghost l0: seq<seq<Key>>, ghost r0: map<nat, seq<Key>>, ghost q0: seq<Key>, ghost n: nat)
      requires n <= |q0| && Valid() && WellFormed(shape) && SameKinds(shape, table.nodes) && AllIn(shape, q0)
      requires Resumed(shape, s0, c0, v0, r0, q0, n, SharedState(), currNodes, visits, resumer.resumeNodes)
      requires AllIn(shape, q0[..n]) && DrainedTo(shape, c0, v0, l0, q0[..n], currNodes, visits, inter.lists)
      requires resumer.Queue(partIndex) != []
      modifies this`currNodes, this`visits, table`nodes, table`requests, resumer`waiting, resumer`resumeNodes, inter`lists
      ensures n < |q0| && Valid() && SameKinds(shape, table.nodes)
      ensures Resumed(shape, s0, c0, v0, r0, q0, n + 1, SharedState(), currNodes, visits, resumer.resumeNodes)
      ensures AllIn(shape, q0[..n + 1]) && DrainedTo(shape, c0, v0, l0, q0[..n + 1], currNodes, visits, inter.lists)
    {
      ghost var s1, c1, v1, r1, l1 := SharedState(), currNodes, visits, resumer.resumeNodes, inter.lists;
      assert resumer.Queue(partIndex) == q0[n..];
      assert AllIn(shape, q0[n..]);
      ghost var step, key := ResumeOne(shape);
      ResumedStep(shape, s0, c0, v0, r0, q0, n, s1, c1, v1, r1, SharedState(), currNodes, visits, resumer.resumeNodes, step, key);
      DrainedStep(shape, c0, v0, l0, q0, n, c1, v1, l1, currNodes, visits, inter.lists, key);
    }

    /** The buckets parked after resuming the keys `q`, in order, from the
        parked buckets `c0`: each key's buckets recurse from it with what
        is parked there, and then its entry is erased. */
    ghost function Drained(shape: map<Key, Node>, c0: map<Key, seq<nat>>, q: seq<Key>): map<Key, seq<nat>>
      requires WellFormed(shape) && AllIn(shape, q)
      decreases |q|
    {
      if q == [] then c0
      else
        var c := Drained(shape, c0, q[..|q| - 1]);
        var k := q[|q| - 1];
        (c + Parked(shape, k, Lookup(c, k))) - {k}
    }

    /** The calls, made or deferred, of resuming the keys `q` in order. */
    ghost function DrainLog(shape: map<Key, Node>, c0: map<Key, seq<nat>>, q: seq<Key>): seq<Visit>
      requires WellFormed(shape) && AllIn(shape, q)
      decreases |q|
    {
      if q == [] then []
      else
        var k := q[|q| - 1];
        DrainLog(shape, c0, q[..|q| - 1]) + Log(shape, k, Lookup(Drained(shape, c0, q[..|q| - 1]), k))
    }

    /** Parked buckets `c`, visits `v` and deferred lists `l` are those of
        resuming the keys `q` in order from `c0`, `v0` and `l0`. */
    ghost predicate DrainedTo(shape: map<Key, Node>, c0: map<Key, seq<nat>>, v0: seq<Visit>, l0: seq<seq<Key>>, q: seq<Key>,
                              c: map<Key, seq<nat>>, v: seq<Visit>, l: seq<seq<Key>>)
    {
      && WellFormed(shape) && AllIn(shape, q)
      && c == Drained(shape, c0, q)
      && v == v0 + Visible(shape, DrainLog(shape, c0, q))
      && l == Deferred(l0, DrainLog(shape, c0, q))
    }

    /** Resuming one more key extends the drain by that key's recursion. */
    lemma DrainedStep(shape: map<Key, Node>, c0: map<Key, seq<nat>>, v0: seq<Visit>, l0: seq<seq<Key>>, q0: seq<Key>, n: nat,
                      c1: map<Key, seq<nat>>, v1: seq<Visit>, l1: seq<seq<Key>>,
                      c2: map<Key, seq<nat>>, v2: seq<Visit>, l2: seq<seq<Key>>, key: Key)
      requires n < |q0| && key == q0[n] && WellFormed(shape) && AllIn(shape, q0[..n]) && key in shape
      requires DrainedTo(shape, c0, v0, l0, q0[..n], c1, v1, l1)
      requires v2 == v1 + Visible(shape, Log(shape, key, Lookup(c1, key)))
      requires l2 == Deferred(l1, Log(shape, key, Lookup(c1, key)))
      requires c2 == (c1 + Parked(shape, key, Lookup(c1, key))) - {key}
      ensures AllIn(shape, q0[..n + 1]) && DrainedTo(shape, c0, v0, l0, q0[..n + 1], c2, v2, l2)
    {
      TakeOneMore(q0, n);
      DrainSnoc(shape, c0, q0[..n], key);
      var pre := DrainLog(shape, c0, q0[..n]);
      var step := Log(shape, key, Lookup(c1, key));
      VisibleConcat(shape, pre, step);
      Assoc(v0, Visible(shape, pre), Visible(shape, step));
      DeferredConcat(l0, pre, step);
    }

    /** The drain of `q + [key]` unfolds into that of `q` and `key`'s recursion. */
    lemma DrainSnoc(shape: map<Key, Node>, c0: map<Key, seq<nat>>, q: seq<Key>, key: Key)
      requires WellFormed(shape) && AllIn(shape, q) && key in shape
      ensures AllIn(shape, q + [key])
      ensures var c := Drained(shape, c0, q);
        && Drained(shape, c0, q + [key]) == (c + Parked(shape, key, Lookup(c, key))) - {key}
        && DrainLog(shape, c0, q + [key]) == DrainLog(shape, c0, q) + Log(shape, key, Lookup(c, key))
    {
      assert (q + [key])[..|q|] == q;
    }

    /** Once the whole queue is processed, what `resumeTrav` promises holds. */
    lemma ResumedAll(shape: map<Key, Node>, s0: Shared, c0: map<Key, seq<nat>>, v0: seq<Visit>,
                     r0: map<nat, seq<Key>>, q0: seq<Key>, n: nat,
                     s: Shared, c: map<Key, seq<nat>>, v: seq<Visit>, r: map<nat, seq<Key>>)
      requires n <= |q0| && q0[n..] == [] && Resumed(shape, s0, c0, v0, r0, q0, n, s, c, v, r)
      ensures Effects(shape, s0, s, partIndex) && r == r0[partIndex := []] && v0 <= v
      ensures forall i :: |v0| <= i < |v| ==> OnResolved(shape, v[i])
      ensures forall k :: k in c0 && k !in q0 ==> k in c
      ensures forall k :: k in c && k !in c0 ==> Unresolved(shape, k)
      ensures forall k :: k in q0 && !Unresolved(shape, k) ==> k !in c
    {
      assert n == |q0| && q0[..n] == q0;
    }

    /** The `resumeTrav` loop after the first `n` keys of the queue `q0`,
        from shared state `s0`, parked buckets `c0`, visits `v0` and queues `r0`. */
    ghost predicate Resumed(shape: map<Key, Node>, s0: Shared, c0: map<Key, seq<nat>>, v0: seq<Visit>,
                            r0: map<nat, seq<Key>>, q0: seq<Key>, n: nat,
                            s: Shared, c: map<Key, seq<nat>>, v: seq<Visit>, r: map<nat, seq<Key>>)
      requires n <= |q0|
    {
      && r == r0[partIndex := q0[n..]]
      && Effects(shape, s0, s, partIndex)
      && v0 <= v && (forall i :: |v0| <= i < |v| ==> OnResolved(shape, v[i]))
      && (forall k :: k in c0 && k !in q0[..n] ==> k in c)
      && (forall k :: k in c && k !in c0 ==> Unresolved(shape, k))
      && (forall k :: k in q0[..n] && !Unresolved(shape, k) ==> k !in c)
    }

    lemma ResumedStep(shape: map<Key, Node>, s0: Shared, c0: map<Key, seq<nat>>, v0: seq<Visit>,
                      r0: map<nat, seq<Key>>, q0: seq<Key>, n: nat,
                      s1: Shared, c1: map<Key, seq<nat>>, v1: seq<Visit>, r1: map<nat, seq<Key>>,
                      s2: Shared, c2: map<Key, seq<nat>>, v2: seq<Visit>, r2: map<nat, seq<Key>>,
                      made: seq<Visit>, key: Key)
      requires n < |q0| && Resumed(shape, s0, c0, v0, r0, q0, n, s1, c1, v1, r1)
      requires Effects(shape, s1, s2, partIndex)
      requires key == q0[n] && r2 == r1[partIndex := q0[n + 1..]]
      requires v2 == v1 + made && ResumedOne(shape, made, key, c1, c2)
      ensures Resumed(shape, s0, c0, v0, r0, q0, n + 1, s2, c2, v2, r2)
    {
      EffectsTrans(shape, s0, s1, s2, partIndex);
      assert q0[..n + 1] == q0[..n] + [key];
      forall i | |v0| <= i < |v2| ensures OnResolved(shape, v2[i]) {
        if i >= |v1| {
          assert v2[i] == made[i - |v1|];
        }
      }
    }

    /** What one turn of the `resumeTrav` loop does at `key`, beyond the
        shared state: its calls are on resolved nodes, the key's entry is
        erased, other entries stay, and new entries are at unresolved nodes. */
    ghost predicate ResumedOne(shape: map<Key, Node>, made: seq<Visit>, key: Key, c1: map<Key, seq<nat>>, c2: map<Key, seq<nat>>) {
      && (forall v :: v in made ==> OnResolved(shape, v))
      && key !in c2
      && (forall k :: k in c1 && k != key ==> k in c2)
      && (forall k :: k in c2 && k !in c1 ==> Unresolved(shape, k))
    }

    lemma ResumeFacts(shape: map<Key, Node>, key: Key, ready: seq<nat>, c1: map<Key, seq<nat>>)
      requires WellFormed(shape) && key in shape
      ensures ResumedOne(shape, Visible(shape, Log(shape, key, ready)), key, c1, (c1 + Parked(shape, key, ready)) - {key})
    {
      LogFacts(shape, key, ready);
      ParkedFacts(shape, key, ready);
      UndeferredSub(shape, Log(shape, key, ready));
    }

    /** One turn of the `resumeTrav` loop: pop the front of the queue, recurse
        from it with the buckets parked on its key, erase that key. */
    method ResumeOne(ghost shape: map<Key, Node>) returns (ghost made: seq<Visit>, ghost key: Key)
      requires Valid() && WellFormed(shape) && SameKinds(shape, table.nodes)
      requires resumer.Queue(partIndex) != [] && AllIn(shape, resumer.Queue(partIndex))
      modifies this`currNodes, this`visits, table`nodes, table`requests, resumer`waiting, resumer`resumeNodes, inter`lists
      ensures Valid() && SameKinds(shape, table.nodes)
      ensures Effects(shape, old(SharedState()), SharedState(), partIndex)
      ensures key == old(resumer.Queue(partIndex))[0]
      ensures resumer.resumeNodes == old(resumer.resumeNodes)[partIndex := old(resumer.Queue(partIndex))[1..]]
      ensures visits == old(visits) + made && ResumedOne(shape, made, key, old(currNodes), currNodes)
      ensures made == Visible(shape, Log(shape, key, Lookup(old(currNodes), key)))
      ensures inter.lists == Deferred(old(inter.lists), Log(shape, key, Lookup(old(currNodes), key)))
      ensures currNodes == (old(currNodes) + Parked(shape, key, Lookup(old(currNodes), key))) - {key}
    {
      var k := resumer.PopResume(partIndex);
      key := k;
      var nowReady := Lookup(currNodes, k);
      ResumeFacts(shape, k, nowReady, currNodes);
      Recurse(k, nowReady, shape);
      made := Visible(shape, Log(shape, k, nowReady));
      currNodes := currNodes - {k};
    }

    /** `interact()`: replay the deferred leaf interactions. */
    method Interact()
      modifies this`visits
      ensures visits == old(visits) + Replay(inter.lists)
    {
      var calls := InteractBase(inter.lists);
      visits := visits + calls;
    }
  }

  /** The first n + 1 elements are the first n and then element n. */
  lemma TakeOneMore<T>(q: seq<T>, n: nat)
    requires n < |q|
    ensures q[..n + 1] == q[..n] + [q[n]]
  {
  }

  ghost function AllOf(n: nat): (r: seq<nat>)
    ensures |r| == n && forall i :: 0 <= i < n ==> r[i] == i
  {
    seq(n, i => i)
  }

  lemma MergeAssoc<K, V>(a: map<K, V>, b: map<K, V>, c: map<K, V>)
    ensures a + (b + c) == (a + b) + c
  {
  }

  lemma MergeSingleton<K, V>(a: map<K, V>, k: K, v: V)
    ensures a + map[k := v] == a[k := v]
  {
  }

  lemma MergeEmpty<K, V>(a: map<K, V>)
    ensures a + map[] == a
  {
  }

  /** Parking at an unresolved key: its request flag is set, at most one
      fetch for it is sent, and its waiting list gains copies of `part`. */
  lemma ParkEffects(shape: map<Key, Node>, s: Shared, t: Shared, k: Key, part: nat, extra: seq<nat>)
    requires Unresolved(shape, k) && k in s.nodes
    requires t.nodes == s.nodes[k := s.nodes[k].(requested := true)]
    requires t.requests == s.requests || (|t.requests| == |s.requests| + 1 && t.requests[..|s.requests|] == s.requests && t.requests[|s.requests|].key == k)
    requires t.waiting == s.waiting[k := Lookup(s.waiting, k) + extra]
    requires forall i :: 0 <= i < |extra| ==> extra[i] == part
    ensures Effects(shape, s, t, part)
  {
    assert SameKinds(s.nodes, t.nodes);
    assert FetchesGrow(shape, s.requests, t.requests);
  }

  lemma {:induction false} UndeferredNone(shape: map<Key, Node>, calls: seq<Visit>, k: Key)
    requires k in shape && IsLeafKind(shape[k].ntype)
    requires forall i :: 0 <= i < |calls| ==> calls[i].source == k
    ensures Undeferred(shape, calls) == []
  {
    if calls != [] {
      UndeferredNone(shape, calls[..|calls| - 1], k);
    }
  }

  lemma {:induction false} UndeferredKeepsAll(shape: map<Key, Node>, calls: seq<Visit>, k: Key)
    requires k in shape && !IsLeafKind(shape[k].ntype)
    requires forall i :: 0 <= i < |calls| ==> calls[i].source == k
    ensures Undeferred(shape, calls) == calls
  {
    if calls != [] {
      var pre, v := calls[..|calls| - 1], calls[|calls| - 1];
      UndeferredKeepsAll(shape, pre, k);
      assert v.source == k;
      assert Undeferred(shape, calls) == pre + [v];
      assert calls == pre + [v];
    }
  }

}

=== FILE: node_table.dfy ===
/** The cache manager's local branch, as far as the traversal engine and the
    partitions use it: the shared node table, the one-shot fetch per node, and
    the bookkeeping for leaves and subtree copies. */
module NodeTable {
  import opened Nodes

  /** Every key has been fetched at most once, and only after its node's
      `requested` flag was set. */
  ghost predicate FetchedOnce(nodes: map<Key, Node>, requests: seq<Request>) {
    && (forall i, j :: 0 <= i < j < |requests| ==> requests[i].key != requests[j].key)
    && (forall i :: 0 <= i < |requests| ==>
          requests[i].key in nodes && nodes[requests[i].key].requested)
  }

  function CountFetches(requests: seq<Request>, k: Key): (c: nat)
    ensures c <= |requests|
  {
    if requests == [] then 0
    else CountFetches(requests[..|requests| - 1], k) + (if requests[|requests| - 1].key == k then 1 else 0)
  }

  /** Fetch at most once per node: under `FetchedOnce` no key occurs twice in the fetch log. */
  lemma {:induction false} AtMostOneFetch(nodes: map<Key, Node>, requests: seq<Request>, k: Key)
    requires FetchedOnce(nodes, requests)
    ensures CountFetches(requests, k) <= 1
    ensures CountFetches(requests, k) == 1 ==> k in nodes && nodes[k].requested
  {
    if requests != [] {
      var pre := requests[..|requests| - 1];
      assert FetchedOnce(nodes, pre);
      AtMostOneFetch(nodes, pre, k);
      if requests[|requests| - 1].key == k {
        forall i | 0 <= i < |pre| ensures pre[i].key != k {
          assert requests[i].key != requests[|requests| - 1].key;
        }
        AbsentKeyNoFetch(pre, k);
      }
    }
  }

  lemma {:induction false} AbsentKeyNoFetch(requests: seq<Request>, k: Key)
    requires forall i :: 0 <= i < |requests| ==> requests[i].key != k
    ensures CountFetches(requests, k) == 0
  {
    if requests != [] {
      AbsentKeyNoFetch(requests[..|requests| - 1], k);
    }
  }

  class Cache {
    const thisIndex: nat
    var nodes: map<Key, Node>
    var root: Key
    var localTps: set<Key>
    var leafLookup: map<Key, Node>
    var subtreeCopyStarted: map<int, seq<nat>>
    var numBuckets: int
    ghost var requests: seq<Request>
    /** The subtree indices a `requestCopy` was sent for, in order. */
    ghost var copyRequests: seq<int>

    ghost predicate Valid()
      reads this`nodes, this`root, this`requests
    {
      WellFormed(nodes) && root in nodes && FetchedOnce(nodes, requests)
    }

    constructor (index: nat, tree: map<Key, Node>, rootKey: Key)
      requires WellFormed(tree) && rootKey in tree
      ensures Valid()
      ensures thisIndex == index && nodes == tree && root == rootKey && requests == []
      ensures localTps == {} && leafLookup == map[] && subtreeCopyStarted == map[] && numBuckets == 0
      ensures copyRequests == [] && CopyValid()
    {
      thisIndex := index;
      nodes := tree;
      root := rootKey;
      localTps := {};
      leafLookup := map[];
      subtreeCopyStarted := map[];
      numBuckets := 0;
      requests := [];
      copyRequests := [];
    }

    /** Each started subtree copy was requested exactly once, by the first
        partition that asked for it, and has at least that partition listed. */
    ghost predicate CopyValid()
      reads this`subtreeCopyStarted, this`copyRequests
    {
      && (forall i, j :: 0 <= i < j < |copyRequests| ==> copyRequests[i] != copyRequests[j])
      && (forall s :: s in copyRequests <==> s in subtreeCopyStarted)
      && (forall s :: s in subtreeCopyStarted ==> subtreeCopyStarted[s] != [])
    }

    /** `requested.exchange(true)`, and the fetch that only the caller who
        flipped the flag sends: Boundary and RemoteAboveTPKey nodes go to the
        canopy, Remote and RemoteLeaf nodes to the owning cache manager. */
    method RequestIfFirst(k: Key) returns (first: bool)
      requires Valid() && k in nodes
      modifies this`nodes, this`requests
      ensures Valid()
      ensures first == !old(nodes[k].requested)
      ensures nodes == old(nodes)[k := old(nodes[k]).(requested := true)]
      ensures requests == old(requests) + (if first then [RequestFor(old(nodes[k]), thisIndex)] else [])
    {
      first := !nodes[k].requested;
      var n := nodes[k];
      nodes := nodes[k := n.(requested := true)];
      if first {
        requests := requests + [RequestFor(n, thisIndex)];
      }
      assert SameShape(old(nodes), nodes);
      SameShapeWellFormed(old(nodes), nodes);
    }

    /** Overwrites a node's kind (the up-and-down climb retypes the siblings of a Boundary parent). */
    method Retype(k: Key, t: NodeType)
      requires Valid() && k in nodes
      modifies this`nodes
      ensures Valid()
      ensures nodes == old(nodes)[k := old(nodes[k]).(ntype := t)]
    {
      nodes := nodes[k := nodes[k].(ntype := t)];
      assert SameShape(old(nodes), nodes);
      SameShapeWellFormed(old(nodes), nodes);
    }
  }
}

=== FILE: nodes.dfy ===
/** Tree nodes as the traversal engine sees them: a key, a kind, children and
    parent given as keys into a node table, and the one-shot `requested` flag. */
module Nodes {

  type Key = nat

  datatype Option<T> = None | Some(value: T)

  /** The node kinds of the spatial tree. `EmptyLeaf` is the kind that every
      traversal switch sends to its default (do-nothing) branch. */
  datatype NodeType =
    | Internal | Leaf | EmptyLeaf
    | Boundary | RemoteAboveTPKey | Remote | RemoteLeaf
    | CachedRemote | CachedRemoteLeaf | CachedBoundary

  /** Kinds whose particles are resident: a traversal records or applies a leaf interaction. */
  predicate IsLeafKind(t: NodeType) {
    t == Leaf || t == CachedRemoteLeaf
  }

  /** Resolved internal kinds: the `open` test decides whether to descend. */
  predicate IsOpenable(t: NodeType) {
    t == Internal || t == CachedBoundary || t == CachedRemote
  }

  /** Kinds whose data is not here yet: buckets are parked and a fetch may be issued. */
  predicate IsUnresolved(t: NodeType) {
    t == Boundary || t == RemoteAboveTPKey || t == Remote || t == RemoteLeaf
  }

  /** Unresolved kinds that are fetched through the tree canopy (directory)
      rather than through the cache manager. */
  predicate RoutedToCanopy(t: NodeType) {
    t == Boundary || t == RemoteAboveTPKey
  }

  /** A particle, reduced to what the core reads: its global output order,
      the partition that owns it, and its key. Position, mass and velocity are
      floating point and are not part of this model. */
  datatype Particle = Particle(order: int, partitionIdx: int, key: Key)

  datatype Node = Node(
    key: Key,
    depth: nat,
    ntype: NodeType,
    children: seq<Key>,
    parent: Option<Key>,
    requested: bool,
    cmIndex: nat,
    homePe: int,
    particles: seq<Particle>)

  /** An outbound fetch: `requestData` on the tree canopy element for the key,
      or `requestNodes` on the cache manager that owns the node. */
  datatype Request =
    | RequestData(key: Key, requester: nat)
    | RequestNodes(owner: nat, key: Key, requester: nat)

  /** The fetch a traversal issues for an unresolved node. */
  function RequestFor(n: Node, requester: nat): (r: Request)
    ensures r.key == n.key && r.requester == requester
    ensures r.RequestData? <==> RoutedToCanopy(n.ntype)
    ensures r.RequestNodes? ==> r.owner == n.cmIndex
  {
    if RoutedToCanopy(n.ntype) then RequestData(n.key, requester)
    else RequestNodes(n.cmIndex, n.key, requester)
  }

  /** The node table is keyed consistently, every child is present and has a
      larger key (a child key extends its parent's path), and every parent is
      present and has a smaller key. */
  ghost predicate WellFormed(nodes: map<Key, Node>) {
    && (forall k {:trigger nodes[k]} :: k in nodes ==> nodes[k].key == k)
    && (forall k, i :: k in nodes && 0 <= i < |nodes[k].children| ==>
          nodes[k].children[i] in nodes && nodes[k].children[i] > k)
    && (forall k {:trigger nodes[k]} :: k in nodes && nodes[k].parent.Some? ==>
          nodes[k].parent.value in nodes && nodes[k].parent.value < k)
  }

  /** Two tables with the same keys, children and parents (kinds and request flags may differ). */
  ghost predicate SameShape(a: map<Key, Node>, b: map<Key, Node>) {
    && a.Keys == b.Keys
    && forall k {:trigger a[k]} {:trigger b[k]} :: k in a ==>
         b[k].key == a[k].key && b[k].children == a[k].children && b[k].parent == a[k].parent
  }

  /** Same shape and same kinds: only request flags may differ. */
  ghost predicate SameKinds(a: map<Key, Node>, b: map<Key, Node>) {
    SameShape(a, b) && forall k {:trigger a[k]} {:trigger b[k]} :: k in a ==> b[k].ntype == a[k].ntype
  }

  /** Setting a request flag keeps a table's kinds and shape. */
  lemma SameKindsRequested(shape: map<Key, Node>, nodes: map<Key, Node>, k: Key)
    requires SameKinds(shape, nodes) && k in nodes
    ensures SameKinds(shape, nodes[k := nodes[k].(requested := true)])
  {
  }

  /** Request flags are only ever set, never cleared. */
  ghost predicate RequestedMonotone(a: map<Key, Node>, b: map<Key, Node>) {
    forall k {:trigger a[k]} {:trigger b[k]} :: k in a && k in b && a[k].requested ==> b[k].requested
  }

  lemma SameKindsTrans(a: map<Key, Node>, b: map<Key, Node>, c: map<Key, Node>)
    requires SameKinds(a, b) && SameKinds(b, c)
    ensures SameKinds(a, c)
  {
  }

  lemma SameShapeWellFormed(a: map<Key, Node>, b: map<Key, Node>)
    requires WellFormed(a) && SameShape(a, b)
    ensures WellFormed(b)
  {
    forall k, i | k in b && 0 <= i < |b[k].children|
      ensures b[k].children[i] in b && b[k].children[i] > k
    {
      assert a[k].children[i] == b[k].children[i];
    }
  }

  /** An upper bound of a finite set of keys. */
  ghost function KeyBound(ks: set<Key>): (b: nat)
    ensures forall k :: k in ks ==> k <= b
    decreases ks
  {
    if ks == {} then 0
    else
      var x :| x in ks;
      var r := KeyBound(ks - {x});
      assert forall k :: k in ks ==> k == x || k in ks - {x};
      if x > r then x else r
  }

  /** Number of stack pops a depth-first walk from `k` performs when every
      popped node pushes `m` copies of each of its children (m = 1 for the
      ordinary walks; m > 1 for the dual walk that pairs each child with each
      child of a fixed payload). */
  ghost function Size(nodes: map<Key, Node>, k: Key, m: nat): (s: nat)
    requires WellFormed(nodes) && k in nodes
    ensures s >= 1
    decreases KeyBound(nodes.Keys) - k, 1, 0
  {
    1 + m * ChildSizes(nodes, k, m, 0)
  }

  ghost function ChildSizes(nodes: map<Key, Node>, k: Key, m: nat, i: nat): nat
    requires WellFormed(nodes) && k in nodes && i <= |nodes[k].children|
    decreases KeyBound(nodes.Keys) - k, 0, |nodes[k].children| - i
  {
    if i == |nodes[k].children| then 0
    else Size(nodes, nodes[k].children[i], m) + ChildSizes(nodes, k, m, i + 1)
  }

  ghost predicate AllIn(nodes: map<Key, Node>, s: seq<Key>) {
    forall i :: 0 <= i < |s| ==> s[i] in nodes
  }

  /** Sum of the walk sizes of every key on a stack. */
  ghost function StackSize(nodes: map<Key, Node>, s: seq<Key>, m: nat): nat
    requires WellFormed(nodes) && AllIn(nodes, s)
  {
    if s == [] then 0 else StackSize(nodes, s[..|s| - 1], m) + Size(nodes, s[|s| - 1], m)
  }

  lemma {:induction false} StackSizeAppend(nodes: map<Key, Node>, a: seq<Key>, b: seq<Key>, m: nat)
    requires WellFormed(nodes) && AllIn(nodes, a) && AllIn(nodes, b)
    ensures AllIn(nodes, a + b)
    ensures StackSize(nodes, a + b, m) == StackSize(nodes, a, m) + StackSize(nodes, b, m)
    decreases |b|
  {
    if b == [] {
      assert a + b == a;
    } else {
      var b' := b[..|b| - 1];
      assert (a + b)[..|a + b| - 1] == a + b';
      StackSizeAppend(nodes, a, b', m);
    }
  }

  lemma {:induction false} ChildSizesIsStackSize(nodes: map<Key, Node>, k: Key, m: nat, i: nat)
    requires WellFormed(nodes) && k in nodes && i <= |nodes[k].children|
    ensures AllIn(nodes, nodes[k].children[i..])
    ensures ChildSizes(nodes, k, m, i) == StackSize(nodes, nodes[k].children[i..], m)
    decreases |nodes[k].children| - i
  {
    var cs := nodes[k].children;
    if i < |cs| {
      ChildSizesIsStackSize(nodes, k, m, i + 1);
      assert cs[i..] == [cs[i]] + cs[i + 1..];
      StackSizeAppend(nodes, [cs[i]], cs[i + 1..], m);
      assert [cs[i]][..0] == [];
    }
  }

  /** Popping `k` off a stack and pushing its children (m = 1) shrinks the
      stack's walk size by exactly one. */
  lemma PopPushChildren(nodes: map<Key, Node>, rest: seq<Key>, k: Key)
    requires WellFormed(nodes) && AllIn(nodes, rest) && k in nodes
    ensures AllIn(nodes, rest + nodes[k].children)
    ensures StackSize(nodes, rest + nodes[k].children, 1) + 1 == StackSize(nodes, rest + [k], 1)
  {
    ChildSizesIsStackSize(nodes, k, 1, 0);
    assert nodes[k].children[0..] == nodes[k].children;
    StackSizeAppend(nodes, rest, nodes[k].children, 1);
    assert (rest + [k])[..|rest + [k]| - 1] == rest;
  }

  /** Walk sizes depend only on keys and children. */
  lemma {:induction false} SizeSameShape(a: map<Key, Node>, b: map<Key, Node>, k: Key, m: nat)
    requires WellFormed(a) && SameShape(a, b) && k in a
    ensures WellFormed(b) && Size(a, k, m) == Size(b, k, m)
    decreases KeyBound(a.Keys) - k, 1, 0
  {
    SameShapeWellFormed(a, b);
    ChildSizesSameShape(a, b, k, m, 0);
  }

  lemma {:induction false} ChildSizesSameShape(a: map<Key, Node>, b: map<Key, Node>, k: Key, m: nat, i: nat)
    requires WellFormed(a) && SameShape(a, b) && k in a && i <= |a[k].children|
    ensures WellFormed(b) && ChildSizes(a, k, m, i) == ChildSizes(b, k, m, i)
    decreases KeyBound(a.Keys) - k, 0, |a[k].children| - i
  {
    SameShapeWellFormed(a, b);
    if i < |a[k].children| {
      SizeSameShape(a, b, a[k].children[i], m);
      ChildSizesSameShape(a, b, k, m, i + 1);
    }
  }
}

=== FILE: particles.dfy ===
/** Particle bookkeeping shared by the partition and the writers: sorting by
    global output order, the filter of the particles a partition owns, the
    integer arithmetic of the output chunks, and the chunking loop itself. */
module Particles {
  import opened Nodes

  /** Ascending by `order` (`left.order < right.order` as the sort's comparison). */
  ghost predicate SortedByOrder(s: seq<Particle>) {
    forall i, j :: 0 <= i < j < |s| ==> s[i].order <= s[j].order
  }

  /** One insertion into a sorted sequence: after every particle of smaller
      or equal order. */
  method Insert(s: seq<Particle>, p: Particle) returns (r: seq<Particle>)
    requires SortedByOrder(s)
    ensures SortedByOrder(r) && multiset(r) == multiset(s) + multiset{p}
  {
    var j := 0;
    while j < |s| && s[j].order <= p.order
      invariant 0 <= j <= |s|
      invariant forall i :: 0 <= i < j ==> s[i].order <= p.order
    {
      j := j + 1;
    }
    r := s[..j] + [p] + s[j..];
    assert s == s[..j] + s[j..];
    InsertSorted(s, p, j);
  }

  lemma InsertSorted(s: seq<Particle>, p: Particle, j: nat)
    requires SortedByOrder(s) && j <= |s|
    requires forall i :: 0 <= i < j ==> s[i].order <= p.order
    requires j < |s| ==> p.order < s[j].order
    ensures SortedByOrder(s[..j] + [p] + s[j..])
  {
    var r := s[..j] + [p] + s[j..];
    assert forall i :: 0 <= i < |r| ==> r[i] == if i < j then s[i] else if i == j then p else s[i - 1];
  }

  /** `std::sort` by `order`: a sorted permutation of the input. The sort is
      not stable, so particles of equal order may come out in any order; this
      model picks one of those orders. */
  method SortByOrder(ps: seq<Particle>) returns (r: seq<Particle>)
    ensures SortedByOrder(r) && multiset(r) == multiset(ps)
  {
    r := [];
    var i := 0;
    while i < |ps|
      invariant 0 <= i <= |ps|
      invariant SortedByOrder(r) && multiset(r) == multiset(ps[..i])
    {
      r := Insert(r, ps[i]);
      assert ps[..i + 1] == ps[..i] + [ps[i]];
      i := i + 1;
    }
    assert ps[..i] == ps;
  }

  /** Sorting keeps the length, and a sorted input keeps its orders position by position. */
  lemma SortedUnique(a: seq<Particle>, b: seq<Particle>)
    requires SortedByOrder(a) && SortedByOrder(b) && multiset(a) == multiset(b)
    ensures |a| == |b|
    ensures forall i :: 0 <= i < |a| ==> a[i].order == b[i].order
  {
    assert |a| == |multiset(a)| == |multiset(b)| == |b|;
    forall i | 0 <= i < |a| ensures a[i].order == b[i].order {
      SortedSameOrderAt(a, b, i);
    }
  }

  /** How many particles of `s` have order below `o`. */
  function CountBelow(s: seq<Particle>, o: int): nat {
    if s == [] then 0 else CountBelow(s[..|s| - 1], o) + (if s[|s| - 1].order < o then 1 else 0)
  }

  lemma {:induction false} CountBelowMultiset(a: seq<Particle>, b: seq<Particle>, o: int)
    requires multiset(a) == multiset(b)
    ensures CountBelow(a, o) == CountBelow(b, o)
    decreases |a|
  {
    if a != [] {
      var x := a[|a| - 1];
      assert x in multiset(b);
      var j :| 0 <= j < |b| && b[j] == x;
      var b' := b[..j] + b[j + 1..];
      assert b == b[..j] + [x] + b[j + 1..];
      assert a == a[..|a| - 1] + [x];
      assert multiset(a) == multiset(a[..|a| - 1]) + multiset{x};
      assert multiset(b) == multiset(b[..j]) + multiset{x} + multiset(b[j + 1..]);
      assert multiset(b') == multiset(b[..j]) + multiset(b[j + 1..]);
      assert multiset(a[..|a| - 1]) == multiset(a) - multiset{x};
      assert multiset(b') == multiset(b) - multiset{x};
      CountBelowMultiset(a[..|a| - 1], b', o);
      CountBelowRemove(b, j, o);
    }
  }

  lemma {:induction false} CountBelowRemove(b: seq<Particle>, j: nat, o: int)
    requires j < |b|
    ensures CountBelow(b, o) == CountBelow(b[..j] + b[j + 1..], o) + (if b[j].order < o then 1 else 0)
    decreases |b|
  {
    if j < |b| - 1 {
      var pre := b[..|b| - 1];
      CountBelowRemove(pre, j, o);
      assert (b[..j] + b[j + 1..])[..|b| - 2] == pre[..j] + pre[j + 1..];
      assert (b[..j] + b[j + 1..])[|b| - 2] == b[|b| - 1];
    } else {
      assert b[..j] + b[j + 1..] == b[..|b| - 1];
    }
  }

  /** In a sorted sequence, the particles below the order at i are a prefix no longer than i. */
  lemma {:induction false} CountBelowSorted(s: seq<Particle>, i: nat)
    requires SortedByOrder(s) && i < |s|
    ensures CountBelow(s, s[i].order) <= i
    ensures forall j :: 0 <= j < |s| && s[j].order == s[i].order ==> CountBelow(s, s[i].order) <= j
    ensures CountBelow(s, s[i].order + 1) > i
    decreases |s|
  {
    CountBelowPrefix(s, s[i].order);
    CountBelowPrefix(s, s[i].order + 1);
  }

  /** In a sorted sequence, CountBelow(s, o) is the length of the prefix below o. */
  lemma {:induction false} CountBelowPrefix(s: seq<Particle>, o: int)
    requires SortedByOrder(s)
    ensures CountBelow(s, o) <= |s|
    ensures forall j :: 0 <= j < CountBelow(s, o) ==> s[j].order < o
    ensures forall j :: CountBelow(s, o) <= j < |s| ==> s[j].order >= o
    decreases |s|
  {
    if s != [] {
      var pre := s[..|s| - 1];
      assert SortedByOrder(pre);
      CountBelowPrefix(pre, o);
      if s[|s| - 1].order < o {
        forall j | 0 <= j < CountBelow(s, o) ensures s[j].order < o {
          if j < |pre| {
            assert s[j] == pre[j];
          }
        }
        forall j | 0 <= j < |pre| ensures s[j].order < o {
          assert s[j].order <= s[|s| - 1].order;
        }
      } else {
        forall j | 0 <= j < CountBelow(s, o) ensures s[j].order < o {
          assert s[j] == pre[j];
        }
      }
    }
  }

  lemma SortedSameOrderAt(a: seq<Particle>, b: seq<Particle>, i: nat)
    requires SortedByOrder(a) && SortedByOrder(b) && multiset(a) == multiset(b) && i < |a| && |a| == |b|
    ensures a[i].order == b[i].order
  {
    CountBelowMultiset(a, b, a[i].order);
    CountBelowMultiset(a, b, a[i].order + 1);
    CountBelowMultiset(a, b, b[i].order);
    CountBelowMultiset(a, b, b[i].order + 1);
    CountBelowSorted(a, i);
    CountBelowSorted(b, i);
    CountBelowPrefix(a, b[i].order);
    CountBelowPrefix(b, a[i].order);
  }

  /** `n / p`, rounded up, the way `output` and the writers compute it: the
      truncated quotient, incremented when it does not divide exactly. */
  function CeilDiv(n: nat, p: nat): (r: nat)
    requires p > 0
    ensures r * p >= n && (r == 0 || (r - 1) * p < n)
  {
    var q := n / p;
    if q * p != n then q + 1 else q
  }

  /** C++ `/` on `int`: the quotient truncated toward zero. */
  function TruncDiv(a: int, b: nat): (r: int)
    requires b > 0
    ensures a >= 0 ==> r == a / b
    ensures a >= 0 ==> r * b <= a < (r + 1) * b
    ensures a < 0 ==> (r - 1) * b < a <= r * b
  {
    if a >= 0 then a / b else -((-a) / b)
  }

  /** Truncated division does not decrease: an order of at least m·b goes to at least m. */
  lemma TruncDivAtLeast(o: int, b: nat, m: int)
    requires b > 0 && o >= m * b
    ensures TruncDiv(o, b) >= m
  {
    var r := TruncDiv(o, b);
    assert (r + 1) * b == r * b + b;
    MulLess(m, r + 1, b);
  }

  lemma MulLeq(x: int, y: int, b: nat)
    requires x <= y
    ensures x * b <= y * b
  {
    assert y * b - x * b == (y - x) * b;
  }

  lemma MulLess(x: int, y: int, b: nat)
    ensures x * b < y * b ==> x < y
  {
    if x >= y {
      MulLeq(y, x, b);
    }
  }

  /** A chunk of `output`: the consecutive sorted particles sent to one writer. */
  datatype Chunk = Chunk(writer: int, particles: seq<Particle>)

  function Flatten(cs: seq<Chunk>): seq<Particle> {
    if cs == [] then [] else Flatten(cs[..|cs| - 1]) + cs[|cs| - 1].particles
  }

  /** A chunk as the outer loop of `output` makes it: non-empty, addressed
      to the writer of its first particle, every particle below that
      writer's end. */
  ghost predicate WellChunked(c: Chunk, per: nat)
    requires per > 0
  {
    && c.particles != []
    && c.writer == TruncDiv(c.particles[0].order, per)
    && forall p :: p in c.particles ==> p.order < (c.writer + 1) * per
  }

  /** What the chunking has produced when it has consumed `sorted[..i]`. */
  ghost predicate Chunked(sorted: seq<Particle>, per: nat, out: seq<Chunk>, i: nat)
    requires per > 0
  {
    && i <= |sorted| && Flatten(out) == sorted[..i]
    && (forall j :: 0 <= j < |out| ==> WellChunked(out[j], per))
    && (forall j :: 0 <= j < |out| - 1 ==> out[j].writer < out[j + 1].writer)
    && (out != [] && i < |sorted| ==> sorted[i].order >= (out[|out| - 1].writer + 1) * per)
  }

  /** The loops of `output` over the sorted particles with `per` particles
      per writer: each outer turn opens a chunk for the writer of the next
      particle and the inner loop takes every following particle below that
      writer's end. The bound is tested before the particle is read. */
  method Chunks(sorted: seq<Particle>, per: nat) returns (out: seq<Chunk>)
    requires per > 0 && SortedByOrder(sorted)
    ensures Chunked(sorted, per, out, |sorted|)
  {
    out := [];
    var idx := 0;
    while idx < |sorted|
      invariant Chunked(sorted, per, out, idx)
    {
      var w := TruncDiv(sorted[idx].order, per);
      var first := w * per;
      assert first + per == (w + 1) * per;
      var run: seq<Particle> := [];
      var start := idx;
      while idx < |sorted| && sorted[idx].order < first + per
        invariant start <= idx <= |sorted| && run == sorted[start..idx]
        invariant forall p :: p in run ==> p.order < (w + 1) * per
      {
        run := run + [sorted[idx]];
        idx := idx + 1;
      }
      ChunkStep(sorted, per, out, start, idx, w);
      out := out + [Chunk(w, run)];
    }
    assert sorted[..idx] == sorted;
  }

  lemma FlattenSnoc(out: seq<Chunk>, c: Chunk)
    ensures Flatten(out + [c]) == Flatten(out) + c.particles
  {
    assert (out + [c])[..|out|] == out;
  }

  lemma ChunkStep(sorted: seq<Particle>, per: nat, out: seq<Chunk>, start: nat, idx: nat, w: int)
    requires per > 0 && Chunked(sorted, per, out, start)
    requires start < |sorted| && w == TruncDiv(sorted[start].order, per)
    requires start < idx <= |sorted| && forall p :: p in sorted[start..idx] ==> p.order < (w + 1) * per
    requires idx < |sorted| ==> sorted[idx].order >= (w + 1) * per
    ensures Chunked(sorted, per, out + [Chunk(w, sorted[start..idx])], idx)
  {
    var c := Chunk(w, sorted[start..idx]);
    ChunkedFlatten(sorted, out, start, idx, w);
    NewChunk(sorted, per, start, idx, w);
    ChunksSnoc(out, c, per);
    ChunkedOrder(sorted, per, out, start, c);
    assert (out + [c])[|out|] == c;
  }

  lemma ChunkedFlatten(sorted: seq<Particle>, out: seq<Chunk>, start: nat, idx: nat, w: int)
    requires start <= idx <= |sorted| && Flatten(out) == sorted[..start]
    ensures Flatten(out + [Chunk(w, sorted[start..idx])]) == sorted[..idx]
  {
    FlattenSnoc(out, Chunk(w, sorted[start..idx]));
    assert sorted[..idx] == sorted[..start] + sorted[start..idx];
  }

  /** The new chunk's writer is past the previous chunk's. */
  lemma ChunkedOrder(sorted: seq<Particle>, per: nat, out: seq<Chunk>, start: nat, c: Chunk)
    requires per > 0 && start < |sorted| && c.writer == TruncDiv(sorted[start].order, per)
    requires forall j :: 0 <= j < |out| - 1 ==> out[j].writer < out[j + 1].writer
    requires out != [] ==> sorted[start].order >= (out[|out| - 1].writer + 1) * per
    ensures forall j :: 0 <= j < |out + [c]| - 1 ==> (out + [c])[j].writer < (out + [c])[j + 1].writer
  {
    if out != [] {
      TruncDivAtLeast(sorted[start].order, per, out[|out| - 1].writer + 1);
      WritersSnoc(out, c);
    }
  }

  lemma NewChunk(sorted: seq<Particle>, per: nat, start: nat, idx: nat, w: int)
    requires per > 0 && start < idx <= |sorted| && w == TruncDiv(sorted[start].order, per)
    requires forall p :: p in sorted[start..idx] ==> p.order < (w + 1) * per
    ensures WellChunked(Chunk(w, sorted[start..idx]), per)
  {
    assert sorted[start..idx][0] == sorted[start];
  }

  lemma ChunksSnoc(out: seq<Chunk>, c: Chunk, per: nat)
    requires per > 0 && WellChunked(c, per) && forall j :: 0 <= j < |out| ==> WellChunked(out[j], per)
    ensures forall j :: 0 <= j < |out + [c]| ==> WellChunked((out + [c])[j], per)
  {
    forall j | 0 <= j < |out + [c]| ensures WellChunked((out + [c])[j], per) {
      if j < |out| {
        assert (out + [c])[j] == out[j];
      }
    }
  }

  lemma WritersSnoc(out: seq<Chunk>, c: Chunk)
    requires out != [] && out[|out| - 1].writer < c.writer
    requires forall j :: 0 <= j < |out| - 1 ==> out[j].writer < out[j + 1].writer
    ensures forall j :: 0 <= j < |out + [c]| - 1 ==> (out + [c])[j].writer < (out + [c])[j + 1].writer
  {
    forall j | 0 <= j < |out + [c]| - 1 ensures (out + [c])[j].writer < (out + [c])[j + 1].writer {
      if j < |out| - 1 {
        assert (out + [c])[j] == out[j] && (out + [c])[j + 1] == out[j + 1];
      } else {
        assert (out + [c])[j] == out[|out| - 1];
      }
    }
  }

  /** With non-negative orders (the global particle indices), every
      particle of a chunk goes to writer `order / per`. */
  lemma ChunkWriters(c: Chunk, per: nat)
    requires per > 0 && WellChunked(c, per) && SortedByOrder(c.particles)
    requires forall p :: p in c.particles ==> p.order >= 0
    ensures forall p :: p in c.particles ==> p.order / per == c.writer
  {
    forall p | p in c.particles ensures p.order / per == c.writer {
      var o0 := c.particles[0].order;
      var j :| 0 <= j < |c.particles| && c.particles[j] == p;
      assert o0 <= p.order;
      assert c.writer * per <= o0;
      DivBetween(p.order, per, c.writer);
    }
  }

  lemma DivBetween(o: nat, per: nat, w: int)
    requires per > 0 && w * per <= o < (w + 1) * per
    ensures o / per == w
  {
    var q := o / per;
    assert o == per * q + o % per;
    assert (q + 1) * per == q * per + per;
    MulLess(w, q + 1, per);
    MulLess(q, w + 1, per);
  }

  /** The particles of `ps` owned by partition `idx`, in their original
      order (the filter of `addLeaves`). */
  function Owned(ps: seq<Particle>, idx: int): (r: seq<Particle>)
    ensures |r| <= |ps|
  {
    if ps == [] then []
    else Owned(ps[..|ps| - 1], idx) + (if ps[|ps| - 1].partitionIdx == idx then [ps[|ps| - 1]] else [])
  }

  /** The filter keeps exactly the owned particles, each as often as it occurs. */
  lemma {:induction false} OwnedCounts(ps: seq<Particle>, idx: int)
    ensures forall p :: p in Owned(ps, idx) ==> p.partitionIdx == idx
    ensures forall p :: multiset(Owned(ps, idx))[p] == if p.partitionIdx == idx then multiset(ps)[p] else 0
  {
    if ps != [] {
      var pre := ps[..|ps| - 1];
      OwnedCounts(pre, idx);
      assert ps == pre + [ps[|ps| - 1]];
    }
  }

  /** The filter keeps everything exactly when every particle is owned. */
  lemma {:induction false} OwnedAll(ps: seq<Particle>, idx: int)
    ensures |Owned(ps, idx)| == |ps| <==> forall i :: 0 <= i < |ps| ==> ps[i].partitionIdx == idx
    ensures |Owned(ps, idx)| == |ps| ==> Owned(ps, idx) == ps
  {
    if ps != [] {
      var pre := ps[..|ps| - 1];
      OwnedAll(pre, idx);
      if |Owned(ps, idx)| == |ps| {
        forall i | 0 <= i < |ps| ensures ps[i].partitionIdx == idx {
          if i < |pre| {
            assert ps[i] == pre[i];
          }
        }
        assert ps == pre + [ps[|ps| - 1]];
      }
      if forall i :: 0 <= i < |ps| ==> ps[i].partitionIdx == idx {
        assert forall i :: 0 <= i < |pre| ==> pre[i].partitionIdx == idx by {
          forall i | 0 <= i < |pre| ensures pre[i].partitionIdx == idx {
            assert pre[i] == ps[i];
          }
        }
      }
    }
  }

  /** The inner loop of `addLeaves`: the leaf's particles owned by this partition. */
  method OwnParticles(ps: seq<Particle>, idx: int) returns (own: seq<Particle>)
    ensures own == Owned(ps, idx)
  {
    own := [];
    var pi := 0;
    while pi < |ps|
      invariant 0 <= pi <= |ps| && own == Owned(ps[..pi], idx)
    {
      assert ps[..pi + 1][..pi] == ps[..pi];
      if ps[pi].partitionIdx == idx {
        own := own + [ps[pi]];
      }
      pi := pi + 1;
    }
    assert ps[..pi] == ps;
  }

  /** The particles of a sequence of leaves, leaf after leaf (`copyParticles`). */
  function AllParticles(leaves: seq<Node>): seq<Particle> {
    if leaves == [] then [] else AllParticles(leaves[..|leaves| - 1]) + leaves[|leaves| - 1].particles
  }

  lemma {:induction false} AllParticlesAppend(a: seq<Node>, b: seq<Node>)
    ensures AllParticles(a + b) == AllParticles(a) + AllParticles(b)
    decreases |b|
  {
    if b == [] {
      assert a + b == a;
    } else {
      var pre := b[..|b| - 1];
      AllParticlesAppend(a, pre);
      assert (a + b)[..|a + b| - 1] == a + pre;
    }
  }

  /** Every copied particle comes from one of the leaves. */
  lemma {:induction false} AllParticlesFrom(leaves: seq<Node>, idx: int)
    requires forall i, p :: 0 <= i < |leaves| && p in leaves[i].particles ==> p.partitionIdx == idx
    ensures forall p :: p in AllParticles(leaves) ==> p.partitionIdx == idx
  {
    if leaves != [] {
      var pre := leaves[..|leaves| - 1];
      AllParticlesFrom(pre, idx);
    }
  }

  /** `copyParticles`: the leaves' particles concatenated in leaf order. */
  method CopyParticles(leaves: seq<Node>) returns (ps: seq<Particle>)
    ensures ps == AllParticles(leaves)
  {
    ps := [];
    var i := 0;
    while i < |leaves|
      invariant 0 <= i <= |leaves| && ps == AllParticles(leaves[..i])
    {
      assert leaves[..i + 1][..i] == leaves[..i];
      ps := ps + leaves[i].particles;
      i := i + 1;
    }
    assert leaves[..i] == leaves;
  }
}

=== FILE: partition.dfy ===
/** A partition: the buckets (leaves) one traversal works for, the leaves of
    the shared tree they were cut from, the traverser running over them, the
    deferred perturbation, and the output of its particles to the writers. */
module PartitionModel {
  import opened Nodes
  import opened NodeTable
  import opened ResumerModel
  import opened TraverserCommon
  import opened Particles
  import opened DownTraversal
  import opened UpAndDownTraversal

  /** The leaf a partition keeps for a tree leaf: the tree leaf itself when
      every particle in it belongs to partition `idx`, otherwise a new leaf
      node with the same key, depth and home PE holding only the particles
      that do, in their original order. */
  function Localize(leaf: Node, idx: int): (r: Node)
    ensures r.key == leaf.key && r.depth == leaf.depth && r.homePe == leaf.homePe
    ensures r.particles == Owned(leaf.particles, idx)
    ensures r == leaf <==> forall i :: 0 <= i < |leaf.particles| ==> leaf.particles[i].partitionIdx == idx
    ensures r != leaf ==> r.ntype == Leaf && r.children == [] && r.parent == None && |r.particles| < |leaf.particles|
  {
    OwnedAll(leaf.particles, idx);
    var own := Owned(leaf.particles, idx);
    if |own| == |leaf.particles| then leaf
    else Node(leaf.key, leaf.depth, Leaf, [], None, false, leaf.cmIndex, leaf.homePe, own)
  }

  function Localized(ts: seq<Node>, idx: int): (r: seq<Node>)
    ensures |r| == |ts|
  {
    seq(|ts|, i requires 0 <= i < |ts| => Localize(ts[i], idx))
  }

  lemma LocalizedAppend(a: seq<Node>, b: seq<Node>, idx: int)
    ensures Localized(a + b, idx) == Localized(a, idx) + Localized(b, idx)
  {
  }

  /** The leaves that are not the tree leaf they stand for, i.e. the copies
      that `reset` frees. */
  function Copies(ls: seq<Node>, ts: seq<Node>): seq<Node>
    requires |ls| == |ts|
  {
    if ls == [] then []
    else Copies(ls[..|ls| - 1], ts[..|ts| - 1]) + (if ls[|ls| - 1] != ts[|ts| - 1] then [ls[|ls| - 1]] else [])
  }

  /** The tree leaves holding a particle of another partition. */
  function Mixed(ts: seq<Node>, idx: int): seq<Node> {
    if ts == [] then [] else Mixed(ts[..|ts| - 1], idx) + (if Foreign(ts[|ts| - 1], idx) then [ts[|ts| - 1]] else [])
  }

  predicate Foreign(t: Node, idx: int) {
    exists i :: 0 <= i < |t.particles| && t.particles[i].partitionIdx != idx
  }

  /** A tree leaf is copied exactly when it holds another partition's particle. */
  lemma LocalizeCopies(t: Node, idx: int)
    ensures Localize(t, idx) != t <==> Foreign(t, idx)
  {
  }

  lemma LocalizedSnoc(pre: seq<Node>, t: Node, idx: int)
    ensures Localized(pre + [t], idx) == Localized(pre, idx) + [Localize(t, idx)]
  {
    assert |Localized(pre + [t], idx)| == |pre| + 1;
  }

  /** The leaves `reset` frees are exactly the copies made for tree leaves
      that hold a particle of another partition. */
  lemma {:induction false} FreedAreMixed(ts: seq<Node>, idx: int)
    ensures Copies(Localized(ts, idx), ts) == Localized(Mixed(ts, idx), idx)
  {
    if ts != [] {
      var pre := ts[..|ts| - 1];
      var t := ts[|ts| - 1];
      assert ts == pre + [t];
      FreedAreMixed(pre, idx);
      LocalizedSnoc(pre, t, idx);
      LocalizeCopies(t, idx);
      var ls := Localized(ts, idx);
      assert ls[..|ls| - 1] == Localized(pre, idx) && ls[|ls| - 1] == Localize(t, idx);
      var m := Mixed(pre, idx);
      if Foreign(t, idx) {
        LocalizedSnoc(m, t, idx);
      }
    }
  }

  /** The keys of a sequence of nodes (the buckets' leaf keys). */
  function KeysOf(ns: seq<Node>): (r: seq<Key>)
    ensures |r| == |ns| && forall i :: 0 <= i < |ns| ==> r[i] == ns[i].key
  {
    seq(|ns|, i requires 0 <= i < |ns| => ns[i].key)
  }

  /** `std::vector::resize`: keep the first n lists, pad with empty ones. */
  function Resized(lists: seq<seq<Key>>, n: nat): (r: seq<seq<Key>>)
    ensures |r| == n
    ensures forall i :: 0 <= i < n && i < |lists| ==> r[i] == lists[i]
    ensures forall i :: |lists| <= i < n ==> r[i] == []
  {
    seq(n, i requires 0 <= i < n => if i < |lists| then lists[i] else [])
  }

  /** The traverser a partition owns (`std::unique_ptr<Traverser>`). */
  datatype TravRef = NoTraverser | Down(d: DownTraverser) | UpnD(u: UpnDTraverser)

  /** A perturbation that ran: the step it was given, where the particles went
      (`flush` to this PE's reader, or through the subtree decomposition),
      and the particles copied out of the leaves before they were moved. */
  datatype Perturbed = Perturbed(timestep: real, toReaders: bool, particles: seq<Particle>)

  class Partition {
    const thisIndex: nat
    const nPartitions: nat
    /** This PE's cache manager branch (`cm_local`) and resumer (`r_local`). */
    const table: Cache
    const resumer: Resumer
    /** `interactions`: the leaf interactions deferred per bucket. */
    const inter: Interactions
    var leaves: seq<Node>
    var treeLeaves: seq<Node>
    var lookupLeafKeys: map<int, seq<Key>>
    var traverser: TravRef
    /** `saved_perturb`. */
    var waiting: bool
    var timestep: real
    var ifFlush: bool
    /** The copies `reset` has freed, and the perturbations that ran. */
    ghost var freed: seq<Node>
    ghost var perturbed: seq<Perturbed>

    /** Every bucket leaf is its tree leaf localized to this partition; a
        perturbation is pending only while there is a traverser to finish;
        the traverser works for this partition and shares its tables. */
    ghost predicate Valid()
      reads this`leaves, this`treeLeaves, this`waiting, this`traverser
    {
      && leaves == Localized(treeLeaves, thisIndex)
      && (waiting ==> !traverser.NoTraverser?)
      && Wired()
    }

    ghost predicate Wired()
      reads this`traverser
    {
      match traverser
      case NoTraverser => true
      case Down(d) => d.table == table && d.resumer == resumer && d.inter == inter && d.partIndex == thisIndex
      case UpnD(u) => u.table == table && u.resumer == resumer && u.partIndex == thisIndex
    }

    ghost function Objs(): set<object>
      reads this`traverser
    {
      match traverser
      case NoTraverser => {}
      case Down(d) => {d}
      case UpnD(u) => {u}
    }

    /** A traverser exists and still has buckets parked somewhere. */
    function Busy(): (r: bool)
      reads this`traverser, Objs()
      ensures r <==> !traverser.NoTraverser? && !(if traverser.Down? then traverser.d.IsFinished() else traverser.u.IsFinished())
    {
      match traverser
      case NoTraverser => false
      case Down(d) => !d.IsFinished()
      case UpnD(u) => !u.IsFinished()
    }

    constructor (thisIndex: nat, nPartitions: nat, table: Cache, resumer: Resumer, inter: Interactions)
      ensures Valid()
      ensures this.thisIndex == thisIndex && this.nPartitions == nPartitions
      ensures this.table == table && this.resumer == resumer && this.inter == inter
      ensures leaves == [] && treeLeaves == [] && lookupLeafKeys == map[] && traverser == NoTraverser
      ensures !waiting && freed == [] && perturbed == []
    {
      this.thisIndex := thisIndex;
      this.nPartitions := nPartitions;
      this.table := table;
      this.resumer := resumer;
      this.inter := inter;
      leaves := [];
      treeLeaves := [];
      lookupLeafKeys := map[];
      traverser := NoTraverser;
      waiting := false;
      timestep := 0.0;
      ifFlush := false;
      freed := [];
      perturbed := [];
    }

    /** Every particle in every bucket leaf belongs to this partition. */
    lemma LeavesOwned()
      requires Valid()
      ensures forall p :: p in AllParticles(leaves) ==> p.partitionIdx == thisIndex
    {
      forall i, p | 0 <= i < |leaves| && p in leaves[i].particles ensures p.partitionIdx == thisIndex {
        assert leaves[i] == Localize(treeLeaves[i], thisIndex);
        OwnedCounts(treeLeaves[i].particles, thisIndex);
      }
      AllParticlesFrom(leaves, thisIndex);
    }

    /** `addLeaves`: append the tree leaves, and for each one the leaf this
        partition keeps for it; one more bucket per leaf. */
    method AddLeaves(leafPtrs: seq<Node>, subtreeIdx: int)
      requires Valid()
      modifies this`leaves, this`treeLeaves, table`numBuckets
      ensures Valid()
      ensures treeLeaves == old(treeLeaves) + leafPtrs
      ensures leaves == old(leaves) + Localized(leafPtrs, thisIndex)
      ensures table.numBuckets == old(table.numBuckets) + |leafPtrs|
    {
      treeLeaves := treeLeaves + leafPtrs;
      var local := LocalLeaves(leafPtrs, thisIndex);
      LocalizedAppend(old(treeLeaves), leafPtrs, thisIndex);
      leaves := leaves + local;
      table.numBuckets := table.numBuckets + |leafPtrs|;
    }

    /** The loop of `addLeaves`: for each tree leaf, keep it if this
        partition owns all its particles, else make a leaf of the ones it owns. */
    static method LocalLeaves(leafPtrs: seq<Node>, idx: int) returns (ls: seq<Node>)
      ensures ls == Localized(leafPtrs, idx)
    {
      ls := [];
      var i := 0;
      while i < |leafPtrs|
        invariant 0 <= i <= |leafPtrs| && |ls| == i
        invariant forall j :: 0 <= j < i ==> ls[j] == Localize(leafPtrs[j], idx)
      {
        var leaf := leafPtrs[i];
        var own := OwnParticles(leaf.particles, idx);
        OwnedAll(leaf.particles, idx);
        if |own| == |leaf.particles| {
          ls := ls + [leaf];
        } else {
          ls := ls + [Node(leaf.key, leaf.depth, Leaf, [], None, false, leaf.cmIndex, leaf.homePe, own)];
        }
        i := i + 1;
      }
    }

    /** The leaf-lookup entries for `keys`, in key order. */
    ghost function Found(keys: seq<Key>): (r: seq<Node>)
      reads table`leafLookup
      requires forall k :: k in keys ==> k in table.leafLookup
      ensures |r| == |keys|
    {
      var lookup := table.leafLookup;
      seq(|keys|, i requires 0 <= i < |keys| && keys[i] in lookup => lookup[keys[i]])
    }

    /** `makeLeaves(keys, subtree_idx)`: look every key up (each must be
        there) and add the leaves found, in key order. */
    method MakeLeavesFrom(keys: seq<Key>, subtreeIdx: int)
      requires Valid() && forall k :: k in keys ==> k in table.leafLookup
      modifies this`leaves, this`treeLeaves, table`numBuckets
      ensures Valid()
      ensures treeLeaves == old(treeLeaves) + old(Found(keys))
      ensures leaves == old(leaves) + Localized(old(Found(keys)), thisIndex)
      ensures table.numBuckets == old(table.numBuckets) + |keys|
    {
      var ptrs: seq<Node> := [];
      var i := 0;
      while i < |keys|
        invariant 0 <= i <= |keys| && |ptrs| == i
        invariant forall j :: 0 <= j < i ==> ptrs[j] == table.leafLookup[keys[j]]
      {
        ptrs := ptrs + [table.leafLookup[keys[i]]];
        i := i + 1;
      }
      assert ptrs == Found(keys);
      AddLeaves(ptrs, subtreeIdx);
    }

    /** The leaf keys saved for a subtree (none if nothing was saved). */
    function SavedKeys(subtreeIdx: int): seq<Key>
      reads this`lookupLeafKeys
    {
      if subtreeIdx in lookupLeafKeys then lookupLeafKeys[subtreeIdx] else []
    }

    /** `makeLeaves(subtree_idx)`: add the leaves whose keys were saved for
        the subtree; reading an absent index saves an empty list for it. */
    method MakeLeaves(subtreeIdx: int)
      requires Valid()
      requires forall k :: k in SavedKeys(subtreeIdx) ==> k in table.leafLookup
      modifies this`leaves, this`treeLeaves, this`lookupLeafKeys, table`numBuckets
      ensures Valid()
      ensures subtreeIdx in old(lookupLeafKeys) ==> lookupLeafKeys == old(lookupLeafKeys)
      ensures subtreeIdx !in old(lookupLeafKeys) ==> lookupLeafKeys == old(lookupLeafKeys)[subtreeIdx := []]
      ensures treeLeaves == old(treeLeaves) + old(Found(SavedKeys(subtreeIdx)))
      ensures leaves == old(leaves) + Localized(old(Found(SavedKeys(subtreeIdx))), thisIndex)
    {
      if subtreeIdx !in lookupLeafKeys {
        lookupLeafKeys := lookupLeafKeys[subtreeIdx := []];
      }
      var keys := lookupLeafKeys[subtreeIdx];
      MakeLeavesFrom(keys, subtreeIdx);
    }

    /** `receiveLeaves`: when the subtree's top is local, add its leaves now;
        otherwise save the keys, list this partition as waiting for a copy
        of the subtree, and request the copy only if no partition of this PE
        has asked for it before. */
    method ReceiveLeaves(leafKeys: seq<Key>, tpKey: Key, subtreeIdx: int)
      requires Valid() && table.CopyValid()
      requires tpKey in table.localTps ==> forall k :: k in leafKeys ==> k in table.leafLookup
      modifies this`leaves, this`treeLeaves, this`lookupLeafKeys
      modifies table`numBuckets, table`subtreeCopyStarted, table`copyRequests
      ensures Valid() && table.CopyValid()
      ensures tpKey in table.localTps ==>
        && treeLeaves == old(treeLeaves) + old(Found(leafKeys))
        && leaves == old(leaves) + Localized(old(Found(leafKeys)), thisIndex)
        && lookupLeafKeys == old(lookupLeafKeys)
        && table.subtreeCopyStarted == old(table.subtreeCopyStarted) && table.copyRequests == old(table.copyRequests)
      ensures tpKey !in table.localTps ==>
        && leaves == old(leaves) && treeLeaves == old(treeLeaves)
        && lookupLeafKeys == old(lookupLeafKeys)[subtreeIdx := leafKeys]
        && subtreeIdx in table.subtreeCopyStarted
        && table.subtreeCopyStarted[subtreeIdx] ==
             (if subtreeIdx in old(table.subtreeCopyStarted) then old(table.subtreeCopyStarted)[subtreeIdx] else []) + [thisIndex]
        && table.copyRequests ==
             old(table.copyRequests) + (if subtreeIdx in old(table.subtreeCopyStarted) then [] else [subtreeIdx])
    {
      if tpKey in table.localTps {
        MakeLeavesFrom(leafKeys, subtreeIdx);
      } else {
        lookupLeafKeys := lookupLeafKeys[subtreeIdx := leafKeys];
        var out := if subtreeIdx in table.subtreeCopyStarted then table.subtreeCopyStarted[subtreeIdx] else [];
        var shouldRequest := out == [];
        table.subtreeCopyStarted := table.subtreeCopyStarted[subtreeIdx := out + [thisIndex]];
        if shouldRequest {
          table.copyRequests := table.copyRequests + [subtreeIdx];
        }
      }
    }

    /** `reset`: there must be no pending perturbation. Drop the traverser,
        free every leaf that is a copy rather than its tree leaf, and empty
        the leaves, tree leaves, saved keys and interaction lists. */
    method Reset()
      requires Valid() && !waiting
      modifies this`traverser, this`leaves, this`treeLeaves, this`lookupLeafKeys, this`freed, inter`lists
      ensures Valid()
      ensures freed == old(freed) + Copies(old(leaves), old(treeLeaves))
      ensures traverser == NoTraverser && leaves == [] && treeLeaves == [] && lookupLeafKeys == map[] && inter.lists == []
    {
      traverser := NoTraverser;
      var copies := FreeCopies(leaves, treeLeaves);
      freed := freed + copies;
      lookupLeafKeys := map[];
      leaves := [];
      treeLeaves := [];
      inter.lists := [];
    }

    /** The loop of `reset`: every leaf that is not its tree leaf, in order. */
    static method FreeCopies(ls: seq<Node>, ts: seq<Node>) returns (fs: seq<Node>)
      requires |ls| == |ts|
      ensures fs == Copies(ls, ts)
    {
      fs := [];
      var i := 0;
      while i < |ls|
        invariant 0 <= i <= |ls| && fs == Copies(ls[..i], ts[..i])
      {
        assert ls[..i + 1][..i] == ls[..i] && ts[..i + 1][..i] == ts[..i];
        if ls[i] != ts[i] {
          fs := fs + [ls[i]];
        }
        i := i + 1;
      }
      assert ls[..i] == ls && ts[..i] == ts;
    }

    /** What `reset` frees is the copy of every tree leaf that held a
        particle of another partition, and nothing else. */
    lemma ResetFreesMixed()
      requires Valid()
      ensures Copies(leaves, treeLeaves) == Localized(Mixed(treeLeaves, thisIndex), thisIndex)
    {
      assert leaves == Localized(treeLeaves, thisIndex);
      FreedAreMixed(treeLeaves, thisIndex);
    }

    /** `startDown`: size the interaction lists to the buckets, install a
        new down traverser over the bucket leaves (leaf interactions applied
        on the spot) and start it. */
    method StartDown(callSelfLeaf: bool, open: (Key, Key) -> bool)
      requires Valid() && table.Valid()
      modifies this`traverser, inter`lists, table`nodes, table`requests, resumer`waiting
      ensures Valid() && traverser.Down? && fresh(traverser.d)
      ensures traverser.d.Valid() && traverser.d.leaves == KeysOf(leaves) && !traverser.d.delayLeaf
      ensures traverser.d.callSelfLeaf == callSelfLeaf && traverser.d.open == open
      ensures |inter.lists| == |leaves|
      ensures traverser.d.currNodes == traverser.d.Parked(old(table.nodes), table.root, AllOf(|leaves|))
      ensures traverser.d.visits == traverser.d.Visible(old(table.nodes), traverser.d.Log(old(table.nodes), table.root, AllOf(|leaves|)))
    {
      inter.lists := Resized(inter.lists, |leaves|);
      var d := new DownTraverser(KeysOf(leaves), thisIndex, false, callSelfLeaf, open, table, resumer, inter);
      traverser := Down(d);
      ghost var ls, ts := leaves, treeLeaves;
      d.Start();
      assert leaves == ls && treeLeaves == ts && traverser == Down(d);
    }

    /** `startUpAndDown`: size the interaction lists, install a new
        up-and-down traverser starting every bucket at its tree leaf, and
        start it; its resume queue is drained on return. */
    method StartUpAndDown(open: (Key, Key) -> bool) returns (ghost trace: seq<Snap>)
      requires Valid() && table.Valid() && AllIn(table.nodes, KeysOf(treeLeaves))
      requires AllIn(table.nodes, resumer.Queue(thisIndex))
      modifies this`traverser, inter`lists, table`nodes, table`requests, resumer`waiting, resumer`resumeNodes
      ensures Valid() && traverser.UpnD? && fresh(traverser.u)
      ensures traverser.u.Valid() && traverser.u.leaves == KeysOf(leaves) && traverser.u.treeLeaves == KeysOf(treeLeaves)
      ensures traverser.u.open == open && |inter.lists| == |leaves|
      ensures resumer.Queue(thisIndex) == []
      ensures resumer.resumeNodes - {thisIndex} == old(resumer.resumeNodes) - {thisIndex}
      ensures traverser.u.TopSteps(trace, |leaves|) && traverser.u.Drains(trace, |leaves|)
      ensures trace[0] == Initial(old(table.nodes), KeysOf(treeLeaves), old(resumer.Queue(thisIndex)))
      ensures trace[|trace| - 1] == traverser.u.Now()
    {
      inter.lists := Resized(inter.lists, |leaves|);
      var u := new UpnDTraverser(KeysOf(leaves), KeysOf(treeLeaves), thisIndex, open, table, resumer);
      traverser := UpnD(u);
      ghost var ls, ts := leaves, treeLeaves;
      trace := u.Start();
      assert leaves == ls && treeLeaves == ts && traverser == UpnD(u);
    }

    /** What `goDown` needs: a traverser in a valid state with its resume
        queue holding known nodes (and, for the down traverser, non-empty). */
    ghost predicate CanGoDown()
      reads this`traverser, Objs(), table, resumer, inter
    {
      Wired() &&
      match traverser
      case NoTraverser => false
      case Down(d) => d.Valid() && resumer.Queue(thisIndex) != [] && AllIn(table.nodes, resumer.Queue(thisIndex))
      case UpnD(u) => u.Valid() && AllIn(table.nodes, resumer.Queue(thisIndex))
    }

    /** `goDown`: resume the traversal; then run the pending perturbation if
        one is waiting and the traversal has finished. */
    method GoDown() returns (ghost trace: seq<Snap>)
      requires Valid() && CanGoDown()
      modifies this`waiting, this`perturbed, Objs(), table`nodes, table`requests, resumer`waiting, resumer`resumeNodes, inter`lists
      ensures Valid() && traverser == old(traverser) && resumer.Queue(thisIndex) == []
      ensures traverser.Down? ==>
        traverser.d.DrainedTo(old(table.nodes), old(traverser.d.currNodes), old(traverser.d.visits), old(inter.lists),
                              old(resumer.Queue(thisIndex)), traverser.d.currNodes, traverser.d.visits, inter.lists)
      ensures traverser.UpnD? ==>
        && |trace| > 0 && trace[0] == old(traverser.u.Now()) && trace[|trace| - 1] == traverser.u.Now()
        && traverser.u.Drains(trace, 0)
      ensures old(waiting) && !Busy() ==>
        !waiting && perturbed == old(perturbed) + [Perturbed(timestep, ifFlush, AllParticles(leaves))]
      ensures !(old(waiting) && !Busy()) ==> waiting == old(waiting) && perturbed == old(perturbed)
    {
      trace := [];
      match traverser {
        case Down(d) =>
          d.ResumeTrav();
        case UpnD(u) =>
          trace := u.ResumeTrav();
      }
      if waiting && !Busy() {
        DoPerturb();
      }
    }

    /** `interact`: the down traverser replays the deferred leaf
        interactions; the up-and-down traverser and no traverser do nothing. */
    method Interact()
      requires Valid()
      modifies Objs()
      ensures traverser.Down? ==> traverser.d.visits == old(traverser.d.visits) + Replay(inter.lists)
      ensures traverser.UpnD? ==> traverser.u.visits == old(traverser.u.visits)
    {
      if traverser.Down? {
        traverser.d.Interact();
      }
    }

    /** `perturb`: save the request; defer it while a traverser is still
        running, otherwise run it now. */
    method Perturb(step: real, flush: bool)
      requires Valid()
      modifies this`timestep, this`ifFlush, this`waiting, this`perturbed
      ensures Valid() && timestep == step && ifFlush == flush
      ensures Busy() ==> waiting && perturbed == old(perturbed)
      ensures !Busy() ==> !waiting && perturbed == old(perturbed) + [Perturbed(step, flush, AllParticles(leaves))]
    {
      timestep := step;
      ifFlush := flush;
      if Busy() {
        waiting := true;
      } else {
        DoPerturb();
      }
    }

    /** `doPerturb`: clear the pending flag and send out a copy of the
        leaves' particles, to the reader or through the decomposition. */
    method DoPerturb()
      requires Valid()
      modifies this`waiting, this`perturbed
      ensures Valid() && !waiting
      ensures perturbed == old(perturbed) + [Perturbed(timestep, ifFlush, AllParticles(leaves))]
    {
      waiting := false;
      var ps := CopyParticles(leaves);
      perturbed := perturbed + [Perturbed(timestep, ifFlush, ps)];
    }

    /** `output`: copy the leaves' particles, sort them by order, and send
        them in consecutive runs, each to the writer of its first particle,
        `ceil(nTotal / numPes)` orders per writer; then pass on to the next
        partition unless this is the last one. */
    method Output(nTotal: nat, numPes: nat) returns (sends: seq<Chunk>, forward: bool)
      requires numPes > 0 && (nTotal > 0 || AllParticles(leaves) == [])
      ensures SortedByOrder(Flatten(sends)) && multiset(Flatten(sends)) == multiset(AllParticles(leaves))
      ensures nTotal > 0 ==> Chunked(Flatten(sends), CeilDiv(nTotal, numPes), sends, |Flatten(sends)|)
      ensures forward <==> thisIndex != nPartitions - 1
    {
      var ps := CopyParticles(leaves);
      var sorted := SortByOrder(ps);
      var per := CeilDiv(nTotal, numPes);
      if per == 0 {
        assert nTotal == 0 && ps == [];
        sends := [];
        assert sorted == [];
      } else {
        sends := Chunks(sorted, per);
        assert sorted[..|sorted|] == sorted;
      }
      forward := thisIndex != nPartitions - 1;
    }
  }
}

=== FILE: resumer.dfy ===
/** The per-worker resumer: which partitions wait on which key, and the
    per-partition queues of nodes that are ready to be resumed. */
module ResumerModel {
  import opened Nodes

  function Lookup<V>(m: map<Key, seq<V>>, k: Key): seq<V> {
    if k in m then m[k] else []
  }

  /** `if (!list.size() || list.back() != p) list.push_back(p)`. */
  function AppendIfNotLast(list: seq<nat>, p: nat): (r: seq<nat>)
    ensures r == list || r == list + [p]
    ensures |r| > 0 && r[|r| - 1] == p
    ensures r == list <==> (|list| > 0 && list[|list| - 1] == p)
  {
    if |list| > 0 && list[|list| - 1] == p then list else list + [p]
  }

  /** No partition id occurs twice in a row. */
  ghost predicate NoAdjacentRepeats(list: seq<nat>) {
    forall i :: 0 < i < |list| ==> list[i - 1] != list[i]
  }

  /** The deduplicating append is idempotent and never creates an adjacent repeat. */
  lemma AppendIfNotLastSound(list: seq<nat>, p: nat)
    ensures AppendIfNotLast(AppendIfNotLast(list, p), p) == AppendIfNotLast(list, p)
    ensures NoAdjacentRepeats(list) ==> NoAdjacentRepeats(AppendIfNotLast(list, p))
  {
  }

  class Resumer {
    var waiting: map<Key, seq<nat>>
    var resumeNodes: map<nat, seq<Key>>
    var nodehash: map<Key, Option<Key>>

    constructor ()
      ensures waiting == map[] && resumeNodes == map[] && nodehash == map[]
    {
      waiting := map[];
      resumeNodes := map[];
      nodehash := map[];
    }

    function Queue(p: nat): seq<Key>
      reads this`resumeNodes
    {
      Lookup(resumeNodes, p)
    }

    /** `waiting[k].push_back(p)` */
    method AddWaiting(k: Key, p: nat)
      modifies this`waiting
      ensures waiting == old(waiting)[k := Lookup(old(waiting), k) + [p]]
    {
      waiting := waiting[k := Lookup(waiting, k) + [p]];
    }

    /** `waiting[k]` gains `p` unless `p` is already its last entry. */
    method AddWaitingOnce(k: Key, p: nat)
      modifies this`waiting
      ensures waiting == old(waiting)[k := AppendIfNotLast(Lookup(old(waiting), k), p)]
    {
      waiting := waiting[k := AppendIfNotLast(Lookup(waiting, k), p)];
    }

    method PopResume(p: nat) returns (k: Key)
      requires Queue(p) != []
      modifies this`resumeNodes
      ensures k == old(Queue(p))[0]
      ensures resumeNodes == old(resumeNodes)[p := old(Queue(p))[1..]]
    {
      k := Queue(p)[0];
      resumeNodes := resumeNodes[p := Queue(p)[1..]];
    }

    method PushResume(p: nat, ks: seq<Key>)
      modifies this`resumeNodes
      ensures resumeNodes == old(resumeNodes)[p := old(Queue(p)) + ks]
    {
      resumeNodes := resumeNodes[p := Queue(p) + ks];
    }
  }
}

=== FILE: simple_traversal.dfy ===
/** The traversers of the simple example program: the down traverser, the
    up-and-down traverser and the dual traverser. Each keeps `curr_nodes`, the
    entries parked at each key (buckets, or payload nodes in the dual
    traverser). `traverse(key)` walks every entry parked at `key` from the
    node found for the key, then erases `key` and parks the entries again at
    the unresolved nodes the walks met, in the order they were met. */
module SimpleTraversal {
  import opened Nodes
  import opened NodeTable
  import opened ResumerModel
  import opened TraverserCommon
  import opened SimpleWalk
  import DownTraversal
  import UpAndDownTraversal

  /** `findNode` from the piece's root: the table's node with that key, if
      any. The search down the tree is not part of this model. */
  function FindNode(nodes: map<Key, Node>, key: Key): (r: Option<Key>)
    ensures r.Some? <==> key in nodes
    ensures r.Some? ==> r.value == key
  {
    if key in nodes then Some(key) else None
  }

  /** The start node for a key above the root: the node the resumer's
      `nodehash` holds for the key, or else the one `findNode` gives. */
  function Hashed(hash: map<Key, Option<Key>>, nodes: map<Key, Node>, key: Key): (r: Option<Key>)
    ensures r.None? <==> (key !in hash || hash[key].None?) && key !in nodes
  {
    if key in hash && hash[key].Some? then hash[key] else FindNode(nodes, key)
  }

  /** Every node the resumer's `nodehash` holds is a node of the table. */
  ghost predicate HashOk(hash: map<Key, Option<Key>>, nodes: map<Key, Node>) {
    forall k :: k in hash && hash[k].Some? ==> hash[k].value in nodes
  }

  /** Where `traverse(key)` starts: at the piece's root for keys 0 and 1
      (for key 1 the root is first reset to the cache's root), and at the
      looked-up node for any other key. */
  function StartOf(root: Key, cacheRoot: Key, hash: map<Key, Option<Key>>, nodes: map<Key, Node>, key: Key): Option<Key> {
    if key > 1 then Hashed(hash, nodes, key) else if key == 1 then Some(cacheRoot) else Some(root)
  }

  /** The lookup finds a key of the table whose `nodehash` entry is unset,
      and a second lookup after the first one was stored gives the same node. */
  lemma HashedFinds(hash: map<Key, Option<Key>>, nodes: map<Key, Node>, key: Key)
    ensures key in nodes && (key !in hash || hash[key].None?) ==> Hashed(hash, nodes, key) == Some(key)
    ensures Hashed(hash[key := Hashed(hash, nodes, key)], nodes, key) == Hashed(hash, nodes, key)
    ensures HashOk(hash, nodes) && Hashed(hash, nodes, key).Some? ==> Hashed(hash, nodes, key).value in nodes
  {
  }

  /** The opening lines of `traverse`: reset the root for key 1, and for a
      key above the root look the start node up and store it in `nodehash`. */
  method FindStart(tp: TreePiece, key: Key) returns (start: Option<Key>)
    requires tp.Valid() && HashOk(tp.resumer.nodehash, tp.table.nodes)
    modifies tp`root, tp.resumer`nodehash
    ensures tp.Valid() && HashOk(tp.resumer.nodehash, tp.table.nodes)
    ensures start == StartOf(old(tp.root), tp.table.root, old(tp.resumer.nodehash), tp.table.nodes, key)
    ensures tp.root == if key == 1 then tp.table.root else old(tp.root)
    ensures tp.resumer.nodehash == if key > 1 then old(tp.resumer.nodehash)[key := start] else old(tp.resumer.nodehash)
    ensures start.Some? ==> start.value in tp.table.nodes
  {
    if key == 1 {
      tp.root := tp.table.root;
    }
    start := Some(tp.root);
    if key > 1 {
      var result := if key in tp.resumer.nodehash then tp.resumer.nodehash[key] else None;
      if result.None? {
        result := FindNode(tp.table.nodes, key);
      }
      tp.resumer.nodehash := tp.resumer.nodehash[key := result];
      start := result;
    }
  }

  /** The traverser a walk belongs to: the down and up-and-down traversers
      walk with a bucket (with DELAYLOCAL set or not); the dual traverser
      walks with a payload node. */
  datatype Traversal = Single(delayLocal: bool) | Dual

  /** How the entry `e` parked at a key is walked. */
  function SetupFor(leaves: seq<Key>, node: (Key, Key) -> bool, t: Traversal, e: nat): (su: Setup)
    ensures su.leaves == leaves && su.node == node
    ensures t.Single? ==> su.mode == Immediate(t.delayLocal)
    ensures t.Dual? ==> su.mode == Paired(e)
  {
    match t
    case Single(d) => Setup(leaves, node, Immediate(d))
    case Dual => Setup(leaves, node, Paired(e))
  }

  /** Every entry can be walked: a payload is a node of the table. */
  ghost predicate EntriesOk(shape: map<Key, Node>, leaves: seq<Key>, node: (Key, Key) -> bool, t: Traversal, ready: seq<nat>) {
    forall e :: e in ready ==> SetupOk(shape, SetupFor(leaves, node, t, e))
  }

  /** The steps of `traverse`'s loop over the entries `ready`, in order. */
  ghost function Round(shape: map<Key, Node>, leaves: seq<Key>, node: (Key, Key) -> bool, t: Traversal,
                       start: Option<Key>, key: Key, ready: seq<nat>): seq<Step>
    requires EntriesOk(shape, leaves, node, t, ready)
  {
    if ready == [] then []
    else
      var e := ready[|ready| - 1];
      assert forall x :: x in ready[..|ready| - 1] ==> x in ready;
      Round(shape, leaves, node, t, start, key, ready[..|ready| - 1]) + StartWalk(shape, SetupFor(leaves, node, t, e), start, key, e)
  }

  lemma RoundSnoc(shape: map<Key, Node>, leaves: seq<Key>, node: (Key, Key) -> bool, t: Traversal,
                  start: Option<Key>, key: Key, ready: seq<nat>, i: nat)
    requires EntriesOk(shape, leaves, node, t, ready) && i < |ready|
    ensures EntriesOk(shape, leaves, node, t, ready[..i]) && EntriesOk(shape, leaves, node, t, ready[..i + 1])
    ensures SetupOk(shape, SetupFor(leaves, node, t, ready[i]))
    ensures Round(shape, leaves, node, t, start, key, ready[..i + 1]) ==
            Round(shape, leaves, node, t, start, key, ready[..i]) + StartWalk(shape, SetupFor(leaves, node, t, ready[i]), start, key, ready[i])
  {
    assert ready[..i + 1][..i] == ready[..i];
    assert forall x :: x in ready[..i + 1] ==> x in ready;
  }

  /** Every insertion of a round is for one of its entries, at an unresolved
      node of the table or, when no start node was found, at the key itself. */
  lemma {:induction false} RoundHits(shape: map<Key, Node>, leaves: seq<Key>, node: (Key, Key) -> bool, t: Traversal,
                                     start: Option<Key>, key: Key, ready: seq<nat>)
    requires EntriesOk(shape, leaves, node, t, ready)
    ensures forall h :: h in Hits(Round(shape, leaves, node, t, start, key, ready)) ==>
      && h.1 in ready
      && ((h.0 in shape && IsUnresolved(shape[h.0].ntype)) || (h.0 == key && (start.None? || start.value !in shape)))
  {
    if ready != [] {
      var i := |ready| - 1;
      var e := ready[i];
      RoundSnoc(shape, leaves, node, t, start, key, ready, i);
      assert ready[..i + 1] == ready;
      RoundHits(shape, leaves, node, t, start, key, ready[..i]);
      var pre := Round(shape, leaves, node, t, start, key, ready[..i]);
      var w := StartWalk(shape, SetupFor(leaves, node, t, e), start, key, e);
      StartWalkLog(shape, SetupFor(leaves, node, t, e), start, key, e);
      StepsConcat(map[], DownTraversal.Shared(map[], [], map[]), 0, 0, pre, w);
      forall h | h in Hits(pre) ensures h.1 in ready {
        assert h.1 in ready[..i];
      }
    }
  }

  /** Each key a round parks an entry at has the piece on its waiting list. */
  lemma {:induction false} ParksAwait(s: DownTraversal.Shared, steps: seq<Step>, part: nat, requester: nat)
    ensures forall h :: h in Hits(steps) ==>
      h.0 in Parks(s, steps, part, requester).waiting && part in Parks(s, steps, part, requester).waiting[h.0]
  {
    if steps != [] {
      var pre := steps[..|steps| - 1];
      ParksAwait(s, pre, part, requester);
      var t := Parks(s, pre, part, requester);
      var x := steps[|steps| - 1];
      if x.Hit? {
        forall h | h in Hits(pre) ensures part in Park(t, x.key, part, requester).waiting[h.0] {
          if h.0 != x.key {
            assert Park(t, x.key, part, requester).waiting[h.0] == t.waiting[h.0];
          } else {
            var list := Park(t, x.key, part, requester).waiting[h.0];
            assert list[|list| - 1] == part;
          }
        }
        var list := Park(t, x.key, part, requester).waiting[x.key];
        assert list[|list| - 1] == part;
      }
    }
  }

  /** Every entry parked at some key is in `es`. */
  ghost predicate EntriesIn(m: map<Key, seq<nat>>, es: set<nat>) {
    forall k, e :: k in m && e in m[k] ==> e in es
  }

  /** Inserted entries from `es` keep every parked entry in `es`. */
  lemma {:induction false} ReparkEntries(m: map<Key, seq<nat>>, ins: seq<(Key, nat)>, es: set<nat>)
    requires EntriesIn(m, es) && forall h :: h in ins ==> h.1 in es
    ensures EntriesIn(UpAndDownTraversal.Repark(m, ins), es)
  {
    if ins != [] {
      var pre := ins[..|ins| - 1];
      assert forall h :: h in pre ==> h in ins;
      ReparkEntries(m, pre, es);
      assert ins[|ins| - 1] in ins;
    }
  }

  /** The folds over two lists of steps in a row. */
  lemma DidConcat(i0: map<Key, set<nat>>, l0: seq<(Key, nat)>, s0: DownTraversal.Shared, done: seq<Step>, c: seq<Step>,
                  part: nat, requester: nat,
                  i1: map<Key, set<nat>>, l1: seq<(Key, nat)>, s1: DownTraversal.Shared, h1: seq<(Key, nat)>,
                  i2: map<Key, set<nat>>, l2: seq<(Key, nat)>, s2: DownTraversal.Shared, h2: seq<(Key, nat)>)
    requires i1 == Bits(i0, done) && l1 == l0 + Delays(done) && s1 == Parks(s0, done, part, requester) && h1 == Hits(done)
    requires i2 == Bits(i1, c) && l2 == l1 + Delays(c) && s2 == Parks(s1, c, part, requester) && h2 == h1 + Hits(c)
    ensures i2 == Bits(i0, done + c) && l2 == l0 + Delays(done + c)
    ensures s2 == Parks(s0, done + c, part, requester) && h2 == Hits(done + c)
  {
    StepsConcat(i0, s0, part, requester, done, c);
    Assoc(l0, Delays(done), Delays(c));
  }

  /** `for (auto bucket : now_ready)` (in the dual traverser, over the
      payloads): each entry's walk from the start node, in order, collecting
      the insertions. */
  method WalkReady(tp: TreePiece, node: (Key, Key) -> bool, t: Traversal, start: Option<Key>, key: Key, ready: seq<nat>,
                   ghost shape: map<Key, Node>)
    returns (ins: seq<(Key, nat)>)
    requires tp.Valid() && shape == tp.table.nodes && EntriesOk(shape, tp.leaves, node, t, ready)
    requires start.Some? ==> start.value in shape
    requires start.None? ==> key !in shape
    requires t.Single? ==> forall e :: e in ready ==> e < |tp.leaves|
    modifies tp`interactions, tp`localTravs, tp.table`nodes, tp.table`requests, tp.resumer`waiting
    ensures tp.Valid() && SameKinds(shape, tp.table.nodes)
    ensures tp.Did(old(tp.interactions), old(tp.localTravs), old(tp.SharedState()), Round(shape, tp.leaves, node, t, start, key, ready))
    ensures ins == Hits(Round(shape, tp.leaves, node, t, start, key, ready))
  {
    ghost var i0, l0, s0 := tp.interactions, tp.localTravs, tp.SharedState();
    ins := [];
    assert ready[..0] == [];
    assert Bits(i0, []) == i0 && Delays([]) == [] && Hits([]) == [] && Parks(s0, [], tp.thisIndex, tp.table.thisIndex) == s0;
    var i := 0;
    while i < |ready|
      invariant i <= |ready| && tp.Valid() && SameKinds(shape, tp.table.nodes) && EntriesOk(shape, tp.leaves, node, t, ready[..i])
      invariant tp.Did(i0, l0, s0, Round(shape, tp.leaves, node, t, start, key, ready[..i]))
      invariant ins == Hits(Round(shape, tp.leaves, node, t, start, key, ready[..i]))
    {
      RoundSnoc(shape, tp.leaves, node, t, start, key, ready, i);
      assert ready[i] in ready;
      ins := WalkEntry(tp, node, t, start, key, ready, i, ins, shape, i0, l0, s0);
      i := i + 1;
    }
    assert ready[..i] == ready;
  }

  /** One turn of the loop over the entries: the walk of entry `ready[i]`. */
  method WalkEntry(tp: TreePiece, node: (Key, Key) -> bool, t: Traversal, start: Option<Key>, key: Key, ready: seq<nat>, i: nat,
                   ins: seq<(Key, nat)>, ghost shape: map<Key, Node>,
                   ghost i0: map<Key, set<nat>>, ghost l0: seq<(Key, nat)>, ghost s0: DownTraversal.Shared)
    returns (ins': seq<(Key, nat)>)
    requires i < |ready| && EntriesOk(shape, tp.leaves, node, t, ready[..i]) && EntriesOk(shape, tp.leaves, node, t, ready[..i + 1])
    requires SetupOk(shape, SetupFor(tp.leaves, node, t, ready[i]))
    requires tp.Valid() && SameKinds(shape, tp.table.nodes)
    requires start.Some? ==> start.value in shape
    requires start.None? ==> key !in shape
    requires t.Single? ==> ready[i] < |tp.leaves|
    requires Round(shape, tp.leaves, node, t, start, key, ready[..i + 1]) ==
             Round(shape, tp.leaves, node, t, start, key, ready[..i]) + StartWalk(shape, SetupFor(tp.leaves, node, t, ready[i]), start, key, ready[i])
    requires tp.Did(i0, l0, s0, Round(shape, tp.leaves, node, t, start, key, ready[..i]))
    requires ins == Hits(Round(shape, tp.leaves, node, t, start, key, ready[..i]))
    modifies tp`interactions, tp`localTravs, tp.table`nodes, tp.table`requests, tp.resumer`waiting
    ensures tp.Valid() && SameKinds(shape, tp.table.nodes)
    ensures tp.Did(i0, l0, s0, Round(shape, tp.leaves, node, t, start, key, ready[..i + 1]))
    ensures ins' == Hits(Round(shape, tp.leaves, node, t, start, key, ready[..i + 1]))
  {
    var e := ready[i];
    var su := SetupFor(tp.leaves, node, t, e);
    ghost var i1, l1, s1 := tp.interactions, tp.localTravs, tp.SharedState();
    var hits := tp.WalkFrom(su, start, key, e, shape);
    DidConcat(i0, l0, s0, Round(shape, tp.leaves, node, t, start, key, ready[..i]), StartWalk(shape, su, start, key, e),
              tp.thisIndex, tp.table.thisIndex, i1, l1, s1, ins, tp.interactions, tp.localTravs, tp.SharedState(), ins + hits);
    ins' := ins + hits;
  }

  /** The body of `traverse(key)` in the down and dual traversers, on the
      map `m` of parked entries: find the start node, walk every entry
      parked at the key, erase the key and park the insertions. */
  method TraverseAt(tp: TreePiece, node: (Key, Key) -> bool, t: Traversal, key: Key, m: map<Key, seq<nat>>)
    returns (m': map<Key, seq<nat>>)
    requires tp.Valid() && HashOk(tp.resumer.nodehash, tp.table.nodes)
    requires EntriesOk(tp.table.nodes, tp.leaves, node, t, Lookup(m, key))
    requires t.Single? ==> forall e :: e in Lookup(m, key) ==> e < |tp.leaves|
    modifies tp`root, tp`interactions, tp`localTravs, tp.table`nodes, tp.table`requests, tp.resumer`waiting, tp.resumer`nodehash
    ensures tp.Valid() && HashOk(tp.resumer.nodehash, tp.table.nodes) && SameKinds(old(tp.table.nodes), tp.table.nodes)
    ensures tp.root == if key == 1 then tp.table.root else old(tp.root)
    ensures var start := StartOf(old(tp.root), tp.table.root, old(tp.resumer.nodehash), old(tp.table.nodes), key);
      && tp.resumer.nodehash == (if key > 1 then old(tp.resumer.nodehash)[key := start] else old(tp.resumer.nodehash))
      && var steps := Round(old(tp.table.nodes), tp.leaves, node, t, start, key, Lookup(m, key));
         && tp.Did(old(tp.interactions), old(tp.localTravs), old(tp.SharedState()), steps)
         && m' == UpAndDownTraversal.Repark(m - {key}, Hits(steps))
         && forall h :: h in Hits(steps) ==> h.1 in Lookup(m, key)
  {
    assert t.Single? ==> forall e :: e in Lookup(m, key) ==> e < |tp.leaves|;
    var start := FindStart(tp, key);
    m' := WalkAt(tp, node, t, start, key, m);
  }

  /** `TraverseAt` once the start node is known. */
  method WalkAt(tp: TreePiece, node: (Key, Key) -> bool, t: Traversal, start: Option<Key>, key: Key, m: map<Key, seq<nat>>)
    returns (m': map<Key, seq<nat>>)
    requires tp.Valid() && EntriesOk(tp.table.nodes, tp.leaves, node, t, Lookup(m, key))
    requires t.Single? ==> forall e :: e in Lookup(m, key) ==> e < |tp.leaves|
    requires start.Some? ==> start.value in tp.table.nodes
    requires start.None? ==> key !in tp.table.nodes
    modifies tp`interactions, tp`localTravs, tp.table`nodes, tp.table`requests, tp.resumer`waiting
    ensures tp.Valid() && SameKinds(old(tp.table.nodes), tp.table.nodes)
    ensures var steps := Round(old(tp.table.nodes), tp.leaves, node, t, start, key, Lookup(m, key));
      && tp.Did(old(tp.interactions), old(tp.localTravs), old(tp.SharedState()), steps)
      && m' == UpAndDownTraversal.Repark(m - {key}, Hits(steps))
      && forall h :: h in Hits(steps) ==> h.1 in Lookup(m, key)
  {
    var ready := Lookup(m, key);
    assert t.Single? ==> forall e :: e in Lookup(m, key) ==> e < |tp.leaves|;
    assert t.Single? ==> forall e :: e in ready ==> e < |tp.leaves|;
    ghost var shape := tp.table.nodes;
    var ins := WalkReady(tp, node, t, start, key, ready, shape);
    RoundHits(shape, tp.leaves, node, t, start, key, ready);
    m' := UpAndDownTraversal.Reinsert(m - {key}, ins);
  }

  /** The buckets `0 .. n-1`. */
  function Buckets(n: nat): (r: set<nat>)
    ensures forall b: nat :: b in r <==> b < n
  {
    if n == 0 then {} else Buckets(n - 1) + {n - 1}
  }

  /** `DownTraverser`: every bucket starts parked at the root key 1. */
  class DownTraverser {
    const tp: TreePiece
    /** The visitor's `node` test for a node and a leaf. */
    const node: (Key, Key) -> bool
    /** The compile-time switch DELAYLOCAL. */
    const delayLocal: bool
    /** `curr_nodes`: the buckets parked at each key. */
    var currNodes: map<Key, seq<nat>>

    ghost predicate Valid()
      reads this`currNodes, tp`root, tp`localTravs, tp.table`nodes, tp.table`root, tp.table`requests, tp.resumer`nodehash
    {
      tp.Valid() && HashOk(tp.resumer.nodehash, tp.table.nodes) && EntriesIn(currNodes, Buckets(|tp.leaves|))
    }

    /** Bucket i of each leaf is parked at key 1, in order. */
    constructor (tp: TreePiece, node: (Key, Key) -> bool, delayLocal: bool)
      requires tp.Valid() && HashOk(tp.resumer.nodehash, tp.table.nodes)
      ensures Valid() && this.tp == tp && this.node == node && this.delayLocal == delayLocal
      ensures tp.leaves == [] ==> currNodes == map[]
      ensures tp.leaves != [] ==> currNodes.Keys == {1} && |currNodes[1]| == |tp.leaves|
      ensures forall i :: 0 <= i < |tp.leaves| ==> currNodes[1][i] == i
    {
      this.tp := tp;
      this.node := node;
      this.delayLocal := delayLocal;
      var all := AllBuckets(|tp.leaves|);
      currNodes := if all == [] then map[] else map[1 := all];
    }

    /** `traverse(new_key)`: the buckets parked at the key walk from its
        start node; then the key's entry is erased and each bucket is parked
        at the unresolved nodes its walk met. A key above the root with
        buckets waiting must have a node (the code dereferences it). */
    method Traverse(key: Key)
      requires Valid()
      requires key > 1 && Lookup(currNodes, key) != [] ==> Hashed(tp.resumer.nodehash, tp.table.nodes, key).Some?
      modifies this`currNodes, tp`root, tp`interactions, tp`localTravs
      modifies tp.table`nodes, tp.table`requests, tp.resumer`waiting, tp.resumer`nodehash
      ensures Valid()
      ensures tp.root == if key == 1 then tp.table.root else old(tp.root)
      ensures var start := StartOf(old(tp.root), tp.table.root, old(tp.resumer.nodehash), old(tp.table.nodes), key);
        && tp.resumer.nodehash == (if key > 1 then old(tp.resumer.nodehash)[key := start] else old(tp.resumer.nodehash))
        && var steps := Round(old(tp.table.nodes), tp.leaves, node, Single(delayLocal), start, key, old(Lookup(currNodes, key)));
           && tp.Did(old(tp.interactions), old(tp.localTravs), old(tp.SharedState()), steps)
           && currNodes == UpAndDownTraversal.Repark(old(currNodes) - {key}, Hits(steps))
    {
      assert forall e :: e in Lookup(currNodes, key) ==> e in Buckets(|tp.leaves|);
      ghost var m0 := currNodes;
      currNodes := TraverseAt(tp, node, Single(delayLocal), key, currNodes);
      ReparkEntries(m0 - {key}, Hits(Round(old(tp.table.nodes), tp.leaves, node, Single(delayLocal),
        StartOf(old(tp.root), tp.table.root, old(tp.resumer.nodehash), old(tp.table.nodes), key), key, Lookup(m0, key))), Buckets(|tp.leaves|));
    }

    /** After `traverse`, each key at which a bucket was parked is awaited by
        this piece: the piece is on the key's waiting list. */
    lemma ParkedAwaited(steps: seq<Step>, s0: DownTraversal.Shared, m0: map<Key, seq<nat>>, key: Key)
      requires tp.SharedState() == Parks(s0, steps, tp.thisIndex, tp.table.thisIndex)
      requires currNodes == UpAndDownTraversal.Repark(m0 - {key}, Hits(steps))
      ensures forall k :: Lookup(currNodes, k) != Lookup(m0 - {key}, k) ==>
        k in tp.resumer.waiting && tp.thisIndex in tp.resumer.waiting[k]
    {
      UpAndDownTraversal.ReparkAt(m0 - {key}, Hits(steps));
      ParksAwait(s0, steps, tp.thisIndex, tp.table.thisIndex);
      forall k | Lookup(currNodes, k) != Lookup(m0 - {key}, k)
        ensures k in tp.resumer.waiting && tp.thisIndex in tp.resumer.waiting[k]
      {
        var h := AtHit(Hits(steps), k);
        assert h in Hits(steps);
      }
    }
  }

  /** A key with inserted entries is the key of some insertion. */
  lemma {:induction false} AtHit(ins: seq<(Key, nat)>, k: Key) returns (h: (Key, nat))
    requires UpAndDownTraversal.At(ins, k) != []
    ensures h in ins && h.0 == k
  {
    var pre := ins[..|ins| - 1];
    if UpAndDownTraversal.At(pre, k) != [] {
      h := AtHit(pre, k);
      assert h in ins;
    } else {
      h := ins[|ins| - 1];
    }
  }

  /** `DualTraverser`: every leaf starts parked at key 1 as its own payload,
      and the piece's subtree root is parked, as payload, at each given key. */
  class DualTraverser {
    const tp: TreePiece
    /** The visitor's `node` test for a node and a payload. */
    const node: (Key, Key) -> bool
    /** `curr_nodes`: the payload nodes parked at each key. */
    var currNodes: map<Key, seq<nat>>

    ghost predicate Valid()
      reads this`currNodes, tp`root, tp`localTravs, tp.table`nodes, tp.table`root, tp.table`requests, tp.resumer`nodehash
    {
      tp.Valid() && HashOk(tp.resumer.nodehash, tp.table.nodes) && EntriesIn(currNodes, tp.table.nodes.Keys)
    }

    /** The leaves are parked at key 1, in order; then `root_from_tp_key`
        is looked up and parked at each of `keys`, in order. A key list
        needs the subtree root in the table (the code parks what the
        lookup returns). */
    constructor (tp: TreePiece, node: (Key, Key) -> bool, keys: seq<Key>)
      requires tp.Valid() && HashOk(tp.resumer.nodehash, tp.table.nodes) && AllIn(tp.table.nodes, tp.leaves)
      requires keys != [] ==> tp.tpKey in tp.table.nodes
      modifies tp`rootFromTpKey
      ensures Valid() && this.tp == tp && this.node == node
      ensures tp.rootFromTpKey == FindNode(tp.table.nodes, tp.tpKey)
      ensures currNodes == UpAndDownTraversal.Repark(if tp.leaves == [] then map[] else map[1 := tp.leaves], Each(keys, tp.tpKey))
    {
      this.tp := tp;
      this.node := node;
      currNodes := if tp.leaves == [] then map[] else map[1 := tp.leaves];
      new;
      ghost var m0 := currNodes;
      forall k, e | k in m0 && e in m0[k] ensures e in tp.table.nodes.Keys {
        var i :| 0 <= i < |tp.leaves| && tp.leaves[i] == e;
      }
      tp.rootFromTpKey := FindNode(tp.table.nodes, tp.tpKey);
      if keys != [] {
        currNodes := UpAndDownTraversal.Reinsert(currNodes, Each(keys, tp.rootFromTpKey.value));
      } else {
        assert Each(keys, tp.tpKey) == [];
      }
      ReparkEntries(m0, Each(keys, tp.tpKey), tp.table.nodes.Keys);
    }

    /** `traverse(new_key)`: the payloads parked at the key walk, paired,
        from its start node (a dummy Remote node when none is found); then
        the key's entry is erased and each payload is parked at the
        unresolved nodes its walk met. */
    method Traverse(key: Key)
      requires Valid()
      modifies this`currNodes, tp`root, tp`interactions, tp`localTravs
      modifies tp.table`nodes, tp.table`requests, tp.resumer`waiting, tp.resumer`nodehash
      ensures Valid()
      ensures tp.root == if key == 1 then tp.table.root else old(tp.root)
      ensures var start := StartOf(old(tp.root), tp.table.root, old(tp.resumer.nodehash), old(tp.table.nodes), key);
        && tp.resumer.nodehash == (if key > 1 then old(tp.resumer.nodehash)[key := start] else old(tp.resumer.nodehash))
        && EntriesOk(old(tp.table.nodes), tp.leaves, node, Dual, old(Lookup(currNodes, key)))
        && var steps := Round(old(tp.table.nodes), tp.leaves, node, Dual, start, key, old(Lookup(currNodes, key)));
           && tp.Did(old(tp.interactions), old(tp.localTravs), old(tp.SharedState()), steps)
           && currNodes == UpAndDownTraversal.Repark(old(currNodes) - {key}, Hits(steps))
    {
      ghost var m0 := currNodes;
      assert EntriesOk(tp.table.nodes, tp.leaves, node, Dual, Lookup(currNodes, key));
      currNodes := TraverseAt(tp, node, Dual, key, currNodes);
      ReparkEntries(m0 - {key}, Hits(Round(old(tp.table.nodes), tp.leaves, node, Dual,
        StartOf(old(tp.root), tp.table.root, old(tp.resumer.nodehash), old(tp.table.nodes), key), key, Lookup(m0, key))), tp.table.nodes.Keys);
    }
  }

  /** Every climbed-to node is a node of the table. */
  ghost predicate TopsIn(tops: seq<Option<Key>>, nodes: map<Key, Node>) {
    forall b :: 0 <= b < |tops| && tops[b].Some? ==> tops[b].value in nodes
  }

  lemma RetypedTrans(a: map<Key, Node>, b: map<Key, Node>, c: map<Key, Node>)
    requires UpAndDownTraversal.Retyped(a, b) && UpAndDownTraversal.Retyped(b, c)
    ensures UpAndDownTraversal.Retyped(a, c)
  {
  }

  /** A bucket counts nowhere below `n` exactly when it is parked at no key below `n`. */
  lemma {:induction false} PileZero(m: map<Key, seq<nat>>, n: nat, b: nat)
    ensures UpAndDownTraversal.Pile(m, n, b) == 0 <==> forall k :: k in m && k < n ==> b !in m[k]
  {
    if n > 0 {
      PileZero(m, n - 1, b);
      if n - 1 in m && b in m[n - 1] {
        assert multiset(m[n - 1])[b] > 0;
      }
    }
  }

  /** Raising the bound past keys that park nothing changes no count. */
  lemma {:induction false} PileExtend(m: map<Key, seq<nat>>, n: nat, n': nat, b: nat)
    requires n <= n' && forall k :: k in m ==> k < n
    ensures UpAndDownTraversal.Pile(m, n', b) == UpAndDownTraversal.Pile(m, n, b)
  {
    if n < n' {
      PileExtend(m, n, n' - 1, b);
    }
  }

  /** The climb's insertions are at nodes of the table, hence within any wider key set. */
  lemma GrownWiden(b: nat, i0: seq<(Key, nat)>, w0: seq<int>, ins: seq<(Key, nat)>, w: seq<int>, keys: set<Key>, keys': set<Key>)
    requires UpAndDownTraversal.Grown(b, i0, w0, ins, w, keys) && keys <= keys'
    ensures UpAndDownTraversal.Grown(b, i0, w0, ins, w, keys')
  {
  }

  /** Bucket b climbed from `top` to its parent: it was parked, in order,
      at the parent's other children (each counted once and sent to
      `goDown`), and below a Boundary parent those children became
      RemoteAboveTPKey. */
  ghost predicate ClimbedTo(nodes0: map<Key, Node>, top: Key, b: nat, i0: seq<(Key, nat)>, w0: seq<int>, d0: seq<Key>,
                            nodes: map<Key, Node>, ins: seq<(Key, nat)>, w: seq<int>, d: seq<Key>) {
    && top in nodes0 && nodes0[top].parent.Some? && nodes0[top].parent.value in nodes0 && b < |w0|
    && var p := nodes0[top].parent.value;
       var o := UpAndDownTraversal.Others(nodes0[p].children, top);
       && ins == i0 + UpAndDownTraversal.Tagged(o, b)
       && w == w0[b := w0[b] + |o|]
       && d == d0 + o
       && nodes == if nodes0[p].ntype == Boundary then UpAndDownTraversal.RetypeAll(nodes0, o) else nodes0
  }

  /** What a climb amounts to: the insertions and the counter grow
      together, at nodes of the table; kinds only become RemoteAboveTPKey;
      every key sent to `goDown` is a node of the table. */
  lemma ClimbedFacts(nodes0: map<Key, Node>, top: Key, b: nat, i0: seq<(Key, nat)>, w0: seq<int>, d0: seq<Key>,
                     nodes: map<Key, Node>, ins: seq<(Key, nat)>, w: seq<int>, d: seq<Key>)
    requires WellFormed(nodes0) && ClimbedTo(nodes0, top, b, i0, w0, d0, nodes, ins, w, d)
    ensures UpAndDownTraversal.Grown(b, i0, w0[b := w0[b] + 1], ins, w, nodes0.Keys)
    ensures UpAndDownTraversal.Retyped(nodes0, nodes) && RequestedMonotone(nodes0, nodes)
    ensures d0 <= d && forall i :: |d0| <= i < |d| ==> d[i] in nodes
  {
    var p := nodes0[top].parent.value;
    var ch := nodes0[p].children;
    var o := UpAndDownTraversal.Others(ch, top);
    UpAndDownTraversal.OthersFacts(ch, top);
    assert forall x :: x in o ==> x in nodes0 by {
      forall x | x in o ensures x in nodes0 {
        var i :| 0 <= i < |ch| && ch[i] == x;
      }
    }
    UpAndDownTraversal.ClimbedIns(b, i0, w0, o, nodes0, ins, w);
    UpAndDownTraversal.ClimbedNodes(nodes0, p, o, {}, nodes, UpAndDownTraversal.Elems(o));
    forall i | |d0| <= i < |d| ensures d[i] in nodes {
      assert d[i] == o[i - |d0|];
    }
  }

  /** One turn of the climb's loop keeps `Siblings` and the `goDown` log. */
  lemma ChildStep(nodes0: map<Key, Node>, p: Key, top: Key, j: nat, b: nat, i0: seq<(Key, nat)>, w0: seq<int>, d0: seq<Key>,
                  nodes: map<Key, Node>, ins: seq<(Key, nat)>, w: seq<int>, nn: set<Key>, d: seq<Key>,
                  nodes': map<Key, Node>, ins': seq<(Key, nat)>, w': seq<int>, nn': set<Key>, d': seq<Key>)
    requires WellFormed(nodes0) && p in nodes0 && j < |nodes0[p].children|
    requires UpAndDownTraversal.Siblings(nodes0, p, top, j, b, i0, w0, {}, nodes, ins, w, nn)
    requires d == d0 + UpAndDownTraversal.Others(nodes0[p].children[..j], top)
    requires nodes.Keys == nodes0.Keys && nodes[p] == nodes0[p]
    requires var c := nodes0[p].children[j];
      && nodes' == (if c != top && nodes[p].ntype == Boundary then nodes[c := nodes[c].(ntype := RemoteAboveTPKey)] else nodes)
      && ins' == ins + (if c != top then [(c, b)] else [])
      && w' == w[b := w[b] + (if c != top then 1 else 0)]
      && d' == d + (if c != top then [c] else [])
      && nn' == (if c != top then nn + {c} else nn)
    ensures UpAndDownTraversal.Siblings(nodes0, p, top, j + 1, b, i0, w0, {}, nodes', ins', w', nn')
    ensures d' == d0 + UpAndDownTraversal.Others(nodes0[p].children[..j + 1], top)
  {
    var ch := nodes0[p].children;
    var c := ch[j];
    var o := UpAndDownTraversal.Others(ch[..j], top);
    UpAndDownTraversal.OthersSnoc(ch, j, top);
    assert c in nodes0;
    if c == top {
      assert ins' == ins && d' == d && w' == w;
    } else {
      assert d' == d0 + (o + [c]);
    }
    UpAndDownTraversal.SiblingsStep(nodes0, p, top, j, b, i0, w0, {}, nodes, ins, w, nn, nodes', ins', w', nn');
  }

  /** The climb's loop over all the parent's children is the climb. */
  lemma SiblingsDone(nodes0: map<Key, Node>, top: Key, b: nat, i0: seq<(Key, nat)>, w0: seq<int>, d0: seq<Key>,
                     nodes: map<Key, Node>, ins: seq<(Key, nat)>, w: seq<int>, d: seq<Key>, nn: set<Key>)
    requires WellFormed(nodes0) && top in nodes0 && nodes0[top].parent.Some?
    requires var p := nodes0[top].parent.value;
      && UpAndDownTraversal.Siblings(nodes0, p, top, |nodes0[p].children|, b, i0, w0, {}, nodes, ins, w, nn)
      && d == d0 + UpAndDownTraversal.Others(nodes0[p].children[..|nodes0[p].children|], top)
    ensures ClimbedTo(nodes0, top, b, i0, w0, d0, nodes, ins, w, d)
    ensures nodes.Keys == nodes0.Keys && nodes0[top].parent.value in nodes
  {
    var p := nodes0[top].parent.value;
    var ch := nodes0[p].children;
    assert ch[..|ch|] == ch;
    var o := UpAndDownTraversal.Others(ch, top);
    assert ins == i0 + UpAndDownTraversal.Tagged(o, b) && w == w0[b := w0[b] + |o|] && d == d0 + o;
    assert nodes == if nodes0[p].ntype == Boundary then UpAndDownTraversal.RetypeAll(nodes0, o) else nodes0;
    UpAndDownTraversal.SiblingsFrame(nodes0, p, top, |ch|, b, i0, w0, {}, nodes, ins, w, nn);
  }

  /** A single traversal's walk for bucket b reports hits for b only, at
      keys of the shape or at the key looked for. */
  lemma SingleHits(shape: map<Key, Node>, leaves: seq<Key>, node: (Key, Key) -> bool, delayLocal: bool,
                   start: Option<Key>, key: Key, b: nat)
    requires WellFormed(shape)
    ensures var su := SetupFor(leaves, node, Single(delayLocal), b);
      forall h :: h in Hits(StartWalk(shape, su, start, key, b)) ==> h.1 == b && h.0 in shape.Keys + {key}
  {
    StartWalkLog(shape, SetupFor(leaves, node, Single(delayLocal), b), start, key, b);
  }

  /** The walk of bucket `b` in its turn of an up-and-down traversal: its
      counter in `w` goes down by one, then up by one for each place the
      walk parks it at, which `ins` records. */
  method BucketTurn(tp: TreePiece, node: (Key, Key) -> bool, delayLocal: bool, key: Key, start: Option<Key>, b: nat,
                    ins: seq<(Key, nat)>, w: seq<int>, ghost tops: seq<Option<Key>>, ghost downs: seq<Key>)
    returns (ins': seq<(Key, nat)>, w': seq<int>, ghost hits: seq<(Key, nat)>)
    requires tp.Valid() && b < |tp.leaves| && |w| == |tp.leaves|
    requires start.Some? ==> start.value in tp.table.nodes
    requires start.None? ==> key !in tp.table.nodes
    modifies tp`interactions, tp`localTravs, tp.table`nodes, tp.table`requests, tp.resumer`waiting
    ensures tp.Valid() && SameKinds(old(tp.table.nodes), tp.table.nodes) && |w'| == |tp.leaves|
    ensures UpAndDownTraversal.Grown(b, ins, w, ins', w', old(tp.table.nodes).Keys + {key})
    ensures var steps := StartWalk(old(tp.table.nodes), SetupFor(tp.leaves, node, Single(delayLocal), b), start, key, b);
      && tp.Did(old(tp.interactions), old(tp.localTravs), old(tp.SharedState()), steps)
      && hits == Hits(steps)
    ensures ins' == ins + hits && w' == w[b := w[b] - 1 + |hits|]
    ensures Walked(Stage(old(tp.table.nodes), tops, w, ins, downs), b, hits, Stage(tp.table.nodes, tops, w', ins', downs))
  {
    ghost var nodes0 := tp.table.nodes;
    var su := SetupFor(tp.leaves, node, Single(delayLocal), b);
    var made := tp.WalkFrom(su, start, key, b, nodes0);
    hits := made;
    // the decrement before the walk and one increment per hit
    w' := w[b := w[b] - 1 + |made|];
    SingleHits(nodes0, tp.leaves, node, delayLocal, start, key, b);
    UpAndDownTraversal.GrownWalk(b, ins, w, made, nodes0.Keys + {key}, ins + made, w');
    ins' := ins + made;
  }

  /** One bucket's turn keeps the counters as `Mid` expects them and the
      insertions within the keys and the buckets. */
  lemma TurnTaken(c0: map<Key, seq<nat>>, bound: nat, ready: seq<nat>, i: nat, ins: seq<(Key, nat)>, w: seq<int>,
                  ins': seq<(Key, nat)>, w': seq<int>, keys: set<Key>, n: nat)
    requires UpAndDownTraversal.Mid(c0, bound, ready, i, ins, w) && i < |ready| && ready[i] < n
    requires UpAndDownTraversal.Grown(ready[i], ins, w, ins', w', keys)
    requires forall j :: 0 <= j < |ins| ==> ins[j].0 in keys && ins[j].1 < n
    ensures UpAndDownTraversal.Mid(c0, bound, ready, i + 1, ins', w')
    ensures forall j :: 0 <= j < |ins'| ==> ins'[j].0 in keys && ins'[j].1 < n
  {
    UpAndDownTraversal.MidStep(c0, bound, ready, i, ins, w, ins', w', keys);
    UpAndDownTraversal.GrownIn(ready[i], ins, w, ins', w', keys, n);
  }

  /** The constructor's loop `curr_nodes[leaves[i]->key].push_back(i)`. */
  method ParkLeaves(leaves: seq<Key>) returns (parked: map<Key, seq<nat>>)
    ensures parked == UpAndDownTraversal.ParkAt(leaves)
  {
    parked := map[];
    var i := 0;
    while i < |leaves|
      invariant 0 <= i <= |leaves| && parked == UpAndDownTraversal.ParkAt(leaves[..i])
    {
      assert leaves[..i + 1][..i] == leaves[..i];
      var k := leaves[i];
      parked := parked[k := Lookup(parked, k) + [i]];
      i := i + 1;
    }
    assert leaves[..i] == leaves;
  }

  /** Each leaf's bucket parked at the leaf: every bucket is counted once,
      at keys of the table. */
  lemma ParkedOnce(leaves: seq<Key>, nodes: map<Key, Node>, bound: nat)
    requires AllIn(nodes, leaves) && bound == KeyBound(nodes.Keys) + 1
    ensures forall k :: k in UpAndDownTraversal.ParkAt(leaves) ==> k < bound
    ensures EntriesIn(UpAndDownTraversal.ParkAt(leaves), Buckets(|leaves|))
    ensures seq(|leaves|, _ => 1) == UpAndDownTraversal.Tally(UpAndDownTraversal.ParkAt(leaves), bound, |leaves|)
  {
    var m := UpAndDownTraversal.ParkAt(leaves);
    UpAndDownTraversal.ParkAtFacts(leaves, nodes, bound);
    forall k, e | k in m && e in m[k] ensures e in Buckets(|leaves|) {
    }
  }

  /** The part of the up-and-down traverser's state a turn of `traverse`
      decides: the table, the tops (none before a bucket's first climb), the
      counters, the insertions and the keys sent to `goDown`. */
  datatype Stage = Stage(nodes: map<Key, Node>, tops: seq<Option<Key>>, w: seq<int>, ins: seq<(Key, nat)>, downs: seq<Key>)

  /** `u` is `t` up to request flags, which only the fetches set. */
  ghost predicate Alike(t: Stage, u: Stage) {
    SameKinds(t.nodes, u.nodes) && t.(nodes := u.nodes) == u
  }

  lemma AlikeTrans(t: Stage, u: Stage, v: Stage)
    requires Alike(t, u) && Alike(u, v)
    ensures Alike(t, v)
  {
    SameKindsTrans(t.nodes, u.nodes, v.nodes);
  }

  /** Bucket b has a top and a counter, every top is a node of the
      well-formed table, and so is the cache's root `root`. */
  ghost predicate Holds(t: Stage, b: nat, root: Key) {
    WellFormed(t.nodes) && b < |t.tops| && b < |t.w| && TopsIn(t.tops, t.nodes) && root in t.nodes
  }

  /** The `if (num_waiting[bucket] == 0)` step: a bucket that waits for
      nothing takes the root as its top if it has none; if that top has a
      parent, b is parked at every other child of the parent (retyped to
      `RemoteAboveTPKey` below a Boundary parent), counted once per child,
      each sent to `goDown`, and the parent becomes b's top. */
  ghost function ClimbStep(t: Stage, b: nat, root: Key): Stage
    requires Holds(t, b, root)
  {
    if t.w[b] != 0 then t
    else
      var top := if t.tops[b].Some? then t.tops[b].value else root;
      if t.nodes[top].parent.None? then t.(tops := t.tops[b := Some(top)])
      else
        var p := t.nodes[top].parent.value;
        var o := UpAndDownTraversal.Others(t.nodes[p].children, top);
        Stage(if t.nodes[p].ntype == Boundary then UpAndDownTraversal.RetypeAll(t.nodes, o) else t.nodes,
              t.tops[b := Some(p)], t.w[b := t.w[b] + |o|], t.ins + UpAndDownTraversal.Tagged(o, b), t.downs + o)
  }

  /** The climb step depends on the table only up to request flags. */
  lemma ClimbStepKinds(t: Stage, n: map<Key, Node>, b: nat, root: Key)
    requires Holds(t, b, root) && SameKinds(t.nodes, n)
    ensures Holds(t.(nodes := n), b, root)
    ensures Alike(ClimbStep(t, b, root), ClimbStep(t.(nodes := n), b, root))
  {
    SameShapeWellFormed(t.nodes, n);
    if t.w[b] == 0 {
      var top := if t.tops[b].Some? then t.tops[b].value else root;
      if t.nodes[top].parent.Some? {
        var p := t.nodes[top].parent.value;
        UpAndDownTraversal.RetypeAllKinds(t.nodes, n, UpAndDownTraversal.Others(t.nodes[p].children, top));
      }
    }
  }

  /** A bucket's turn once its walk made the insertions `hits`: its
      counter goes down by one and up by one per hit, the hits are
      inserted, and then the climb step. */
  ghost function ClimbAfter(t: Stage, b: nat, hits: seq<(Key, nat)>, root: Key): Stage
    requires Holds(t, b, root)
  {
    ClimbStep(t.(w := t.w[b := t.w[b] - 1 + |hits|], ins := t.ins + hits), b, root)
  }

  /** The walk of bucket b took `s` to `u`: the counter went down by one
      and up by one per hit, the hits were inserted, and the table changed
      in request flags only. */
  ghost predicate Walked(s: Stage, b: nat, hits: seq<(Key, nat)>, u: Stage) {
    && b < |s.w| && SameKinds(s.nodes, u.nodes)
    && u == Stage(u.nodes, s.tops, s.w[b := s.w[b] - 1 + |hits|], s.ins + hits, s.downs)
  }

  lemma ClimbAfterKinds(t: Stage, b: nat, hits: seq<(Key, nat)>, root: Key, u: Stage)
    requires Holds(t, b, root) && Walked(t, b, hits, u)
    ensures Holds(u, b, root)
    ensures Alike(ClimbAfter(t, b, hits, root), ClimbStep(u, b, root))
  {
    var walked := t.(w := t.w[b := t.w[b] - 1 + |hits|], ins := t.ins + hits);
    assert walked.(nodes := u.nodes) == u;
    ClimbStepKinds(walked, u.nodes, b, root);
  }

  /** Every top is still unset or is the cache's root `root`. */
  ghost predicate AtRoot(tops: seq<Option<Key>>, root: Key) {
    forall b :: 0 <= b < |tops| ==> tops[b].None? || tops[b] == Some(root)
  }

  /** With the tops unset or at a root without a parent, the climb step
      never climbs: an unset top becomes the root and stops there, so no
      sibling is parked, counted, retyped or sent to `goDown`. */
  lemma NeverClimbs(t: Stage, b: nat, root: Key)
    requires Holds(t, b, root) && t.nodes[root].parent.None? && AtRoot(t.tops, root)
    ensures var u := ClimbStep(t, b, root);
      && u.nodes == t.nodes && u.w == t.w && u.ins == t.ins && u.downs == t.downs
      && |u.tops| == |t.tops| && AtRoot(u.tops, root)
  {
    var u := ClimbStep(t, b, root);
    forall i | 0 <= i < |u.tops| ensures u.tops[i].None? || u.tops[i] == Some(root) {
      assert i != b ==> u.tops[i] == t.tops[i];
    }
  }

  /** `UpnDTraverser`: bucket i starts parked at its own leaf, waiting for
      that one place, and has not climbed yet. */
  class UpnDTraverser {
    const tp: TreePiece
    /** The visitor's `node` test for a node and a leaf. */
    const node: (Key, Key) -> bool
    /** The compile-time switch DELAYLOCAL. */
    const delayLocal: bool
    /** `curr_nodes`: the buckets parked at each key. */
    var currNodes: map<Key, seq<nat>>
    /** `num_waiting[b]`: how many places bucket b is parked at. */
    var numWaiting: seq<int>
    /** `trav_tops[b]`: the node bucket b has climbed to (null before its first climb). */
    var travTops: seq<Option<Key>>
    /** The keys sent to this piece's `goDown`, in order. */
    ghost var downs: seq<Key>
    /** Every key an entry is parked at is below this bound. */
    ghost var bound: nat

    ghost predicate Valid()
      reads this`currNodes, this`numWaiting, this`travTops, this`bound
      reads tp`root, tp`localTravs, tp.table`nodes, tp.table`root, tp.table`requests, tp.resumer`nodehash
    {
      && tp.Valid() && HashOk(tp.resumer.nodehash, tp.table.nodes)
      && |numWaiting| == |tp.leaves| && |travTops| == |tp.leaves| && TopsIn(travTops, tp.table.nodes)
      && KeyBound(tp.table.nodes.Keys) < bound
      && (forall k :: k in currNodes ==> k < bound)
      && EntriesIn(currNodes, Buckets(|tp.leaves|))
      && numWaiting == UpAndDownTraversal.Tally(currNodes, bound, |numWaiting|)
    }

    /** A bucket waits for nothing exactly when it is parked nowhere. */
    lemma Idle(b: nat)
      requires Valid() && b < |numWaiting|
      ensures numWaiting[b] == 0 <==> forall k :: k in currNodes ==> b !in currNodes[k]
    {
      assert numWaiting[b] == UpAndDownTraversal.Tally(currNodes, bound, |numWaiting|)[b];
      PileZero(currNodes, bound, b);
    }

    /** A state a turn can start from: a well-formed table holding every
        top and the root, one top and one counter per bucket. */
    ghost predicate Fits(t: Stage, root: Key) {
      WellFormed(t.nodes) && |t.tops| == |tp.leaves| && |t.w| == |tp.leaves| && TopsIn(t.tops, t.nodes) && root in t.nodes
    }

    /** Bucket b's turn of `traverse` at `key`, walking from `start`: its
        counter goes down by one and up by one per hit of its walk, the
        hits are inserted, and then the climb step. */
    ghost function Turn(t: Stage, key: Key, start: Option<Key>, b: nat, root: Key): Stage
      requires Fits(t, root) && b < |tp.leaves|
    {
      ClimbAfter(t, b, Hits(StartWalk(t.nodes, SetupFor(tp.leaves, node, Single(delayLocal), b), start, key, b)), root)
    }

    /** The turns of the buckets `ready`, in order: what `traverse`'s loop
        over the buckets parked at `key` does. (A state no turn could start
        from is left as it is; `Stepped` shows no turn reaches one.) */
    ghost function Turns(t: Stage, key: Key, start: Option<Key>, ready: seq<nat>, root: Key): Stage
    {
      if ready == [] then t
      else
        var r := Turns(t, key, start, ready[..|ready| - 1], root);
        if Fits(r, root) && ready[|ready| - 1] < |tp.leaves| then Turn(r, key, start, ready[|ready| - 1], root) else r
    }

    /** As written, the traverser never climbs: starting from unset tops
        (the constructor's nullptr), a bucket whose counter reaches 0 takes
        the root as its top, and the root has no parent. So over any
        sequence of turns no key is sent to `goDown`, no node is retyped,
        and every top stays unset or at the root. */
    lemma {:induction false} TurnsNeverClimb(t: Stage, key: Key, start: Option<Key>, ready: seq<nat>, root: Key)
      requires Fits(t, root) && t.nodes[root].parent.None? && AtRoot(t.tops, root)
      ensures var r := Turns(t, key, start, ready, root);
        && r.downs == t.downs && r.nodes == t.nodes && Fits(r, root) && AtRoot(r.tops, root)
    {
      if ready != [] {
        var r := Turns(t, key, start, ready[..|ready| - 1], root);
        TurnsNeverClimb(t, key, start, ready[..|ready| - 1], root);
        var b := ready[|ready| - 1];
        if b < |tp.leaves| {
          var hits := Hits(StartWalk(r.nodes, SetupFor(tp.leaves, node, Single(delayLocal), b), start, key, b));
          var walked := r.(w := r.w[b := r.w[b] - 1 + |hits|], ins := r.ins + hits);
          NeverClimbs(walked, b, root);
          var u := ClimbStep(walked, b, root);
          forall i | 0 <= i < |u.tops| && u.tops[i].Some? ensures u.tops[i].value in u.nodes {
          }
        }
      }
    }

    lemma TurnsSnoc(t: Stage, key: Key, start: Option<Key>, ready: seq<nat>, i: nat, root: Key)
      requires i < |ready| && ready[i] < |tp.leaves| && Fits(Turns(t, key, start, ready[..i], root), root)
      ensures Turns(t, key, start, ready[..i + 1], root) == Turn(Turns(t, key, start, ready[..i], root), key, start, ready[i], root)
    {
      assert ready[..i + 1][..i] == ready[..i];
    }

    lemma AlikeFits(t: Stage, u: Stage, root: Key)
      requires Alike(t, u) && Fits(u, root)
      ensures Fits(t, root)
    {
      SameShapeWellFormed(u.nodes, t.nodes);
    }

    /** A turn depends on the table only up to request flags. */
    lemma TurnAlike(t: Stage, u: Stage, key: Key, start: Option<Key>, b: nat, root: Key)
      requires Fits(t, root) && Alike(t, u) && b < |tp.leaves|
      ensures Fits(u, root) && Alike(Turn(t, key, start, b, root), Turn(u, key, start, b, root))
    {
      var su := SetupFor(tp.leaves, node, Single(delayLocal), b);
      StartWalkKinds(t.nodes, u.nodes, su, start, key, b);
      var hits := Hits(StartWalk(t.nodes, su, start, key, b));
      ClimbAfterKinds(t, b, hits, root, u.(w := u.w[b := u.w[b] - 1 + |hits|], ins := u.ins + hits));
    }

    /** After the turns of `ready[..i]` from `st`, the state is theirs up to request flags. */
    ghost predicate Stepped(st: Stage, key: Key, start: Option<Key>, ready: seq<nat>, i: nat, ins: seq<(Key, nat)>)
      reads this`numWaiting, this`travTops, this`downs, tp.table`nodes, tp.table`root
    {
      i <= |ready| && Alike(Turns(st, key, start, ready[..i], tp.table.root), Stage(tp.table.nodes, travTops, numWaiting, ins, downs))
    }

    /** Bucket i is parked at the key of leaf i, waits for that one place,
        and has no top. */
    constructor (tp: TreePiece, node: (Key, Key) -> bool, delayLocal: bool)
      requires tp.Valid() && HashOk(tp.resumer.nodehash, tp.table.nodes) && AllIn(tp.table.nodes, tp.leaves)
      ensures Valid() && this.tp == tp && this.node == node && this.delayLocal == delayLocal
      ensures currNodes == UpAndDownTraversal.ParkAt(tp.leaves) && downs == []
      ensures |numWaiting| == |tp.leaves| && forall b :: 0 <= b < |tp.leaves| ==> numWaiting[b] == 1
      ensures |travTops| == |tp.leaves| && forall b :: 0 <= b < |tp.leaves| ==> travTops[b].None?
    {
      var parked := ParkLeaves(tp.leaves);
      this.tp := tp;
      this.node := node;
      this.delayLocal := delayLocal;
      currNodes := parked;
      numWaiting := seq(|tp.leaves|, _ => 1);
      travTops := seq(|tp.leaves|, _ => None);
      downs := [];
      bound := KeyBound(tp.table.nodes.Keys) + 1;
      new;
      ParkedOnce(tp.leaves, tp.table.nodes, bound);
    }

    /** `traverse(new_key)`: each bucket parked at the key takes its turn,
        in order (`Serve`); then the key's entry is erased and the
        insertions are parked. Every counter stays the number of places its
        bucket is parked at. */
    method Traverse(key: Key) returns (ghost ins: seq<(Key, nat)>)
      requires Valid()
      modifies this`currNodes, this`numWaiting, this`travTops, this`downs, this`bound
      modifies tp`root, tp`interactions, tp`localTravs, tp.table`nodes, tp.table`requests, tp.resumer`waiting, tp.resumer`nodehash
      ensures Valid()
      ensures tp.root == if key == 1 then tp.table.root else old(tp.root)
      ensures tp.resumer.nodehash ==
        if key > 1 then old(tp.resumer.nodehash)[key := StartOf(old(tp.root), tp.table.root, old(tp.resumer.nodehash), old(tp.table.nodes), key)]
        else old(tp.resumer.nodehash)
      ensures UpAndDownTraversal.Retyped(old(tp.table.nodes), tp.table.nodes)
      ensures currNodes == UpAndDownTraversal.Repark(old(currNodes) - {key}, ins)
      ensures old(downs) <= downs && forall i :: |old(downs)| <= i < |downs| ==> downs[i] in tp.table.nodes
      ensures Alike(Turns(Stage(old(tp.table.nodes), old(travTops), old(numWaiting), [], old(downs)), key,
                          StartOf(old(tp.root), tp.table.root, old(tp.resumer.nodehash), old(tp.table.nodes), key),
                          Lookup(old(currNodes), key), tp.table.root),
                    Stage(tp.table.nodes, travTops, numWaiting, ins, downs))
    {
      Rebound(key);
      var start := FindStart(tp, key);
      ins := ServeAndSettle(key, start);
    }

    /** `traverse` once the walks' start is found: the turns of the buckets
        parked at `key`, then the erase and the parking of the insertions. */
    method ServeAndSettle(key: Key, start: Option<Key>) returns (ghost ins: seq<(Key, nat)>)
      requires Valid() && key < bound
      requires start.Some? ==> start.value in tp.table.nodes
      requires start.None? ==> key !in tp.table.nodes
      modifies this`currNodes, this`numWaiting, this`travTops, this`downs
      modifies tp`interactions, tp`localTravs, tp.table`nodes, tp.table`requests, tp.resumer`waiting
      ensures Valid()
      ensures UpAndDownTraversal.Retyped(old(tp.table.nodes), tp.table.nodes)
      ensures currNodes == UpAndDownTraversal.Repark(old(currNodes) - {key}, ins)
      ensures old(downs) <= downs && forall i :: |old(downs)| <= i < |downs| ==> downs[i] in tp.table.nodes
      ensures Alike(Turns(Stage(old(tp.table.nodes), old(travTops), old(numWaiting), [], old(downs)), key, start,
                          Lookup(old(currNodes), key), tp.table.root),
                    Stage(tp.table.nodes, travTops, numWaiting, ins, downs))
    {
      ghost var c0 := currNodes;
      var made := ServeReady(key, start);
      Settle(key, made, c0);
      ins := made;
    }

    /** The turns of the buckets parked at `key`, in order. */
    method ServeReady(key: Key, start: Option<Key>) returns (ins: seq<(Key, nat)>)
      requires Valid() && key < bound
      requires start.Some? ==> start.value in tp.table.nodes
      requires start.None? ==> key !in tp.table.nodes
      modifies this`numWaiting, this`travTops, this`downs
      modifies tp`interactions, tp`localTravs, tp.table`nodes, tp.table`requests, tp.resumer`waiting
      ensures tp.Valid() && HashOk(tp.resumer.nodehash, tp.table.nodes)
      ensures |numWaiting| == |tp.leaves| && |travTops| == |tp.leaves| && TopsIn(travTops, tp.table.nodes)
      ensures KeyBound(tp.table.nodes.Keys) < bound && (forall k :: k in currNodes ==> k < bound) && EntriesIn(currNodes, Buckets(|tp.leaves|))
      ensures forall j :: 0 <= j < |ins| ==> ins[j].0 < bound && ins[j].1 < |tp.leaves|
      ensures UpAndDownTraversal.Mid(currNodes, bound, Lookup(currNodes, key), |Lookup(currNodes, key)|, ins, numWaiting)
      ensures UpAndDownTraversal.Retyped(old(tp.table.nodes), tp.table.nodes)
      ensures old(downs) <= downs && forall i :: |old(downs)| <= i < |downs| ==> downs[i] in tp.table.nodes
      ensures Alike(Turns(Stage(old(tp.table.nodes), old(travTops), old(numWaiting), [], old(downs)), key, start,
                          Lookup(currNodes, key), tp.table.root),
                    Stage(tp.table.nodes, travTops, numWaiting, ins, downs))
    {
      var ready := Lookup(currNodes, key);
      UpAndDownTraversal.MidStarts(currNodes, bound, ready, numWaiting);
      forall e | e in ready ensures e < |tp.leaves| {
        assert e in Buckets(|tp.leaves|);
      }
      ins := ServeAll(key, start, ready, currNodes);
    }

    /** Raise the bound above `key` if need be; no count changes. */
    ghost method Rebound(key: Key)
      requires Valid()
      modifies this`bound
      ensures Valid() && key < bound
    {
      if key >= bound {
        forall x: nat ensures UpAndDownTraversal.Pile(currNodes, key + 1, x) == UpAndDownTraversal.Pile(currNodes, bound, x) {
          PileExtend(currNodes, bound, key + 1, x);
        }
        bound := key + 1;
      }
    }

    /** The loop of `traverse` over the buckets `ready`: each takes its turn
        in order, and the counters stay tied to the parked buckets not yet
        served plus the insertions made so far. */
    method ServeAll(key: Key, start: Option<Key>, ready: seq<nat>, ghost c0: map<Key, seq<nat>>) returns (ins: seq<(Key, nat)>)
      requires tp.Valid() && |numWaiting| == |tp.leaves| && |travTops| == |tp.leaves| && TopsIn(travTops, tp.table.nodes)
      requires KeyBound(tp.table.nodes.Keys) < bound && key < bound
      requires start.Some? ==> start.value in tp.table.nodes
      requires start.None? ==> key !in tp.table.nodes
      requires forall e :: e in ready ==> e < |tp.leaves|
      requires UpAndDownTraversal.Mid(c0, bound, ready, 0, [], numWaiting)
      modifies this`numWaiting, this`travTops, this`downs
      modifies tp`interactions, tp`localTravs, tp.table`nodes, tp.table`requests, tp.resumer`waiting
      ensures tp.Valid() && |numWaiting| == |tp.leaves| && |travTops| == |tp.leaves| && TopsIn(travTops, tp.table.nodes)
      ensures UpAndDownTraversal.Retyped(old(tp.table.nodes), tp.table.nodes)
      ensures UpAndDownTraversal.Mid(c0, bound, ready, |ready|, ins, numWaiting)
      ensures forall j :: 0 <= j < |ins| ==> ins[j].0 < bound && ins[j].1 < |tp.leaves|
      ensures old(downs) <= downs && forall i :: |old(downs)| <= i < |downs| ==> downs[i] in tp.table.nodes
      ensures Alike(Turns(Stage(old(tp.table.nodes), old(travTops), old(numWaiting), [], old(downs)), key, start, ready, tp.table.root),
                    Stage(tp.table.nodes, travTops, numWaiting, ins, downs))
    {
      ghost var nodes0, d0 := tp.table.nodes, downs;
      ghost var keys := nodes0.Keys + {key};
      ghost var st := Stage(nodes0, travTops, numWaiting, [], d0);
      ins := [];
      var i := 0;
      assert ready[..0] == [];
      while i < |ready|
        invariant i <= |ready| && tp.Valid() && |numWaiting| == |tp.leaves| && |travTops| == |tp.leaves| && TopsIn(travTops, tp.table.nodes)
        invariant UpAndDownTraversal.Retyped(nodes0, tp.table.nodes)
        invariant UpAndDownTraversal.Mid(c0, bound, ready, i, ins, numWaiting)
        invariant forall j :: 0 <= j < |ins| ==> ins[j].0 in keys && ins[j].1 < |tp.leaves|
        invariant d0 <= downs && forall j :: |d0| <= j < |downs| ==> downs[j] in tp.table.nodes
        invariant Stepped(st, key, start, ready, i, ins)
      {
        assert ready[i] in ready;
        ins := TakeTurn(key, start, ready, i, ins, c0, nodes0, d0, st);
        i := i + 1;
      }
      InsBelow(ins, nodes0, key, bound);
      assert ready[..i] == ready;
    }

    lemma InsBelow(ins: seq<(Key, nat)>, nodes: map<Key, Node>, key: Key, bound: nat)
      requires KeyBound(nodes.Keys) < bound && key < bound
      requires forall j :: 0 <= j < |ins| ==> ins[j].0 in nodes.Keys + {key}
      ensures forall j :: 0 <= j < |ins| ==> ins[j].0 < bound
    {
    }

    /** The turn of `ready[i]` within the loop of `traverse`. */
    method TakeTurn(key: Key, start: Option<Key>, ready: seq<nat>, i: nat, ins: seq<(Key, nat)>,
                    ghost c0: map<Key, seq<nat>>, ghost nodes0: map<Key, Node>, ghost d0: seq<Key>, ghost st: Stage)
      returns (ins': seq<(Key, nat)>)
      requires tp.Valid() && |numWaiting| == |tp.leaves| && |travTops| == |tp.leaves| && TopsIn(travTops, tp.table.nodes)
      requires i < |ready| && ready[i] < |tp.leaves| && Stepped(st, key, start, ready, i, ins)
      requires UpAndDownTraversal.Retyped(nodes0, tp.table.nodes)
      requires start.Some? ==> start.value in nodes0
      requires start.None? ==> key !in nodes0
      requires UpAndDownTraversal.Mid(c0, bound, ready, i, ins, numWaiting)
      requires forall j :: 0 <= j < |ins| ==> ins[j].0 in nodes0.Keys + {key} && ins[j].1 < |tp.leaves|
      requires d0 <= downs && forall j :: |d0| <= j < |downs| ==> downs[j] in tp.table.nodes
      modifies this`numWaiting, this`travTops, this`downs
      modifies tp`interactions, tp`localTravs, tp.table`nodes, tp.table`requests, tp.resumer`waiting
      ensures tp.Valid() && |numWaiting| == |tp.leaves| && |travTops| == |tp.leaves| && TopsIn(travTops, tp.table.nodes)
      ensures UpAndDownTraversal.Retyped(nodes0, tp.table.nodes)
      ensures UpAndDownTraversal.Mid(c0, bound, ready, i + 1, ins', numWaiting)
      ensures forall j :: 0 <= j < |ins'| ==> ins'[j].0 in nodes0.Keys + {key} && ins'[j].1 < |tp.leaves|
      ensures d0 <= downs && forall j :: |d0| <= j < |downs| ==> downs[j] in tp.table.nodes
      ensures Stepped(st, key, start, ready, i + 1, ins')
    {
      ghost var n1, w1, dn1, tops1 := tp.table.nodes, numWaiting, downs, travTops;
      ghost var hits, u;
      ins', hits, u := Serve(key, start, ready[i], ins);
      RetypedTrans(nodes0, n1, tp.table.nodes);
      TurnTaken(c0, bound, ready, i, ins, w1, ins', numWaiting, nodes0.Keys + {key}, |tp.leaves|);
      SteppedOn(st, key, start, ready, i, tp.table.root, n1, tops1, w1, ins, dn1, hits, u, Stage(tp.table.nodes, travTops, numWaiting, ins', downs));
    }

    /** One more turn taken: from the state after the turns of
        `ready[..i]` (up to request flags), the walk left `u` and the climb
        step left `now`, which is then the state after the turns of
        `ready[..i + 1]`. */
    lemma SteppedOn(st: Stage, key: Key, start: Option<Key>, ready: seq<nat>, i: nat, root: Key,
                    nodes: map<Key, Node>, tops: seq<Option<Key>>, w: seq<int>, i0: seq<(Key, nat)>, d0: seq<Key>,
                    hits: seq<(Key, nat)>, u: Stage, now: Stage)
      requires i < |ready| && ready[i] < |tp.leaves| && Alike(Turns(st, key, start, ready[..i], root), Stage(nodes, tops, w, i0, d0))
      requires Fits(Stage(nodes, tops, w, i0, d0), root)
      requires hits == Hits(StartWalk(nodes, SetupFor(tp.leaves, node, Single(delayLocal), ready[i]), start, key, ready[i]))
      requires Walked(Stage(nodes, tops, w, i0, d0), ready[i], hits, u) && Holds(u, ready[i], root)
      requires now == ClimbStep(u, ready[i], root)
      ensures Alike(Turns(st, key, start, ready[..i + 1], root), now)
    {
      var t := Turns(st, key, start, ready[..i], root);
      AlikeFits(t, Stage(nodes, tops, w, i0, d0), root);
      TurnStepAt(t, nodes, tops, w, i0, d0, key, start, ready[i], root, hits, u, now);
      TurnsSnoc(st, key, start, ready, i, root);
    }

    /** The turn of bucket `b` at `key`: its counter goes down by one, it
        walks from the start node (each place it is parked at adds one to
        the counter and one insertion), and it climbs if it now waits for
        nothing. The bits and deferred traversals are the walk's. */
    method Serve(key: Key, start: Option<Key>, b: nat, ins: seq<(Key, nat)>)
      returns (ins': seq<(Key, nat)>, ghost hits: seq<(Key, nat)>, ghost u: Stage)
      requires tp.Valid() && b < |tp.leaves| && |numWaiting| == |tp.leaves| && |travTops| == |tp.leaves| && TopsIn(travTops, tp.table.nodes)
      requires start.Some? ==> start.value in tp.table.nodes
      requires start.None? ==> key !in tp.table.nodes
      modifies this`numWaiting, this`travTops, this`downs
      modifies tp`interactions, tp`localTravs, tp.table`nodes, tp.table`requests, tp.resumer`waiting
      ensures tp.Valid() && |numWaiting| == |tp.leaves| && |travTops| == |tp.leaves| && TopsIn(travTops, tp.table.nodes)
      ensures UpAndDownTraversal.Retyped(old(tp.table.nodes), tp.table.nodes)
      ensures UpAndDownTraversal.Grown(b, ins, old(numWaiting), ins', numWaiting, old(tp.table.nodes).Keys + {key})
      ensures var steps := StartWalk(old(tp.table.nodes), SetupFor(tp.leaves, node, Single(delayLocal), b), start, key, b);
        && tp.interactions == Bits(old(tp.interactions), steps) && tp.localTravs == old(tp.localTravs) + Delays(steps)
        && hits == Hits(steps)
      ensures old(downs) <= downs && forall i :: |old(downs)| <= i < |downs| ==> downs[i] in tp.table.nodes
      ensures Walked(Stage(old(tp.table.nodes), old(travTops), old(numWaiting), ins, old(downs)), b, hits, u) && Holds(u, b, tp.table.root)
      ensures Stage(tp.table.nodes, travTops, numWaiting, ins', downs) == ClimbStep(u, b, tp.table.root)
    {
      ghost var nodes0 := tp.table.nodes;
      ghost var keys := nodes0.Keys + {key};
      ins', numWaiting, hits := BucketTurn(tp, node, delayLocal, key, start, b, ins, numWaiting, travTops, downs);
      u := Stage(tp.table.nodes, travTops, numWaiting, ins', downs);
      ghost var n1 := tp.table.nodes;
      ins' := ClimbIfDone(b, ins, old(numWaiting), ins', keys);
      RetypedTrans(nodes0, n1, tp.table.nodes);
    }

    /** A turn from a state alike to `Stage(nodes, tops, w, i0, d0)`, whose
        walk left `u` (alike in kinds) and whose climb step then left `now`. */
    lemma TurnStepAt(t: Stage, nodes: map<Key, Node>, tops: seq<Option<Key>>, w: seq<int>, i0: seq<(Key, nat)>, d0: seq<Key>,
                     key: Key, start: Option<Key>, b: nat, root: Key, hits: seq<(Key, nat)>, u: Stage, now: Stage)
      requires Fits(t, root) && Alike(t, Stage(nodes, tops, w, i0, d0)) && b < |tp.leaves|
      requires hits == Hits(StartWalk(nodes, SetupFor(tp.leaves, node, Single(delayLocal), b), start, key, b))
      requires Walked(Stage(nodes, tops, w, i0, d0), b, hits, u) && Holds(u, b, root)
      requires now == ClimbStep(u, b, root)
      ensures Alike(Turn(t, key, start, b, root), now)
    {
      var s := Stage(nodes, tops, w, i0, d0);
      TurnAlike(t, s, key, start, b, root);
      ClimbAfterKinds(s, b, hits, root, u);
      AlikeTrans(Turn(t, key, start, b, root), Turn(s, key, start, b, root), now);
    }

    /** `if (num_waiting[bucket] == 0)`: a bucket that waits for nothing
        takes the cache's root as its top if it has none, and climbs if its
        top has a parent; otherwise nothing changes. */
    method ClimbIfDone(b: nat, ghost i0: seq<(Key, nat)>, ghost w0: seq<int>, ins: seq<(Key, nat)>, ghost keys: set<Key>)
      returns (ins': seq<(Key, nat)>)
      requires tp.table.Valid() && b < |numWaiting| && |travTops| == |numWaiting| && TopsIn(travTops, tp.table.nodes)
      requires tp.table.nodes.Keys <= keys
      requires UpAndDownTraversal.Grown(b, i0, w0, ins, numWaiting, keys)
      modifies this`numWaiting, this`travTops, this`downs, tp.table`nodes
      ensures tp.table.Valid() && |numWaiting| == old(|numWaiting|) && |travTops| == old(|travTops|) && TopsIn(travTops, tp.table.nodes)
      ensures UpAndDownTraversal.Retyped(old(tp.table.nodes), tp.table.nodes)
      ensures UpAndDownTraversal.Grown(b, i0, w0, ins', numWaiting, keys)
      ensures old(downs) <= downs && forall i :: |old(downs)| <= i < |downs| ==> downs[i] in tp.table.nodes
      ensures tp.table.root in old(tp.table.nodes) && TopsIn(old(travTops), old(tp.table.nodes))
      ensures Stage(tp.table.nodes, travTops, numWaiting, ins', downs)
        == ClimbStep(Stage(old(tp.table.nodes), old(travTops), old(numWaiting), ins, old(downs)), b, tp.table.root)
    {
      ins' := ins;
      if numWaiting[b] == 0 {
        if travTops[b].None? {
          travTops := travTops[b := Some(tp.table.root)];
        }
        if tp.table.nodes[travTops[b].value].parent.Some? {
          ghost var nodes0, w2, d0, top := tp.table.nodes, numWaiting, downs, travTops[b].value;
          ins' := Climb(b, ins);
          ClimbedFacts(nodes0, top, b, ins, w2, d0, tp.table.nodes, ins', numWaiting, downs);
          GrownWiden(b, ins, w2[b := w2[b] + 1], ins', numWaiting, nodes0.Keys, keys);
          UpAndDownTraversal.GrownTrans(b, i0, w0, ins, w2, ins', numWaiting, keys);
        }
      }
    }

    /** The climb: bucket b is parked at every sibling of its top, in
        order, each counted once and sent to `goDown`; below a Boundary
        parent each sibling becomes RemoteAboveTPKey; the top moves up to
        the parent. */
    method Climb(b: nat, ins: seq<(Key, nat)>) returns (ins': seq<(Key, nat)>)
      requires tp.table.Valid() && b < |travTops| && b < |numWaiting| && TopsIn(travTops, tp.table.nodes)
      requires travTops[b].Some? && tp.table.nodes[travTops[b].value].parent.Some?
      modifies this`numWaiting, this`travTops, this`downs, tp.table`nodes
      ensures tp.table.Valid() && |travTops| == old(|travTops|) && TopsIn(travTops, tp.table.nodes)
      ensures ClimbedTo(old(tp.table.nodes), old(travTops[b].value), b, ins, old(numWaiting), old(downs), tp.table.nodes, ins', numWaiting, downs)
      ensures travTops == old(travTops)[b := Some(old(tp.table.nodes[travTops[b].value].parent.value))]
    {
      ghost var nodes0, w0, d0 := tp.table.nodes, numWaiting, downs;
      var top := travTops[b].value;
      var p := tp.table.nodes[top].parent.value;
      var ch := tp.table.nodes[p].children;
      ghost var nn: set<Key> := {};
      ins' := ins;
      UpAndDownTraversal.SiblingsStarts(nodes0, p, top, b, ins, w0, {});
      assert ch[..0] == [];
      var j := 0;
      while j < |ch|
        invariant j <= |ch| && tp.table.Valid() && travTops == old(travTops)
        invariant UpAndDownTraversal.Siblings(nodes0, p, top, j, b, ins, w0, {}, tp.table.nodes, ins', numWaiting, nn)
        invariant downs == d0 + UpAndDownTraversal.Others(ch[..j], top)
        invariant WellFormed(nodes0) && p in nodes0 && ch == nodes0[p].children
      {
        ins', nn := ClimbChild(nodes0, p, top, j, b, ins, w0, d0, ins', nn);
        j := j + 1;
      }
      SiblingsDone(nodes0, top, b, ins, w0, d0, tp.table.nodes, ins', numWaiting, downs, nn);
      travTops := travTops[b := Some(p)];
    }

    /** The climb's loop turn for the parent's child number `j`. */
    method ClimbChild(ghost nodes0: map<Key, Node>, p: Key, top: Key, j: nat, b: nat, ghost i0: seq<(Key, nat)>, ghost w0: seq<int>,
                      ghost d0: seq<Key>, ins: seq<(Key, nat)>, ghost nn: set<Key>)
      returns (ins': seq<(Key, nat)>, ghost nn': set<Key>)
      requires WellFormed(nodes0) && tp.table.Valid() && p in nodes0 && j < |nodes0[p].children|
      requires UpAndDownTraversal.Siblings(nodes0, p, top, j, b, i0, w0, {}, tp.table.nodes, ins, numWaiting, nn)
      requires downs == d0 + UpAndDownTraversal.Others(nodes0[p].children[..j], top)
      modifies this`numWaiting, this`downs, tp.table`nodes
      ensures tp.table.Valid()
      ensures UpAndDownTraversal.Siblings(nodes0, p, top, j + 1, b, i0, w0, {}, tp.table.nodes, ins', numWaiting, nn')
      ensures downs == d0 + UpAndDownTraversal.Others(nodes0[p].children[..j + 1], top)
    {
      UpAndDownTraversal.SiblingsFrame(nodes0, p, top, j, b, i0, w0, {}, tp.table.nodes, ins, numWaiting, nn);
      var c := tp.table.nodes[p].children[j];
      ghost var n1, w1, dn1 := tp.table.nodes, numWaiting, downs;
      ins' := Sibling(b, p, top, c, ins);
      nn' := if c != top then nn + {c} else nn;
      ChildStep(nodes0, p, top, j, b, i0, w0, d0, n1, ins, w1, nn, dn1, tp.table.nodes, ins', numWaiting, nn', downs);
    }

    /** One child `c` of the parent in the climb's loop: unless it is the
        top itself, it becomes RemoteAboveTPKey below a Boundary parent, and
        bucket b is parked at it, counted, and sent to `goDown`. */
    method Sibling(b: nat, p: Key, top: Key, c: Key, ins: seq<(Key, nat)>) returns (ins': seq<(Key, nat)>)
      requires tp.table.Valid() && b < |numWaiting| && p in tp.table.nodes && c in tp.table.nodes
      modifies this`numWaiting, this`downs, tp.table`nodes
      ensures tp.table.Valid()
      ensures tp.table.nodes == if c != top && old(tp.table.nodes[p].ntype) == Boundary
        then old(tp.table.nodes)[c := old(tp.table.nodes[c]).(ntype := RemoteAboveTPKey)] else old(tp.table.nodes)
      ensures ins' == ins + (if c != top then [(c, b)] else [])
      ensures numWaiting == old(numWaiting)[b := old(numWaiting[b]) + (if c != top then 1 else 0)]
      ensures downs == old(downs) + (if c != top then [c] else [])
    {
      ins' := ins;
      if c != top {
        if tp.table.nodes[p].ntype == Boundary {
          tp.table.Retype(c, RemoteAboveTPKey);
        }
        ins' := ins' + [(c, b)];
        numWaiting := numWaiting[b := numWaiting[b] + 1];
        downs := downs + [c];
      } else {
        assert numWaiting == numWaiting[b := numWaiting[b] + 0];
      }
    }

    /** The end of `traverse`: erase the key's entry and park the
        insertions. The counters again equal the places each bucket is
        parked at. */
    method Settle(key: Key, ins: seq<(Key, nat)>, ghost c0: map<Key, seq<nat>>)
      requires tp.Valid() && HashOk(tp.resumer.nodehash, tp.table.nodes)
      requires |numWaiting| == |tp.leaves| && |travTops| == |tp.leaves| && TopsIn(travTops, tp.table.nodes)
      requires KeyBound(tp.table.nodes.Keys) < bound && key < bound
      requires currNodes == c0 && (forall k :: k in c0 ==> k < bound) && EntriesIn(c0, Buckets(|tp.leaves|))
      requires forall j :: 0 <= j < |ins| ==> ins[j].0 < bound && ins[j].1 < |tp.leaves|
      requires UpAndDownTraversal.Mid(c0, bound, Lookup(c0, key), |Lookup(c0, key)|, ins, numWaiting)
      modifies this`currNodes
      ensures Valid() && currNodes == UpAndDownTraversal.Repark(c0 - {key}, ins)
    {
      UpAndDownTraversal.MidEnds(c0, bound, Lookup(c0, key), key, ins, numWaiting);
      currNodes := UpAndDownTraversal.Reinsert(currNodes - {key}, ins);
      UpAndDownTraversal.ReparkPile(c0 - {key}, ins, bound);
      UpAndDownTraversal.Rebalanced(numWaiting, currNodes, c0 - {key}, ins, bound);
      UpAndDownTraversal.ReparkAt(c0 - {key}, ins);
      ReparkEntries(c0 - {key}, ins, Buckets(|tp.leaves|));
    }
  }
}

=== FILE: simple_walk.dfy ===
/** The walk shared by the traversers of simple/Traverser.h and by
    `processLocalBase`: what one pop of a traversal stack does, the stack walk
    those pops make up, and what the walk does to the tree piece's interaction
    bits, its deferred local traversals and the shared node table. */
module SimpleWalk {
  import opened Nodes
  import opened NodeTable
  import opened ResumerModel
  import opened TraverserCommon
  import DownTraversal
  import UpAndDownTraversal

  /** What one pop does. `Bit(k, i)`: `interactions[k].set(i)`.
      `Delay(k, b)`: `local_travs.push_back({k, b})`. `Hit(k, e)`: the node is
      unresolved, so `(k, e)` is parked, the node is fetched unless its flag
      was already set, and the piece joins the node's waiting list.
      `Pass(k)`: none of these (children may still be pushed). */
  datatype Step =
    | Bit(key: Key, bit: nat)
    | Delay(key: Key, bucket: nat)
    | Hit(key: Key, entry: nat)
    | Pass(key: Key)

  /** Which switch a pop runs: `traverse` of the down and up-and-down
      traversers (DELAYLOCAL set or not), the loop of `processLocalBase`, or
      `traverse` of the dual traverser serving the outer payload `payload`. */
  datatype Mode = Immediate(delayLocal: bool) | Deferred | Paired(payload: Key)

  /** What a walk reads besides the node table: the tree piece's leaves,
      the visitor's `node` test and the switch. */
  datatype Setup = Setup(leaves: seq<Key>, node: (Key, Key) -> bool, mode: Mode)

  ghost predicate SetupOk(shape: map<Key, Node>, su: Setup) {
    WellFormed(shape) && (su.mode.Paired? ==> su.mode.payload in shape)
  }

  /** The first position of `x` in `s`, if any. */
  function FirstIndex(s: seq<Key>, x: Key): (r: Option<nat>)
    ensures r.Some? <==> x in s
    ensures r.Some? ==> r.value < |s| && s[r.value] == x && forall i :: 0 <= i < r.value ==> s[i] != x
  {
    if s == [] then None
    else if s[0] == x then Some(0)
    else
      match FirstIndex(s[1..], x)
      case None => None
      case Some(i) => Some(i + 1)
  }

  /** The dual traverser's `for (i ...) if (leaves[i] == currpl) { ...; break; }`. */
  method FindLeaf(leaves: seq<Key>, x: Key) returns (r: Option<nat>)
    ensures r == FirstIndex(leaves, x)
  {
    var i := 0;
    while i < |leaves|
      invariant i <= |leaves| && forall j :: 0 <= j < i ==> leaves[j] != x
    {
      if leaves[i] == x {
        r := Some(i);
        FirstIndexAt(leaves, x, i);
        return;
      }
      i := i + 1;
    }
    r := None;
  }

  lemma FirstIndexAt(s: seq<Key>, x: Key, i: nat)
    requires i < |s| && s[i] == x && forall j :: 0 <= j < i ==> s[j] != x
    ensures FirstIndex(s, x) == Some(i)
  {
  }

  /** The stack entries `(k, tag)` for the keys of `ks`, in order. */
  function Each(ks: seq<Key>, tag: nat): (r: seq<(Key, nat)>)
    ensures |r| == |ks| && forall i :: 0 <= i < |r| ==> r[i] == (ks[i], tag)
  {
    seq(|ks|, i requires 0 <= i < |ks| => (ks[i], tag))
  }

  /** The dual traverser's push loops: for each child `c` of the node, in
      order, and each child `p` of the payload, in order, the pair `(c, p)`. */
  function Pairs(cs: seq<Key>, ps: seq<Key>): (r: seq<(Key, Key)>)
    ensures forall i :: 0 <= i < |r| ==> r[i].0 in cs && r[i].1 in ps
  {
    if cs == [] then []
    else Pairs(cs[..|cs| - 1], ps) + PairsRow(cs[|cs| - 1], ps)
  }

  function PairsRow(c: Key, ps: seq<Key>): (r: seq<(Key, Key)>)
    ensures |r| == |ps| && forall j :: 0 <= j < |r| ==> r[j] == (c, ps[j])
  {
    seq(|ps|, j requires 0 <= j < |ps| => (c, ps[j]))
  }


  /** Every child of the node is paired with every child of the payload. */
  lemma {:induction false} PairsIn(cs: seq<Key>, ps: seq<Key>, c: Key, p: Key)
    ensures (c, p) in Pairs(cs, ps) <==> c in cs && p in ps
  {
    if cs != [] {
      var pre := cs[..|cs| - 1];
      PairsIn(pre, ps, c, p);
      assert cs == pre + [cs[|cs| - 1]];
      if c == cs[|cs| - 1] && p in ps {
        var j :| 0 <= j < |ps| && ps[j] == p;
        assert PairsRow(c, ps)[j] == (c, p);
      }
    }
  }

  /** What popping `(k, tag)` does at `k` itself: the `switch` on the node's kind. */
  ghost function Here(shape: map<Key, Node>, su: Setup, k: Key, tag: nat): Step
    requires k in shape
  {
    var t := shape[k].ntype;
    match su.mode
    case Immediate(delay) =>
      if IsLeafKind(t) then Bit(k, tag)
      else if t == Internal && delay then Delay(k, tag)
      else if IsUnresolved(t) then Hit(k, tag)
      else Pass(k)
    case Deferred =>
      if t == Internal then Pass(k) else Bit(k, tag)
    case Paired(p) =>
      if IsLeafKind(t) then
        (match FirstIndex(su.leaves, tag)
         case Some(i) => Bit(k, i)
         case None => Pass(k))
      else if IsUnresolved(t) then Hit(k, p)
      else Pass(k)
  }

  /** The entries pushed after popping `(k, tag)`: the children of a node the
      visitor's `node` test opens (with the pairs of the payload's children in
      the dual walk); nothing otherwise. */
  ghost function Below(shape: map<Key, Node>, su: Setup, k: Key, tag: nat): (r: seq<(Key, nat)>)
    requires SetupOk(shape, su) && k in shape
    ensures forall i :: 0 <= i < |r| ==> r[i].0 in shape[k].children
    ensures !su.mode.Paired? ==> forall i :: 0 <= i < |r| ==> r[i].1 == tag
  {
    var n := shape[k];
    match su.mode
    case Immediate(delay) =>
      if IsOpenable(n.ntype) && !(n.ntype == Internal && delay) && Opens(k, su.leaves, su.node, tag)
      then Each(n.children, tag) else []
    case Deferred =>
      if n.ntype == Internal && Opens(k, su.leaves, su.node, tag) then Each(n.children, tag) else []
    case Paired(p) =>
      if IsOpenable(n.ntype) && su.node(k, p) then Pairs(n.children, shape[p].children) else []
  }

  /** Every entry of a stack is a node of the table. */
  ghost predicate OnStack(shape: map<Key, Node>, s: seq<(Key, nat)>) {
    forall i :: 0 <= i < |s| ==> s[i].0 in shape
  }

  /** The steps of the stack walk that starts with `(k, tag)` alone on the stack. */
  ghost function Walk(shape: map<Key, Node>, su: Setup, k: Key, tag: nat): seq<Step>
    requires SetupOk(shape, su) && k in shape
    decreases KeyBound(shape.Keys) - k, 1, 0
  {
    [Here(shape, su, k, tag)] + Pushed(shape, su, k, Below(shape, su, k, tag))
  }

  /** The steps that the entries `s`, pushed while popping `k`, give rise to,
      the last pushed first. */
  ghost function Pushed(shape: map<Key, Node>, su: Setup, k: Key, s: seq<(Key, nat)>): seq<Step>
    requires SetupOk(shape, su) && k in shape
    requires forall i :: 0 <= i < |s| ==> s[i].0 in shape[k].children
    decreases KeyBound(shape.Keys) - k, 0, |s|
  {
    if s == [] then []
    else
      var top := s[|s| - 1];
      assert top.0 in shape && top.0 > k by {
        var j :| 0 <= j < |shape[k].children| && shape[k].children[j] == top.0;
      }
      Walk(shape, su, top.0, top.1) + Pushed(shape, su, k, s[..|s| - 1])
  }

  /** The steps still to come from a stack, top first. */
  ghost function StackWalk(shape: map<Key, Node>, su: Setup, s: seq<(Key, nat)>): seq<Step>
    requires SetupOk(shape, su) && OnStack(shape, s)
  {
    if s == [] then [] else Walk(shape, su, s[|s| - 1].0, s[|s| - 1].1) + StackWalk(shape, su, s[..|s| - 1])
  }

  lemma {:induction false} PushedIsStack(shape: map<Key, Node>, su: Setup, k: Key, s: seq<(Key, nat)>)
    requires SetupOk(shape, su) && k in shape
    requires forall i :: 0 <= i < |s| ==> s[i].0 in shape[k].children
    ensures OnStack(shape, s) && Pushed(shape, su, k, s) == StackWalk(shape, su, s)
    decreases |s|
  {
    if s != [] {
      PushedIsStack(shape, su, k, s[..|s| - 1]);
      var j :| 0 <= j < |shape[k].children| && shape[k].children[j] == s[|s| - 1].0;
    }
  }

  lemma {:induction false} StackWalkAppend(shape: map<Key, Node>, su: Setup, a: seq<(Key, nat)>, c: seq<(Key, nat)>)
    requires SetupOk(shape, su) && OnStack(shape, a) && OnStack(shape, c)
    ensures OnStack(shape, a + c)
    ensures StackWalk(shape, su, a + c) == StackWalk(shape, su, c) + StackWalk(shape, su, a)
    decreases |c|
  {
    if c == [] {
      assert a + c == a;
    } else {
      var c', x := c[..|c| - 1], c[|c| - 1];
      assert c == c' + [x];
      assert a + c == (a + c') + [x];
      assert OnStack(shape, a + c) by {
        forall i | 0 <= i < |a + c| ensures (a + c)[i].0 in shape {
          if i >= |a| {
            assert (a + c)[i] == c[i - |a|];
          }
        }
      }
      StackWalkAppend(shape, su, a, c');
      StackWalkSnoc(shape, su, a + c', x.0, x.1);
      StackWalkSnoc(shape, su, c', x.0, x.1);
      Assoc(Walk(shape, su, x.0, x.1), StackWalk(shape, su, c'), StackWalk(shape, su, a));
    }
  }

  /** The walk from `(start, tag)` has reached `stack` after the steps `done`. */
  ghost predicate Walking(shape: map<Key, Node>, su: Setup, start: Key, tag: nat, stack: seq<(Key, nat)>, done: seq<Step>) {
    && SetupOk(shape, su) && start in shape && OnStack(shape, stack)
    && done + StackWalk(shape, su, stack) == Walk(shape, su, start, tag)
  }

  lemma WalkingStarts(shape: map<Key, Node>, su: Setup, start: Key, tag: nat)
    requires SetupOk(shape, su) && start in shape
    ensures Walking(shape, su, start, tag, [(start, tag)], [])
  {
    assert [(start, tag)][..0] == [];
  }

  lemma TagsKept(rest: seq<(Key, nat)>, push: seq<(Key, nat)>, tag: nat)
    requires forall i :: 0 <= i < |rest| ==> rest[i].1 == tag
    requires forall i :: 0 <= i < |push| ==> push[i].1 == tag
    ensures forall i :: 0 <= i < |rest + push| ==> (rest + push)[i].1 == tag
  {
  }

  /** Popping the top entry takes one step and pushes what `Below` says. */
  lemma WalkingStep(shape: map<Key, Node>, su: Setup, start: Key, tag: nat, rest: seq<(Key, nat)>,
                    k: Key, c: nat, done: seq<Step>)
    requires Walking(shape, su, start, tag, rest + [(k, c)], done)
    ensures k in shape && OnStack(shape, rest)
    ensures Walking(shape, su, start, tag, rest + Below(shape, su, k, c), done + [Here(shape, su, k, c)])
  {
    var below := Below(shape, su, k, c);
    var h, r := Here(shape, su, k, c), StackWalk(shape, su, rest);
    StackWalkSnoc(shape, su, rest, k, c);
    WalkUnfold(shape, su, k, c);
    var p := StackWalk(shape, su, below);
    StackWalkAppend(shape, su, rest, below);
    Assoc(done, [h], p + r);
    Assoc([h], p, r);
  }

  lemma StackWalkSnoc(shape: map<Key, Node>, su: Setup, rest: seq<(Key, nat)>, k: Key, c: nat)
    requires SetupOk(shape, su) && OnStack(shape, rest + [(k, c)])
    ensures k in shape && OnStack(shape, rest)
    ensures StackWalk(shape, su, rest + [(k, c)]) == Walk(shape, su, k, c) + StackWalk(shape, su, rest)
  {
    var s := rest + [(k, c)];
    assert s[..|s| - 1] == rest && s[|s| - 1] == (k, c);
  }

  /** A walk is its first step followed by the walk of what that step pushed. */
  lemma WalkUnfold(shape: map<Key, Node>, su: Setup, k: Key, c: nat)
    requires SetupOk(shape, su) && k in shape
    ensures OnStack(shape, Below(shape, su, k, c))
    ensures Walk(shape, su, k, c) == [Here(shape, su, k, c)] + StackWalk(shape, su, Below(shape, su, k, c))
  {
    PushedIsStack(shape, su, k, Below(shape, su, k, c));
  }

  /** The interaction bits of node `k` (`interactions[k]`, empty when absent). */
  function BitsAt(m: map<Key, set<nat>>, k: Key): set<nat> {
    if k in m then m[k] else {}
  }

  /** The interaction bits after the steps. */
  function Bits(m: map<Key, set<nat>>, steps: seq<Step>): map<Key, set<nat>> {
    if steps == [] then m
    else
      var m' := Bits(m, steps[..|steps| - 1]);
      var s := steps[|steps| - 1];
      if s.Bit? then m'[s.key := BitsAt(m', s.key) + {s.bit}] else m'
  }

  /** The bits the steps set at node `k`. */
  function BitsOf(steps: seq<Step>, k: Key): set<nat> {
    if steps == [] then {}
    else
      var s := steps[|steps| - 1];
      BitsOf(steps[..|steps| - 1], k) + (if s.Bit? && s.key == k then {s.bit} else {})
  }

  /** Setting bits only adds: a node's bits afterwards are its old bits and
      the ones the steps set there, and a node has an entry afterwards
      exactly when it had one or some step set a bit there. */
  lemma {:induction false} BitsAdd(m: map<Key, set<nat>>, steps: seq<Step>)
    ensures forall k :: BitsAt(Bits(m, steps), k) == BitsAt(m, k) + BitsOf(steps, k)
    ensures forall k :: k in Bits(m, steps) <==> k in m || BitsOf(steps, k) != {}
  {
    if steps != [] {
      BitsAdd(m, steps[..|steps| - 1]);
    }
  }

  /** Recording the same interactions again changes nothing: the bits are a
      set per node (`interactions[node].set(bucket)`). */
  lemma RecordAgain(m: map<Key, set<nat>>, steps: seq<Step>)
    ensures Bits(Bits(m, steps), steps) == Bits(m, steps)
  {
    var once := Bits(m, steps);
    var twice := Bits(once, steps);
    BitsAdd(m, steps);
    BitsAdd(once, steps);
    assert forall k :: k in twice <==> k in once;
    forall k | k in twice
      ensures twice[k] == once[k]
    {
      assert BitsAt(twice, k) == BitsAt(once, k) + BitsOf(steps, k);
    }
  }

  /** The local traversals the steps defer, in order. */
  function Delays(steps: seq<Step>): seq<(Key, nat)> {
    if steps == [] then []
    else
      var s := steps[|steps| - 1];
      Delays(steps[..|steps| - 1]) + (if s.Delay? then [(s.key, s.bucket)] else [])
  }

  /** The `curr_nodes_insertions` the steps make, in order. */
  function Hits(steps: seq<Step>): seq<(Key, nat)> {
    if steps == [] then []
    else
      var s := steps[|steps| - 1];
      Hits(steps[..|steps| - 1]) + (if s.Hit? then [(s.key, s.entry)] else [])
  }

  /** The unresolved case at node `k`: `requested.exchange(true)` and the
      fetch for the first caller (nothing for a key outside the table, the
      dummy start node, whose flag is already set), then `part` onto the
      node's waiting list unless it is already last. */
  function Park(s: DownTraversal.Shared, k: Key, part: nat, requester: nat): (t: DownTraversal.Shared)
    ensures k in t.waiting && t.waiting[k] == AppendIfNotLast(Lookup(s.waiting, k), part)
    ensures k in s.nodes ==> k in t.nodes && t.nodes[k].requested
    ensures |t.requests| == |s.requests| + (if k in s.nodes && !s.nodes[k].requested then 1 else 0)
  {
    var w := s.waiting[k := AppendIfNotLast(Lookup(s.waiting, k), part)];
    if k in s.nodes then
      var n := s.nodes[k];
      DownTraversal.Shared(s.nodes[k := n.(requested := true)],
                           s.requests + (if n.requested then [] else [RequestFor(n, requester)]), w)
    else DownTraversal.Shared(s.nodes, s.requests, w)
  }

  /** The shared state after the hits among the steps. */
  function Parks(s: DownTraversal.Shared, steps: seq<Step>, part: nat, requester: nat): DownTraversal.Shared {
    if steps == [] then s
    else
      var t := Parks(s, steps[..|steps| - 1], part, requester);
      var x := steps[|steps| - 1];
      if x.Hit? then Park(t, x.key, part, requester) else t
  }

  lemma {:induction false} StepsConcat(m: map<Key, set<nat>>, s: DownTraversal.Shared, part: nat, requester: nat,
                                       a: seq<Step>, c: seq<Step>)
    ensures Bits(m, a + c) == Bits(Bits(m, a), c)
    ensures Delays(a + c) == Delays(a) + Delays(c)
    ensures Hits(a + c) == Hits(a) + Hits(c)
    ensures Parks(s, a + c, part, requester) == Parks(Parks(s, a, part, requester), c, part, requester)
    decreases |c|
  {
    if c == [] {
      assert a + c == a;
    } else {
      var c' := c[..|c| - 1];
      assert (a + c)[..|a + c| - 1] == a + c';
      assert (a + c)[|a + c| - 1] == c[|c| - 1];
      StepsConcat(m, s, part, requester, a, c');
    }
  }

  /** The folds over the steps so far, then over one more step, are the
      folds over the longer list. */
  lemma DidStep(i0: map<Key, set<nat>>, l0: seq<(Key, nat)>, s0: DownTraversal.Shared, done: seq<Step>, x: Step,
                part: nat, requester: nat,
                i1: map<Key, set<nat>>, l1: seq<(Key, nat)>, s1: DownTraversal.Shared, h1: seq<(Key, nat)>,
                i2: map<Key, set<nat>>, l2: seq<(Key, nat)>, s2: DownTraversal.Shared, h2: seq<(Key, nat)>)
    requires i1 == Bits(i0, done) && l1 == l0 + Delays(done) && s1 == Parks(s0, done, part, requester) && h1 == Hits(done)
    requires i2 == Bits(i1, [x]) && l2 == l1 + Delays([x]) && s2 == Parks(s1, [x], part, requester) && h2 == h1 + Hits([x])
    ensures i2 == Bits(i0, done + [x]) && l2 == l0 + Delays(done + [x])
    ensures s2 == Parks(s0, done + [x], part, requester) && h2 == Hits(done + [x])
  {
    StepsConcat(i0, s0, part, requester, done, [x]);
    Assoc(l0, Delays(done), Delays([x]));
  }

  /** The folds over a single step. */
  lemma OneStep(m: map<Key, set<nat>>, s: DownTraversal.Shared, part: nat, requester: nat, x: Step)
    ensures Bits(m, [x]) == if x.Bit? then m[x.key := BitsAt(m, x.key) + {x.bit}] else m
    ensures Delays([x]) == (if x.Delay? then [(x.key, x.bucket)] else [])
    ensures Hits([x]) == (if x.Hit? then [(x.key, x.entry)] else [])
    ensures Parks(s, [x], part, requester) == if x.Hit? then Park(s, x.key, part, requester) else s
  {
    StepsOne(x);
  }

  lemma StepsOne(x: Step)
    ensures [x][..0] == [] && [x][0] == x
  {
  }

  /** Where a step of a walk can happen: bits only on leaf kinds (on any
      kind but Internal in the deferred walk), for the walk's bucket or a
      leaf index; deferrals only on Internal nodes with DELAYLOCAL set; hits
      only on unresolved nodes, parking the walk's bucket or payload; the
      deferred walk never hits. */
  ghost predicate StepOn(shape: map<Key, Node>, su: Setup, tag: nat, st: Step) {
    && st.key in shape
    && match st
       case Bit(k, i) =>
         (match su.mode
          case Immediate(_) => IsLeafKind(shape[k].ntype) && i == tag
          case Deferred => shape[k].ntype != Internal && i == tag
          case Paired(_) => IsLeafKind(shape[k].ntype) && i < |su.leaves|)
       case Delay(k, b) => shape[k].ntype == Internal && su.mode == Immediate(true) && b == tag
       case Hit(k, e) =>
         && IsUnresolved(shape[k].ntype) && !su.mode.Deferred?
         && e == (if su.mode.Paired? then su.mode.payload else tag)
       case Pass(k) => true
  }

  lemma {:induction false} WalkStepsOn(shape: map<Key, Node>, su: Setup, k: Key, tag: nat)
    requires SetupOk(shape, su) && k in shape
    ensures forall st :: st in Walk(shape, su, k, tag) ==> StepOn(shape, su, tag, st)
    decreases KeyBound(shape.Keys) - k, 1, 0
  {
    PushedStepsOn(shape, su, k, tag, Below(shape, su, k, tag));
  }

  lemma {:induction false} PushedStepsOn(shape: map<Key, Node>, su: Setup, k: Key, tag: nat, s: seq<(Key, nat)>)
    requires SetupOk(shape, su) && k in shape
    requires forall i :: 0 <= i < |s| ==> s[i].0 in shape[k].children
    requires !su.mode.Paired? ==> forall i :: 0 <= i < |s| ==> s[i].1 == tag
    ensures forall st :: st in Pushed(shape, su, k, s) ==> StepOn(shape, su, tag, st)
    decreases KeyBound(shape.Keys) - k, 0, |s|
  {
    if s != [] {
      var top := s[|s| - 1];
      var j :| 0 <= j < |shape[k].children| && shape[k].children[j] == top.0;
      WalkStepsOn(shape, su, top.0, top.1);
      PushedStepsOn(shape, su, k, tag, s[..|s| - 1]);
      forall st | st in Walk(shape, su, top.0, top.1) ensures StepOn(shape, su, tag, st) {
        assert StepOn(shape, su, top.1, st);
      }
    }
  }

  /** Where no step defers or hits, nothing is deferred, parked or fetched. */
  lemma {:induction false} QuietSteps(steps: seq<Step>, s: DownTraversal.Shared, part: nat, requester: nat)
    requires forall st :: st in steps ==> !st.Delay? && !st.Hit?
    ensures Delays(steps) == [] && Hits(steps) == [] && Parks(s, steps, part, requester) == s
  {
    if steps != [] {
      assert steps[|steps| - 1] in steps;
      QuietSteps(steps[..|steps| - 1], s, part, requester);
    }
  }

  /** The walk of `processLocalBase` defers nothing and never parks or fetches. */
  lemma DeferredQuiet(shape: map<Key, Node>, su: Setup, k: Key, tag: nat, s: DownTraversal.Shared, part: nat, requester: nat)
    requires SetupOk(shape, su) && su.mode.Deferred? && k in shape
    ensures Delays(Walk(shape, su, k, tag)) == [] && Hits(Walk(shape, su, k, tag)) == []
    ensures Parks(s, Walk(shape, su, k, tag), part, requester) == s
  {
    WalkStepsOn(shape, su, k, tag);
    QuietSteps(Walk(shape, su, k, tag), s, part, requester);
  }

  /** Every node below `k`, `k` included, is Internal or a leaf kind: the
      tree piece's own part of the tree. */
  ghost predicate LocalSubtree(shape: map<Key, Node>, k: Key)
    requires WellFormed(shape) && k in shape
    decreases KeyBound(shape.Keys) - k
  {
    var n := shape[k];
    || IsLeafKind(n.ntype)
    || (n.ntype == Internal && forall i :: 0 <= i < |n.children| ==> LocalSubtree(shape, n.children[i]))
  }

  /** DELAYLOCAL changes when local work is done, not what it does: with it
      set, `traverse` stops at an Internal node and only defers it; later the
      walk of `processLocalBase` from that node takes exactly the steps the
      walk without DELAYLOCAL takes, whenever the subtree is the piece's own. */
  lemma {:induction false} DeferredMatchesImmediate(shape: map<Key, Node>, leaves: seq<Key>, node: (Key, Key) -> bool, k: Key, b: nat)
    requires WellFormed(shape) && k in shape && LocalSubtree(shape, k)
    ensures shape[k].ntype == Internal ==> Walk(shape, Setup(leaves, node, Immediate(true)), k, b) == [Delay(k, b)]
    ensures Walk(shape, Setup(leaves, node, Deferred), k, b) == Walk(shape, Setup(leaves, node, Immediate(false)), k, b)
    decreases KeyBound(shape.Keys) - k, 1, 0
  {
    var im, de := Setup(leaves, node, Immediate(false)), Setup(leaves, node, Deferred);
    assert Here(shape, im, k, b) == Here(shape, de, k, b);
    var below := Below(shape, de, k, b);
    assert Below(shape, im, k, b) == below;
    forall i | 0 <= i < |below| ensures LocalSubtree(shape, below[i].0) {
      assert below[i] == (shape[k].children[i], b);
    }
    PushedMatch(shape, leaves, node, k, b, below);
  }

  lemma {:induction false} PushedMatch(shape: map<Key, Node>, leaves: seq<Key>, node: (Key, Key) -> bool, k: Key, b: nat, s: seq<(Key, nat)>)
    requires WellFormed(shape) && k in shape
    requires forall i :: 0 <= i < |s| ==> s[i].0 in shape[k].children
    requires forall i :: 0 <= i < |s| ==> s[i].0 in shape && LocalSubtree(shape, s[i].0)
    ensures Pushed(shape, Setup(leaves, node, Deferred), k, s) == Pushed(shape, Setup(leaves, node, Immediate(false)), k, s)
    decreases KeyBound(shape.Keys) - k, 0, |s|
  {
    if s != [] {
      var top := s[|s| - 1];
      var j :| 0 <= j < |shape[k].children| && shape[k].children[j] == top.0;
      DeferredMatchesImmediate(shape, leaves, node, top.0, top.1);
      PushedMatch(shape, leaves, node, k, b, s[..|s| - 1]);
    }
  }

  /** The steps of the local walks from each deferred entry, in order. */
  ghost function LocalRound(shape: map<Key, Node>, su: Setup, travs: seq<(Key, nat)>): seq<Step>
    requires SetupOk(shape, su) && OnStack(shape, travs)
  {
    if travs == [] then []
    else LocalRound(shape, su, travs[..|travs| - 1]) + Walk(shape, su, travs[|travs| - 1].0, travs[|travs| - 1].1)
  }

  /** One more deferred entry adds its walk's bits. */
  lemma LocalRoundSnoc(i0: map<Key, set<nat>>, shape: map<Key, Node>, su: Setup, travs: seq<(Key, nat)>, i: nat)
    requires SetupOk(shape, su) && i < |travs| && OnStack(shape, travs)
    ensures OnStack(shape, travs[..i]) && OnStack(shape, travs[..i + 1]) && travs[i].0 in shape
    ensures Bits(i0, LocalRound(shape, su, travs[..i + 1])) ==
            Bits(Bits(i0, LocalRound(shape, su, travs[..i])), Walk(shape, su, travs[i].0, travs[i].1))
  {
    assert travs[..i + 1][..i] == travs[..i] && travs[..i + 1][i] == travs[i];
    StepsConcat(i0, DownTraversal.Shared(map[], [], map[]), 0, 0, LocalRound(shape, su, travs[..i]), Walk(shape, su, travs[i].0, travs[i].1));
  }

  /** Where a traversal starts: the node found for its key, or, when none
      was found, the dummy Remote node carrying the key, which parks the
      entry at once. */
  ghost function StartWalk(shape: map<Key, Node>, su: Setup, start: Option<Key>, key: Key, tag: nat): seq<Step>
    requires SetupOk(shape, su)
  {
    if start.Some? && start.value in shape then Walk(shape, su, start.value, tag) else [Hit(key, tag)]
  }

  /** A walk sees kinds and children only, never request flags. */
  lemma {:induction false} WalkKinds(a: map<Key, Node>, c: map<Key, Node>, su: Setup, k: Key, tag: nat)
    requires SetupOk(a, su) && SameKinds(a, c) && k in a
    ensures SetupOk(c, su) && Walk(a, su, k, tag) == Walk(c, su, k, tag)
    decreases KeyBound(a.Keys) - k, 1, 0
  {
    SameShapeWellFormed(a, c);
    assert Here(a, su, k, tag) == Here(c, su, k, tag);
    assert Below(a, su, k, tag) == Below(c, su, k, tag);
    PushedKinds(a, c, su, k, Below(a, su, k, tag));
  }

  lemma {:induction false} PushedKinds(a: map<Key, Node>, c: map<Key, Node>, su: Setup, k: Key, s: seq<(Key, nat)>)
    requires SetupOk(a, su) && SameKinds(a, c) && k in a
    requires forall i :: 0 <= i < |s| ==> s[i].0 in a[k].children
    ensures SetupOk(c, su) && Pushed(a, su, k, s) == Pushed(c, su, k, s)
    decreases KeyBound(a.Keys) - k, 0, |s|
  {
    SameShapeWellFormed(a, c);
    if s != [] {
      var top := s[|s| - 1];
      assert top.0 in a && top.0 > k by {
        var j :| 0 <= j < |a[k].children| && a[k].children[j] == top.0;
      }
      WalkKinds(a, c, su, top.0, top.1);
      PushedKinds(a, c, su, k, s[..|s| - 1]);
    }
  }

  /** So does a traversal from its start node. */
  lemma StartWalkKinds(a: map<Key, Node>, c: map<Key, Node>, su: Setup, start: Option<Key>, key: Key, tag: nat)
    requires SetupOk(a, su) && SameKinds(a, c)
    ensures SetupOk(c, su) && StartWalk(a, su, start, key, tag) == StartWalk(c, su, start, key, tag)
  {
    SameShapeWellFormed(a, c);
    if start.Some? && start.value in a {
      WalkKinds(a, c, su, start.value, tag);
    }
  }

  /** Every deferral and every insertion of a list of steps comes from one of its steps. */
  lemma {:induction false} StepsLogged(steps: seq<Step>)
    ensures forall d :: d in Delays(steps) ==> Delay(d.0, d.1) in steps
    ensures forall h :: h in Hits(steps) ==> Hit(h.0, h.1) in steps
  {
    if steps != [] {
      StepsLogged(steps[..|steps| - 1]);
      assert forall x :: x in steps[..|steps| - 1] ==> x in steps;
    }
  }

  /** A traversal entry's walk defers only Internal nodes of the table, for
      its own bucket, and parks only at unresolved nodes of the table or, when
      no start node was found, at the key itself, always with its own bucket
      or payload. */
  lemma StartWalkLog(shape: map<Key, Node>, su: Setup, start: Option<Key>, key: Key, tag: nat)
    requires SetupOk(shape, su)
    ensures forall d :: d in Delays(StartWalk(shape, su, start, key, tag)) ==>
      d.0 in shape && shape[d.0].ntype == Internal && d.1 == tag && su.mode == Immediate(true)
    ensures forall h :: h in Hits(StartWalk(shape, su, start, key, tag)) ==>
      && (if su.mode.Paired? && start.Some? && start.value in shape then h.1 == su.mode.payload else h.1 == tag)
      && ((h.0 in shape && IsUnresolved(shape[h.0].ntype)) || (h.0 == key && (start.None? || start.value !in shape)))
  {
    var w := StartWalk(shape, su, start, key, tag);
    StepsLogged(w);
    if start.Some? && start.value in shape {
      WalkStepsOn(shape, su, start.value, tag);
      forall h | h in Hits(w) ensures h.1 == (if su.mode.Paired? then su.mode.payload else tag) {
        assert StepOn(shape, su, tag, Hit(h.0, h.1));
      }
    } else {
      StepsOne(Hit(key, tag));
    }
  }

  /** Deferred entries for table nodes and a bucket below n keep the list of
      deferred traversals within the table and the buckets. */
  lemma TravsGrow(l0: seq<(Key, nat)>, ds: seq<(Key, nat)>, shape: map<Key, Node>, nodes: map<Key, Node>, tag: nat, n: nat)
    requires shape.Keys == nodes.Keys
    requires forall i :: 0 <= i < |l0| ==> l0[i].0 in nodes && l0[i].1 < n
    requires forall d :: d in ds ==> d.0 in shape && d.1 == tag && tag < n
    ensures forall i :: 0 <= i < |l0 + ds| ==> (l0 + ds)[i].0 in nodes && (l0 + ds)[i].1 < n
  {
    forall i | 0 <= i < |l0 + ds| ensures (l0 + ds)[i].0 in nodes && (l0 + ds)[i].1 < n {
      if i >= |l0| {
        assert (l0 + ds)[i] == ds[i - |l0|] && ds[i - |l0|] in ds;
      }
    }
  }

  /** The inner loop of `interactBase`: the set bits below n, in increasing order. */
  method SetBitsBelow(bits: set<nat>, n: nat) returns (js: seq<nat>)
    ensures forall j :: j in js <==> j in bits && j < n
    ensures forall a, b :: 0 <= a < b < |js| ==> js[a] < js[b]
  {
    js := [];
    var j := 0;
    while j < n
      invariant j <= n
      invariant forall x :: x in js <==> x in bits && x < j
      invariant forall a :: 0 <= a < |js| ==> js[a] < j
      invariant forall a, b :: 0 <= a < b < |js| ==> js[a] < js[b]
    {
      if j in bits {
        js := js + [j];
      }
      j := j + 1;
    }
  }

  /** The part of `TreePiece` the traversers read and write. */
  class TreePiece {
    const thisIndex: nat
    /** `leaves`: the keys of the piece's leaves; bucket i is leaf i. */
    const leaves: seq<Key>
    /** `tp_key`: the key of the piece's subtree root. */
    const tpKey: Key
    /** `cache_local`. */
    const table: Cache
    /** `resumer.ckLocalBranch()`. */
    const resumer: Resumer
    var root: Key
    /** `interactions`: per node, the set bits of the buckets (leaf indices) it interacts with. */
    var interactions: map<Key, set<nat>>
    /** `local_travs`: the deferred local traversals, as (node, bucket). */
    var localTravs: seq<(Key, nat)>
    /** `root_from_tp_key`. */
    var rootFromTpKey: Option<Key>

    ghost predicate Valid()
      reads this`root, this`localTravs, table`nodes, table`root, table`requests
    {
      && table.Valid() && root in table.nodes
      && forall i :: 0 <= i < |localTravs| ==> localTravs[i].0 in table.nodes && localTravs[i].1 < |leaves|
    }

    constructor (thisIndex: nat, leaves: seq<Key>, tpKey: Key, table: Cache, resumer: Resumer)
      requires table.Valid()
      ensures Valid()
      ensures this.thisIndex == thisIndex && this.leaves == leaves && this.tpKey == tpKey
      ensures this.table == table && this.resumer == resumer
      ensures root == table.root && interactions == map[] && localTravs == [] && rootFromTpKey == None
    {
      this.thisIndex := thisIndex;
      this.leaves := leaves;
      this.tpKey := tpKey;
      this.table := table;
      this.resumer := resumer;
      root := table.root;
      interactions := map[];
      localTravs := [];
      rootFromTpKey := None;
    }

    ghost function SharedState(): DownTraversal.Shared
      reads table`nodes, table`requests, resumer`waiting
    {
      DownTraversal.Shared(table.nodes, table.requests, resumer.waiting)
    }

    /** The bits, deferred traversals and shared state are what the steps
        made of `i0`, `l0` and `s0`. */
    ghost predicate Did(i0: map<Key, set<nat>>, l0: seq<(Key, nat)>, s0: DownTraversal.Shared, steps: seq<Step>)
      reads this`interactions, this`localTravs, table`nodes, table`requests, resumer`waiting
    {
      && interactions == Bits(i0, steps) && localTravs == l0 + Delays(steps)
      && SharedState() == Parks(s0, steps, thisIndex, table.thisIndex)
    }

    /** The unresolved case of the switch at node `k`. A key outside the
        table is the dummy start node's, whose flag is already set. */
    method ParkHit(k: Key)
      requires table.Valid()
      modifies table`nodes, table`requests, resumer`waiting
      ensures table.Valid() && SameKinds(old(table.nodes), table.nodes)
      ensures SharedState() == Park(old(SharedState()), k, thisIndex, table.thisIndex)
    {
      if k in table.nodes {
        var _ := table.RequestIfFirst(k);
      }
      resumer.AddWaitingOnce(k, thisIndex);
    }

    /** One pop of `(k, tag)`: the switch of the walk's mode. */
    method Pop(su: Setup, k: Key, tag: nat, ghost shape: map<Key, Node>) returns (push: seq<(Key, nat)>, hit: seq<(Key, nat)>)
      requires table.Valid() && SameKinds(shape, table.nodes) && SetupOk(shape, su) && k in shape
      requires su.leaves == leaves && (!su.mode.Paired? ==> tag < |leaves|)
      modifies this`interactions, this`localTravs, table`nodes, table`requests, resumer`waiting
      ensures table.Valid() && SameKinds(shape, table.nodes)
      ensures push == Below(shape, su, k, tag) && hit == Hits([Here(shape, su, k, tag)])
      ensures Did(old(interactions), old(localTravs), old(SharedState()), [Here(shape, su, k, tag)])
    {
      StepsOne(Here(shape, su, k, tag));
      match su.mode
      case Immediate(delay) => push, hit := PopImmediate(su, k, tag, shape);
      case Deferred => push := PopDeferred(su, k, tag, shape); hit := [];
      case Paired(p) => push, hit := PopPaired(su, k, tag, shape);
    }

    /** The switch of `traverse` in the down and up-and-down traversers:
        leaves and cached remote leaves get the bucket's bit; an Internal
        node is deferred under DELAYLOCAL and otherwise, like a cached
        internal node, opened when the visitor's `node` says so; an
        unresolved node parks the bucket; an empty leaf does nothing. */
    method PopImmediate(su: Setup, k: Key, tag: nat, ghost shape: map<Key, Node>) returns (push: seq<(Key, nat)>, hit: seq<(Key, nat)>)
      requires table.Valid() && SameKinds(shape, table.nodes) && SetupOk(shape, su) && k in shape
      requires su.leaves == leaves && su.mode.Immediate? && tag < |leaves|
      modifies this`interactions, this`localTravs, table`nodes, table`requests, resumer`waiting
      ensures table.Valid() && SameKinds(shape, table.nodes)
      ensures push == Below(shape, su, k, tag)
      ensures var h := Here(shape, su, k, tag);
        && interactions == Bits(old(interactions), [h]) && localTravs == old(localTravs) + Delays([h])
        && SharedState() == Parks(old(SharedState()), [h], thisIndex, table.thisIndex) && hit == Hits([h])
    {
      var n := table.nodes[k];
      OneStep(interactions, SharedState(), thisIndex, table.thisIndex, Here(shape, su, k, tag));
      push, hit := [], [];
      if n.ntype == Leaf || n.ntype == CachedRemoteLeaf {
        interactions := interactions[k := BitsAt(interactions, k) + {tag}];
      } else if n.ntype == Internal && su.mode.delayLocal {
        localTravs := localTravs + [(k, tag)];
      } else if n.ntype == Internal || n.ntype == CachedBoundary || n.ntype == CachedRemote {
        if su.node(k, leaves[tag]) {
          push := Each(n.children, tag);
        }
      } else if IsUnresolved(n.ntype) {
        hit := [(k, tag)];
        ParkHit(k);
      }
    }

    /** The loop body of `processLocalBase`: an Internal node is opened when
        the visitor's `node` says so; any other node gets the bucket's bit. */
    method PopDeferred(su: Setup, k: Key, tag: nat, ghost shape: map<Key, Node>) returns (push: seq<(Key, nat)>)
      requires table.Valid() && SameKinds(shape, table.nodes) && SetupOk(shape, su) && k in shape
      requires su.leaves == leaves && su.mode.Deferred? && tag < |leaves|
      modifies this`interactions
      ensures push == Below(shape, su, k, tag)
      ensures interactions == Bits(old(interactions), [Here(shape, su, k, tag)])
    {
      var n := table.nodes[k];
      OneStep(interactions, SharedState(), thisIndex, table.thisIndex, Here(shape, su, k, tag));
      push := [];
      if n.ntype == Internal {
        if su.node(k, leaves[tag]) {
          push := Each(n.children, tag);
        }
      } else {
        interactions := interactions[k := BitsAt(interactions, k) + {tag}];
      }
    }

    /** The switch of the dual traverser's `traverse` for the pair
        `(k, currpl)`: a leaf kind sets the bit of the first leaf that is
        `currpl`, if any; a resolved internal kind is opened when the
        visitor's `node` accepts the outer payload, pushing each child paired
        with each of that payload's children; an unresolved node parks the
        outer payload. */
    method PopPaired(su: Setup, k: Key, currpl: nat, ghost shape: map<Key, Node>) returns (push: seq<(Key, nat)>, hit: seq<(Key, nat)>)
      requires table.Valid() && SameKinds(shape, table.nodes) && SetupOk(shape, su) && k in shape
      requires su.leaves == leaves && su.mode.Paired?
      modifies this`interactions, table`nodes, table`requests, resumer`waiting
      ensures table.Valid() && SameKinds(shape, table.nodes)
      ensures push == Below(shape, su, k, currpl)
      ensures var h := Here(shape, su, k, currpl);
        && interactions == Bits(old(interactions), [h])
        && SharedState() == Parks(old(SharedState()), [h], thisIndex, table.thisIndex) && hit == Hits([h])
    {
      var n := table.nodes[k];
      var payload := su.mode.payload;
      OneStep(interactions, SharedState(), thisIndex, table.thisIndex, Here(shape, su, k, currpl));
      push, hit := [], [];
      if n.ntype == Leaf || n.ntype == CachedRemoteLeaf {
        PairedLeaf(k, currpl);
      } else if n.ntype == Internal || n.ntype == CachedBoundary || n.ntype == CachedRemote {
        if su.node(k, payload) {
          push := Pairs(n.children, table.nodes[payload].children);
        }
      } else if IsUnresolved(n.ntype) {
        hit := [(k, payload)];
        ParkHit(k);
      }
    }

    /** The dual walk at a leaf: the bit of the first leaf equal to the
        payload, if there is one. */
    method PairedLeaf(k: Key, currpl: nat)
      modifies this`interactions
      ensures interactions == match FirstIndex(leaves, currpl)
        case Some(i) => old(interactions)[k := BitsAt(old(interactions), k) + {i}]
        case None => old(interactions)
    {
      var i := FindLeaf(leaves, currpl);
      if i.Some? {
        interactions := interactions[k := BitsAt(interactions, k) + {i.value}];
      }
    }

    /** Where the walk from `(start, tag)` stands with `stack` left after
        the steps `done`, begun from bits `i0`, deferrals `l0` and shared state `s0`. */
    ghost predicate Walked(su: Setup, start: Key, tag: nat, shape: map<Key, Node>, stack: seq<(Key, nat)>, done: seq<Step>,
                           hits: seq<(Key, nat)>, i0: map<Key, set<nat>>, l0: seq<(Key, nat)>, s0: DownTraversal.Shared)
      reads this`interactions, this`localTravs, table`nodes, table`root, table`requests, resumer`waiting
    {
      && table.Valid() && SameKinds(shape, table.nodes)
      && su.leaves == leaves && (!su.mode.Paired? ==> tag < |leaves|)
      && Walking(shape, su, start, tag, stack, done)
      && (!su.mode.Paired? ==> forall i :: 0 <= i < |stack| ==> stack[i].1 == tag)
      && Did(i0, l0, s0, done) && hits == Hits(done)
    }

    /** One turn of the `while (nodes.size())` loop. */
    method Advance(su: Setup, start: Key, tag: nat, ghost shape: map<Key, Node>, stack: seq<(Key, nat)>, ghost done: seq<Step>,
                   hits: seq<(Key, nat)>, ghost i0: map<Key, set<nat>>, ghost l0: seq<(Key, nat)>, ghost s0: DownTraversal.Shared)
      returns (stack': seq<(Key, nat)>, ghost done': seq<Step>, hits': seq<(Key, nat)>)
      requires stack != [] && Walked(su, start, tag, shape, stack, done, hits, i0, l0, s0)
      modifies this`interactions, this`localTravs, table`nodes, table`requests, resumer`waiting
      ensures Walked(su, start, tag, shape, stack', done', hits', i0, l0, s0) && |done'| == |done| + 1
    {
      var (k, c) := stack[|stack| - 1];
      var rest := stack[..|stack| - 1];
      assert stack == rest + [(k, c)];
      WalkingStep(shape, su, start, tag, rest, k, c, done);
      ghost var i1, l1, s1 := interactions, localTravs, SharedState();
      var push, hit := Pop(su, k, c, shape);
      DidStep(i0, l0, s0, done, Here(shape, su, k, c), thisIndex, table.thisIndex,
              i1, l1, s1, hits, interactions, localTravs, SharedState(), hits + hit);
      stack' := rest + push;
      done' := done + [Here(shape, su, k, c)];
      hits' := hits + hit;
      if !su.mode.Paired? {
        TagsKept(rest, push, tag);
      }
    }

    /** The `while (nodes.size())` loop for one entry: pop the top, run the
        switch, push what it opens, until the stack is empty. */
    method RunWalk(su: Setup, start: Key, tag: nat, ghost shape: map<Key, Node>) returns (hits: seq<(Key, nat)>)
      requires table.Valid() && SameKinds(shape, table.nodes) && SetupOk(shape, su) && start in shape
      requires su.leaves == leaves && (!su.mode.Paired? ==> tag < |leaves|)
      modifies this`interactions, this`localTravs, table`nodes, table`requests, resumer`waiting
      ensures table.Valid() && SameKinds(shape, table.nodes)
      ensures Did(old(interactions), old(localTravs), old(SharedState()), Walk(shape, su, start, tag))
      ensures hits == Hits(Walk(shape, su, start, tag))
    {
      ghost var i0, l0, s0 := interactions, localTravs, SharedState();
      ghost var w := Walk(shape, su, start, tag);
      ghost var done: seq<Step> := [];
      var stack := [(start, tag)];
      hits := [];
      WalkingStarts(shape, su, start, tag);
      assert Bits(i0, []) == i0 && Delays([]) == [] && Hits([]) == [] && Parks(s0, [], thisIndex, table.thisIndex) == s0;
      while stack != []
        invariant Walked(su, start, tag, shape, stack, done, hits, i0, l0, s0)
        decreases |w| - |done|
      {
        stack, done, hits := Advance(su, start, tag, shape, stack, done, hits, i0, l0, s0);
      }
      assert StackWalk(shape, su, []) == [];
      assert done == done + StackWalk(shape, su, stack) == w;
    }

    /** One entry's walk from the start node, or its parking at the dummy
        node when no start node was found. */
    method WalkFrom(su: Setup, start: Option<Key>, key: Key, tag: nat, ghost shape: map<Key, Node>) returns (hits: seq<(Key, nat)>)
      requires Valid() && SameKinds(shape, table.nodes) && SetupOk(shape, su)
      requires start.Some? ==> start.value in shape
      requires start.None? ==> key !in shape
      requires su.leaves == leaves && (!su.mode.Paired? ==> tag < |leaves|)
      modifies this`interactions, this`localTravs, table`nodes, table`requests, resumer`waiting
      ensures Valid() && SameKinds(shape, table.nodes)
      ensures Did(old(interactions), old(localTravs), old(SharedState()), StartWalk(shape, su, start, key, tag))
      ensures hits == Hits(StartWalk(shape, su, start, key, tag))
    {
      ghost var l0 := localTravs;
      if start.Some? {
        hits := RunWalk(su, start.value, tag, shape);
      } else {
        StepsOne(Hit(key, tag));
        ParkHit(key);
        hits := [(key, tag)];
      }
      StartWalkLog(shape, su, start, key, tag);
      TravsGrow(l0, Delays(StartWalk(shape, su, start, key, tag)), shape, table.nodes, tag, |leaves|);
    }

    /** `processLocalBase`: the deferred entries in order, each walked with
        the local switch. Only interaction bits change. */
    method ProcessLocal(node: (Key, Key) -> bool)
      requires Valid()
      modifies this`interactions, this`localTravs, table`nodes, table`requests, resumer`waiting
      ensures Valid() && localTravs == old(localTravs) && SharedState() == old(SharedState())
      ensures interactions == Bits(old(interactions), LocalRound(table.nodes, Setup(leaves, node, Deferred), localTravs))
    {
      var travs := localTravs;
      ghost var shape, s0, i0 := table.nodes, SharedState(), interactions;
      var su := Setup(leaves, node, Deferred);
      var i := 0;
      while i < |travs|
        invariant i <= |travs| && table.Valid() && SharedState() == s0 && localTravs == travs
        invariant OnStack(shape, travs[..i])
        invariant interactions == Bits(i0, LocalRound(shape, su, travs[..i]))
      {
        var (k, b) := travs[i];
        LocalRoundSnoc(i0, shape, su, travs, i);
        LocalWalk(su, k, b, shape);
        i := i + 1;
      }
      assert travs[..i] == travs;
    }

    /** One deferred entry's walk in `processLocalBase`: only bits change. */
    method LocalWalk(su: Setup, k: Key, b: nat, ghost shape: map<Key, Node>)
      requires table.Valid() && shape == table.nodes && SetupOk(shape, su) && k in shape
      requires su.leaves == leaves && su.mode.Deferred? && b < |leaves|
      modifies this`interactions, this`localTravs, table`nodes, table`requests, resumer`waiting
      ensures table.Valid() && SharedState() == old(SharedState()) && localTravs == old(localTravs)
      ensures interactions == Bits(old(interactions), Walk(shape, su, k, b))
    {
      ghost var s0 := SharedState();
      var _ := RunWalk(su, k, b, shape);
      DeferredQuiet(shape, su, k, b, s0, thisIndex, table.thisIndex);
    }

    /** `interactBase`: for each node with bits, in the map's order, the
        visitor's `leaf(node, leaves[j])` for each set bit j below the number
        of leaves: each such pair exactly once. */
    method InteractBase() returns (calls: seq<(Key, nat)>)
      ensures forall k, j :: (k, j) in calls <==> k in interactions && j in interactions[k] && j < |leaves|
      ensures forall a, b :: 0 <= a < b < |calls| ==> calls[a] != calls[b]
    {
      var keys := UpAndDownTraversal.Enumerate(interactions.Keys);
      calls := [];
      var i := 0;
      while i < |keys|
        invariant i <= |keys|
        invariant forall k, j :: (k, j) in calls <==> k in keys[..i] && j in interactions[k] && j < |leaves|
        invariant forall a, b :: 0 <= a < b < |calls| ==> calls[a] != calls[b]
      {
        var k := keys[i];
        var js := SetBitsBelow(interactions[k], |leaves|);
        AppendRow(calls, keys, i, js, interactions[k], |leaves|);
        calls := calls + PairsRow(k, js);
        i := i + 1;
      }
      assert keys[..i] == keys;
    }
  }

  /** One more node's calls keep every pair once. */
  lemma AppendRow(calls: seq<(Key, nat)>, keys: seq<Key>, i: nat, js: seq<nat>, bits: set<nat>, n: nat)
    requires i < |keys| && forall a, b :: 0 <= a < b < |keys| ==> keys[a] != keys[b]
    requires forall c :: c in calls ==> c.0 in keys[..i]
    requires forall a, b :: 0 <= a < b < |calls| ==> calls[a] != calls[b]
    requires forall a, b :: 0 <= a < b < |js| ==> js[a] < js[b]
    ensures forall a, b :: 0 <= a < b < |calls + PairsRow(keys[i], js)| ==> (calls + PairsRow(keys[i], js))[a] != (calls + PairsRow(keys[i], js))[b]
    ensures keys[..i + 1] == keys[..i] + [keys[i]]
  {
    var row := PairsRow(keys[i], js);
    assert keys[i] !in keys[..i];
    forall a, b | 0 <= a < b < |calls + row| ensures (calls + row)[a] != (calls + row)[b] {
      if b >= |calls| && a < |calls| {
        assert calls[a] in calls;
      }
    }
  }
}

=== FILE: traverser_common.dfy ===
/** What the traversal variants of src/Traverser.h share: the log of visitor
    calls, the partition's interaction lists, the bucket filters of the node
    switch, and the replay of deferred leaf interactions. */
module TraverserCommon {
  import opened Nodes

  /** A call into the visitor (or the node's `finish` hook). */
  datatype Visit =
    | LeafCall(source: Key, bucket: nat)
    | NodeCall(source: Key, bucket: nat)
    | Finish(source: Key, count: int)

  /** Visitor calls are only ever made on resolved nodes: `leaf` on leaf kinds,
      `node` on resolved internal kinds, `finish` on either. */
  ghost predicate OnResolved(nodes: map<Key, Node>, v: Visit) {
    match v
    case LeafCall(s, _) => s in nodes && IsLeafKind(nodes[s].ntype)
    case NodeCall(s, _) => s in nodes && IsOpenable(nodes[s].ntype)
    case Finish(s, _) => s in nodes && (IsLeafKind(nodes[s].ntype) || IsOpenable(nodes[s].ntype))
  }

  /** The partition's per-bucket lists of deferred leaf interactions
      (`Partition::interactions`), shared by reference with its traverser. */
  class Interactions {
    var lists: seq<seq<Key>>

    constructor ()
      ensures lists == []
    {
      lists := [];
    }
  }

  ghost predicate BucketsBelow(s: seq<nat>, n: nat) {
    forall b :: b in s ==> b < n
  }

  /** `for (int i = 0; i < n; i++) all_leaves.push_back(i)`: every bucket index, in order. */
  method AllBuckets(n: nat) returns (r: seq<nat>)
    ensures |r| == n && forall i :: 0 <= i < n ==> r[i] == i
  {
    r := [];
    var i := 0;
    while i < n
      invariant 0 <= i <= n
      invariant |r| == i && forall j :: 0 <= j < i ==> r[j] == j
    {
      r := r + [i];
      i := i + 1;
    }
  }

  /** `open(node, leaves[b])` for bucket b (no bucket without a leaf opens). */
  predicate Opens(k: Key, targets: seq<Key>, open: (Key, Key) -> bool, b: nat) {
    b < |targets| && open(k, targets[b])
  }

  /** Whether bucket b interacts with leaf node k: always when the visitor's
      `CallSelfLeaf` is set, otherwise only when b's own leaf is another node. */
  predicate Serves(k: Key, targets: seq<Key>, callSelfLeaf: bool, b: nat) {
    callSelfLeaf || b >= |targets| || targets[b] != k
  }

  /** The active buckets for which `open(node, leaf)` holds, in order. */
  function Opening(active: seq<nat>, k: Key, targets: seq<Key>, open: (Key, Key) -> bool): (r: seq<nat>)
    ensures |r| <= |active| && forall b :: b in r ==> b in active
  {
    if active == [] then []
    else
      var rest := Opening(active[..|active| - 1], k, targets, open);
      var b := active[|active| - 1];
      if Opens(k, targets, open, b) then rest + [b] else rest
  }

  /** The active buckets for which `open(node, leaf)` fails: they get `node()`. */
  function Closed(active: seq<nat>, k: Key, targets: seq<Key>, open: (Key, Key) -> bool): (r: seq<nat>)
    ensures |r| <= |active| && forall b :: b in r ==> b in active
  {
    if active == [] then []
    else
      var rest := Closed(active[..|active| - 1], k, targets, open);
      var b := active[|active| - 1];
      if !Opens(k, targets, open, b) then rest + [b] else rest
  }

  /** Every active bucket either opens or gets `node()`, exactly once: the two
      filters split the active list. */
  lemma {:induction false} OpeningClosedSplit(active: seq<nat>, k: Key, targets: seq<Key>, open: (Key, Key) -> bool)
    ensures multiset(Opening(active, k, targets, open)) + multiset(Closed(active, k, targets, open)) == multiset(active)
    ensures |Opening(active, k, targets, open)| + |Closed(active, k, targets, open)| == |active|
  {
    if active != [] {
      var pre := active[..|active| - 1];
      OpeningClosedSplit(pre, k, targets, open);
      assert active == pre + [active[|active| - 1]];
    }
  }

  /** The active buckets that interact with a leaf node. */
  function Served(active: seq<nat>, k: Key, targets: seq<Key>, callSelfLeaf: bool): (r: seq<nat>)
    ensures |r| <= |active| && forall b :: b in r ==> b in active
  {
    if active == [] then []
    else
      var rest := Served(active[..|active| - 1], k, targets, callSelfLeaf);
      var b := active[|active| - 1];
      if Serves(k, targets, callSelfLeaf, b) then rest + [b] else rest
  }

  function LeafCalls(k: Key, bs: seq<nat>): (r: seq<Visit>)
    ensures |r| == |bs|
    ensures forall v :: v in r ==> v.LeafCall? && v.source == k && v.bucket in bs
  {
    if bs == [] then [] else LeafCalls(k, bs[..|bs| - 1]) + [LeafCall(k, bs[|bs| - 1])]
  }

  function NodeCalls(k: Key, bs: seq<nat>): (r: seq<Visit>)
    ensures |r| == |bs|
    ensures forall v :: v in r ==> v.NodeCall? && v.source == k && v.bucket in bs
  {
    if bs == [] then [] else NodeCalls(k, bs[..|bs| - 1]) + [NodeCall(k, bs[|bs| - 1])]
  }

  /** Replay of the deferred interactions (`interactBase`): `leaf(source, leaves[i])`
      for every source recorded in list i, list by list. */
  function Replay(lists: seq<seq<Key>>): (r: seq<Visit>)
  {
    if lists == [] then []
    else Replay(lists[..|lists| - 1]) + LeafCalls'(lists[|lists| - 1], |lists| - 1)
  }

  function LeafCalls'(sources: seq<Key>, b: nat): (r: seq<Visit>)
    ensures |r| == |sources| && forall i :: 0 <= i < |sources| ==> r[i] == LeafCall(sources[i], b)
  {
    if sources == [] then [] else LeafCalls'(sources[..|sources| - 1], b) + [LeafCall(sources[|sources| - 1], b)]
  }

  function TotalLength(lists: seq<seq<Key>>): nat {
    if lists == [] then 0 else TotalLength(lists[..|lists| - 1]) + |lists[|lists| - 1]|
  }

  /** Every recorded (bucket, source) pair is replayed exactly as often as it
      was recorded, and nothing else is replayed. */
  lemma ReplayExact(lists: seq<seq<Key>>)
    ensures |Replay(lists)| == TotalLength(lists)
    ensures forall s: Key, b: nat :: multiset(Replay(lists))[LeafCall(s, b)] ==
              (if b < |lists| then multiset(lists[b])[s] else 0)
    ensures forall v :: v in Replay(lists) ==> v.LeafCall? && v.bucket < |lists| && v.source in lists[v.bucket]
  {
    ReplayLength(lists);
    ReplayCounts(lists);
    ReplayMembers(lists);
  }

  lemma {:induction false} ReplayLength(lists: seq<seq<Key>>)
    ensures |Replay(lists)| == TotalLength(lists)
  {
    if lists != [] {
      ReplayLength(lists[..|lists| - 1]);
    }
  }

  lemma {:induction false} ReplayCounts(lists: seq<seq<Key>>)
    ensures forall s: Key, b: nat :: multiset(Replay(lists))[LeafCall(s, b)] ==
              (if b < |lists| then multiset(lists[b])[s] else 0)
  {
    if lists != [] {
      var pre := lists[..|lists| - 1];
      ReplayCounts(pre);
      LeafCallsCount(lists[|lists| - 1], |lists| - 1);
      forall s: Key, b: nat
        ensures multiset(Replay(lists))[LeafCall(s, b)] == (if b < |lists| then multiset(lists[b])[s] else 0)
      {
        if b < |pre| {
          assert lists[b] == pre[b];
        }
      }
    }
  }

  lemma {:induction false} ReplayMembers(lists: seq<seq<Key>>)
    ensures forall v :: v in Replay(lists) ==> v.LeafCall? && v.bucket < |lists| && v.source in lists[v.bucket]
  {
    if lists != [] {
      var pre := lists[..|lists| - 1];
      var last := lists[|lists| - 1];
      ReplayMembers(pre);
      forall v | v in Replay(lists)
        ensures v.LeafCall? && v.bucket < |lists| && v.source in lists[v.bucket]
      {
        if v in Replay(pre) {
          assert lists[v.bucket] == pre[v.bucket];
        } else {
          assert v in LeafCalls'(last, |lists| - 1);
        }
      }
    }
  }

  lemma {:induction false} LeafCallsCount(sources: seq<Key>, b: nat)
    ensures forall s: Key, c: nat :: multiset(LeafCalls'(sources, b))[LeafCall(s, c)] ==
              (if c == b then multiset(sources)[s] else 0)
  {
    if sources != [] {
      var pre := sources[..|sources| - 1];
      LeafCallsCount(pre, b);
      assert sources == pre + [sources[|sources| - 1]];
    }
  }

  /** `Traverser::interactBase`: for each bucket i, in order, `leaf(source, leaves[i])`
      for every source recorded in `interactions[i]`. */
  method InteractBase(lists: seq<seq<Key>>) returns (calls: seq<Visit>)
    ensures calls == Replay(lists)
    ensures |calls| == TotalLength(lists)
  {
    calls := [];
    var i := 0;
    while i < |lists|
      invariant 0 <= i <= |lists|
      invariant calls == Replay(lists[..i])
    {
      var j := 0;
      while j < |lists[i]|
        invariant 0 <= j <= |lists[i]|
        invariant calls == Replay(lists[..i]) + LeafCalls'(lists[i][..j], i)
      {
        assert lists[i][..j + 1][..j] == lists[i][..j];
        calls := calls + [LeafCall(lists[i][j], i)];
        j := j + 1;
      }
      assert lists[i][..j] == lists[i];
      assert lists[..i + 1][..i] == lists[..i];
      i := i + 1;
    }
    assert lists[..i] == lists;
    ReplayExact(lists);
  }

  /** The visitor calls of a log, without the `finish` notifications. */
  function Calls(log: seq<Visit>): (r: seq<Visit>)
    ensures forall v :: v in r ==> v in log && !v.Finish?
    ensures |r| <= |log|
  {
    if log == [] then []
    else Calls(log[..|log| - 1]) + (if log[|log| - 1].Finish? then [] else [log[|log| - 1]])
  }

  /** The leaf calls of a log. */
  function LeafCallsOf(log: seq<Visit>): seq<Visit> {
    if log == [] then []
    else LeafCallsOf(log[..|log| - 1]) + (if log[|log| - 1].LeafCall? then [log[|log| - 1]] else [])
  }

  /** Deferred leaf interactions: each `LeafCall(s, b)` of the log appends `s`
      to list b (`part.interactions[bucket].push_back(node)`) instead of
      calling the visitor. */
  function Record(lists: seq<seq<Key>>, log: seq<Visit>): (r: seq<seq<Key>>)
    ensures |r| == |lists|
  {
    if log == [] then lists
    else
      var d := Record(lists, log[..|log| - 1]);
      var v := log[|log| - 1];
      if v.LeafCall? && v.bucket < |d| then d[v.bucket := d[v.bucket] + [v.source]] else d
  }

  /** What stays of a log when leaf interactions are deferred: every call
      whose source is a leaf (its leaf calls and its `finish`) is dropped. */
  function Undeferred(nodes: map<Key, Node>, log: seq<Visit>): seq<Visit> {
    if log == [] then []
    else
      var v := log[|log| - 1];
      Undeferred(nodes, log[..|log| - 1]) + (if v.source in nodes && IsLeafKind(nodes[v.source].ntype) then [] else [v])
  }

  /** Dropping the leaves' calls keeps only calls of the log, none of them from a leaf. */
  lemma {:induction false} UndeferredSub(nodes: map<Key, Node>, log: seq<Visit>)
    ensures forall v :: v in Undeferred(nodes, log) ==> v in log && !(v.source in nodes && IsLeafKind(nodes[v.source].ntype))
  {
    if log != [] {
      var pre := log[..|log| - 1];
      UndeferredSub(nodes, pre);
      forall v | v in Undeferred(nodes, log)
        ensures v in log && !(v.source in nodes && IsLeafKind(nodes[v.source].ntype))
      {
        if v in Undeferred(nodes, pre) {
          assert v in pre;
        }
      }
    }
  }

  lemma {:induction false} CallsConcat(a: seq<Visit>, b: seq<Visit>)
    ensures Calls(a + b) == Calls(a) + Calls(b)
    decreases |b|
  {
    if b == [] {
      assert a + b == a;
    } else {
      assert (a + b)[..|a + b| - 1] == a + b[..|b| - 1];
      CallsConcat(a, b[..|b| - 1]);
    }
  }

  lemma {:induction false} LeafCallsOfConcat(a: seq<Visit>, b: seq<Visit>)
    ensures LeafCallsOf(a + b) == LeafCallsOf(a) + LeafCallsOf(b)
    decreases |b|
  {
    if b == [] {
      assert a + b == a;
    } else {
      assert (a + b)[..|a + b| - 1] == a + b[..|b| - 1];
      LeafCallsOfConcat(a, b[..|b| - 1]);
    }
  }

  lemma {:induction false} RecordConcat(lists: seq<seq<Key>>, a: seq<Visit>, b: seq<Visit>)
    ensures Record(lists, a + b) == Record(Record(lists, a), b)
    decreases |b|
  {
    if b == [] {
      assert a + b == a;
    } else {
      assert (a + b)[..|a + b| - 1] == a + b[..|b| - 1];
      RecordConcat(lists, a, b[..|b| - 1]);
    }
  }

  lemma {:induction false} UndeferredConcat(nodes: map<Key, Node>, a: seq<Visit>, b: seq<Visit>)
    ensures Undeferred(nodes, a + b) == Undeferred(nodes, a) + Undeferred(nodes, b)
    decreases |b|
  {
    if b == [] {
      assert a + b == a;
    } else {
      assert (a + b)[..|a + b| - 1] == a + b[..|b| - 1];
      UndeferredConcat(nodes, a, b[..|b| - 1]);
    }
  }

  /** Recording a log adds, to each list b, one copy of s per `LeafCall(s, b)` of the log. */
  lemma {:induction false} RecordCounts(lists: seq<seq<Key>>, log: seq<Visit>)
    ensures forall b, s: Key :: 0 <= b < |lists| ==>
              multiset(Record(lists, log)[b])[s] == multiset(lists[b])[s] + multiset(log)[LeafCall(s, b)]
  {
    if log != [] {
      var pre := log[..|log| - 1];
      RecordCounts(lists, pre);
      assert log == pre + [log[|log| - 1]];
    }
  }

  /** Deferring leaf interactions and replaying them later (`interact()`) makes
      the same leaf calls, as often, as making them on the spot. */
  lemma DeferThenReplay(lists: seq<seq<Key>>, log: seq<Visit>)
    requires forall v :: v in log && v.LeafCall? ==> v.bucket < |lists|
    ensures multiset(Replay(Record(lists, log))) == multiset(Replay(lists)) + multiset(LeafCallsOf(log))
  {
    var after := Record(lists, log);
    ReplayExact(after);
    ReplayExact(lists);
    RecordCounts(lists, log);
    LeafCallsOfCounts(log);
    forall v: Visit
      ensures multiset(Replay(after))[v] == multiset(Replay(lists))[v] + multiset(LeafCallsOf(log))[v]
    {
      if v.LeafCall? {
        if v.bucket >= |lists| {
          assert v !in log;
        }
      } else {
        assert v !in Replay(after) && v !in Replay(lists);
      }
    }
  }

  /** The leaf calls of a log are exactly its `LeafCall` entries, as often as they occur. */
  lemma {:induction false} LeafCallsOfCounts(log: seq<Visit>)
    ensures forall v: Visit :: multiset(LeafCallsOf(log))[v] == if v.LeafCall? then multiset(log)[v] else 0
  {
    if log != [] {
      var pre, last := log[..|log| - 1], log[|log| - 1];
      LeafCallsOfCounts(pre);
      assert log == pre + [last];
      assert multiset(log) == multiset(pre) + multiset{last};
      assert multiset(LeafCallsOf(log)) == multiset(LeafCallsOf(pre)) + multiset(if last.LeafCall? then [last] else []);
    }
  }

  lemma ServedSnoc(active: seq<nat>, i: nat, k: Key, targets: seq<Key>, callSelfLeaf: bool)
    requires i < |active|
    ensures Serves(k, targets, callSelfLeaf, active[i]) ==>
              Served(active[..i + 1], k, targets, callSelfLeaf) == Served(active[..i], k, targets, callSelfLeaf) + [active[i]]
    ensures !Serves(k, targets, callSelfLeaf, active[i]) ==>
              Served(active[..i + 1], k, targets, callSelfLeaf) == Served(active[..i], k, targets, callSelfLeaf)
  {
    assert active[..i + 1][..i] == active[..i];
  }

  /** `calls` are the leaf calls for the served buckets among the first `i` active ones. */
  ghost predicate LeafPrefix(calls: seq<Visit>, active: seq<nat>, i: nat, k: Key, targets: seq<Key>, callSelfLeaf: bool) {
    i <= |active| && calls == LeafCalls(k, Served(active[..i], k, targets, callSelfLeaf))
  }

  /** One more bucket of the leaf loop: its call is appended iff it is served. */
  lemma LeafPrefixStep(calls: seq<Visit>, active: seq<nat>, i: nat, k: Key, targets: seq<Key>, callSelfLeaf: bool)
    requires i < |active| && LeafPrefix(calls, active, i, k, targets, callSelfLeaf)
    ensures Serves(k, targets, callSelfLeaf, active[i]) ==>
              LeafPrefix(calls + [LeafCall(k, active[i])], active, i + 1, k, targets, callSelfLeaf)
    ensures !Serves(k, targets, callSelfLeaf, active[i]) ==>
              LeafPrefix(calls, active, i + 1, k, targets, callSelfLeaf)
  {
    ServedSnoc(active, i, k, targets, callSelfLeaf);
    LeafCallsSnoc(k, Served(active[..i], k, targets, callSelfLeaf), active[i]);
  }

  lemma LeafPrefixEnds(calls: seq<Visit>, active: seq<nat>, k: Key, targets: seq<Key>, callSelfLeaf: bool)
    ensures LeafPrefix([], active, 0, k, targets, callSelfLeaf)
    ensures LeafPrefix(calls, active, |active|, k, targets, callSelfLeaf) ==>
              calls == LeafCalls(k, Served(active, k, targets, callSelfLeaf))
  {
    assert active[..|active|] == active;
  }

  /** `down` and `made` are what the internal loop has from the first `i` active buckets. */
  ghost predicate SplitPrefix(down: seq<nat>, made: seq<Visit>, active: seq<nat>, i: nat, k: Key, targets: seq<Key>, open: (Key, Key) -> bool) {
    && i <= |active|
    && down == Opening(active[..i], k, targets, open)
    && made == NodeCalls(k, Closed(active[..i], k, targets, open))
  }

  /** One more bucket of the internal loop: it joins `down` if opened, and gets a `node()` call otherwise. */
  lemma SplitPrefixStep(down: seq<nat>, made: seq<Visit>, active: seq<nat>, i: nat, k: Key, targets: seq<Key>, open: (Key, Key) -> bool)
    requires i < |active| && SplitPrefix(down, made, active, i, k, targets, open)
    ensures Opens(k, targets, open, active[i]) ==>
              SplitPrefix(down + [active[i]], made, active, i + 1, k, targets, open)
    ensures !Opens(k, targets, open, active[i]) ==>
              SplitPrefix(down, made + [NodeCall(k, active[i])], active, i + 1, k, targets, open)
  {
    OpeningClosedSnoc(active, i, k, targets, open);
    NodeCallsSnoc(k, Closed(active[..i], k, targets, open), active[i]);
  }

  lemma SplitPrefixEnds(down: seq<nat>, made: seq<Visit>, active: seq<nat>, k: Key, targets: seq<Key>, open: (Key, Key) -> bool)
    ensures SplitPrefix([], [], active, 0, k, targets, open)
    ensures SplitPrefix(down, made, active, |active|, k, targets, open) ==>
              down == Opening(active, k, targets, open) && made == NodeCalls(k, Closed(active, k, targets, open))
  {
    assert active[..|active|] == active;
  }

  lemma OpeningClosedSnoc(active: seq<nat>, i: nat, k: Key, targets: seq<Key>, open: (Key, Key) -> bool)
    requires i < |active|
    ensures Opens(k, targets, open, active[i]) ==>
              && Opening(active[..i + 1], k, targets, open) == Opening(active[..i], k, targets, open) + [active[i]]
              && Closed(active[..i + 1], k, targets, open) == Closed(active[..i], k, targets, open)
    ensures !Opens(k, targets, open, active[i]) ==>
              && Opening(active[..i + 1], k, targets, open) == Opening(active[..i], k, targets, open)
              && Closed(active[..i + 1], k, targets, open) == Closed(active[..i], k, targets, open) + [active[i]]
  {
    assert active[..i + 1][..i] == active[..i];
  }

  lemma LeafCallsSnoc(k: Key, bs: seq<nat>, b: nat)
    ensures LeafCalls(k, bs + [b]) == LeafCalls(k, bs) + [LeafCall(k, b)]
  {
    assert (bs + [b])[..|bs|] == bs;
  }

  lemma NodeCallsSnoc(k: Key, bs: seq<nat>, b: nat)
    ensures NodeCalls(k, bs + [b]) == NodeCalls(k, bs) + [NodeCall(k, b)]
  {
    assert (bs + [b])[..|bs|] == bs;
  }

  lemma RecordSnoc(lists: seq<seq<Key>>, log: seq<Visit>, v: Visit)
    ensures Record(lists, log + [v]) ==
              var d := Record(lists, log);
              if v.LeafCall? && v.bucket < |d| then d[v.bucket := d[v.bucket] + [v.source]] else d
  {
    assert (log + [v])[..|log|] == log;
  }

  lemma {:induction false} RecordNoLeaf(lists: seq<seq<Key>>, log: seq<Visit>)
    requires forall v :: v in log ==> !v.LeafCall?
    ensures Record(lists, log) == lists
  {
    if log != [] {
      RecordNoLeaf(lists, log[..|log| - 1]);
      assert log[|log| - 1] in log;
    }
  }

  /** The filters keep exactly the buckets they are named for. */
  lemma {:induction false} FiltersExact(active: seq<nat>, k: Key, targets: seq<Key>, open: (Key, Key) -> bool, callSelfLeaf: bool)
    ensures forall b :: b in Opening(active, k, targets, open) <==> b in active && Opens(k, targets, open, b)
    ensures forall b :: b in Closed(active, k, targets, open) <==> b in active && !Opens(k, targets, open, b)
    ensures forall b :: b in Served(active, k, targets, callSelfLeaf) <==> b in active && Serves(k, targets, callSelfLeaf, b)
    ensures callSelfLeaf ==> Served(active, k, targets, callSelfLeaf) == active
  {
    if active != [] {
      var pre := active[..|active| - 1];
      FiltersExact(pre, k, targets, open, callSelfLeaf);
      assert active == pre + [active[|active| - 1]];
    }
  }

  lemma Assoc<T>(a: seq<T>, b: seq<T>, c: seq<T>)
    ensures (a + b) + c == a + (b + c)
  {
  }
}

=== FILE: up_and_down.dfy ===
/** `UpnDTraverser` of src/Traverser.h: every bucket starts at its own tree
    leaf, walks down from there with an explicit stack, and, once nothing it
    waits for is outstanding, climbs to the parent of its current top and
    schedules the top's siblings. */
module UpAndDownTraversal {
  import opened Nodes
  import opened NodeTable
  import opened ResumerModel
  import opened TraverserCommon
  import DownTraversal

  /** One step of a bucket's stack walk: a visitor call, or a hit on an
      unresolved node (the bucket is parked there). */
  datatype Event = Called(v: Visit) | Hit(key: Key)

  /** The visitor calls of a walk. */
  function CallsOf(es: seq<Event>): seq<Visit> {
    if es == [] then []
    else CallsOf(es[..|es| - 1]) + (if es[|es| - 1].Called? then [es[|es| - 1].v] else [])
  }

  /** The `curr_nodes_insertions` a walk of bucket `b` produces: one per hit. */
  function HitsOf(es: seq<Event>, b: nat): seq<(Key, nat)> {
    if es == [] then []
    else HitsOf(es[..|es| - 1], b) + (if es[|es| - 1].Hit? then [(es[|es| - 1].key, b)] else [])
  }

  lemma {:induction false} EventsConcat(a: seq<Event>, c: seq<Event>, b: nat)
    ensures CallsOf(a + c) == CallsOf(a) + CallsOf(c)
    ensures HitsOf(a + c, b) == HitsOf(a, b) + HitsOf(c, b)
    decreases |c|
  {
    if c == [] {
      assert a + c == a;
    } else {
      var c' := c[..|c| - 1];
      assert (a + c)[..|a + c| - 1] == a + c';
      EventsConcat(a, c', b);
    }
  }

  lemma EventsOne(e: Event, b: nat)
    ensures CallsOf([e]) == (if e.Called? then [e.v] else [])
    ensures HitsOf([e], b) == (if e.Hit? then [(e.key, b)] else [])
  {
    assert [e][..0] == [];
  }

  /** The state a walk of bucket b has produced after the events `done`,
      from visits `v0`, insertions `i0` and counters `n0`. */
  ghost predicate Tied(done: seq<Event>, b: nat, v0: seq<Visit>, i0: seq<(Key, nat)>, n0: seq<int>,
                       v: seq<Visit>, ins: seq<(Key, nat)>, n: seq<int>) {
    && b < |n0| && v == v0 + CallsOf(done) && ins == i0 + HitsOf(done, b)
    && n == n0[b := n0[b] + |HitsOf(done, b)|]
  }

  /** A walk tied to the counters after bucket b's drop by one: its
      counter is the old one less one plus the walk's hits. */
  lemma TiedAfterDrop(done: seq<Event>, b: nat, v0: seq<Visit>, i0: seq<(Key, nat)>, w0: seq<int>,
                      v: seq<Visit>, ins: seq<(Key, nat)>, n: seq<int>)
    requires b < |w0| && Tied(done, b, v0, i0, w0[b := w0[b] - 1], v, ins, n)
    ensures n == w0[b := w0[b] - 1 + |HitsOf(done, b)|] && ins == i0 + HitsOf(done, b) && v == v0 + CallsOf(done)
  {
  }

  lemma TiedTrans(done: seq<Event>, here: seq<Event>, b: nat, v0: seq<Visit>, i0: seq<(Key, nat)>, n0: seq<int>,
                  v1: seq<Visit>, i1: seq<(Key, nat)>, n1: seq<int>, v2: seq<Visit>, i2: seq<(Key, nat)>, n2: seq<int>)
    requires Tied(done, b, v0, i0, n0, v1, i1, n1) && Tied(here, b, v1, i1, n1, v2, i2, n2)
    ensures Tied(done + here, b, v0, i0, n0, v2, i2, n2)
  {
    EventsConcat(done, here, b);
    assert v2 == v0 + (CallsOf(done) + CallsOf(here));
    assert i2 == i0 + (HitsOf(done, b) + HitsOf(here, b));
  }

  /** One event's share of the walk state. */
  lemma TiedOne(e: Event, b: nat, v: seq<Visit>, ins: seq<(Key, nat)>, n: seq<int>)
    requires b < |n|
    ensures e.Called? ==> Tied([e], b, v, ins, n, v + [e.v], ins, n)
    ensures e.Hit? ==> Tied([e], b, v, ins, n, v, ins + [(e.key, b)], n[b := n[b] + 1])
  {
    EventsOne(e, b);
    assert n[b := n[b] + 0] == n;
  }

  lemma TiedStarts(b: nat, v0: seq<Visit>, i0: seq<(Key, nat)>, n0: seq<int>)
    requires b < |n0|
    ensures Tied([], b, v0, i0, n0, v0, i0, n0)
  {
    assert n0[b := n0[b] + 0] == n0;
  }

  /** Every event of a walk of bucket b: a call for bucket b on a resolved
      node, or a hit on an unresolved one. */
  ghost predicate EventOn(shape: map<Key, Node>, e: Event, b: nat) {
    match e
    case Called(v) => (v.LeafCall? || v.NodeCall?) && v.bucket == b && OnResolved(shape, v)
    case Hit(k) => DownTraversal.Unresolved(shape, k)
  }

  lemma {:induction false} CallsOfIn(es: seq<Event>)
    ensures forall v :: v in CallsOf(es) ==> Called(v) in es
  {
    if es != [] {
      CallsOfIn(es[..|es| - 1]);
      assert forall e :: e in es[..|es| - 1] ==> e in es;
    }
  }

  lemma {:induction false} HitsOfIn(es: seq<Event>, b: nat)
    ensures forall h :: h in HitsOf(es, b) ==> h.1 == b && Hit(h.0) in es
  {
    if es != [] {
      HitsOfIn(es[..|es| - 1], b);
      assert forall e :: e in es[..|es| - 1] ==> e in es;
    }
  }

  /** The children other than `top`, in order: the siblings a climb parks at. */
  function Others(children: seq<Key>, top: Key): seq<Key> {
    if children == [] then []
    else
      var last := children[|children| - 1];
      Others(children[..|children| - 1], top) + (if last != top then [last] else [])
  }

  lemma {:induction false} OthersFacts(children: seq<Key>, top: Key)
    ensures forall x :: x in Others(children, top) <==> x in children && x != top
  {
    if children != [] {
      var pre := children[..|children| - 1];
      OthersFacts(pre, top);
      assert children == pre + [children[|children| - 1]];
    }
  }

  /** The insertions `(k, b)` for the keys of `ks`, in order. */
  function Tagged(ks: seq<Key>, b: nat): (r: seq<(Key, nat)>) {
    if ks == [] then [] else Tagged(ks[..|ks| - 1], b) + [(ks[|ks| - 1], b)]
  }

  lemma {:induction false} TaggedFacts(ks: seq<Key>, b: nat)
    ensures |Tagged(ks, b)| == |ks| && forall i :: 0 <= i < |ks| ==> Tagged(ks, b)[i] == (ks[i], b)
  {
    if ks != [] {
      TaggedFacts(ks[..|ks| - 1], b);
    }
  }

  /** The kinds after the climb below a Boundary parent retyped the keys of `ks`. */
  ghost function RetypeAll(nodes: map<Key, Node>, ks: seq<Key>): map<Key, Node> {
    if ks == [] then nodes
    else
      var m := RetypeAll(nodes, ks[..|ks| - 1]);
      var k := ks[|ks| - 1];
      if k in m then m[k := m[k].(ntype := RemoteAboveTPKey)] else m
  }

  lemma {:induction false} RetypeAllFacts(nodes: map<Key, Node>, ks: seq<Key>)
    ensures Retyped(nodes, RetypeAll(nodes, ks)) && RequestedMonotone(nodes, RetypeAll(nodes, ks))
    ensures forall k {:trigger RetypeAll(nodes, ks)[k]} :: k in nodes && k !in ks ==> RetypeAll(nodes, ks)[k] == nodes[k]
  {
    if ks != [] {
      var pre := ks[..|ks| - 1];
      RetypeAllFacts(nodes, pre);
      assert forall k :: k !in ks ==> k !in pre;
    }
  }

  /** The keys of a sequence, as a set. */
  ghost function Elems(ks: seq<Key>): set<Key> {
    set x | x in ks
  }

  /** The sum of the top keys; every climb lowers it, since a parent's key is
      smaller than its child's. */
  function SumKeys(s: seq<Key>): nat {
    if s == [] then 0 else SumKeys(s[..|s| - 1]) + s[|s| - 1]
  }

  lemma {:induction false} SumKeysLess(s: seq<Key>, b: nat, p: Key)
    requires b < |s| && p < s[b]
    ensures SumKeys(s[b := p]) < SumKeys(s)
    decreases |s|
  {
    var t := s[b := p];
    if b == |s| - 1 {
      assert t[..|t| - 1] == s[..|s| - 1];
    } else {
      assert t[..|t| - 1] == s[..|s| - 1][b := p];
      SumKeysLess(s[..|s| - 1], b, p);
    }
  }

  /** Every key of a set, once each, in some order (the iteration over the
      `std::set` of new nodes, whose order is by address). */
  method Enumerate(s: set<Key>) returns (r: seq<Key>)
    ensures forall x :: x in r <==> x in s
    ensures forall i, j :: 0 <= i < j < |r| ==> r[i] != r[j]
  {
    r := [];
    var rest := s;
    while rest != {}
      invariant rest <= s
      invariant forall x :: x in r <==> x in s && x !in rest
      invariant forall i, j :: 0 <= i < j < |r| ==> r[i] != r[j]
      decreases rest
    {
      var x :| x in rest;
      r := r + [x];
      rest := rest - {x};
    }
  }

  /** Bucket b's turn of `traverse` took its counter down by one and added
      one insertion, with bucket b and a key of `nodes`, per place it parked. */
  ghost predicate Grown(b: nat, i0: seq<(Key, nat)>, w0: seq<int>, ins: seq<(Key, nat)>, w: seq<int>, keys: set<Key>) {
    && b < |w0| && |i0| <= |ins| && ins[..|i0|] == i0
    && (forall j :: |i0| <= j < |ins| ==> ins[j].1 == b && ins[j].0 in keys)
    && w == w0[b := w0[b] - 1 + (|ins| - |i0|)]
  }

  /** Insertions made under `Grown` stay within the keys and the buckets. */
  lemma GrownIn(b: nat, i0: seq<(Key, nat)>, w0: seq<int>, ins: seq<(Key, nat)>, w: seq<int>, keys: set<Key>, n: nat)
    requires Grown(b, i0, w0, ins, w, keys) && b < n
    requires forall j :: 0 <= j < |i0| ==> i0[j].0 in keys && i0[j].1 < n
    ensures forall j :: 0 <= j < |ins| ==> ins[j].0 in keys && ins[j].1 < n
  {
    forall j | 0 <= j < |ins| ensures ins[j].0 in keys && ins[j].1 < n {
      if j < |i0| {
        assert ins[j] == ins[..|i0|][j];
      }
    }
  }

  /** How the counters stand partway through `traverse`: each is the number
      of places its bucket was parked at, less the turns already taken at
      `key`, plus the insertions still to be made. */
  ghost predicate Mid(c0: map<Key, seq<nat>>, bound: nat, ready: seq<nat>, i: nat, ins: seq<(Key, nat)>, w: seq<int>) {
    i <= |ready| && w == Expected(c0, bound, ready, i, ins, |w|)
  }

  /** The `n` counters `Mid` expects. */
  ghost function Expected(c0: map<Key, seq<nat>>, bound: nat, ready: seq<nat>, i: nat, ins: seq<(Key, nat)>, n: nat): seq<int>
    requires i <= |ready|
  {
    seq(n, x requires 0 <= x => Pile(c0, bound, x) - multiset(ready[..i])[x] + multiset(BucketsOf(ins))[x])
  }

  /** For each of `n` buckets, the number of places it is parked at in `m`. */
  ghost function Tally(m: map<Key, seq<nat>>, bound: nat, n: nat): seq<int> {
    seq(n, x requires 0 <= x => Pile(m, bound, x))
  }

  /** Before any turn, `Mid` is what the counters already say. */
  lemma MidStarts(c0: map<Key, seq<nat>>, bound: nat, ready: seq<nat>, w: seq<int>)
    requires w == Tally(c0, bound, |w|)
    ensures Mid(c0, bound, ready, 0, [], w)
  {
    assert ready[..0] == [];
    forall x | 0 <= x < |w| ensures w[x] == Expected(c0, bound, ready, 0, [], |w|)[x] {
      assert w[x] == Tally(c0, bound, |w|)[x];
    }
  }

  lemma {:induction false} BucketsOfAll(extra: seq<(Key, nat)>, b: nat, x: nat)
    requires forall j :: 0 <= j < |extra| ==> extra[j].1 == b
    ensures multiset(BucketsOf(extra))[x] == if x == b then |extra| else 0
  {
    if extra != [] {
      BucketsOfAll(extra[..|extra| - 1], b, x);
    }
  }

  lemma MidStep(c0: map<Key, seq<nat>>, bound: nat, ready: seq<nat>, i: nat, ins: seq<(Key, nat)>, w: seq<int>,
                ins': seq<(Key, nat)>, w': seq<int>, keys: set<Key>)
    requires Mid(c0, bound, ready, i, ins, w) && i < |ready|
    requires Grown(ready[i], ins, w, ins', w', keys)
    ensures Mid(c0, bound, ready, i + 1, ins', w')
  {
    forall x | 0 <= x < |w'| ensures w'[x] == Expected(c0, bound, ready, i + 1, ins', |w'|)[x] {
      MidStepAt(c0, bound, ready, i, ins, w, ins', w', keys, x);
    }
  }

  lemma MidStepAt(c0: map<Key, seq<nat>>, bound: nat, ready: seq<nat>, i: nat, ins: seq<(Key, nat)>, w: seq<int>,
                  ins': seq<(Key, nat)>, w': seq<int>, keys: set<Key>, x: nat)
    requires Mid(c0, bound, ready, i, ins, w) && i < |ready|
    requires Grown(ready[i], ins, w, ins', w', keys) && x < |w'|
    ensures w'[x] == Pile(c0, bound, x) - multiset(ready[..i + 1])[x] + multiset(BucketsOf(ins'))[x]
  {
    assert w[x] == Expected(c0, bound, ready, i, ins, |w|)[x];
    ReadyCount(ready, i, x);
    GrownCount(ins, ins', ready[i], x);
  }

  lemma ReadyCount(ready: seq<nat>, i: nat, x: nat)
    requires i < |ready|
    ensures multiset(ready[..i + 1])[x] == multiset(ready[..i])[x] + (if x == ready[i] then 1 else 0)
  {
    assert ready[..i + 1] == ready[..i] + [ready[i]];
  }

  lemma GrownCount(ins: seq<(Key, nat)>, ins': seq<(Key, nat)>, b: nat, x: nat)
    requires |ins| <= |ins'| && ins'[..|ins|] == ins
    requires forall j :: |ins| <= j < |ins'| ==> ins'[j].1 == b
    ensures multiset(BucketsOf(ins'))[x] == multiset(BucketsOf(ins))[x] + (if x == b then |ins'| - |ins| else 0)
  {
    var extra := ins'[|ins|..];
    assert ins' == ins + extra;
    BucketsOfConcat(ins, extra);
    BucketsOfAll(extra, b, x);
  }

  lemma MidEnds(c0: map<Key, seq<nat>>, bound: nat, ready: seq<nat>, key: Key, ins: seq<(Key, nat)>, w: seq<int>)
    requires Mid(c0, bound, ready, |ready|, ins, w) && ready == Lookup(c0, key) && key < bound
    ensures Mid(c0 - {key}, bound, [], 0, ins, w)
  {
    assert ready[..|ready|] == ready;
    forall x | 0 <= x < |w| ensures w[x] == Expected(c0 - {key}, bound, [], 0, ins, |w|)[x] {
      assert w[x] == Expected(c0, bound, ready, |ready|, ins, |w|)[x];
      PileRemove(c0, key, bound, x);
    }
  }

  /** The climb's loop over the parent's children after the first `j`:
      bucket b is parked at each sibling of `top` so far, counted once per
      sibling, each sibling is a new node, and below a Boundary parent each
      sibling became `RemoteAboveTPKey`. */
  ghost predicate Siblings(nodes0: map<Key, Node>, p: Key, top: Key, j: nat, b: nat,
                           i0: seq<(Key, nat)>, w0: seq<int>, nn0: set<Key>,
                           nodes: map<Key, Node>, ins: seq<(Key, nat)>, w: seq<int>, nn: set<Key>) {
    && p in nodes0 && j <= |nodes0[p].children| && b < |w0|
    && var o := Others(nodes0[p].children[..j], top);
       && ins == i0 + Tagged(o, b)
       && w == w0[b := w0[b] + |o|]
       && nn == nn0 + Elems(o)
       && nodes == (if nodes0[p].ntype == Boundary then RetypeAll(nodes0, o) else nodes0)
  }

  lemma SiblingsStarts(nodes0: map<Key, Node>, p: Key, top: Key, b: nat, i0: seq<(Key, nat)>, w0: seq<int>, nn0: set<Key>)
    requires p in nodes0 && b < |w0|
    ensures Siblings(nodes0, p, top, 0, b, i0, w0, nn0, nodes0, i0, w0, nn0)
  {
    assert nodes0[p].children[..0] == [];
    assert w0[b := w0[b] + 0] == w0;
    assert Elems([]) == {};
  }

  lemma SiblingsStep(nodes0: map<Key, Node>, p: Key, top: Key, j: nat, b: nat,
                     i0: seq<(Key, nat)>, w0: seq<int>, nn0: set<Key>,
                     nodes: map<Key, Node>, ins: seq<(Key, nat)>, w: seq<int>, nn: set<Key>,
                     nodes': map<Key, Node>, ins': seq<(Key, nat)>, w': seq<int>, nn': set<Key>)
    requires Siblings(nodes0, p, top, j, b, i0, w0, nn0, nodes, ins, w, nn) && j < |nodes0[p].children|
    requires var c := nodes0[p].children[j];
      if c == top then nodes' == nodes && ins' == ins && w' == w && nn' == nn
      else
        && nodes' == (if nodes0[p].ntype == Boundary && c in nodes then nodes[c := nodes[c].(ntype := RemoteAboveTPKey)] else nodes)
        && ins' == ins + [(c, b)] && w' == w[b := w[b] + 1] && nn' == nn + {c}
    ensures Siblings(nodes0, p, top, j + 1, b, i0, w0, nn0, nodes', ins', w', nn')
  {
    if nodes0[p].children[j] != top {
      SiblingsAdd(nodes0, p, top, j, b, i0, w0, nn0, nodes, ins, w, nn, nodes', ins', w', nn');
    } else {
      var ch := nodes0[p].children;
      OthersSnoc(ch, j, top);
      assert Others(ch[..j], top) + [] == Others(ch[..j], top);
    }
  }

  /** A sibling other than the top joins the handled ones. */
  lemma SiblingsAdd(nodes0: map<Key, Node>, p: Key, top: Key, j: nat, b: nat,
                    i0: seq<(Key, nat)>, w0: seq<int>, nn0: set<Key>,
                    nodes: map<Key, Node>, ins: seq<(Key, nat)>, w: seq<int>, nn: set<Key>,
                    nodes': map<Key, Node>, ins': seq<(Key, nat)>, w': seq<int>, nn': set<Key>)
    requires Siblings(nodes0, p, top, j, b, i0, w0, nn0, nodes, ins, w, nn) && j < |nodes0[p].children|
    requires var c := nodes0[p].children[j];
      && c != top
      && nodes' == (if nodes0[p].ntype == Boundary && c in nodes then nodes[c := nodes[c].(ntype := RemoteAboveTPKey)] else nodes)
      && ins' == ins + [(c, b)] && w' == w[b := w[b] + 1] && nn' == nn + {c}
    ensures Siblings(nodes0, p, top, j + 1, b, i0, w0, nn0, nodes', ins', w', nn')
  {
    var ch := nodes0[p].children;
    OthersSnoc(ch, j, top);
    SiblingsGrow(nodes0, nodes0[p].ntype == Boundary, Others(ch[..j], top), ch[j], b, i0, w0, nn0, nodes, ins, w, nn, nodes', ins', w', nn');
  }

  lemma OthersSnoc(ch: seq<Key>, j: nat, top: Key)
    requires j < |ch|
    ensures Others(ch[..j + 1], top) == Others(ch[..j], top) + (if ch[j] != top then [ch[j]] else [])
  {
    assert ch[..j + 1][..j] == ch[..j];
  }

  /** The folds of `Siblings` over one more sibling `c`. */
  lemma SiblingsGrow(nodes0: map<Key, Node>, boundary: bool, o: seq<Key>, c: Key, b: nat,
                     i0: seq<(Key, nat)>, w0: seq<int>, nn0: set<Key>,
                     nodes: map<Key, Node>, ins: seq<(Key, nat)>, w: seq<int>, nn: set<Key>,
                     nodes': map<Key, Node>, ins': seq<(Key, nat)>, w': seq<int>, nn': set<Key>)
    requires b < |w0|
    requires ins == i0 + Tagged(o, b) && w == w0[b := w0[b] + |o|] && nn == nn0 + Elems(o)
    requires nodes == (if boundary then RetypeAll(nodes0, o) else nodes0)
    requires nodes' == (if boundary && c in nodes then nodes[c := nodes[c].(ntype := RemoteAboveTPKey)] else nodes)
    requires ins' == ins + [(c, b)] && w' == w[b := w[b] + 1] && nn' == nn + {c}
    ensures ins' == i0 + Tagged(o + [c], b) && w' == w0[b := w0[b] + |o + [c]|] && nn' == nn0 + Elems(o + [c])
    ensures nodes' == (if boundary then RetypeAll(nodes0, o + [c]) else nodes0)
  {
    assert (o + [c])[..|o|] == o && (o + [c])[|o|] == c;
    assert Elems(o + [c]) == Elems(o) + {c};
  }

  /** The climb leaves the parent itself and the table's keys alone. */
  lemma SiblingsFrame(nodes0: map<Key, Node>, p: Key, top: Key, j: nat, b: nat,
                      i0: seq<(Key, nat)>, w0: seq<int>, nn0: set<Key>,
                      nodes: map<Key, Node>, ins: seq<(Key, nat)>, w: seq<int>, nn: set<Key>)
    requires WellFormed(nodes0) && Siblings(nodes0, p, top, j, b, i0, w0, nn0, nodes, ins, w, nn)
    ensures nodes.Keys == nodes0.Keys && nodes[p] == nodes0[p]
  {
    var ch := nodes0[p].children;
    var o := Others(ch[..j], top);
    OthersFacts(ch[..j], top);
    assert p !in o by {
      forall x | x in ch[..j] ensures x > p {
      }
    }
    RetypeAllFacts(nodes0, o);
  }

  /** Bucket b climbed: its top became its old top's parent, and the
      siblings of the old top were handled as `Siblings` says. */
  ghost predicate Climbed(b: nat, nodes0: map<Key, Node>, tops0: seq<Key>, w0: seq<int>, i0: seq<(Key, nat)>, nn0: set<Key>,
                          nodes: map<Key, Node>, tops: seq<Key>, w: seq<int>, ins: seq<(Key, nat)>, nn: set<Key>) {
    && b < |tops0| && tops0[b] in nodes0 && nodes0[tops0[b]].parent.Some?
    && var p := nodes0[tops0[b]].parent.value;
       && p in nodes0
       && tops == tops0[b := p]
       && Siblings(nodes0, p, tops0[b], |nodes0[p].children|, b, i0, w0, nn0, nodes, ins, w, nn)
  }

  /** What a climb amounts to: the top moves to a smaller key, every new
      insertion is bucket b's at a node of the table, counted once, new
      nodes are nodes of the table, and kinds only become `RemoteAboveTPKey`. */
  lemma ClimbedFacts(b: nat, nodes0: map<Key, Node>, tops0: seq<Key>, w0: seq<int>, i0: seq<(Key, nat)>, nn0: set<Key>,
                     nodes: map<Key, Node>, tops: seq<Key>, w: seq<int>, ins: seq<(Key, nat)>, nn: set<Key>)
    requires WellFormed(nodes0) && Climbed(b, nodes0, tops0, w0, i0, nn0, nodes, tops, w, ins, nn)
    ensures |tops| == |tops0| && tops[b] < tops0[b] && tops[b] in nodes0 && tops == tops0[b := tops[b]]
    ensures Grown(b, i0, w0[b := w0[b] + 1], ins, w, nodes0.Keys)
    ensures nn0 <= nn && forall x :: x in nn && x !in nn0 ==> x in nodes0
    ensures Retyped(nodes0, nodes) && RequestedMonotone(nodes0, nodes)
  {
    var top := tops0[b];
    var p := nodes0[top].parent.value;
    ParentOf(nodes0, top);
    var ch := nodes0[p].children;
    assert ch[..|ch|] == ch;
    var o := Others(ch, top);
    OthersIn(ch, top, nodes0);
    ClimbedIns(b, i0, w0, o, nodes0, ins, w);
    ClimbedNodes(nodes0, p, o, nn0, nodes, nn);
  }

  /** A parent in a well-formed table: a node of the table, of smaller key,
      whose children are nodes of the table. */
  lemma ParentOf(nodes: map<Key, Node>, k: Key)
    requires WellFormed(nodes) && k in nodes && nodes[k].parent.Some?
    ensures nodes[k].parent.value in nodes && nodes[k].parent.value < k
    ensures forall x :: x in nodes[nodes[k].parent.value].children ==> x in nodes
  {
  }

  lemma OthersIn(ch: seq<Key>, top: Key, nodes: map<Key, Node>)
    requires forall x :: x in ch ==> x in nodes
    ensures forall x :: x in Others(ch, top) ==> x in nodes
  {
    OthersFacts(ch, top);
  }

  lemma ClimbedIns(b: nat, i0: seq<(Key, nat)>, w0: seq<int>, o: seq<Key>, nodes0: map<Key, Node>, ins: seq<(Key, nat)>, w: seq<int>)
    requires forall x :: x in o ==> x in nodes0
    requires b < |w0| && ins == i0 + Tagged(o, b) && w == w0[b := w0[b] + |o|]
    ensures Grown(b, i0, w0[b := w0[b] + 1], ins, w, nodes0.Keys)
  {
    TaggedIn(i0, o, b, nodes0);
  }

  lemma ClimbedNodes(nodes0: map<Key, Node>, p: Key, o: seq<Key>, nn0: set<Key>, nodes: map<Key, Node>, nn: set<Key>)
    requires forall x :: x in o ==> x in nodes0
    requires nn == nn0 + Elems(o) && nodes == (if p in nodes0 && nodes0[p].ntype == Boundary then RetypeAll(nodes0, o) else nodes0)
    ensures nn0 <= nn && forall x :: x in nn && x !in nn0 ==> x in nodes0
    ensures Retyped(nodes0, nodes) && RequestedMonotone(nodes0, nodes)
  {
    RetypeAllFacts(nodes0, o);
    ElemsIn(nn0, o, nodes0);
  }

  lemma TaggedIn(i0: seq<(Key, nat)>, o: seq<Key>, b: nat, nodes: map<Key, Node>)
    requires forall x :: x in o ==> x in nodes
    ensures |i0| <= |i0 + Tagged(o, b)| && (i0 + Tagged(o, b))[..|i0|] == i0
    ensures |Tagged(o, b)| == |o|
    ensures forall j :: |i0| <= j < |i0 + Tagged(o, b)| ==> (i0 + Tagged(o, b))[j].1 == b && (i0 + Tagged(o, b))[j].0 in nodes
  {
    TaggedFacts(o, b);
    var ins := i0 + Tagged(o, b);
    forall j | |i0| <= j < |ins| ensures ins[j].1 == b && ins[j].0 in nodes {
      assert ins[j] == Tagged(o, b)[j - |i0|];
      assert o[j - |i0|] in o;
    }
    assert ins[..|i0|] == i0;
  }

  lemma ElemsIn(nn0: set<Key>, o: seq<Key>, nodes: map<Key, Node>)
    requires forall x :: x in o ==> x in nodes
    ensures nn0 <= nn0 + Elems(o) && forall x :: x in nn0 + Elems(o) && x !in nn0 ==> x in nodes
  {
  }

  /** The part of a traverser's state that a turn of `traverse` decides:
      the table, the tops, the counters, the insertions and the new nodes. */
  datatype Trav = Trav(nodes: map<Key, Node>, tops: seq<Key>, w: seq<int>, ins: seq<(Key, nat)>, nn: set<Key>)

  /** `u` is `t` up to request flags, which only the fetches set. */
  ghost predicate Like(t: Trav, u: Trav) {
    SameKinds(t.nodes, u.nodes) && t.(nodes := u.nodes) == u
  }

  /** The climb of `traverse` for bucket b, whose top has a parent: b is
      parked at every other child of that parent (retyped to
      `RemoteAboveTPKey` when the parent is a Boundary node), counted once
      per child, each recorded as new, and the parent becomes b's top. */
  ghost function ClimbFrom(t: Trav, b: nat): Trav
    requires WellFormed(t.nodes) && b < |t.tops| && b < |t.w| && t.tops[b] in t.nodes && t.nodes[t.tops[b]].parent.Some?
  {
    var top := t.tops[b];
    var p := t.nodes[top].parent.value;
    var o := Others(t.nodes[p].children, top);
    Trav(if t.nodes[p].ntype == Boundary then RetypeAll(t.nodes, o) else t.nodes,
         t.tops[b := p], t.w[b := t.w[b] + |o|], t.ins + Tagged(o, b), t.nn + Elems(o))
  }

  /** The `if (num_waiting[bucket] == 0 && parent exists)` step: climb when
      bucket b waits for nothing and its top has a parent, else nothing. */
  ghost function MaybeClimb(t: Trav, b: nat): Trav
    requires WellFormed(t.nodes) && b < |t.tops| && b < |t.w| && AllIn(t.nodes, t.tops)
  {
    if t.w[b] == 0 && t.nodes[t.tops[b]].parent.Some? then ClimbFrom(t, b) else t
  }

  /** A climb keeps the table well formed, its keys, the number of tops
      and counters, and every top a node of the table; the climbing
      bucket's top moves to a smaller key. */
  lemma MaybeClimbFits(t: Trav, b: nat)
    requires WellFormed(t.nodes) && b < |t.tops| && b < |t.w| && AllIn(t.nodes, t.tops)
    ensures var r := MaybeClimb(t, b);
      && WellFormed(r.nodes) && r.nodes.Keys == t.nodes.Keys && |r.tops| == |t.tops| && |r.w| == |t.w|
      && AllIn(r.nodes, r.tops) && r.tops == t.tops[b := r.tops[b]] && r.tops[b] <= t.tops[b]
  {
    var top := t.tops[b];
    if t.w[b] == 0 && t.nodes[top].parent.Some? {
      ParentOf(t.nodes, top);
      var p := t.nodes[top].parent.value;
      var o := Others(t.nodes[p].children, top);
      RetypeAllFacts(t.nodes, o);
      SameShapeWellFormed(t.nodes, MaybeClimb(t, b).nodes);
    }
  }

  /** `Climbed` is the climb `ClimbFrom` computes. */
  lemma ClimbedIs(b: nat, nodes0: map<Key, Node>, tops0: seq<Key>, w0: seq<int>, i0: seq<(Key, nat)>, nn0: set<Key>,
                  nodes: map<Key, Node>, tops: seq<Key>, w: seq<int>, ins: seq<(Key, nat)>, nn: set<Key>)
    requires WellFormed(nodes0) && b < |w0| && Climbed(b, nodes0, tops0, w0, i0, nn0, nodes, tops, w, ins, nn)
    ensures Trav(nodes, tops, w, ins, nn) == ClimbFrom(Trav(nodes0, tops0, w0, i0, nn0), b)
  {
    var p := nodes0[tops0[b]].parent.value;
    assert nodes0[p].children[..|nodes0[p].children|] == nodes0[p].children;
  }

  /** Retyping the same keys keeps two tables alike in kinds. */
  lemma {:induction false} RetypeAllKinds(a: map<Key, Node>, c: map<Key, Node>, ks: seq<Key>)
    requires SameKinds(a, c)
    ensures SameKinds(RetypeAll(a, ks), RetypeAll(c, ks))
  {
    if ks != [] {
      RetypeAllKinds(a, c, ks[..|ks| - 1]);
    }
  }

  /** The climb step depends on the table only up to request flags. */
  lemma MaybeClimbKinds(t: Trav, n: map<Key, Node>, b: nat)
    requires WellFormed(t.nodes) && b < |t.tops| && b < |t.w| && AllIn(t.nodes, t.tops) && SameKinds(t.nodes, n)
    ensures WellFormed(n) && AllIn(n, t.tops)
    ensures Like(MaybeClimb(t, b), MaybeClimb(t.(nodes := n), b))
  {
    SameShapeWellFormed(t.nodes, n);
    var top := t.tops[b];
    if t.w[b] == 0 && t.nodes[top].parent.Some? {
      var p := t.nodes[top].parent.value;
      ParentOf(t.nodes, top);
      RetypeAllKinds(t.nodes, n, Others(t.nodes[p].children, top));
    }
  }

  /** A bucket's turn once its walk made the insertions `hits`: its
      counter goes down by one and up by one per hit, the hits are
      inserted, and then the climb step. */
  ghost function TurnWith(t: Trav, b: nat, hits: seq<(Key, nat)>): Trav
    requires WellFormed(t.nodes) && b < |t.tops| && b < |t.w| && AllIn(t.nodes, t.tops)
  {
    MaybeClimb(t.(w := t.w[b := t.w[b] - 1 + |hits|], ins := t.ins + hits), b)
  }

  /** `u` is `s` after bucket b's walk found `hits`: the same kinds, b's
      counter down by one and up by one per hit, and the hits inserted. */
  ghost predicate Walked(s: Trav, b: nat, hits: seq<(Key, nat)>, u: Trav) {
    b < |s.w| && SameKinds(s.nodes, u.nodes) && u == Trav(u.nodes, s.tops, s.w[b := s.w[b] - 1 + |hits|], s.ins + hits, s.nn)
  }

  lemma WalkedBy(nodes0: map<Key, Node>, tops: seq<Key>, w0: seq<int>, i0: seq<(Key, nat)>, nn: set<Key>, b: nat,
                 hits: seq<(Key, nat)>, n: map<Key, Node>, w: seq<int>, ins: seq<(Key, nat)>)
    requires b < |w0| && SameKinds(nodes0, n) && w == w0[b := w0[b] - 1 + |hits|] && ins == i0 + hits
    ensures Walked(Trav(nodes0, tops, w0, i0, nn), b, hits, Trav(n, tops, w, ins, nn))
  {
  }

  /** A walk from a state alike to `t` is one from `t`. */
  lemma WalkedLike(t: Trav, s: Trav, b: nat, hits: seq<(Key, nat)>, u: Trav)
    requires Like(t, s) && Walked(s, b, hits, u)
    ensures Walked(t, b, hits, u)
  {
    SameKindsTrans(t.nodes, s.nodes, u.nodes);
  }

  lemma TurnWithKinds(t: Trav, b: nat, hits: seq<(Key, nat)>, u: Trav)
    requires WellFormed(t.nodes) && b < |t.tops| && AllIn(t.nodes, t.tops) && Walked(t, b, hits, u)
    ensures WellFormed(u.nodes) && AllIn(u.nodes, u.tops) && b < |u.tops| && b < |u.w|
    ensures Like(TurnWith(t, b, hits), MaybeClimb(u, b))
  {
    var walked := t.(w := t.w[b := t.w[b] - 1 + |hits|], ins := t.ins + hits);
    assert walked.(nodes := u.nodes) == u;
    MaybeClimbKinds(walked, u.nodes, b);
  }

  /** The walk's share of a bucket's turn: one down, one up per hit. */
  lemma GrownWalk(b: nat, i0: seq<(Key, nat)>, w0: seq<int>, hits: seq<(Key, nat)>, keys: set<Key>, ins: seq<(Key, nat)>, w: seq<int>)
    requires b < |w0| && forall h :: h in hits ==> h.1 == b && h.0 in keys
    requires ins == i0 + hits && w == w0[b := w0[b] - 1 + |hits|]
    ensures Grown(b, i0, w0, ins, w, keys)
  {
    assert ins[..|i0|] == i0;
    forall j | |i0| <= j < |ins| ensures ins[j].1 == b && ins[j].0 in keys {
      assert ins[j] == hits[j - |i0|];
    }
  }

  /** The climb's share added to the walk's. */
  lemma GrownTrans(b: nat, i0: seq<(Key, nat)>, w0: seq<int>, i1: seq<(Key, nat)>, w1: seq<int>, i2: seq<(Key, nat)>, w2: seq<int>, keys: set<Key>)
    requires Grown(b, i0, w0, i1, w1, keys) && Grown(b, i1, w1[b := w1[b] + 1], i2, w2, keys)
    ensures Grown(b, i0, w0, i2, w2, keys)
  {
    assert i2[..|i0|] == i1[..|i0|];
  }

  /** A call made during `traverse` at `key`: for one of the buckets parked
      there, on a node that was resolved when the traversal began. */
  ghost predicate CallFor(nodes: map<Key, Node>, v: Visit, ready: seq<nat>) {
    (v.LeafCall? || v.NodeCall?) && v.bucket in ready && OnResolved(nodes, v)
  }

  /** The calls after `v0` in `v`, all made for `ready` on `nodes`. */
  ghost predicate CallsFor(nodes: map<Key, Node>, ready: seq<nat>, v0: seq<Visit>, v: seq<Visit>) {
    v0 <= v && forall i :: |v0| <= i < |v| ==> CallFor(nodes, v[i], ready)
  }

  lemma CallsForStep(nodes: map<Key, Node>, ready: seq<nat>, v0: seq<Visit>, v1: seq<Visit>, made: seq<Visit>)
    requires CallsFor(nodes, ready, v0, v1)
    requires forall v :: v in made ==> CallFor(nodes, v, ready)
    ensures CallsFor(nodes, ready, v0, v1 + made)
  {
    forall i | |v0| <= i < |v1 + made| ensures CallFor(nodes, (v1 + made)[i], ready) {
      if i >= |v1| {
        assert (v1 + made)[i] == made[i - |v1|];
      }
    }
  }

  /** Re-parking one insertion raises its bucket's count by one. */
  lemma ReinsertStep(m: map<Key, seq<nat>>, m0: map<Key, seq<nat>>, ins: seq<(Key, nat)>, j: nat, bound: nat)
    requires j < |ins| && ins[j].0 < bound
    requires forall x: nat :: Pile(m, bound, x) == Pile(m0, bound, x) + multiset(BucketsOf(ins[..j]))[x]
    ensures forall x: nat :: Pile(m[ins[j].0 := Lookup(m, ins[j].0) + [ins[j].1]], bound, x) ==
                            Pile(m0, bound, x) + multiset(BucketsOf(ins[..j + 1]))[x]
  {
    var (k, b) := ins[j];
    assert ins[..j + 1][..j] == ins[..j];
    forall x: nat ensures Pile(m[k := Lookup(m, k) + [b]], bound, x) == Pile(m0, bound, x) + multiset(BucketsOf(ins[..j + 1]))[x] {
      PileUpdate(m, k, Lookup(m, k) + [b], bound, x);
      assert multiset(Lookup(m, k) + [b])[x] == multiset(Lookup(m, k))[x] + multiset([b])[x];
    }
  }

  /** `curr_nodes` after `for (auto cn : curr_nodes_insertions) curr_nodes[cn.first].push_back(cn.second)`. */
  function Repark(m: map<Key, seq<nat>>, ins: seq<(Key, nat)>): map<Key, seq<nat>> {
    if ins == [] then m
    else
      var m' := Repark(m, ins[..|ins| - 1]);
      var (k, e) := ins[|ins| - 1];
      m'[k := Lookup(m', k) + [e]]
  }

  /** The entries inserted at key `k`, in order. */
  function At(ins: seq<(Key, nat)>, k: Key): seq<nat> {
    if ins == [] then []
    else At(ins[..|ins| - 1], k) + (if ins[|ins| - 1].0 == k then [ins[|ins| - 1].1] else [])
  }

  /** The keys of the insertions. */
  ghost function InsKeys(ins: seq<(Key, nat)>): set<Key> {
    set i | 0 <= i < |ins| :: ins[i].0
  }

  /** Reparking appends each key's insertions, in order, to what was
      parked there; the keys are the old ones and the inserted ones. */
  lemma {:induction false} ReparkAt(m: map<Key, seq<nat>>, ins: seq<(Key, nat)>)
    ensures forall k :: Lookup(Repark(m, ins), k) == Lookup(m, k) + At(ins, k)
    ensures Repark(m, ins).Keys == m.Keys + InsKeys(ins)
  {
    if ins != [] {
      var pre := ins[..|ins| - 1];
      ReparkAt(m, pre);
      assert InsKeys(ins) == InsKeys(pre) + {ins[|ins| - 1].0} by {
        forall x | x in InsKeys(ins) ensures x in InsKeys(pre) + {ins[|ins| - 1].0} {
          var i :| 0 <= i < |ins| && ins[i].0 == x;
          if i < |pre| {
            assert pre[i] == ins[i];
          }
        }
        forall x | x in InsKeys(pre) ensures x in InsKeys(ins) {
          var i :| 0 <= i < |pre| && pre[i].0 == x;
          assert ins[i] == pre[i];
        }
      }
      forall k ensures Lookup(Repark(m, ins), k) == Lookup(m, k) + At(ins, k) {
        Assoc(Lookup(m, k), At(pre, k), if ins[|ins| - 1].0 == k then [ins[|ins| - 1].1] else []);
      }
    }
  }

  /** Reparking raises each bucket's count below `bound` by its number of insertions. */
  lemma {:induction false} ReparkPile(m: map<Key, seq<nat>>, ins: seq<(Key, nat)>, bound: nat)
    requires forall h :: h in ins ==> h.0 < bound
    ensures forall x: nat :: Pile(Repark(m, ins), bound, x) ==
                             Pile(m, bound, x) + multiset(BucketsOf(ins))[x]
  {
    if ins == [] {
      assert BucketsOf(ins) == [];
    } else {
      var j := |ins| - 1;
      assert ins[..j + 1] == ins;
      assert forall h :: h in ins[..j] ==> h in ins;
      assert ins[j] in ins;
      ReparkPile(m, ins[..j], bound);
      ReinsertStep(Repark(m, ins[..j]), m, ins, j, bound);
    }
  }

  /** `for (auto cn : curr_nodes_insertions) curr_nodes[cn.first].push_back(cn.second)`. */
  method Reinsert(m0: map<Key, seq<nat>>, ins: seq<(Key, nat)>) returns (m: map<Key, seq<nat>>)
    ensures m == Repark(m0, ins)
  {
    m := m0;
    var j := 0;
    while j < |ins|
      invariant j <= |ins| && m == Repark(m0, ins[..j])
    {
      assert ins[..j + 1][..j] == ins[..j];
      var (k, e) := ins[j];
      m := m[k := Lookup(m, k) + [e]];
      j := j + 1;
    }
    assert ins[..j] == ins;
  }

  lemma BucketsBelowAt(s: seq<nat>, n: nat)
    requires BucketsBelow(s, n)
    ensures forall i :: 0 <= i < |s| ==> s[i] < n
  {
    forall i | 0 <= i < |s| ensures s[i] < n {
      assert s[i] in s;
    }
  }

  /** Reparking entries below `n` at keys of `keys` keeps every parked
      key in `keys` and every parked bucket below `n`. */
  lemma {:induction false} ReparkWithin(m: map<Key, seq<nat>>, ins: seq<(Key, nat)>, keys: set<Key>, n: nat)
    requires forall k :: k in m ==> k in keys && BucketsBelow(m[k], n)
    requires forall j :: 0 <= j < |ins| ==> ins[j].0 in keys && ins[j].1 < n
    ensures forall k :: k in Repark(m, ins) ==> k in keys && BucketsBelow(Repark(m, ins)[k], n)
  {
    if ins != [] {
      var pre := ins[..|ins| - 1];
      ReparkWithin(m, pre, keys, n);
    }
  }

  /** Counters matching the old map plus the insertions match the new map. */
  lemma Rebalanced(w: seq<int>, m: map<Key, seq<nat>>, m0: map<Key, seq<nat>>, ins: seq<(Key, nat)>, bound: nat)
    requires Mid(m0, bound, [], 0, ins, w)
    requires forall x: nat :: Pile(m, bound, x) == Pile(m0, bound, x) + multiset(BucketsOf(ins))[x]
    ensures w == Tally(m, bound, |w|)
  {
    forall x | 0 <= x < |w| ensures w[x] == Tally(m, bound, |w|)[x] {
      assert w[x] == Expected(m0, bound, [], 0, ins, |w|)[x];
    }
  }

  /** The parts of a sequence with one more element. */
  lemma SnocParts<T>(rest: seq<T>, x: T)
    ensures (rest + [x])[..|rest|] == rest && (rest + [x])[|rest|] == x && rest + [] == rest
  {
  }

  lemma TakeAll<T>(s: seq<T>)
    ensures s[..|s|] == s
  {
  }

  lemma AllInSnoc(nodes: map<Key, Node>, rest: seq<Key>, k: Key)
    requires AllIn(nodes, rest + [k])
    ensures AllIn(nodes, rest) && k in nodes
  {
    assert (rest + [k])[|rest|] == k;
    forall i | 0 <= i < |rest| ensures rest[i] in nodes {
      assert rest[i] == (rest + [k])[i];
    }
  }

  /** A queue `rest + pushed` keeps `rest` at its front and `pushed` behind it. */
  lemma Queued(rest: seq<Key>, pushed: seq<Key>)
    ensures (rest + pushed)[..|rest|] == rest && (rest + pushed)[|rest|..] == pushed
  {
  }

  /** Taking one more element of `ch` appends it. */
  lemma SnocSlice<T>(rest: seq<T>, ch: seq<T>, n: nat)
    requires 0 < n <= |ch|
    ensures rest + ch[..n] == (rest + ch[..n - 1]) + [ch[n - 1]]
  {
    assert ch[..n] == ch[..n - 1] + [ch[n - 1]];
  }

  lemma Regroup<T>(whole: seq<T>, below: seq<T>, w: seq<T>, cw: seq<T>, sw: seq<T>)
    requires whole == w + below && below == cw + sw
    ensures whole == (w + cw) + sw
  {
  }

  /** The buckets of a list of insertions. */
  function BucketsOf(ins: seq<(Key, nat)>): seq<nat> {
    if ins == [] then [] else BucketsOf(ins[..|ins| - 1]) + [ins[|ins| - 1].1]
  }

  lemma BucketsOfConcat(a: seq<(Key, nat)>, c: seq<(Key, nat)>)
    ensures BucketsOf(a + c) == BucketsOf(a) + BucketsOf(c)
    decreases |c|
  {
    if c == [] {
      assert a + c == a;
    } else {
      assert (a + c)[..|a + c| - 1] == a + c[..|c| - 1];
      BucketsOfConcat(a, c[..|c| - 1]);
    }
  }

  /** How often bucket `b` is parked at the keys below `n`. */
  ghost function Pile(m: map<Key, seq<nat>>, n: nat, b: nat): nat {
    if n == 0 then 0
    else Pile(m, n - 1, b) + (if n - 1 in m then multiset(m[n - 1])[b] else 0)
  }

  /** Overwriting one entry changes the count by exactly that entry's. */
  lemma {:induction false} PileUpdate(m: map<Key, seq<nat>>, k: Key, v: seq<nat>, n: nat, b: nat)
    requires k < n
    ensures Pile(m[k := v], n, b) + multiset(Lookup(m, k))[b] == Pile(m, n, b) + multiset(v)[b]
  {
    if n - 1 == k {
      PileSame(m, m[k := v], n - 1, b);
    } else {
      PileUpdate(m, k, v, n - 1, b);
    }
  }

  lemma {:induction false} PileRemove(m: map<Key, seq<nat>>, k: Key, n: nat, b: nat)
    requires k < n
    ensures Pile(m - {k}, n, b) + multiset(Lookup(m, k))[b] == Pile(m, n, b)
  {
    if n - 1 == k {
      PileSame(m, m - {k}, n - 1, b);
    } else {
      PileRemove(m, k, n - 1, b);
    }
  }

  lemma {:induction false} PileNone(m: map<Key, seq<nat>>, n: nat, b: nat)
    requires forall k :: k in m ==> k >= n
    ensures Pile(m, n, b) == 0
  {
    if n > 0 {
      PileNone(m, n - 1, b);
    }
  }

  lemma {:induction false} PileSame(m: map<Key, seq<nat>>, m': map<Key, seq<nat>>, n: nat, b: nat)
    requires forall k :: k < n ==> (k in m <==> k in m') && (k in m ==> m[k] == m'[k])
    ensures Pile(m, n, b) == Pile(m', n, b)
  {
    if n > 0 {
      PileSame(m, m', n - 1, b);
    }
  }

  lemma AllInAppend(nodes: map<Key, Node>, a: seq<Key>, c: seq<Key>)
    requires AllIn(nodes, a) && AllIn(nodes, c)
    ensures AllIn(nodes, a + c)
  {
    forall i | 0 <= i < |a + c| ensures (a + c)[i] in nodes {
      if i >= |a| {
        assert (a + c)[i] == c[i - |a|];
      }
    }
  }

  /** Kinds may only turn into `RemoteAboveTPKey` (what the climb does to the
      siblings below a Boundary parent); keys, children and parents stay. */
  ghost predicate Retyped(a: map<Key, Node>, b: map<Key, Node>) {
    SameShape(a, b) && forall k {:trigger a[k]} {:trigger b[k]} :: k in a ==> b[k].ntype == a[k].ntype || b[k].ntype == RemoteAboveTPKey
  }

  /** What an up-and-down traversal does to shared state: kinds only become
      `RemoteAboveTPKey`, request flags are only set, and fetches and waiting
      list entries are only added, for nodes that are unresolved afterwards. */
  ghost predicate UpEffects(s: DownTraversal.Shared, t: DownTraversal.Shared, part: nat) {
    && Retyped(s.nodes, t.nodes) && RequestedMonotone(s.nodes, t.nodes)
    && DownTraversal.FetchesGrow(t.nodes, s.requests, t.requests)
    && DownTraversal.WaitingGrows(t.nodes, s.waiting, t.waiting, part)
  }

  /** An unresolved node stays unresolved under retyping. */
  lemma RetypedUnresolved(a: map<Key, Node>, b: map<Key, Node>, k: Key)
    requires Retyped(a, b) && DownTraversal.Unresolved(a, k)
    ensures DownTraversal.Unresolved(b, k)
  {
  }

  /** A resolved node under retyping was resolved, with the same kind, before. */
  lemma RetypedResolved(a: map<Key, Node>, b: map<Key, Node>, v: Visit)
    requires Retyped(a, b) && OnResolved(b, v)
    ensures OnResolved(a, v)
  {
  }

  lemma UpEffectsTrans(s: DownTraversal.Shared, t: DownTraversal.Shared, u: DownTraversal.Shared, part: nat)
    requires UpEffects(s, t, part) && UpEffects(t, u, part)
    ensures UpEffects(s, u, part)
  {
    forall i | |s.requests| <= i < |t.requests| ensures DownTraversal.Unresolved(u.nodes, t.requests[i].key) {
      RetypedUnresolved(t.nodes, u.nodes, t.requests[i].key);
    }
    assert DownTraversal.FetchesGrow(u.nodes, s.requests, t.requests);
    DownTraversal.FetchesGrowTrans(u.nodes, s.requests, t.requests, u.requests);
    forall k | k in t.waiting && Lookup(s.waiting, k) != t.waiting[k] ensures DownTraversal.Unresolved(u.nodes, k) {
      RetypedUnresolved(t.nodes, u.nodes, k);
    }
    assert DownTraversal.WaitingGrows(u.nodes, s.waiting, t.waiting, part);
    DownTraversal.WaitingGrowsTrans(u.nodes, s.waiting, t.waiting, u.waiting, part);
  }

  /** A step that keeps kinds (a walk) is an up-and-down step. */
  lemma EffectsUp(shape: map<Key, Node>, s: DownTraversal.Shared, t: DownTraversal.Shared, part: nat)
    requires DownTraversal.Effects(shape, s, t, part) && SameKinds(shape, s.nodes) && SameKinds(shape, t.nodes)
    ensures UpEffects(s, t, part)
  {
  }

  /** Retyping alone is an up-and-down step. */
  lemma RetypeUp(s: DownTraversal.Shared, t: DownTraversal.Shared, part: nat)
    requires Retyped(s.nodes, t.nodes) && RequestedMonotone(s.nodes, t.nodes)
    requires t.requests == s.requests && t.waiting == s.waiting
    ensures UpEffects(s, t, part)
  {
  }

  lemma UpEffectsRefl(s: DownTraversal.Shared, part: nat)
    ensures UpEffects(s, s, part)
  {
  }

  /** The buckets parked by the constructor: bucket i at the key of its tree leaf. */
  function ParkAt(treeLeaves: seq<Key>): map<Key, seq<nat>> {
    if treeLeaves == [] then map[]
    else
      var m := ParkAt(treeLeaves[..|treeLeaves| - 1]);
      var k := treeLeaves[|treeLeaves| - 1];
      m[k := Lookup(m, k) + [|treeLeaves| - 1]]
  }

  /** Bucket i is parked at its own tree leaf and nowhere else, exactly once. */
  lemma {:induction false} ParkAtFacts(treeLeaves: seq<Key>, nodes: map<Key, Node>, n: nat)
    requires AllIn(nodes, treeLeaves) && n == KeyBound(nodes.Keys) + 1
    ensures forall k :: k in ParkAt(treeLeaves) ==> k in nodes && BucketsBelow(ParkAt(treeLeaves)[k], |treeLeaves|)
    ensures forall i :: 0 <= i < |treeLeaves| ==> treeLeaves[i] in ParkAt(treeLeaves) && i in ParkAt(treeLeaves)[treeLeaves[i]]
    ensures forall k, b :: k in ParkAt(treeLeaves) && b in ParkAt(treeLeaves)[k] ==> b < |treeLeaves| && treeLeaves[b] == k
    ensures forall b: nat :: Pile(ParkAt(treeLeaves), n, b) == if b < |treeLeaves| then 1 else 0
  {
    if treeLeaves == [] {
      forall b: nat ensures Pile(map[], n, b) == 0 {
        PileNone(map[], n, b);
      }
    } else {
      var pre := treeLeaves[..|treeLeaves| - 1];
      var k := treeLeaves[|treeLeaves| - 1];
      var m := ParkAt(pre);
      assert AllIn(nodes, pre);
      ParkAtFacts(pre, nodes, n);
      forall b: nat ensures Pile(ParkAt(treeLeaves), n, b) == if b < |treeLeaves| then 1 else 0 {
        PileUpdate(m, k, Lookup(m, k) + [|pre|], n, b);
        assert multiset(Lookup(m, k) + [|pre|])[b] == multiset(Lookup(m, k))[b] + (if b == |pre| then 1 else 0);
      }
      forall i | 0 <= i < |treeLeaves| ensures treeLeaves[i] in ParkAt(treeLeaves) && i in ParkAt(treeLeaves)[treeLeaves[i]] {
        if i < |pre| {
          assert treeLeaves[i] == pre[i];
        }
      }
      forall k', b | k' in ParkAt(treeLeaves) && b in ParkAt(treeLeaves)[k'] ensures b < |treeLeaves| && treeLeaves[b] == k' {
        if b != |pre| {
          assert b in m[k'];
          assert treeLeaves[b] == pre[b];
        }
      }
    }
  }

  /** Replacing one partition's queue twice leaves the other queues alone. */
  lemma QueueReplaced(r0: map<nat, seq<Key>>, r1: map<nat, seq<Key>>, r2: map<nat, seq<Key>>, p: nat, x: seq<Key>, y: seq<Key>)
    requires r1 == r0[p := x] && r2 == r1[p := y]
    ensures Lookup(r2, p) == y && r2 - {p} == r0 - {p}
  {
  }

  /** Setting one partition's queue leaves the others. */
  lemma QueueSet(r0: map<nat, seq<Key>>, r1: map<nat, seq<Key>>, p: nat, y: seq<Key>)
    requires r1 == r0[p := y]
    ensures Lookup(r1, p) == y && r1 - {p} == r0 - {p}
  {
  }

  /** The constructor's tally: every bucket starts counted once. */
  lemma ParkAtTally(treeLeaves: seq<Key>, nodes: map<Key, Node>, n: nat)
    requires AllIn(nodes, treeLeaves) && n == KeyBound(nodes.Keys) + 1
    ensures forall k :: k in ParkAt(treeLeaves) ==> k in nodes && BucketsBelow(ParkAt(treeLeaves)[k], |treeLeaves|)
    ensures seq(|treeLeaves|, _ => 1) == Tally(ParkAt(treeLeaves), n, |treeLeaves|)
  {
    ParkAtFacts(treeLeaves, nodes, n);
  }

  /** The constructor's loop: bucket i parked at tree leaf i, whose key
      becomes its top. */
  method ParkTreeLeaves(treeLeaves: seq<Key>) returns (parked: map<Key, seq<nat>>, tops: seq<Key>)
    ensures parked == ParkAt(treeLeaves) && tops == treeLeaves
  {
    parked, tops := map[], [];
    var i := 0;
    while i < |treeLeaves|
      invariant 0 <= i <= |treeLeaves|
      invariant parked == ParkAt(treeLeaves[..i]) && tops == treeLeaves[..i]
    {
      assert treeLeaves[..i + 1][..i] == treeLeaves[..i];
      var k := treeLeaves[i];
      parked := parked[k := Lookup(parked, k) + [i]];
      tops := tops + [k];
      i := i + 1;
    }
    assert treeLeaves[..i] == treeLeaves;
  }

  /** What a traversal of the up-and-down traverser changes: the table,
      the tops, the counters, the parked buckets and this partition's
      resume queue. */
  datatype Snap = Snap(nodes: map<Key, Node>, tops: seq<Key>, w: seq<int>, c: map<Key, seq<nat>>, q: seq<Key>)

  /** The state the constructor leaves: bucket i parked at, and topped by,
      its tree leaf, every counter at 1, and the table and queue as given. */
  function Initial(nodes: map<Key, Node>, treeLeaves: seq<Key>, q: seq<Key>): (s: Snap)
    ensures s.tops == treeLeaves && |s.w| == |treeLeaves| && forall b :: 0 <= b < |s.w| ==> s.w[b] == 1
  {
    Snap(nodes, treeLeaves, seq(|treeLeaves|, _ => 1), ParkAt(treeLeaves), q)
  }

  class UpnDTraverser {
    /** Keys of the partition's leaves (`part.leaves`), one bucket each. */
    const leaves: seq<Key>
    /** Keys of the tree leaves the buckets start from (`part.tree_leaves`). */
    const treeLeaves: seq<Key>
    const partIndex: nat
    /** The visitor's `open` test. */
    const open: (Key, Key) -> bool
    const table: Cache
    const resumer: Resumer
    /** `curr_nodes`: the buckets parked at each key. */
    var currNodes: map<Key, seq<nat>>
    /** `num_waiting[b]`: how many places bucket b is parked at. */
    var numWaiting: seq<int>
    /** `trav_tops[b]`: the node bucket b has climbed to. */
    var travTops: seq<Key>
    /** Visitor calls made so far. */
    ghost var visits: seq<Visit>

    /** Every key is below this bound. */
    ghost function Bound(): nat
      reads table`nodes
    {
      KeyBound(table.nodes.Keys) + 1
    }

    /** Each bucket's counter equals the number of places it is parked at. */
    ghost predicate Balanced()
      reads this`currNodes, this`numWaiting, table`nodes
    {
      numWaiting == Tally(currNodes, Bound(), |numWaiting|)
    }

    ghost predicate Valid()
      reads this`currNodes, this`numWaiting, this`travTops, table`nodes, table`root, table`requests
    {
      && table.Valid()
      && |numWaiting| == |leaves| && |travTops| == |leaves|
      && (forall b :: 0 <= b < |travTops| ==> travTops[b] in table.nodes)
      && (forall k :: k in currNodes ==> k in table.nodes && BucketsBelow(currNodes[k], |leaves|))
      && Balanced()
    }

    ghost function SharedState(): DownTraversal.Shared
      reads table`nodes, table`requests, resumer`waiting
    {
      DownTraversal.Shared(table.nodes, table.requests, resumer.waiting)
    }

    /** The traverser's state as a traversal changes it. */
    ghost function Now(): Snap
      reads this`currNodes, this`numWaiting, this`travTops, table`nodes, resumer`resumeNodes
    {
      Snap(table.nodes, travTops, numWaiting, currNodes, resumer.Queue(partIndex))
    }

    /** `b` is `a` after `traverse` from `key` (`TraversedFrom`), with the
        queue keeping `rest` at its front and the traversal's new nodes
        behind it. */
    ghost predicate TraversedStep(a: Snap, key: Key, rest: seq<Key>, b: Snap) {
      && |rest| <= |b.q| && b.q[..|rest|] == rest
      && TraversedFrom(a.nodes, a.tops, a.w, a.c, key, b.nodes, b.tops, b.w, b.c, b.q[|rest|..])
    }

    /** One turn of `resumeTrav`'s loop: pop the queue's front and traverse from it. */
    ghost predicate ResumeStep(a: Snap, b: Snap) {
      a.q != [] && TraversedStep(a, a.q[0], a.q[1..], b)
    }

    /** One turn of `start`'s loop: traverse from bucket i's current top. */
    ghost predicate TopStep(a: Snap, i: nat, b: Snap) {
      i < |a.tops| && TraversedStep(a, a.tops[i], a.q, b)
    }

    /** From position `from` on, each state of `trace` is a `resumeTrav`
        turn after the one before, and the last has an empty queue. */
    ghost predicate Drains(trace: seq<Snap>, from: nat) {
      && from < |trace| && trace[|trace| - 1].q == []
      && forall j :: from <= j < |trace| - 1 ==> ResumeStep(trace[j], trace[j + 1])
    }

    /** The first n steps of `trace` are `start`'s turns for buckets 0 .. n-1. */
    ghost predicate TopSteps(trace: seq<Snap>, n: nat) {
      n < |trace| && forall j :: 0 <= j < n ==> TopStep(trace[j], j, trace[j + 1])
    }

    /** Bucket i is parked at the key of its tree leaf, waits for exactly that
        one place, and has that leaf as its top. */
    constructor (leaves: seq<Key>, treeLeaves: seq<Key>, partIndex: nat, open: (Key, Key) -> bool,
                 table: Cache, resumer: Resumer)
      requires table.Valid() && |treeLeaves| == |leaves| && AllIn(table.nodes, treeLeaves)
      ensures Valid()
      ensures this.leaves == leaves && this.treeLeaves == treeLeaves && this.partIndex == partIndex
      ensures this.open == open && this.table == table && this.resumer == resumer
      ensures currNodes == ParkAt(treeLeaves) && travTops == treeLeaves
      ensures |numWaiting| == |leaves| && forall b :: 0 <= b < |leaves| ==> numWaiting[b] == 1
      ensures visits == []
      ensures Now() == Initial(table.nodes, treeLeaves, resumer.Queue(partIndex))
    {
      var parked, tops := ParkTreeLeaves(treeLeaves);
      var counts := seq(|leaves|, _ => 1);
      this.leaves := leaves;
      this.treeLeaves := treeLeaves;
      this.partIndex := partIndex;
      this.open := open;
      this.table := table;
      this.resumer := resumer;
      currNodes := parked;
      numWaiting := counts;
      travTops := tops;
      visits := [];
      new;
      ParkAtTally(treeLeaves, table.nodes, Bound());
    }

    /** The traversal is finished when no bucket is parked anywhere. */
    function IsFinished(): (r: bool)
      reads this`currNodes
      ensures r <==> forall k :: k !in currNodes
    {
      currNodes == map[]
    }

    /** What popping node `k` off bucket b's stack does at `k` itself: a leaf
        interaction, a `node()` call for a closed internal node, nothing for
        an opened one, and a hit on an unresolved node. */
    ghost function Here(shape: map<Key, Node>, k: Key, b: nat): seq<Event>
      requires k in shape
    {
      var t := shape[k].ntype;
      if IsLeafKind(t) then [Called(LeafCall(k, b))]
      else if IsOpenable(t) then (if Opens(k, leaves, open, b) then [] else [Called(NodeCall(k, b))])
      else if IsUnresolved(t) then [Hit(k)]
      else []
    }

    /** The keys pushed after popping `k`: the children of an opened node. */
    ghost function Below(shape: map<Key, Node>, k: Key, b: nat): seq<Key>
      requires k in shape
    {
      if IsOpenable(shape[k].ntype) && Opens(k, leaves, open, b) then shape[k].children else []
    }

    /** The events of bucket b's stack walk from `k`. Children are pushed in
        order, so they are walked last child first. */
    ghost function Walk(shape: map<Key, Node>, k: Key, b: nat): seq<Event>
      requires WellFormed(shape) && k in shape
      decreases KeyBound(shape.Keys) - k, 1, 0
    {
      Here(shape, k, b) +
        (if IsOpenable(shape[k].ntype) && Opens(k, leaves, open, b)
         then ChildWalks(shape, k, |shape[k].children|, b) else [])
    }

    ghost function ChildWalks(shape: map<Key, Node>, k: Key, n: nat, b: nat): seq<Event>
      requires WellFormed(shape) && k in shape && n <= |shape[k].children|
      decreases KeyBound(shape.Keys) - k, 0, n
    {
      if n == 0 then []
      else Walk(shape, shape[k].children[n - 1], b) + ChildWalks(shape, k, n - 1, b)
    }

    /** The events still to come from the nodes on a stack, top first. */
    ghost function StackWalk(shape: map<Key, Node>, s: seq<Key>, b: nat): seq<Event>
      requires WellFormed(shape) && AllIn(shape, s)
    {
      if s == [] then [] else Walk(shape, s[|s| - 1], b) + StackWalk(shape, s[..|s| - 1], b)
    }

    lemma {:induction false} PushChildren(shape: map<Key, Node>, rest: seq<Key>, k: Key, n: nat, b: nat)
      requires WellFormed(shape) && AllIn(shape, rest) && k in shape && n <= |shape[k].children|
      ensures AllIn(shape, rest + shape[k].children[..n])
      ensures StackWalk(shape, rest + shape[k].children[..n], b) == ChildWalks(shape, k, n, b) + StackWalk(shape, rest, b)
    {
      var ch := shape[k].children;
      ChildrenIn(shape, k, n);
      AllInAppend(shape, rest, ch[..n]);
      if n == 0 {
        assert rest + ch[..0] == rest;
      } else {
        PushChildren(shape, rest, k, n - 1, b);
        PushOne(shape, rest, k, n, b);
      }
    }

    /** One more child pushed: its walk comes before those of the children below it. */
    lemma PushOne(shape: map<Key, Node>, rest: seq<Key>, k: Key, n: nat, b: nat)
      requires WellFormed(shape) && k in shape && 0 < n <= |shape[k].children|
      requires AllIn(shape, rest) && AllIn(shape, rest + shape[k].children[..n - 1])
      requires StackWalk(shape, rest + shape[k].children[..n - 1], b) == ChildWalks(shape, k, n - 1, b) + StackWalk(shape, rest, b)
      ensures AllIn(shape, rest + shape[k].children[..n])
      ensures StackWalk(shape, rest + shape[k].children[..n], b) == ChildWalks(shape, k, n, b) + StackWalk(shape, rest, b)
    {
      var ch := shape[k].children;
      var below, c := rest + ch[..n - 1], ch[n - 1];
      SnocSlice(rest, ch, n);
      StackWalkSnoc(shape, below, c, b);
      var w, cw, sw := Walk(shape, c, b), ChildWalks(shape, k, n - 1, b), StackWalk(shape, rest, b);
      assert ChildWalks(shape, k, n, b) == w + cw;
      Regroup(StackWalk(shape, below + [c], b), StackWalk(shape, below, b), w, cw, sw);
    }

    /** Pushing one key puts its walk first. */
    lemma StackWalkSnoc(shape: map<Key, Node>, rest: seq<Key>, x: Key, b: nat)
      requires WellFormed(shape) && AllIn(shape, rest) && x in shape
      ensures AllIn(shape, rest + [x])
      ensures StackWalk(shape, rest + [x], b) == Walk(shape, x, b) + StackWalk(shape, rest, b)
    {
      SnocParts(rest, x);
    }

    lemma ChildrenIn(shape: map<Key, Node>, k: Key, n: nat)
      requires WellFormed(shape) && k in shape && n <= |shape[k].children|
      ensures AllIn(shape, shape[k].children[..n])
    {
    }

    /** A walk sees kinds and children only, never request flags. */
    lemma {:induction false} WalkKinds(a: map<Key, Node>, c: map<Key, Node>, k: Key, b: nat)
      requires WellFormed(a) && SameKinds(a, c) && k in a
      ensures WellFormed(c) && Walk(a, k, b) == Walk(c, k, b)
      decreases KeyBound(a.Keys) - k, 1, 0
    {
      SameShapeWellFormed(a, c);
      if IsOpenable(a[k].ntype) && Opens(k, leaves, open, b) {
        ChildWalksKinds(a, c, k, |a[k].children|, b);
      }
    }

    lemma {:induction false} ChildWalksKinds(a: map<Key, Node>, c: map<Key, Node>, k: Key, n: nat, b: nat)
      requires WellFormed(a) && SameKinds(a, c) && k in a && n <= |a[k].children|
      ensures WellFormed(c) && ChildWalks(a, k, n, b) == ChildWalks(c, k, n, b)
      decreases KeyBound(a.Keys) - k, 0, n
    {
      SameShapeWellFormed(a, c);
      if n > 0 {
        WalkKinds(a, c, a[k].children[n - 1], b);
        ChildWalksKinds(a, c, k, n - 1, b);
      }
    }

    /** A state a turn can start from: a well-formed table holding every
        top, one top and one counter per bucket. */
    ghost predicate Fits(t: Trav) {
      WellFormed(t.nodes) && |t.tops| == |leaves| && |t.w| == |leaves| && AllIn(t.nodes, t.tops)
    }

    /** Bucket b's turn of `traverse` at `key`: its counter goes down by
        one and up by one per hit of its walk, the hits are inserted, and
        then it climbs if it waits for nothing and its top has a parent. */
    ghost function Turn(t: Trav, key: Key, b: nat): Trav
      requires Fits(t) && key in t.nodes && b < |leaves|
    {
      TurnWith(t, b, HitsOf(Walk(t.nodes, key, b), b))
    }

    /** The turns of the buckets `ready`, in order: what `traverse`'s loop
        over the buckets parked at `key` does. (A state no turn could start
        from is left as it is; `Stepped` shows no turn reaches one.) */
    ghost function Turns(t: Trav, key: Key, ready: seq<nat>): Trav
    {
      if ready == [] then t
      else
        var r := Turns(t, key, ready[..|ready| - 1]);
        if Fits(r) && key in r.nodes && ready[|ready| - 1] < |leaves| then Turn(r, key, ready[|ready| - 1]) else r
    }

    /** A turn whose walk ran on a table `n0` alike in kinds, leaving the
        state `u`: the climb step on `u` yields the turn up to request flags. */
    lemma TurnStep(t: Trav, key: Key, b: nat, s: Trav, u: Trav)
      requires Fits(t) && key in t.nodes && b < |leaves| && Like(t, s)
      requires Walked(s, b, HitsOf(Walk(s.nodes, key, b), b), u)
      ensures WellFormed(u.nodes) && AllIn(u.nodes, u.tops) && b < |u.tops| && b < |u.w|
      ensures Like(Turn(t, key, b), MaybeClimb(u, b))
    {
      WalkKinds(t.nodes, s.nodes, key, b);
      WalkedLike(t, s, b, HitsOf(Walk(s.nodes, key, b), b), u);
      TurnWithKinds(t, b, HitsOf(Walk(s.nodes, key, b), b), u);
    }


    /** `requested.exchange(true)` with the one-shot fetch, then this
        partition onto the node's waiting list unless it is already last. */
    method FetchOnce(k: Key, ghost shape: map<Key, Node>)
      requires table.Valid() && SameKinds(shape, table.nodes) && k in shape && IsUnresolved(shape[k].ntype)
      modifies table`nodes, table`requests, resumer`waiting
      ensures table.Valid() && SameKinds(shape, table.nodes)
      ensures DownTraversal.Effects(shape, old(SharedState()), SharedState(), partIndex)
      ensures table.nodes == old(table.nodes)[k := old(table.nodes[k]).(requested := true)]
      ensures table.requests == old(table.requests) +
                (if old(table.nodes[k].requested) then [] else [RequestFor(old(table.nodes[k]), table.thisIndex)])
      ensures resumer.waiting == old(resumer.waiting)[k := AppendIfNotLast(Lookup(old(resumer.waiting), k), partIndex)]
    {
      ghost var s0 := SharedState();
      ghost var l := Lookup(s0.waiting, k);
      ghost var extra: seq<nat> := if AppendIfNotLast(l, partIndex) == l then [] else [partIndex];
      assert AppendIfNotLast(l, partIndex) == l + extra;
      SameKindsRequested(shape, table.nodes, k);
      ghost var req := RequestFor(table.nodes[k], table.thisIndex);
      var first := table.RequestIfFirst(k);
      assert req.key == k && table.requests == s0.requests + (if first then [req] else []);
      assert table.requests == s0.requests || (|table.requests| == |s0.requests| + 1 && table.requests[..|s0.requests|] == s0.requests && table.requests[|s0.requests|].key == k);
      resumer.AddWaitingOnce(k, partIndex);
      DownTraversal.ParkEffects(shape, s0, SharedState(), k, partIndex, extra);
    }

    /** One pop of bucket b's stack at node `k`: the switch of `traverse`,
        except the fetch and waiting-list entry of the unresolved case, which
        `FetchOnce` does. */
    method Pop(k: Key, b: nat, ins: seq<(Key, nat)>, ghost shape: map<Key, Node>) returns (push: seq<Key>, ins': seq<(Key, nat)>)
      requires SameKinds(shape, table.nodes) && k in shape && b < |leaves| && b < |numWaiting|
      modifies this`visits, this`numWaiting
      ensures push == Below(shape, k, b)
      ensures Tied(Here(shape, k, b), b, old(visits), ins, old(numWaiting), visits, ins', numWaiting)
    {
      if IsUnresolved(table.nodes[k].ntype) {
        assert Here(shape, k, b) == [Hit(k)] && Below(shape, k, b) == [];
        TiedOne(Hit(k), b, visits, ins, numWaiting);
        push := [];
        ins' := ins + [(k, b)];
        numWaiting := numWaiting[b := numWaiting[b] + 1];
      } else {
        ins' := ins;
        push := Visit(k, b, shape, ins);
      }
    }

    /** The resolved cases of the switch: a leaf interaction, or the `open`
        test with a `node()` call when it fails and the children pushed when
        it succeeds. */
    method Visit(k: Key, b: nat, ghost shape: map<Key, Node>, ghost ins: seq<(Key, nat)>) returns (push: seq<Key>)
      requires SameKinds(shape, table.nodes) && k in shape && b < |leaves| && b < |numWaiting|
      requires !IsUnresolved(shape[k].ntype)
      modifies this`visits
      ensures push == Below(shape, k, b)
      ensures Tied(Here(shape, k, b), b, old(visits), ins, numWaiting, visits, ins, numWaiting)
    {
      var t := table.nodes[k].ntype;
      push := [];
      if IsLeafKind(t) {
        TiedOne(Called(LeafCall(k, b)), b, visits, ins, numWaiting);
        visits := visits + [LeafCall(k, b)];
      } else if IsOpenable(t) && open(k, leaves[b]) {
        push := table.nodes[k].children;
        TiedStarts(b, visits, ins, numWaiting);
      } else if IsOpenable(t) {
        TiedOne(Called(NodeCall(k, b)), b, visits, ins, numWaiting);
        visits := visits + [NodeCall(k, b)];
      } else {
        TiedStarts(b, visits, ins, numWaiting);
      }
    }

    /** Bucket b's stack walk from `key` is at `stack` after the events `done`. */
    ghost predicate Walking(shape: map<Key, Node>, key: Key, b: nat, stack: seq<Key>, done: seq<Event>) {
      && WellFormed(shape) && key in shape && AllIn(shape, stack)
      && done + StackWalk(shape, stack, b) == Walk(shape, key, b)
    }

    lemma WalkingStep(shape: map<Key, Node>, key: Key, b: nat, rest: seq<Key>, k: Key, done: seq<Event>)
      requires Walking(shape, key, b, rest + [k], done)
      ensures AllIn(shape, rest) && k in shape
      ensures Walking(shape, key, b, rest + Below(shape, k, b), done + Here(shape, k, b))
      ensures StackSize(shape, rest + Below(shape, k, b), 1) < StackSize(shape, rest + [k], 1)
    {
      AllInSnoc(shape, rest, k);
      StackPop(shape, rest, k, b);
      StackShrinks(shape, rest, k, Below(shape, k, b));
      Assoc(done, Here(shape, k, b), StackWalk(shape, rest + Below(shape, k, b), b));
    }

    lemma WalkingStarts(shape: map<Key, Node>, key: Key, b: nat)
      requires WellFormed(shape) && key in shape
      ensures Walking(shape, key, b, [key], [])
    {
      assert [key][..0] == [];
    }

    /** The `while (nodes.size())` loop of `traverse` for one bucket. */
    method WalkBucket(key: Key, b: nat, ins: seq<(Key, nat)>) returns (ins': seq<(Key, nat)>)
      requires table.Valid() && key in table.nodes && b < |leaves| && b < |numWaiting|
      modifies this`visits, this`numWaiting, table`nodes, table`requests, resumer`waiting
      ensures table.Valid() && SameKinds(old(table.nodes), table.nodes)
      ensures DownTraversal.Effects(old(table.nodes), old(SharedState()), SharedState(), partIndex)
      ensures Tied(Walk(old(table.nodes), key, b), b, old(visits), ins, old(numWaiting), visits, ins', numWaiting)
    {
      ghost var shape := table.nodes;
      ghost var s0 := SharedState();
      ghost var v0, n0 := visits, numWaiting;
      ghost var done: seq<Event> := [];
      var stack := [key];
      ins' := ins;
      DownTraversal.EffectsRefl(shape, s0, partIndex);
      WalkingStarts(shape, key, b);
      TiedStarts(b, v0, ins, n0);
      while stack != []
        invariant table.Valid() && SameKinds(shape, table.nodes) && |numWaiting| == |n0|
        invariant DownTraversal.Effects(shape, s0, SharedState(), partIndex)
        invariant Walking(shape, key, b, stack, done)
        invariant Tied(done, b, v0, ins, n0, visits, ins', numWaiting)
        decreases StackSize(shape, stack, 1)
      {
        var k := stack[|stack| - 1];
        var rest := stack[..|stack| - 1];
        assert stack == rest + [k];
        WalkingStep(shape, key, b, rest, k, done);
        ghost var s1, v1, i1, w1 := SharedState(), visits, ins', numWaiting;
        var push;
        push, ins' := Pop(k, b, ins', shape);
        if IsUnresolved(table.nodes[k].ntype) {
          FetchOnce(k, shape);
          DownTraversal.EffectsTrans(shape, s0, s1, SharedState(), partIndex);
        }
        TiedTrans(done, Here(shape, k, b), b, v0, ins, n0, v1, i1, w1, visits, ins', numWaiting);
        stack := rest + push;
        done := done + Here(shape, k, b);
      }
      assert done == Walk(shape, key, b);
    }

    /** Every event of a walk is a call for the walking bucket on a resolved
        node or a hit on an unresolved node. */
    lemma {:induction false} WalkFacts(shape: map<Key, Node>, k: Key, b: nat)
      requires WellFormed(shape) && k in shape
      ensures forall e :: e in Walk(shape, k, b) ==> EventOn(shape, e, b)
      decreases KeyBound(shape.Keys) - k, 1, 0
    {
      if IsOpenable(shape[k].ntype) && Opens(k, leaves, open, b) {
        ChildWalksFacts(shape, k, |shape[k].children|, b);
      }
    }

    lemma {:induction false} ChildWalksFacts(shape: map<Key, Node>, k: Key, n: nat, b: nat)
      requires WellFormed(shape) && k in shape && n <= |shape[k].children|
      ensures forall e :: e in ChildWalks(shape, k, n, b) ==> EventOn(shape, e, b)
      decreases KeyBound(shape.Keys) - k, 0, n
    {
      if n > 0 {
        WalkFacts(shape, shape[k].children[n - 1], b);
        ChildWalksFacts(shape, k, n - 1, b);
      }
    }

    /** A walk's calls are `CallFor` the bucket, judged on any table it was retyped from. */
    lemma WalkCalls(nodes0: map<Key, Node>, shape: map<Key, Node>, key: Key, b: nat, ready: seq<nat>)
      requires WellFormed(shape) && key in shape && Retyped(nodes0, shape) && b in ready
      ensures forall v :: v in CallsOf(Walk(shape, key, b)) ==> CallFor(nodes0, v, ready)
    {
      WalkFacts(shape, key, b);
      CallsOfIn(Walk(shape, key, b));
      forall v | v in CallsOf(Walk(shape, key, b)) ensures CallFor(nodes0, v, ready) {
        assert EventOn(shape, Called(v), b);
        RetypedResolved(nodes0, shape, v);
      }
    }

    /** A walk's insertions are bucket b's, at unresolved nodes of the table. */
    lemma WalkHits(shape: map<Key, Node>, key: Key, b: nat)
      requires WellFormed(shape) && key in shape
      ensures forall h :: h in HitsOf(Walk(shape, key, b), b) ==> h.1 == b && DownTraversal.Unresolved(shape, h.0)
    {
      WalkFacts(shape, key, b);
      HitsOfIn(Walk(shape, key, b), b);
    }

    /** The climb of `traverse` once bucket b waits for nothing: park b at
        every other child of its top's parent (retyping them to
        `RemoteAboveTPKey` when the parent is a Boundary node), record them
        as new nodes, and make the parent b's top. */
    method Climb(b: nat, ins: seq<(Key, nat)>, newNodes: set<Key>) returns (ins': seq<(Key, nat)>, newNodes': set<Key>)
      requires table.Valid() && b < |travTops| && b < |numWaiting| && travTops[b] in table.nodes
      requires table.nodes[travTops[b]].parent.Some?
      modifies this`numWaiting, this`travTops, table`nodes
      ensures table.Valid() && |numWaiting| == old(|numWaiting|)
      ensures Climbed(b, old(table.nodes), old(travTops), old(numWaiting), ins, newNodes, table.nodes, travTops, numWaiting, ins', newNodes')
    {
      ghost var nodes0, w0 := table.nodes, numWaiting;
      var top := travTops[b];
      var p := table.nodes[top].parent.value;
      var ch := table.nodes[p].children;
      ins', newNodes' := ins, newNodes;
      SiblingsStarts(nodes0, p, top, b, ins, w0, newNodes);
      var j := 0;
      while j < |ch|
        invariant j <= |ch| && table.Valid() && travTops == old(travTops)
        invariant Siblings(nodes0, p, top, j, b, ins, w0, newNodes, table.nodes, ins', numWaiting, newNodes')
      {
        ins', newNodes' := ClimbChild(nodes0, p, top, j, b, ins, w0, newNodes, ins', newNodes');
        j := j + 1;
      }
      assert ch[..|ch|] == ch;
      travTops := travTops[b := p];
    }

    /** The climb's loop turn for the parent's child number `j`. */
    method ClimbChild(ghost nodes0: map<Key, Node>, p: Key, top: Key, j: nat, b: nat, ghost i0: seq<(Key, nat)>, ghost w0: seq<int>,
                      ghost nn0: set<Key>, ins: seq<(Key, nat)>, newNodes: set<Key>)
      returns (ins': seq<(Key, nat)>, newNodes': set<Key>)
      requires WellFormed(nodes0) && table.Valid() && p in nodes0 && j < |nodes0[p].children|
      requires Siblings(nodes0, p, top, j, b, i0, w0, nn0, table.nodes, ins, numWaiting, newNodes)
      modifies this`numWaiting, table`nodes
      ensures table.Valid()
      ensures Siblings(nodes0, p, top, j + 1, b, i0, w0, nn0, table.nodes, ins', numWaiting, newNodes')
    {
      SiblingsFrame(nodes0, p, top, j, b, i0, w0, nn0, table.nodes, ins, numWaiting, newNodes);
      var c := table.nodes[p].children[j];
      ghost var n1, w1 := table.nodes, numWaiting;
      ins', newNodes' := Sibling(b, p, top, c, ins, newNodes);
      SiblingsStep(nodes0, p, top, j, b, i0, w0, nn0, n1, ins, w1, newNodes, table.nodes, ins', numWaiting, newNodes');
    }

    /** One turn of the climb's loop: a child of the parent other than the
        top is retyped under a Boundary parent, gets an insertion for the
        bucket, raises its counter and is recorded as new; the top itself
        changes nothing. */
    method Sibling(b: nat, p: Key, top: Key, c: Key, ins: seq<(Key, nat)>, newNodes: set<Key>)
      returns (ins': seq<(Key, nat)>, newNodes': set<Key>)
      requires table.Valid() && b < |numWaiting| && p in table.nodes
      modifies this`numWaiting, table`nodes
      ensures table.Valid()
      ensures if c == top then table.nodes == old(table.nodes) && ins' == ins && numWaiting == old(numWaiting) && newNodes' == newNodes
        else
          && table.nodes == (if old(table.nodes[p].ntype) == Boundary && c in old(table.nodes)
                             then old(table.nodes)[c := old(table.nodes[c]).(ntype := RemoteAboveTPKey)] else old(table.nodes))
          && ins' == ins + [(c, b)] && numWaiting == old(numWaiting)[b := old(numWaiting[b]) + 1] && newNodes' == newNodes + {c}
    {
      ins', newNodes' := ins, newNodes;
      if c != top {
        if table.nodes[p].ntype == Boundary && c in table.nodes {
          table.Retype(c, RemoteAboveTPKey);
        }
        ins' := ins' + [(c, b)];
        numWaiting := numWaiting[b := numWaiting[b] + 1];
        newNodes' := newNodes' + {c};
      }
    }

    /** One bucket's turn in `traverse` at `key`: take its counter down,
        walk, and climb if the bucket now waits for nothing and its top has
        a parent. `u` is the state after the walk. */
    method ProcessBucket(key: Key, b: nat, ins: seq<(Key, nat)>, newNodes: set<Key>)
      returns (ins': seq<(Key, nat)>, newNodes': set<Key>, ghost u: Trav)
      requires table.Valid() && key in table.nodes && b < |leaves|
      requires |numWaiting| == |leaves| && |travTops| == |leaves| && AllIn(table.nodes, travTops)
      modifies this`visits, this`numWaiting, this`travTops, table`nodes, table`requests, resumer`waiting
      ensures table.Valid() && UpEffects(old(SharedState()), SharedState(), partIndex)
      ensures |numWaiting| == |leaves| && |travTops| == |leaves| && AllIn(table.nodes, travTops)
      ensures Grown(b, ins, old(numWaiting), ins', numWaiting, table.nodes.Keys)
      ensures visits == old(visits) + CallsOf(Walk(old(table.nodes), key, b))
      ensures newNodes <= newNodes' && forall x :: x in newNodes' && x !in newNodes ==> x in table.nodes
      ensures (travTops == old(travTops) && newNodes' == newNodes) || SumKeys(travTops) < SumKeys(old(travTops))
      ensures Walked(Trav(old(table.nodes), old(travTops), old(numWaiting), ins, newNodes), b, HitsOf(Walk(old(table.nodes), key, b), b), u)
      ensures WellFormed(u.nodes) && AllIn(u.nodes, u.tops)
      ensures Trav(table.nodes, travTops, numWaiting, ins', newNodes') == MaybeClimb(u, b)
    {
      ghost var s0, w0 := SharedState(), numWaiting;
      var walked := Descend(key, b, ins, newNodes);
      ghost var s2 := SharedState();
      u := Trav(table.nodes, travTops, numWaiting, walked, newNodes);
      ins', newNodes' := ClimbIfDone(b, ins, w0, walked, newNodes);
      UpEffectsTrans(s0, s2, SharedState(), partIndex);
    }

    /** The walk of bucket b's turn: its counter down by one, then up by
        one per hit of its walk, whose hits are inserted. */
    method Descend(key: Key, b: nat, ins: seq<(Key, nat)>, ghost nn: set<Key>) returns (ins': seq<(Key, nat)>)
      requires table.Valid() && key in table.nodes && b < |leaves| && |numWaiting| == |leaves|
      modifies this`visits, this`numWaiting, table`nodes, table`requests, resumer`waiting
      ensures table.Valid() && SameKinds(old(table.nodes), table.nodes) && UpEffects(old(SharedState()), SharedState(), partIndex)
      ensures var hits := HitsOf(Walk(old(table.nodes), key, b), b);
        && numWaiting == old(numWaiting)[b := old(numWaiting)[b] - 1 + |hits|] && ins' == ins + hits
        && Grown(b, ins, old(numWaiting), ins', numWaiting, table.nodes.Keys)
      ensures visits == old(visits) + CallsOf(Walk(old(table.nodes), key, b))
      ensures Walked(Trav(old(table.nodes), travTops, old(numWaiting), ins, nn), b, HitsOf(Walk(old(table.nodes), key, b), b),
                     Trav(table.nodes, travTops, numWaiting, ins', nn))
    {
      ghost var s0, nodes0, w0, v0 := SharedState(), table.nodes, numWaiting, visits;
      numWaiting := numWaiting[b := numWaiting[b] - 1];
      ins' := WalkBucket(key, b, ins);
      EffectsUp(nodes0, s0, SharedState(), partIndex);
      Descended(nodes0, table.nodes, key, b, v0, ins, w0, visits, ins', numWaiting);
      WalkedBy(nodes0, travTops, w0, ins, nn, b, HitsOf(Walk(nodes0, key, b), b), table.nodes, numWaiting, ins');
    }

    /** A walk of bucket b from `key`, tied to its counter after the drop
        by one, leaves the counter and insertions `Descend` states. */
    lemma Descended(nodes0: map<Key, Node>, n: map<Key, Node>, key: Key, b: nat, v0: seq<Visit>, i0: seq<(Key, nat)>, w0: seq<int>,
                    v: seq<Visit>, ins: seq<(Key, nat)>, w: seq<int>)
      requires WellFormed(nodes0) && key in nodes0 && b < |w0| && SameKinds(nodes0, n)
      requires Tied(Walk(nodes0, key, b), b, v0, i0, w0[b := w0[b] - 1], v, ins, w)
      ensures var hits := HitsOf(Walk(nodes0, key, b), b);
        && w == w0[b := w0[b] - 1 + |hits|] && ins == i0 + hits
        && Grown(b, i0, w0, ins, w, n.Keys)
      ensures v == v0 + CallsOf(Walk(nodes0, key, b))
    {
      TiedAfterDrop(Walk(nodes0, key, b), b, v0, i0, w0, v, ins, w);
      HitsWithin(nodes0, n, key, b);
      GrownWalk(b, i0, w0, HitsOf(Walk(nodes0, key, b), b), n.Keys, ins, w);
    }

    lemma HitsWithin(nodes0: map<Key, Node>, n: map<Key, Node>, key: Key, b: nat)
      requires WellFormed(nodes0) && key in nodes0 && SameKinds(nodes0, n)
      ensures forall h :: h in HitsOf(Walk(nodes0, key, b), b) ==> h.1 == b && h.0 in n.Keys
    {
      WalkHits(nodes0, key, b);
    }

    /** The `if (num_waiting[bucket] == 0 && parent exists)` step of
        `traverse`: climb when bucket b waits for nothing and its top has a
        parent, and otherwise change nothing. */
    method ClimbIfDone(b: nat, ghost i0: seq<(Key, nat)>, ghost w0: seq<int>, ins: seq<(Key, nat)>, newNodes: set<Key>)
      returns (ins': seq<(Key, nat)>, newNodes': set<Key>)
      requires table.Valid() && b < |leaves|
      requires |numWaiting| == |leaves| && |travTops| == |leaves| && AllIn(table.nodes, travTops)
      requires Grown(b, i0, w0, ins, numWaiting, table.nodes.Keys)
      modifies this`numWaiting, this`travTops, table`nodes
      ensures table.Valid() && table.nodes.Keys == old(table.nodes.Keys) && UpEffects(old(SharedState()), SharedState(), partIndex)
      ensures |numWaiting| == |leaves| && |travTops| == |leaves| && AllIn(table.nodes, travTops)
      ensures Grown(b, i0, w0, ins', numWaiting, table.nodes.Keys)
      ensures newNodes <= newNodes' && forall x :: x in newNodes' && x !in newNodes ==> x in table.nodes
      ensures (travTops == old(travTops) && newNodes' == newNodes) || SumKeys(travTops) < SumKeys(old(travTops))
      ensures travTops != old(travTops) ==> old(numWaiting)[b] == 0
      ensures Trav(table.nodes, travTops, numWaiting, ins', newNodes') ==
              MaybeClimb(Trav(old(table.nodes), old(travTops), old(numWaiting), ins, newNodes), b)
    {
      ghost var s2, t0, w2 := SharedState(), travTops, numWaiting;
      ins', newNodes' := ins, newNodes;
      if numWaiting[b] == 0 && table.nodes[travTops[b]].parent.Some? {
        ins', newNodes' := Climb(b, ins', newNodes');
        ClimbedFacts(b, s2.nodes, t0, w2, ins, newNodes, table.nodes, travTops, numWaiting, ins', newNodes');
        ClimbedIs(b, s2.nodes, t0, w2, ins, newNodes, table.nodes, travTops, numWaiting, ins', newNodes');
        GrownTrans(b, i0, w0, ins, w2, ins', numWaiting, s2.nodes.Keys);
        SumKeysLess(t0, b, travTops[b]);
        RetypeUp(s2, SharedState(), partIndex);
      } else {
        UpEffectsRefl(s2, partIndex);
      }
    }

    /** What `traverse`'s loop over the buckets `ready` keeps after serving
        the first `i` of them, from the state `s0` with `v0` visits and tops
        `t0`: the counters are tied to the parked buckets not yet served
        plus the insertions so far. */
    ghost predicate Serving(key: Key, ready: seq<nat>, c0: map<Key, seq<nat>>, bound: nat, i: nat,
                            s0: DownTraversal.Shared, v0: seq<Visit>, t0: seq<Key>, ins: seq<(Key, nat)>, newNodes: set<Key>)
      reads this, table, resumer
    {
      && table.Valid() && table.nodes.Keys == s0.nodes.Keys
      && |numWaiting| == |leaves| && |travTops| == |leaves| && AllIn(table.nodes, travTops)
      && UpEffects(s0, SharedState(), partIndex)
      && Mid(c0, bound, ready, i, ins, numWaiting)
      && (forall j :: 0 <= j < |ins| ==> ins[j].0 in table.nodes && ins[j].1 < |leaves|)
      && (forall x :: x in newNodes ==> x in table.nodes)
      && (SumKeys(travTops) < SumKeys(t0) || (travTops == t0 && newNodes == {}))
      && CallsFor(s0.nodes, ready, v0, visits)
    }

    /** After serving the first `i` buckets of `ready` from `st`, the state
        is, up to request flags, that of their turns. */
    ghost predicate Stepped(key: Key, ready: seq<nat>, i: nat, st: Trav, ins: seq<(Key, nat)>, newNodes: set<Key>)
      reads this`travTops, this`numWaiting, table`nodes
    {
      i <= |ready| && Like(Turns(st, key, ready[..i]), Trav(table.nodes, travTops, numWaiting, ins, newNodes))
    }

    /** The turn of the bucket `ready[i]` in `traverse`'s loop. */
    method Serve(key: Key, ready: seq<nat>, i: nat, ins: seq<(Key, nat)>, newNodes: set<Key>,
                 ghost c0: map<Key, seq<nat>>, ghost bound: nat, ghost s0: DownTraversal.Shared, ghost v0: seq<Visit>, ghost st: Trav)
      returns (ins': seq<(Key, nat)>, newNodes': set<Key>)
      requires key in table.nodes && BucketsBelow(ready, |leaves|) && i < |ready|
      requires Serving(key, ready, c0, bound, i, s0, v0, st.tops, ins, newNodes) && Stepped(key, ready, i, st, ins, newNodes)
      modifies this`visits, this`numWaiting, this`travTops, table`nodes, table`requests, resumer`waiting
      ensures Serving(key, ready, c0, bound, i + 1, s0, v0, st.tops, ins', newNodes') && Stepped(key, ready, i + 1, st, ins', newNodes')
    {
      ghost var t := Turns(st, key, ready[..i]);
      LikeFits(t, Trav(table.nodes, travTops, numWaiting, ins, newNodes));
      assert ready[i] in ready;
      ins', newNodes' := ServeBucket(key, ready, i, ins, newNodes, c0, bound, s0, v0, st.tops, t);
      TurnsSnoc(st, key, ready, i);
    }

    /** The turn itself, with the counters' bookkeeping. */
    method ServeBucket(key: Key, ready: seq<nat>, i: nat, ins: seq<(Key, nat)>, newNodes: set<Key>,
                       ghost c0: map<Key, seq<nat>>, ghost bound: nat, ghost s0: DownTraversal.Shared, ghost v0: seq<Visit>,
                       ghost t0: seq<Key>, ghost t: Trav)
      returns (ins': seq<(Key, nat)>, newNodes': set<Key>)
      requires key in table.nodes && BucketsBelow(ready, |leaves|) && i < |ready| && ready[i] < |leaves|
      requires Serving(key, ready, c0, bound, i, s0, v0, t0, ins, newNodes)
      requires Fits(t) && key in t.nodes && Like(t, Trav(table.nodes, travTops, numWaiting, ins, newNodes))
      modifies this`visits, this`numWaiting, this`travTops, table`nodes, table`requests, resumer`waiting
      ensures Serving(key, ready, c0, bound, i + 1, s0, v0, t0, ins', newNodes')
      ensures Like(Turn(t, key, ready[i]), Trav(table.nodes, travTops, numWaiting, ins', newNodes'))
    {
      var b := ready[i];
      assert b in ready;
      ghost var s1, v1, i1, w1 := SharedState(), visits, ins, numWaiting;
      ghost var pre := Trav(table.nodes, travTops, numWaiting, ins, newNodes);
      WalkCalls(s0.nodes, s1.nodes, key, b, ready);
      ghost var u;
      ins', newNodes', u := ProcessBucket(key, b, ins, newNodes);
      TurnStep(t, key, b, pre, u);
      UpEffectsTrans(s0, s1, SharedState(), partIndex);
      CallsForStep(s0.nodes, ready, v0, v1, CallsOf(Walk(s1.nodes, key, b)));
      MidStep(c0, bound, ready, i, i1, w1, ins', numWaiting, table.nodes.Keys);
      GrownIn(b, i1, w1, ins', numWaiting, table.nodes.Keys, |leaves|);
    }

    /** The loop of `traverse` over the buckets `ready` parked at `key`:
        each takes its turn in order, so the state is that of `Turns`. The
        counters stay tied to the parked buckets not yet served plus the
        insertions made so far. */
    method ProcessReady(key: Key, ready: seq<nat>, ghost c0: map<Key, seq<nat>>, ghost bound: nat)
      returns (ins: seq<(Key, nat)>, newNodes: set<Key>)
      requires table.Valid() && key in table.nodes && BucketsBelow(ready, |leaves|)
      requires |numWaiting| == |leaves| && |travTops| == |leaves| && AllIn(table.nodes, travTops)
      requires Mid(c0, bound, ready, 0, [], numWaiting)
      modifies this`visits, this`numWaiting, this`travTops, table`nodes, table`requests, resumer`waiting
      ensures table.Valid() && table.nodes.Keys == old(table.nodes.Keys) && UpEffects(old(SharedState()), SharedState(), partIndex)
      ensures |numWaiting| == |leaves| && |travTops| == |leaves| && AllIn(table.nodes, travTops)
      ensures Mid(c0, bound, ready, |ready|, ins, numWaiting)
      ensures forall j :: 0 <= j < |ins| ==> ins[j].0 in table.nodes && ins[j].1 < |leaves|
      ensures forall x :: x in newNodes ==> x in table.nodes
      ensures SumKeys(travTops) < SumKeys(old(travTops)) || (travTops == old(travTops) && newNodes == {})
      ensures CallsFor(old(table.nodes), ready, old(visits), visits)
      ensures Like(Turns(Trav(old(table.nodes), old(travTops), old(numWaiting), [], {}), key, ready),
                   Trav(table.nodes, travTops, numWaiting, ins, newNodes))
    {
      ghost var s0, v0 := SharedState(), visits;
      ghost var st := Trav(table.nodes, travTops, numWaiting, [], {});
      ins, newNodes := [], {};
      UpEffectsRefl(s0, partIndex);
      assert ready[..0] == [];
      var i := 0;
      while i < |ready|
        invariant i <= |ready| && key in table.nodes
        invariant Serving(key, ready, c0, bound, i, s0, v0, st.tops, ins, newNodes)
        invariant Stepped(key, ready, i, st, ins, newNodes)
      {
        ins, newNodes := Serve(key, ready, i, ins, newNodes, c0, bound, s0, v0, st);
        i := i + 1;
      }
      assert ready[..i] == ready;
    }

    /** `traverse(start_node)`: every bucket parked at `key` takes its
        turn, as `Turns` says; then `key`'s entry is erased, the turns'
        insertions are made, and the turns' new nodes are queued for
        resumption, once each. Each counter keeps equal to the number of
        places its bucket is parked at. */
    method Traverse(key: Key) returns (ghost pushed: seq<Key>)
      requires Valid() && key in table.nodes
      modifies this`currNodes, this`visits, this`numWaiting, this`travTops
      modifies table`nodes, table`requests, resumer`waiting, resumer`resumeNodes
      ensures Valid() && UpEffects(old(SharedState()), SharedState(), partIndex)
      ensures resumer.resumeNodes == old(resumer.resumeNodes)[partIndex := old(resumer.Queue(partIndex)) + pushed]
      ensures AllIn(table.nodes, pushed)
      ensures SumKeys(travTops) < old(SumKeys(travTops)) || (travTops == old(travTops) && pushed == [])
      ensures CallsFor(old(table.nodes), Lookup(old(currNodes), key), old(visits), visits)
      ensures TraversedFrom(old(table.nodes), old(travTops), old(numWaiting), old(currNodes), key,
                            table.nodes, travTops, numWaiting, currNodes, pushed)
    {
      ghost var st := Trav(table.nodes, travTops, numWaiting, [], {});
      var ins, newNodes := ProcessAt(key);
      pushed := Finish(key, ins, newNodes, currNodes, Bound(), st);
    }

    /** The turns of the buckets parked at `key`, from a valid state. */
    method ProcessAt(key: Key) returns (ins: seq<(Key, nat)>, newNodes: set<Key>)
      requires Valid() && key in table.nodes
      modifies this`visits, this`numWaiting, this`travTops, table`nodes, table`requests, resumer`waiting
      ensures table.Valid() && table.nodes.Keys == old(table.nodes.Keys) && UpEffects(old(SharedState()), SharedState(), partIndex)
      ensures |numWaiting| == |leaves| && |travTops| == |leaves| && AllIn(table.nodes, travTops)
      ensures forall k :: k in currNodes ==> k in table.nodes && BucketsBelow(currNodes[k], |leaves|)
      ensures Mid(currNodes, Bound(), Lookup(currNodes, key), |Lookup(currNodes, key)|, ins, numWaiting)
      ensures forall j :: 0 <= j < |ins| ==> ins[j].0 in table.nodes && ins[j].1 < |leaves|
      ensures forall x :: x in newNodes ==> x in table.nodes
      ensures SumKeys(travTops) < SumKeys(old(travTops)) || (travTops == old(travTops) && newNodes == {})
      ensures CallsFor(old(table.nodes), Lookup(currNodes, key), old(visits), visits)
      ensures Fits(Trav(old(table.nodes), old(travTops), old(numWaiting), [], {}))
      ensures Like(Turns(Trav(old(table.nodes), old(travTops), old(numWaiting), [], {}), key, Lookup(currNodes, key)),
                   Trav(table.nodes, travTops, numWaiting, ins, newNodes))
    {
      var nowReady := Lookup(currNodes, key);
      MidStarts(currNodes, Bound(), nowReady, numWaiting);
      ins, newNodes := ProcessReady(key, nowReady, currNodes, Bound());
    }

    /** The parts of `traverse` put together. */
    lemma Traversed(st: Trav, c0: map<Key, seq<nat>>, key: Key, u: Trav, c: map<Key, seq<nat>>, pushed: seq<Key>)
      requires Fits(st) && key in st.nodes && forall k :: k in c0 ==> BucketsBelow(c0[k], |leaves|)
      requires st.ins == [] && st.nn == {}
      requires Like(Turns(st, key, Lookup(c0, key)), u) && c == Repark(c0 - {key}, u.ins)
      requires (forall x :: x in pushed <==> x in u.nn) && forall i, j :: 0 <= i < j < |pushed| ==> pushed[i] != pushed[j]
      ensures TraversedFrom(st.nodes, st.tops, st.w, c0, key, u.nodes, u.tops, u.w, c, pushed)
    {
      if key in c0 {
        BucketsBelowAt(c0[key], |leaves|);
      }
    }

    /** The turns of the first `i + 1` buckets are the turn of bucket `i`
        after those of the first `i`. */
    lemma TurnsSnoc(t: Trav, key: Key, ready: seq<nat>, i: nat)
      requires i < |ready| && ready[i] < |leaves|
      requires Fits(Turns(t, key, ready[..i])) && key in Turns(t, key, ready[..i]).nodes
      ensures Turns(t, key, ready[..i + 1]) == Turn(Turns(t, key, ready[..i]), key, ready[i])
    {
      assert ready[..i + 1][..i] == ready[..i];
    }

    /** A state alike in kinds to one a turn can start from can start one too. */
    lemma LikeFits(t: Trav, u: Trav)
      requires Like(t, u) && Fits(u)
      ensures Fits(t)
    {
      forall k, i | k in t.nodes && 0 <= i < |t.nodes[k].children|
        ensures t.nodes[k].children[i] in t.nodes && t.nodes[k].children[i] > k
      {
        assert u.nodes[k].children == t.nodes[k].children;
      }
      forall k | k in t.nodes && t.nodes[k].parent.Some?
        ensures t.nodes[k].parent.value in t.nodes && t.nodes[k].parent.value < k
      {
        assert u.nodes[k].parent == t.nodes[k].parent;
      }
    }

    /** What one `traverse(key)` leaves, from the table `nodes0`, tops `t0`,
        counters `w0` and parked buckets `c0`: up to request flags the table,
        tops and counters of the turns of the buckets parked at `key`; those
        buckets' entry erased and the turns' insertions made; and the turns'
        new nodes queued once each. */
    ghost predicate TraversedFrom(nodes0: map<Key, Node>, t0: seq<Key>, w0: seq<int>, c0: map<Key, seq<nat>>, key: Key,
                                  nodes: map<Key, Node>, tops: seq<Key>, w: seq<int>, c: map<Key, seq<nat>>, pushed: seq<Key>)
    {
      var st := Trav(nodes0, t0, w0, [], {});
      && Fits(st) && key in nodes0 && (forall j :: 0 <= j < |Lookup(c0, key)| ==> Lookup(c0, key)[j] < |leaves|)
      && var r := Turns(st, key, Lookup(c0, key));
         && SameKinds(r.nodes, nodes) && tops == r.tops && w == r.w
         && c == Repark(c0 - {key}, r.ins)
         && (forall x :: x in pushed <==> x in r.nn)
         && (forall i, j :: 0 <= i < j < |pushed| ==> pushed[i] != pushed[j])
    }

    /** The end of `traverse`: settle the parked buckets and queue the new nodes. */
    method Finish(key: Key, ins: seq<(Key, nat)>, newNodes: set<Key>, ghost c0: map<Key, seq<nat>>, ghost bound: nat, ghost st: Trav)
      returns (ghost pushed: seq<Key>)
      requires table.Valid() && |numWaiting| == |leaves| && |travTops| == |leaves| && AllIn(table.nodes, travTops)
      requires bound == Bound() && currNodes == c0 && key in table.nodes
      requires forall k :: k in currNodes ==> k in table.nodes && BucketsBelow(currNodes[k], |leaves|)
      requires forall j :: 0 <= j < |ins| ==> ins[j].0 in table.nodes && ins[j].1 < |leaves|
      requires Mid(c0, bound, Lookup(c0, key), |Lookup(c0, key)|, ins, numWaiting)
      requires forall x :: x in newNodes ==> x in table.nodes
      requires Fits(st) && key in st.nodes && st.ins == [] && st.nn == {}
      requires Like(Turns(st, key, Lookup(c0, key)), Trav(table.nodes, travTops, numWaiting, ins, newNodes))
      modifies this`currNodes, resumer`resumeNodes
      ensures Valid() && currNodes == Repark(c0 - {key}, ins)
      ensures resumer.resumeNodes == old(resumer.resumeNodes)[partIndex := old(resumer.Queue(partIndex)) + pushed]
      ensures AllIn(table.nodes, pushed) && (newNodes == {} ==> pushed == [])
      ensures (forall x :: x in pushed <==> x in newNodes) && forall i, j :: 0 <= i < j < |pushed| ==> pushed[i] != pushed[j]
      ensures TraversedFrom(st.nodes, st.tops, st.w, c0, key, table.nodes, travTops, numWaiting, currNodes, pushed)
    {
      Settle(key, ins, c0, bound);
      pushed := Resume(newNodes);
      Traversed(st, c0, key, Trav(table.nodes, travTops, numWaiting, ins, newNodes), currNodes, pushed);
    }

    /** `for (auto new_node : new_nodes) resume_nodes[part_index].push_back(new_node)`:
        the new nodes, once each, join this partition's resume queue. */
    method Resume(newNodes: set<Key>) returns (ghost pushed: seq<Key>)
      requires forall x :: x in newNodes ==> x in table.nodes
      modifies resumer`resumeNodes
      ensures resumer.resumeNodes == old(resumer.resumeNodes)[partIndex := old(resumer.Queue(partIndex)) + pushed]
      ensures AllIn(table.nodes, pushed) && (newNodes == {} ==> pushed == [])
      ensures (forall x :: x in pushed <==> x in newNodes) && forall i, j :: 0 <= i < j < |pushed| ==> pushed[i] != pushed[j]
    {
      var order := Enumerate(newNodes);
      forall i | 0 <= i < |order| ensures order[i] in table.nodes {
        assert order[i] in newNodes;
      }
      if order != [] {
        assert order[0] in newNodes;
      }
      resumer.PushResume(partIndex, order);
      pushed := order;
    }

    /** The end of `traverse`: erase `key`'s entry, then
        `for (auto cn : curr_nodes_insertions) curr_nodes[cn.first].push_back(cn.second)`.
        Afterwards each counter is again the number of places its bucket is parked at. */
    method Settle(key: Key, ins: seq<(Key, nat)>, ghost c0: map<Key, seq<nat>>, ghost bound: nat)
      requires table.Valid() && |numWaiting| == |leaves| && |travTops| == |leaves| && AllIn(table.nodes, travTops)
      requires bound == Bound() && currNodes == c0 && key in table.nodes
      requires forall k :: k in currNodes ==> k in table.nodes && BucketsBelow(currNodes[k], |leaves|)
      requires forall j :: 0 <= j < |ins| ==> ins[j].0 in table.nodes && ins[j].1 < |leaves|
      requires Mid(c0, bound, Lookup(c0, key), |Lookup(c0, key)|, ins, numWaiting)
      modifies this`currNodes
      ensures Valid() && currNodes == Repark(c0 - {key}, ins)
    {
      MidEnds(c0, bound, Lookup(c0, key), key, ins, numWaiting);
      ghost var m0 := currNodes - {key};
      var m := Reinsert(currNodes - {key}, ins);
      assert forall h :: h in ins ==> h.0 < bound by {
        forall h | h in ins ensures h.0 < bound {
          var j :| 0 <= j < |ins| && ins[j] == h;
        }
      }
      ReparkPile(m0, ins, bound);
      Rebalanced(numWaiting, m, m0, ins, bound);
      ReparkWithin(m0, ins, table.nodes.Keys, |leaves|);
      currNodes := m;
    }

    /** Popping `k` and pushing what it opens keeps the events to come. */
    lemma StackPop(shape: map<Key, Node>, rest: seq<Key>, k: Key, b: nat)
      requires WellFormed(shape) && AllIn(shape, rest) && k in shape
      ensures AllIn(shape, rest + [k]) && AllIn(shape, rest + Below(shape, k, b))
      ensures StackWalk(shape, rest + [k], b) == Here(shape, k, b) + StackWalk(shape, rest + Below(shape, k, b), b)
    {
      StackWalkSnoc(shape, rest, k, b);
      var ch := shape[k].children;
      if IsOpenable(shape[k].ntype) && Opens(k, leaves, open, b) {
        PushChildren(shape, rest, k, |ch|, b);
        TakeAll(ch);
        assert Below(shape, k, b) == ch[..|ch|];
        assert Walk(shape, k, b) == Here(shape, k, b) + ChildWalks(shape, k, |ch|, b);
        Assoc(Here(shape, k, b), ChildWalks(shape, k, |ch|, b), StackWalk(shape, rest, b));
      } else {
        SnocParts(rest, k);
        assert Below(shape, k, b) == [];
        assert Walk(shape, k, b) == Here(shape, k, b) + [];
      }
    }

    /** Popping shrinks the walk size of the stack. */
    lemma StackShrinks(shape: map<Key, Node>, rest: seq<Key>, k: Key, push: seq<Key>)
      requires WellFormed(shape) && AllIn(shape, rest) && k in shape
      requires push == [] || push == shape[k].children
      ensures AllIn(shape, rest + [k]) && AllIn(shape, rest + push)
      ensures StackSize(shape, rest + push, 1) < StackSize(shape, rest + [k], 1)
    {
      SnocParts(rest, k);
      if push == [] {
      } else {
        PopPushChildren(shape, rest, k);
      }
    }

    /** Visitor calls made after `v0`: `leaf` or `node` calls for one of the
        buckets, on nodes that were resolved in `nodes0`. */
    ghost predicate CallsSince(nodes0: map<Key, Node>, v0: seq<Visit>, v: seq<Visit>) {
      v0 <= v && forall i :: |v0| <= i < |v| ==> (v[i].LeafCall? || v[i].NodeCall?) && v[i].bucket < |leaves| && OnResolved(nodes0, v[i])
    }

    lemma CallsForSince(nodes: map<Key, Node>, ready: seq<nat>, v0: seq<Visit>, v: seq<Visit>)
      requires BucketsBelow(ready, |leaves|) && CallsFor(nodes, ready, v0, v)
      ensures CallsSince(nodes, v0, v)
    {
      forall i | |v0| <= i < |v| ensures v[i].bucket < |leaves| {
        assert v[i].bucket in ready;
      }
    }

    /** Calls judged on a table stay calls on resolved nodes of any table it was retyped from. */
    lemma CallsSinceTrans(nodes0: map<Key, Node>, nodes1: map<Key, Node>, v0: seq<Visit>, v1: seq<Visit>, v2: seq<Visit>)
      requires Retyped(nodes0, nodes1) && CallsSince(nodes0, v0, v1) && CallsSince(nodes1, v1, v2)
      ensures CallsSince(nodes0, v0, v2)
    {
      forall i | |v0| <= i < |v2| ensures (v2[i].LeafCall? || v2[i].NodeCall?) && v2[i].bucket < |leaves| && OnResolved(nodes0, v2[i]) {
        if i < |v1| {
          assert v2[i] == v1[i];
        } else {
          RetypedResolved(nodes0, nodes1, v2[i]);
        }
      }
    }

    /** One turn of `resumeTrav`'s loop: pop the front of this partition's
        resume queue and traverse from it; the nodes it makes new join the
        back of the queue. */
    method ResumeOne() returns (ghost pushed: seq<Key>)
      requires Valid() && resumer.Queue(partIndex) != [] && AllIn(table.nodes, resumer.Queue(partIndex))
      modifies this`currNodes, this`visits, this`numWaiting, this`travTops
      modifies table`nodes, table`requests, resumer`waiting, resumer`resumeNodes
      ensures Valid() && UpEffects(old(SharedState()), SharedState(), partIndex)
      ensures resumer.Queue(partIndex) == old(resumer.Queue(partIndex))[1..] + pushed
      ensures AllIn(table.nodes, resumer.Queue(partIndex))
      ensures resumer.resumeNodes - {partIndex} == old(resumer.resumeNodes) - {partIndex}
      ensures SumKeys(travTops) < old(SumKeys(travTops)) || (travTops == old(travTops) && pushed == [])
      ensures CallsSince(old(table.nodes), old(visits), visits)
      ensures TraversedFrom(old(table.nodes), old(travTops), old(numWaiting), old(currNodes), old(resumer.Queue(partIndex))[0],
                            table.nodes, travTops, numWaiting, currNodes, pushed)
      ensures ResumeStep(old(Now()), Now())
    {
      ghost var q, a := resumer.Queue(partIndex), Now();
      ghost var c0, v0, r0 := currNodes, visits, resumer.resumeNodes;
      var key := resumer.PopResume(partIndex);
      assert key == q[0] && AllIn(table.nodes, q[1..]);
      ghost var r1 := resumer.resumeNodes;
      assert resumer.Queue(partIndex) == q[1..];
      pushed := Traverse(key);
      assert resumer.resumeNodes == r1[partIndex := q[1..] + pushed];
      QueueReplaced(r0, r1, resumer.resumeNodes, partIndex, q[1..], q[1..] + pushed);
      assert BucketsBelow(Lookup(c0, key), |leaves|);
      CallsForSince(old(table.nodes), Lookup(c0, key), v0, visits);
      AllInAppend(table.nodes, q[1..], pushed);
      StepOf(a, key, q[1..], Now(), pushed);
    }

    /** `resumeTrav()`: traverse from each node of this partition's resume
        queue until the queue is empty. Every turn either moves a bucket's
        top up the tree or shortens the queue, so the loop ends. */
    method ResumeTrav() returns (ghost trace: seq<Snap>)
      requires Valid() && AllIn(table.nodes, resumer.Queue(partIndex))
      modifies this`currNodes, this`visits, this`numWaiting, this`travTops
      modifies table`nodes, table`requests, resumer`waiting, resumer`resumeNodes
      ensures Valid() && UpEffects(old(SharedState()), SharedState(), partIndex)
      ensures resumer.Queue(partIndex) == []
      ensures resumer.resumeNodes - {partIndex} == old(resumer.resumeNodes) - {partIndex}
      ensures CallsSince(old(table.nodes), old(visits), visits)
      ensures |trace| > 0 && trace[0] == old(Now()) && trace[|trace| - 1] == Now() && Drains(trace, 0)
    {
      ghost var s0, v0, r0 := SharedState(), visits, resumer.resumeNodes;
      UpEffectsRefl(s0, partIndex);
      trace := [Now()];
      while resumer.Queue(partIndex) != []
        invariant Valid() && UpEffects(s0, SharedState(), partIndex) && AllIn(table.nodes, resumer.Queue(partIndex))
        invariant resumer.resumeNodes - {partIndex} == r0 - {partIndex}
        invariant CallsSince(s0.nodes, v0, visits)
        invariant |trace| > 0 && trace[0] == old(Now()) && trace[|trace| - 1] == Now() && ResumeSteps(trace, 0)
        decreases SumKeys(travTops), |resumer.Queue(partIndex)|
      {
        trace := ResumeNext(s0, v0, r0, trace);
      }
    }

    /** One turn of `resumeTrav`'s loop, with the loop's invariant carried over it. */
    method ResumeNext(ghost s0: DownTraversal.Shared, ghost v0: seq<Visit>, ghost r0: map<nat, seq<Key>>, ghost trace: seq<Snap>)
      returns (ghost trace': seq<Snap>)
      requires Valid() && UpEffects(s0, SharedState(), partIndex) && AllIn(table.nodes, resumer.Queue(partIndex))
      requires resumer.resumeNodes - {partIndex} == r0 - {partIndex}
      requires CallsSince(s0.nodes, v0, visits)
      requires |trace| > 0 && trace[|trace| - 1] == Now() && ResumeSteps(trace, 0)
      requires resumer.Queue(partIndex) != []
      modifies this`currNodes, this`visits, this`numWaiting, this`travTops
      modifies table`nodes, table`requests, resumer`waiting, resumer`resumeNodes
      ensures Valid() && UpEffects(s0, SharedState(), partIndex) && AllIn(table.nodes, resumer.Queue(partIndex))
      ensures resumer.resumeNodes - {partIndex} == r0 - {partIndex}
      ensures CallsSince(s0.nodes, v0, visits)
      ensures |trace'| > 0 && trace'[0] == trace[0] && trace'[|trace'| - 1] == Now() && ResumeSteps(trace', 0)
      ensures SumKeys(travTops) < old(SumKeys(travTops)) || (travTops == old(travTops) && |resumer.Queue(partIndex)| < old(|resumer.Queue(partIndex)|))
    {
      ghost var s1, v1 := SharedState(), visits;
      ghost var pushed := ResumeOne();
      CallsSinceTrans(s0.nodes, s1.nodes, v0, v1, visits);
      UpEffectsTrans(s0, s1, SharedState(), partIndex);
      ResumeStepsSnoc(trace, 0, Now());
      trace' := trace + [Now()];
    }

    /** Each state of `trace` from position `from` on is a `resumeTrav` turn
        after the one before. */
    ghost predicate ResumeSteps(trace: seq<Snap>, from: nat) {
      forall j :: from <= j < |trace| - 1 ==> ResumeStep(trace[j], trace[j + 1])
    }

    lemma ResumeStepsSnoc(trace: seq<Snap>, from: nat, s: Snap)
      requires from < |trace| && ResumeSteps(trace, from) && ResumeStep(trace[|trace| - 1], s)
      ensures ResumeSteps(trace + [s], from)
    {
      var t := trace + [s];
      forall j | from <= j < |t| - 1 ensures ResumeStep(t[j], t[j + 1]) {
        assert t[j] == trace[j];
        if j + 1 < |trace| {
          assert t[j + 1] == trace[j + 1];
        }
      }
    }

    lemma TopStepsSnoc(trace: seq<Snap>, n: nat, s: Snap)
      requires TopSteps(trace, n) && |trace| == n + 1 && TopStep(trace[n], n, s)
      ensures TopSteps(trace + [s], n + 1)
    {
      var t := trace + [s];
      forall j | 0 <= j < n + 1 ensures TopStep(t[j], j, t[j + 1]) {
        assert t[j] == trace[j];
        if j < n {
          assert t[j + 1] == trace[j + 1];
        }
      }
    }

    /** `start`'s turns followed by the drain of `resumeTrav`. */
    lemma TopsThenDrain(trace: seq<Snap>, n: nat, rest: seq<Snap>)
      requires TopSteps(trace, n) && |trace| == n + 1 && |rest| > 0 && rest[0] == trace[n] && Drains(rest, 0)
      ensures var t := trace + rest[1..];
        && TopSteps(t, n) && Drains(t, n) && t[0] == trace[0] && t[|t| - 1] == rest[|rest| - 1]
    {
      var t := trace + rest[1..];
      forall j | 0 <= j < n ensures TopStep(t[j], j, t[j + 1]) {
        assert t[j] == trace[j] && t[j + 1] == trace[j + 1];
      }
      forall j | n <= j < |t| - 1 ensures ResumeStep(t[j], t[j + 1]) {
        assert t[j] == rest[j - n] && t[j + 1] == rest[j - n + 1];
      }
      assert t[|t| - 1] == rest[|rest| - 1];
    }

    /** One turn of `start`'s loop: traverse from bucket i's current top. */
    method TraverseTop(i: nat)
      requires Valid() && i < |travTops| && AllIn(table.nodes, resumer.Queue(partIndex))
      modifies this`currNodes, this`visits, this`numWaiting, this`travTops
      modifies table`nodes, table`requests, resumer`waiting, resumer`resumeNodes
      ensures Valid() && UpEffects(old(SharedState()), SharedState(), partIndex)
      ensures AllIn(table.nodes, resumer.Queue(partIndex))
      ensures resumer.resumeNodes - {partIndex} == old(resumer.resumeNodes) - {partIndex}
      ensures CallsSince(old(table.nodes), old(visits), visits)
      ensures TopStep(old(Now()), i, Now())
    {
      var top := travTops[i];
      ghost var pushed := TraverseQueued(top);
    }

    /** `traverse(key)` seen from the queue: the new nodes join its back. */
    method TraverseQueued(key: Key) returns (ghost pushed: seq<Key>)
      requires Valid() && key in table.nodes && AllIn(table.nodes, resumer.Queue(partIndex))
      modifies this`currNodes, this`visits, this`numWaiting, this`travTops
      modifies table`nodes, table`requests, resumer`waiting, resumer`resumeNodes
      ensures Valid() && UpEffects(old(SharedState()), SharedState(), partIndex)
      ensures AllIn(table.nodes, resumer.Queue(partIndex))
      ensures resumer.resumeNodes - {partIndex} == old(resumer.resumeNodes) - {partIndex}
      ensures CallsSince(old(table.nodes), old(visits), visits)
      ensures TraversedStep(old(Now()), key, old(resumer.Queue(partIndex)), Now())
    {
      ghost var v0, c0, q0, a, r0 := visits, currNodes, resumer.Queue(partIndex), Now(), resumer.resumeNodes;
      pushed := Traverse(key);
      assert BucketsBelow(Lookup(c0, key), |leaves|);
      CallsForSince(old(table.nodes), Lookup(c0, key), v0, visits);
      AllInAppend(table.nodes, q0, pushed);
      QueueSet(r0, resumer.resumeNodes, partIndex, q0 + pushed);
      StepOf(a, key, q0, Now(), pushed);
    }

    /** A traversal from `key` that appends `pushed` behind `rest` is a `TraversedStep`. */
    lemma StepOf(a: Snap, key: Key, rest: seq<Key>, b: Snap, pushed: seq<Key>)
      requires b.q == rest + pushed
      requires TraversedFrom(a.nodes, a.tops, a.w, a.c, key, b.nodes, b.tops, b.w, b.c, pushed)
      ensures TraversedStep(a, key, rest, b)
    {
      Queued(rest, pushed);
    }

    /** `start()`: traverse from every bucket's top, in bucket order (a top
        changed by an earlier turn is read as changed), then drain the
        resume queue. */
    method Start() returns (ghost trace: seq<Snap>)
      requires Valid() && AllIn(table.nodes, resumer.Queue(partIndex))
      modifies this`currNodes, this`visits, this`numWaiting, this`travTops
      modifies table`nodes, table`requests, resumer`waiting, resumer`resumeNodes
      ensures Valid() && UpEffects(old(SharedState()), SharedState(), partIndex)
      ensures resumer.Queue(partIndex) == []
      ensures resumer.resumeNodes - {partIndex} == old(resumer.resumeNodes) - {partIndex}
      ensures CallsSince(old(table.nodes), old(visits), visits)
      ensures TopSteps(trace, |leaves|) && Drains(trace, |leaves|) && trace[0] == old(Now()) && trace[|trace| - 1] == Now()
    {
      ghost var s0, v0, r0 := SharedState(), visits, resumer.resumeNodes;
      UpEffectsRefl(s0, partIndex);
      trace := [Now()];
      var i := 0;
      while i < |travTops|
        invariant Valid() && UpEffects(s0, SharedState(), partIndex) && AllIn(table.nodes, resumer.Queue(partIndex))
        invariant resumer.resumeNodes - {partIndex} == r0 - {partIndex}
        invariant CallsSince(s0.nodes, v0, visits)
        invariant i <= |leaves| && |trace| == i + 1 && trace[0] == old(Now()) && trace[i] == Now() && TopSteps(trace, i)
      {
        trace := TopNext(s0, v0, r0, trace, i);
        i := i + 1;
      }
      ghost var s1, v1 := SharedState(), visits;
      ghost var rest := ResumeTrav();
      CallsSinceTrans(s0.nodes, s1.nodes, v0, v1, visits);
      UpEffectsTrans(s0, s1, SharedState(), partIndex);
      TopsThenDrain(trace, i, rest);
      trace := trace + rest[1..];
    }

    /** One turn of `start`'s loop, with the loop's invariant carried over it. */
    method TopNext(ghost s0: DownTraversal.Shared, ghost v0: seq<Visit>, ghost r0: map<nat, seq<Key>>, ghost trace: seq<Snap>, i: nat)
      returns (ghost trace': seq<Snap>)
      requires Valid() && UpEffects(s0, SharedState(), partIndex) && AllIn(table.nodes, resumer.Queue(partIndex))
      requires resumer.resumeNodes - {partIndex} == r0 - {partIndex}
      requires CallsSince(s0.nodes, v0, visits)
      requires i < |travTops| && |trace| == i + 1 && trace[i] == Now() && TopSteps(trace, i)
      modifies this`currNodes, this`visits, this`numWaiting, this`travTops
      modifies table`nodes, table`requests, resumer`waiting, resumer`resumeNodes
      ensures Valid() && UpEffects(s0, SharedState(), partIndex) && AllIn(table.nodes, resumer.Queue(partIndex))
      ensures resumer.resumeNodes - {partIndex} == r0 - {partIndex}
      ensures CallsSince(s0.nodes, v0, visits)
      ensures |trace'| == i + 2 && trace'[0] == trace[0] && trace'[i + 1] == Now() && TopSteps(trace', i + 1)
    {
      ghost var s1, v1 := SharedState(), visits;
      TraverseTop(i);
      CallsSinceTrans(s0.nodes, s1.nodes, v0, v1, visits);
      UpEffectsTrans(s0, s1, SharedState(), partIndex);
      TopStepsSnoc(trace, i, Now());
      trace' := trace + [Now()];
    }

    /** Once the traversal is finished, no bucket waits for anything. */
    lemma FinishedIdle()
      requires Valid() && IsFinished()
      ensures forall b :: 0 <= b < |numWaiting| ==> numWaiting[b] == 0
    {
      forall b | 0 <= b < |numWaiting| ensures numWaiting[b] == 0 {
        assert numWaiting[b] == Tally(currNodes, Bound(), |numWaiting|)[b];
        PileNone(currNodes, Bound(), b);
      }
    }
  }
}

=== FILE: writer.dfy ===
/** The output writers: writer `idx` of `numPes` collects the particles whose
    global order falls in its chunk, sorts them, and writes them in a token
    ring that passes over all writers once per acceleration component (x, y,
    z) before the completion callback fires. */
module WriterModel {
  import opened Nodes
  import opened Particles

  /** The expected count as the writer's constructor computes it: the
      ceiling of n / numPes, except that when the division is not exact the
      last writer takes what is left after the others' ceilings. */
  function ExpectedAsWritten(n: nat, numPes: nat, idx: nat): (r: int)
    requires numPes > 0 && idx < numPes
    ensures numPes * (n / numPes) == n ==> r == n / numPes
    ensures idx < numPes - 1 ==> r == CeilDiv(n, numPes)
    ensures n % numPes != 0 && idx == numPes - 1 ==> r == n - idx * CeilDiv(n, numPes)
  {
    var e := n / numPes;
    if e * numPes != n then
      var e' := e + 1;
      if idx == numPes - 1 then n - idx * e' else e'
    else e
  }

  /** How many of the orders 0 .. m-1 go to writer `idx` when each writer
      takes `per` consecutive orders (`order / per == idx`, as `output` routes them). */
  function Routed(m: nat, per: nat, idx: nat): (r: nat)
    requires per > 0 || m == 0
    ensures r <= m
  {
    if m == 0 then 0 else Routed(m - 1, per, idx) + (if (m - 1) / per == idx then 1 else 0)
  }

  /** The clamped chunk size `min(per, max(0, m - idx·per))`: how many of
      the orders 0 .. m-1 fall in chunk `idx` of `per` orders. */
  function Clamp(m: nat, per: nat, idx: nat): nat {
    if idx * per >= m then 0 else if m - idx * per < per then m - idx * per else per
  }

  /** The number of particles writer `idx` is sent: its chunk of the
      ceiling of n / numPes orders, cut off at n. */
  function ExpectedCount(n: nat, numPes: nat, idx: nat): nat
    requires numPes > 0
  {
    Clamp(n, CeilDiv(n, numPes), idx)
  }

  lemma {:induction false} RoutedClamp(m: nat, per: nat, idx: nat)
    requires per > 0
    ensures Routed(m, per, idx) == Clamp(m, per, idx)
  {
    if m > 0 {
      RoutedClamp(m - 1, per, idx);
      DivIdx(m - 1, per, idx);
    }
  }

  /** Order o goes to writer idx exactly when it lies in idx's chunk. */
  lemma DivIdx(o: nat, per: nat, idx: nat)
    requires per > 0
    ensures (o / per == idx) <==> (idx * per <= o < idx * per + per)
  {
    assert (idx + 1) * per == idx * per + per;
    if idx * per <= o < idx * per + per {
      DivBetween(o, per, idx);
    }
    assert o == per * (o / per) + o % per;
  }

  /** Quotient and remainder are unique. */
  lemma DivMod(a: nat, p: nat, q: nat, r: nat)
    requires p > 0 && a == p * q + r && r < p
    ensures a / p == q && a % p == r
  {
    assert (q + 1) * p == q * p + p;
    DivBetween(a, p, q);
  }

  /** Each writer expects exactly the particles `output` routes to it. */
  lemma ExpectedIsRouted(n: nat, numPes: nat, idx: nat)
    requires numPes > 0
    ensures ExpectedCount(n, numPes, idx) == Routed(n, CeilDiv(n, numPes), idx)
  {
    if n > 0 {
      RoutedClamp(n, CeilDiv(n, numPes), idx);
    }
  }

  /** The sizes of the first k chunks of `per` orders, cut off at m, added up. */
  function SumChunks(m: nat, per: nat, k: nat): nat {
    if k == 0 then 0 else SumChunks(m, per, k - 1) + Clamp(m, per, k - 1)
  }

  /** The first k chunks together hold min(m, k·per) orders. */
  lemma {:induction false} SumChunksPrefix(m: nat, per: nat, k: nat)
    ensures SumChunks(m, per, k) == if m <= k * per then m else k * per
  {
    if k > 0 {
      SumChunksPrefix(m, per, k - 1);
      var a: nat := (k - 1) * per;
      assert k * per == a + per;
      MinStep(m, a, per);
    }
  }

  /** Adding the next chunk, cut off at m, to min(m, a) gives min(m, a + per). */
  lemma MinStep(m: nat, a: nat, per: nat)
    ensures (if m <= a then m else a) + (if a >= m then 0 else if m - a < per then m - a else per)
         == (if m <= a + per then m else a + per)
  {
  }

  /** All writers together expect every particle: the expected counts of
      writers 0 .. numPes-1 add up to n. */
  lemma SumExpectedAll(n: nat, numPes: nat)
    requires numPes > 0
    ensures SumChunks(n, CeilDiv(n, numPes), numPes) == n
    ensures forall idx :: 0 <= idx < numPes ==> ExpectedCount(n, numPes, idx) == Clamp(n, CeilDiv(n, numPes), idx)
  {
    SumChunksPrefix(n, CeilDiv(n, numPes), numPes);
    assert numPes * CeilDiv(n, numPes) >= n;
  }

  /** As written, the constructor's counts agree with what is routed
      exactly when the ceilings of the first numPes - 1 writers fit in n. */
  lemma AsWrittenAgrees(n: nat, numPes: nat, idx: nat)
    requires numPes > 0 && idx < numPes && (numPes - 1) * CeilDiv(n, numPes) <= n
    ensures ExpectedAsWritten(n, numPes, idx) == ExpectedCount(n, numPes, idx)
  {
    var per := CeilDiv(n, numPes);
    if idx < numPes - 1 {
      MulLeq(idx + 1, numPes - 1, per);
      assert (idx + 1) * per == idx * per + per;
    } else if numPes * (n / numPes) != n {
      assert n / numPes + 1 == per;
      assert numPes * per >= n;
      assert numPes * per == (numPes - 1) * per + per;
    } else {
      assert per == n / numPes;
      assert numPes * per == (numPes - 1) * per + per;
    }
  }

  /** 5 particles on 4 writers: every writer's chunk is 2 orders, so orders
      0..4 go to writers 0, 0, 1, 1, 2. As written writer 2 waits for 2
      particles but receives 1, and writer 3 expects -1. */
  lemma AsWrittenMismatch()
    ensures CeilDiv(5, 4) == 2
    ensures ExpectedAsWritten(5, 4, 2) == 2 && Routed(5, 2, 2) == 1
    ensures ExpectedAsWritten(5, 4, 3) == -1 && Routed(5, 2, 3) == 0
    ensures ExpectedCount(5, 4, 2) == 1 && ExpectedCount(5, 4, 3) == 0
  {
    assert Routed(5, 2, 2) == Routed(4, 2, 2) + 1;
    assert Routed(4, 2, 2) == 0;
    assert Routed(5, 2, 3) == 0;
  }

  /** Where `write` passes the token: to the next writer, back to writer 0
      for the next component, or to the completion callback. */
  datatype Next = NoSend | WriteAt(writer: nat) | Callback

  /** The token's next stop after writer `idx` of `numPes` has written and
      advanced its component to `dim`. */
  function Hop(idx: nat, numPes: nat, dim: nat): (r: Next)
    ensures idx != numPes - 1 ==> r == WriteAt(idx + 1)
    ensures idx == numPes - 1 ==> (r == Callback <==> dim == 0)
    ensures r != Callback ==> r.WriteAt? && (r.writer == 0 || r.writer == idx + 1)
  {
    if idx != numPes - 1 then WriteAt(idx + 1)
    else if dim == 0 then Callback
    else WriteAt(0)
  }

  /** With every writer ready, the k-th write (counting from 0) is made by
      writer k % numPes on component k / numPes, and the token then goes to
      the next writer in ring order, until the 3·numPes-th write fires the
      callback: three rounds, x then y then z. */
  lemma RingHops(numPes: nat, k: nat)
    requires numPes > 0 && k < 3 * numPes
    ensures k / numPes < 3
    ensures Hop(k % numPes, numPes, (k / numPes + 1) % 3) == if k == 3 * numPes - 1 then Callback else WriteAt((k + 1) % numPes)
  {
    RingStep(numPes, k, k / numPes, k % numPes);
  }

  /** `RingHops` for the write made by writer r in round q. */
  lemma RingStep(numPes: nat, k: nat, q: nat, r: nat)
    requires k == numPes * q + r && r < numPes && k < 3 * numPes
    ensures q < 3
    ensures Hop(r, numPes, (q + 1) % 3) == if k == 3 * numPes - 1 then Callback else WriteAt((k + 1) % numPes)
  {
    MulLess(q, 3, numPes);
    if r + 1 < numPes {
      RingInside(numPes, k, q, r);
    } else {
      RingWraps(numPes, k, q);
    }
  }

  /** Inside a round the token goes on to the next writer. */
  lemma RingInside(numPes: nat, k: nat, q: nat, r: nat)
    requires k == numPes * q + r && r + 1 < numPes
    ensures k != 3 * numPes - 1 && Hop(r, numPes, (q + 1) % 3) == WriteAt((k + 1) % numPes)
  {
    DivMod(k + 1, numPes, q, r + 1);
    DivMod(3 * numPes, numPes, 3, 0);
  }

  /** The last writer of a round sends the token back to writer 0, or,
      after the third round, to the callback. */
  lemma RingWraps(numPes: nat, k: nat, q: nat)
    requires numPes > 0 && k == numPes * q + numPes - 1 && q < 3
    ensures Hop(numPes - 1, numPes, (q + 1) % 3) == if k == 3 * numPes - 1 then Callback else WriteAt((k + 1) % numPes)
  {
    assert numPes * (q + 1) + 0 == k + 1;
    DivMod(k + 1, numPes, q + 1, 0);
    DivMod(k, numPes, q, numPes - 1);
    DivMod(3 * numPes - 1, numPes, 2, numPes - 1);
  }

  /** A writer (`Writer.C`). */
  class Writer {
    const idx: nat
    const numPes: nat
    const totalParticles: nat
    /** `expected_particles`: how many particles this writer is sent. */
    const expected: nat
    var particles: seq<Particle>
    var canWrite: bool
    var prevWritten: bool
    var curDim: nat
    /** The writes made (`do_write`): the component written and the particles. */
    ghost var written: seq<(nat, seq<Particle>)>

    ghost predicate Valid()
      reads this`curDim
    {
      idx < numPes && curDim < 3
    }

    /** Writer `idx` of `numPes` expects its chunk of the n particles. */
    constructor (idx: nat, numPes: nat, n: nat)
      requires idx < numPes
      ensures Valid()
      ensures this.idx == idx && this.numPes == numPes && totalParticles == n
      ensures expected == Routed(n, CeilDiv(n, numPes), idx)
      ensures particles == [] && !canWrite && !prevWritten && curDim == 0 && written == []
    {
      this.idx := idx;
      this.numPes := numPes;
      totalParticles := n;
      expected := ExpectedCount(n, numPes, idx);
      particles := [];
      canWrite := false;
      prevWritten := false;
      curDim := 0;
      written := [];
      new;
      ExpectedIsRouted(n, numPes, idx);
    }

    /** `receive`: keep the incoming particles; once exactly the expected
        number has arrived, sort them by order, become ready, and write if
        this is writer 0 or the token has already been here. */
    method Receive(ps: seq<Particle>) returns (next: Next)
      requires Valid()
      modifies this`particles, this`canWrite, this`prevWritten, this`curDim, this`written
      ensures Valid()
      ensures multiset(particles) == multiset(old(particles)) + multiset(ps)
      ensures |old(particles)| + |ps| != expected ==>
        particles == old(particles) + ps && canWrite == old(canWrite) && prevWritten == old(prevWritten)
        && curDim == old(curDim) && written == old(written) && next == NoSend
      ensures |old(particles)| + |ps| == expected ==> SortedByOrder(particles) && canWrite
      ensures |old(particles)| + |ps| == expected && !old(prevWritten) && idx != 0 ==>
        !prevWritten && curDim == old(curDim) && written == old(written) && next == NoSend
      ensures |old(particles)| + |ps| == expected && (old(prevWritten) || idx == 0) ==>
        prevWritten && curDim == (old(curDim) + 1) % 3 && written == old(written) + [(old(curDim), particles)]
        && next == Hop(idx, numPes, curDim)
    {
      particles := particles + ps;
      next := NoSend;
      if |particles| != expected {
        return;
      }
      particles := SortByOrder(particles);
      canWrite := true;
      if prevWritten || idx == 0 {
        next := Write();
      }
    }

    /** `write`: the token has arrived. A ready writer writes its current
        component, moves to the next one, and passes the token on. */
    method Write() returns (next: Next)
      requires Valid()
      modifies this`prevWritten, this`curDim, this`written
      ensures Valid() && prevWritten
      ensures !canWrite ==> curDim == old(curDim) && written == old(written) && next == NoSend
      ensures canWrite ==> curDim == (old(curDim) + 1) % 3 && written == old(written) + [(old(curDim), particles)]
      ensures canWrite ==> next == Hop(idx, numPes, curDim)
    {
      prevWritten := true;
      next := NoSend;
      if canWrite {
        written := written + [(curDim, particles)];
        curDim := (curDim + 1) % 3;
        if idx != numPes - 1 {
          next := WriteAt(idx + 1);
        } else if curDim == 0 {
          next := Callback;
        } else {
          next := WriteAt(0);
        }
      }
    }
  }
}
